=== FILE: README.md ===
# BuildXL sandbox core, modelled in Dafny

BuildXL runs each build step (a "pip") inside a sandbox. The sandbox watches
every file the step's processes touch, checks each access against the pip's
file-access manifest, and reports it back to the engine. This project models
the decision logic of that sandbox, on three platforms:

- **Linux.**
  - The interposed library: `detours.cpp` and `detours.c`, with the observer
    `bxl_observer.cpp/.hpp`.
  - The environment helpers in `utils.c`, and the `PATH` search in
    `observer_utilities.cpp`.
  - The ptrace-based sandbox for statically linked processes. This covers the
    daemon (`ptracedaemon.cpp`), the runner (`ptracerunner.cpp`) and the tracer
    (`PTraceSandbox.cpp`).
- **macOS.**
  - The event record (`IOEvent.hpp`).
  - The path joining in `IOHandler.hpp`.
  - The per-event handlers (`IOHandler.cpp`) and the report builders
    (`AccessHandler.cpp`).
  - The event loop step (`EventProcessor.hpp`) and its whitelisted-pid map
    (`Sandbox.hpp`).
- **Windows.**
  - The resolved-path cache (`ResolvedPathCache.h`).
  - The case-insensitive comparer, ordering and hasher (`UtilityHelpers.h`).
- **The substitute-process test plugin** (`dllmain.cpp`). It decides whether a
  child process gets the shim.

Everything is pure functions over immutable data:

- C strings are `seq<char>`. A NULL pointer is `Option.None`.
- The file system is an `lstat` map and a map of symbolic links.
- System calls, the policy and the kernel's answers are parameters.
- Integer widths are explicit where they matter (GetErrno's 64-bit
  arithmetic, `ToInt32`).

Where the source is wrong, the model has two versions: one member that follows
the code as written and a corrected one. A lemma shows the input that tells
them apart. The rest of the model uses the corrected member. These pairs are
listed under "## Findings".

## Modules

| file | module | models |
|---|---|---|
| wrappers.dfy | Wrappers | `Option` |
| strs.dfy | Strs | prefixes, substrings, `Split`/`Join` and their round trips |
| posix.dfy | Posix | Linux x86-64 constants (open flags, `AT_*`, mode bits, PATH_MAX 4096, PIPE_BUF 4096) |
| events.dfy | Events | the `es_event_type_t` kinds (AUTH and NOTIFY), ES_EVENT_TYPE_LAST and the unlisted values, by name rather than by number |
| decimal.dfy | Decimal | `%d` rendering and `atoi` |
| envutils.dfy | EnvUtils | utils.c |
| fdtable.dfy | FdTable | the observer's descriptor table |
| pathresolver.dfy | PathResolver | `resolve_path`, `normalize_path_at` |
| accesscache.dfy | AccessCache | `IsCacheHit` |
| reporting.dfy | Reporting | `Send`, `SendReport`, the framing of a report |
| ioevent.dfy | IOEvents | the `IOEvent` record, `max_size` |
| observer.dfy | Observer | `result_t`, `check_and_fwd_*`, `get_mode`, `create_access_internal` |
| reports.dfy | Reports | the open classification, the at-flag mappings and rename rebasing shared by both Linux sandboxes |
| ptrace.dfy | PTrace | the tracer |
| detours.dfy | Detours | the interposed calls of detours.cpp |
| daemon.dfy | Daemon | the ptrace daemon's message protocol |
| runner.dfy | Runner | the ptrace runner's argument check |
| pathsearch.dfy | PathSearch | `resolve_filename_with_env` |
| reportaccess.dfy | ReportAccess | detours.c |
| resolvedcache.dfy | ResolvedPathCache | ResolvedPathCache.h |
| caseinsensitive.dfy | CaseInsensitive | UtilityHelpers.h |
| pathinfo.dfy | PathInfo | the `PathInfo` constructors of IOHandler.hpp |
| accesshandler.dfy | AccessHandler | AccessHandler.cpp |
| iohandler.dfy | IOHandler | IOHandler.cpp |
| eventprocessor.dfy | EventProcessor | EventProcessor.hpp, Sandbox.hpp |
| substitute.dfy | SubstitutePlugin | dllmain.cpp |

## Model

| member | source | states |
|---|---|---|
| EnvUtils.SkipPrefixAsWritten | Public/Src/Sandbox/Linux/utils.c:19-30 | skip_prefix's loop as written: the rest after the prefix is returned when the first \|prefix\|-1 characters agree; otherwise NULL |
| EnvUtils.SkipPrefixAcceptsLastCharMismatch | Public/Src/Sandbox/Linux/utils.c:19-30 | the as-written loop accepts "ax" as starting with "ab": the last prefix character is never compared |
| EnvUtils.SkipPrefixOneCharAlwaysMatches | Public/Src/Sandbox/Linux/utils.c:19-30 | as written, a one-character prefix is found at the head of every non-empty string |
| EnvUtils.SkipPrefix | Public/Src/Sandbox/Linux/utils.c:19-30 | corrected skip_prefix: the rest after the prefix exactly when the string starts with the prefix, otherwise NULL |
| EnvUtils.SkipPrefixOpt | Public/Src/Sandbox/Linux/utils.c:19-30 | a NULL string gives NULL; otherwise the same result as SkipPrefix |
| EnvUtils.CreateEnv | Public/Src/Sandbox/Linux/utils.c:126-146 | createEnv builds "name=value": the name, then '=', then the value, one character longer than name and value together |
| EnvUtils.CreateEnvRoundTrip | Public/Src/Sandbox/Linux/utils.c:126-146 | stripping "name" and "=" off the entry createEnv builds gives the value back |
| EnvUtils.ReplaceKvp | Public/Src/Sandbox/Linux/utils.c:37-50 | a copy of envp with the same length, the i-th entry replaced and every other entry unchanged |
| EnvUtils.LastMatch | Public/Src/Sandbox/Linux/utils.c:156-166 | the index found starts with the name, and no later entry does; none when no entry starts with it |
| EnvUtils.ScanEnv | Public/Src/Sandbox/Linux/utils.c:156-166 | the scan loop ends with the count of entries and the last entry starting with the name |
| EnvUtils.EnsureEnvValue | Public/Src/Sandbox/Linux/utils.c:148-204 | at most one entry is appended; every entry other than the last one starting with the name is unchanged; afterwards the variable is present and its last entry starts with "name=value" |
| EnvUtils.EnsureEnvValueUnchangedIff | Public/Src/Sandbox/Linux/utils.c:169-183 | ensure_env_value returns envp unchanged exactly when the last entry for the name already starts with "name=value" |
| EnvUtils.EnsureEnvValueIdempotent | Public/Src/Sandbox/Linux/utils.c:148-204 | a second ensure_env_value with the same arguments changes nothing |
| EnvUtils.ListedIffItem | Public/Src/Sandbox/Linux/utils.c:70-99 | add_value_to_env's search finds a value without ':' exactly when it is one of the ':'-separated items of the entry |
| EnvUtils.ListedStep | Public/Src/Sandbox/Linux/utils.c:76-95 | one step of the search: the value is found when it is the first ':'-separated item, or when it is found after the first ':' |
| EnvUtils.AddValueToEnv | Public/Src/Sandbox/Linux/utils.c:68-124 | the entry comes back unchanged exactly when it lacks the prefix, the value is empty or the value is already listed; otherwise it grows, starts with the old entry and ends with the value |
| EnvUtils.AddedValueIsListed | Public/Src/Sandbox/Linux/utils.c:68-124 | after add_value_to_env the value is one of the listed items |
| EnvUtils.AddValueToEnvIdempotent | Public/Src/Sandbox/Linux/utils.c:68-124 | adding a value that is already listed changes nothing, so adding twice is adding once |
| EnvUtils.AddValueAllocOneShort | Public/Src/Sandbox/Linux/utils.c:102-122 | when a separator is inserted, the new entry and its NUL need one byte more than the allocation |
| EnvUtils.AddValueAllocCorrectedFits | Public/Src/Sandbox/Linux/utils.c:102-122 | the corrected allocation always holds the new entry and its NUL |
| EnvUtils.Active | Public/Src/Sandbox/Linux/utils.c:237-245 | the variadic path list stops at the first empty path: the paths kept are the prefix before it, all non-empty |
| EnvUtils.AddAll | Public/Src/Sandbox/Linux/utils.c:237-245 | the loop over the paths only ever extends the entry: the result starts with it and is no shorter |
| EnvUtils.NewEntryAsWritten | Public/Src/Sandbox/Linux/utils.c:272-296 | as written: with no path, or a prefix shorter than seven characters, the entry is the prefix; otherwise the entry starts with only the prefix's first seven characters (ARRAYSIZE of a pointer, 8, minus 1), and the paths are copied from there on |
| EnvUtils.NewEntryAsWrittenCutsPrefix | Public/Src/Sandbox/Linux/utils.c:260-311 | as written (prefix length from ARRAYSIZE of a pointer, 8 minus 1), "LD_PRELOAD=" with one library becomes "LD_PREL" and the library |
| EnvUtils.NewEntry | Public/Src/Sandbox/Linux/utils.c:260-311 | the corrected case-3 entry: the whole prefix, then the paths joined by ':' |
| EnvUtils.NewEntryAsWrittenLosesPrefixTail | Public/Src/Sandbox/Linux/utils.c:272-296 | for any prefix of seven characters or more and at least one path, the entry as written is shorter than the intended one by exactly the prefix characters past the seventh, so a longer prefix always gives a different entry |
| EnvUtils.EnsurePathsIncluded | Public/Src/Sandbox/Linux/utils.c:206-312 | ensure_paths_included_in_env: at most one entry is appended; every entry other than the last one with the prefix is unchanged; afterwards an entry with the prefix exists (what that entry lists: EnsurePathsCase1Iff, EnsurePathsCase2Lists, EnsurePathsCase3Lists) |
| EnvUtils.AddAllUnchangedIff | Public/Src/Sandbox/Linux/utils.c:237-252 | the path loop leaves the entry unchanged exactly when each path alone would leave it unchanged |
| EnvUtils.EnsurePathsCase1Iff | Public/Src/Sandbox/Linux/utils.c:247-252 | in case 1, envp comes back unchanged exactly when every path is already listed |
| EnvUtils.AddValueKeepsItems | Public/Src/Sandbox/Linux/utils.c:68-124 | for an entry whose list does not end in '=' and a value with no ':' that is not empty and does not end in '=', add_value_to_env lists the value, keeps every non-empty item listed before, and keeps the list open for the next value |
| EnvUtils.AddAllLists | Public/Src/Sandbox/Linux/utils.c:237-245 | the path loop lists every path and keeps every non-empty item the entry listed before |
| EnvUtils.EnsurePathsCase2Lists | Public/Src/Sandbox/Linux/utils.c:237-257 | in case 2 (the prefix is present), envp keeps its length, the same entry is still the last one with the prefix, and it lists every path given plus every non-empty item it listed before |
| EnvUtils.EnsurePathsCase3Lists | Public/Src/Sandbox/Linux/utils.c:260-311 | in case 3, the new last entry is the prefix followed by exactly the paths, ':'-separated |
| FdTable.ResetEntry | Public/Src/Sandbox/Linux/bxl_observer.cpp:816-822 | one in-range descriptor is forgotten and the others are kept; an out-of-range descriptor changes nothing |
| FdTable.ResetAll | Public/Src/Sandbox/Linux/bxl_observer.cpp:824-830 | every descriptor is forgotten |
| FdTable.FdToPath | Public/Src/Sandbox/Linux/bxl_observer.cpp:800-864 | an out-of-range descriptor reads its link without touching the table; a cached path is returned as it is; otherwise the link is read into the PATH_MAX buffer, so a missing link gives "" and a link of PATH_MAX characters or more is cut to exactly PATH_MAX; the other descriptors' entries are untouched and a valid table stays valid, its paths no longer than PATH_MAX |
| FdTable.FdToPathCoherent | Public/Src/Sandbox/Linux/bxl_observer.cpp:832-864 | while the table agrees with the descriptors' links, fd_to_path returns what a fresh read of the link gives and the table stays in agreement |
| FdTable.ResetForcesRead | Public/Src/Sandbox/Linux/bxl_observer.cpp:816-864 | after a reset, the descriptor's next lookup reads its link afresh |
| FdTable.StaleWithoutReset | Public/Src/Sandbox/Linux/bxl_observer.cpp:832-864 | a descriptor whose link changed without a reset is served the old path from the table |
| PathResolver.PrevSlash | Public/Src/Sandbox/Linux/bxl_observer.cpp:927-932 | the index of the last '/' strictly before p; the characters between are free of '/' |
| PathResolver.Collapse | Public/Src/Sandbox/Linux/bxl_observer.cpp:949-975 | a rewrite applies exactly when the cursor is on a '/' ending an empty, "." or ".." component; it removes the characters between the new cursor and that '/' inclusive and keeps everything else: "//" keeps the cursor where it is, "/./" moves it back one, "/../" moves it to just after the slash before the previous component (or to 1 at the root); the scanned part stays absolute and free of redundant forms, and the work left shrinks |
| PathResolver.Walk | Public/Src/Sandbox/Linux/bxl_observer.cpp:949-1027 | the scan ends with an absolute path that has no "//", "/./" or "/../" form and no directory on it a symbolic link; its reports extend the earlier ones, are distinct, and are all symbolic links |
| PathResolver.Follow | Public/Src/Sandbox/Linux/bxl_observer.cpp:1002-1027 | following a link met for the first time reports it right after the earlier reports and ends with an absolute path with no redundant form and no directory on it a symbolic link; the reports are distinct symbolic links |
| PathResolver.Substitute | Public/Src/Sandbox/Linux/bxl_observer.cpp:1012-1027 | an absolute target becomes the whole path, followed by the rest after the link, and the scan restarts at 1; a relative target replaces the link's last component and the scan resumes at its start; a target ending in '/' absorbs the '/' after the link; the part before the new cursor is unchanged and has no redundant form |
| PathResolver.ResolvePath | Public/Src/Sandbox/Linux/bxl_observer.cpp:934-1029 | a relative path comes back unchanged with no reports; an absolute one comes back absolute with no redundant form and no directory on it a symbolic link; the links reported are distinct symbolic links |
| PathResolver.ReadlinksBounded | Public/Src/Sandbox/Linux/bxl_observer.cpp:1002-1010 | the visited set bounds the work: there are never more readlink reports than symbolic links |
| PathResolver.WalkCleanIdentity | Public/Src/Sandbox/Linux/bxl_observer.cpp:949-976 | without links, the scan of a path with no redundant form rewrites nothing |
| PathResolver.ResolveIdempotentWithoutLinks | Public/Src/Sandbox/Linux/bxl_observer.cpp:934-1029 | without links, resolving a resolved path gives it back |
| PathResolver.WalkLexical | Public/Src/Sandbox/Linux/bxl_observer.cpp:946-1028 | without symbolic links, the scan from a state that has read its prefix as some directories and a current component ends with the lexical reading of the rest |
| PathResolver.ResolveIsLexical | Public/Src/Sandbox/Linux/bxl_observer.cpp:934-1029 | without symbolic links, resolve_path gives the lexical canonical form (empty and "." components dropped, ".." dropping the directory before it, the last component kept as it is) and reports nothing |
| PathResolver.LexicalDoubleSlash | Public/Src/Sandbox/Linux/bxl_observer.cpp:953-957 | for any one-character names x (not "." or "/") and y, "/x//y" reads as "/x/y" |
| PathResolver.LexicalDot | Public/Src/Sandbox/Linux/bxl_observer.cpp:958-963 | "/x/./y" reads as "/x/y" |
| PathResolver.LexicalParent | Public/Src/Sandbox/Linux/bxl_observer.cpp:964-975 | "/x/../y" reads as "/y" |
| PathResolver.LexicalParentAtRoot | Public/Src/Sandbox/Linux/bxl_observer.cpp:964-975 | "/../y" reads as "/y": at the root ".." removes only itself |
| PathResolver.LexicalKeepsLast | Public/Src/Sandbox/Linux/bxl_observer.cpp:949-976 | "/x/.." is left as it is: only a component a '/' ends is rewritten |
| PathResolver.AbsoluteLinkExample | Public/Src/Sandbox/Linux/bxl_observer.cpp:1017-1023 | with "/l" linking to "/x", the link in "/l/b" makes "/x/b", scanned from its root |
| PathResolver.RelativeLinkExample | Public/Src/Sandbox/Linux/bxl_observer.cpp:1025-1027 | with "/d/l" linking to "t", the link in "/d/l/b" makes "/d/t/b", scanned from "t" |
| PathResolver.TrailingSlashLinkExample | Public/Src/Sandbox/Linux/bxl_observer.cpp:1013-1015 | with "/l" linking to "/x/", the link in "/l/b" makes "/x/b": the target's '/' absorbs the path's |
| PathResolver.BaseDir | Public/Src/Sandbox/Linux/bxl_observer.cpp:866-917 | the directory a relative name is joined to: the cwd for AT_FDCWD, otherwise the descriptor's path |
| PathResolver.NormalizePathAt | Public/Src/Sandbox/Linux/bxl_observer.cpp:866-917 | no name gives the descriptor's path as it is; an absolute name is resolved alone; a relative name is fatal exactly when the base directory is missing or empty, and otherwise is resolved after joining it to that directory |
| PathResolver.NormalizePath | Public/Src/Sandbox/Linux/bxl_observer.hpp:346-349 | normalize_path: a named path leaves the descriptor table alone, and a relative name is fatal exactly when there is no working directory or it is empty |
| AccessCache.KeyAsWritten | Public/Src/Sandbox/Linux/bxl_observer.cpp:206-232 | the key as written: write-class kinds share WRITE, but the stat-class cases fall through into the default and keep their own kind |
| AccessCache.Key | Public/Src/Sandbox/Linux/bxl_observer.cpp:206-232 | the corrected key: write-class kinds share WRITE, stat-class kinds share STAT, other kinds keep their own |
| AccessCache.IsCacheHitAsWritten | Public/Src/Sandbox/Linux/bxl_observer.cpp:188-255 | as written, a hit exactly when the path was seen before under the same (as-written) key; otherwise the path is recorded |
| AccessCache.IsCacheHit | Public/Src/Sandbox/Linux/bxl_observer.cpp:188-255 | a non-cacheable event is never a hit and changes nothing; a cacheable one hits exactly when its path was already recorded under its key |
| AccessCache.RepeatHits | Public/Src/Sandbox/Linux/bxl_observer.cpp:188-255 | a cacheable access seen once hits the next time, for every event with the same key |
| AccessCache.Run | Public/Src/Sandbox/Linux/bxl_observer.cpp:188-255 | a sequence of calls gives one hit flag per call |
| AccessCache.RunHitsIffSeen | Public/Src/Sandbox/Linux/bxl_observer.cpp:188-255 | each call hits exactly when its key and path were in the starting cache or came with an earlier cacheable call |
| AccessCache.HitIffEarlier | Public/Src/Sandbox/Linux/bxl_observer.cpp:188-255 | from an empty cache, a call hits exactly when an earlier cacheable call had the same key and path |
| AccessCache.WritesCoalesce | Public/Src/Sandbox/Linux/bxl_observer.cpp:206-232 | a WRITE after a TRUNCATE of the same path is a hit |
| AccessCache.StatAfterAccessMissesAsWritten | Public/Src/Sandbox/Linux/bxl_observer.cpp:206-232 | as written, a STAT right after an ACCESS of the same path misses |
| AccessCache.StatAfterAccessHits | Public/Src/Sandbox/Linux/bxl_observer.cpp:206-232 | with the corrected key, that STAT hits |
| Reporting.Unframe | Public/Src/Sandbox/Linux/bxl_observer.cpp:316-353 | the reader's side: a packet gives back exactly the number of characters its length prefix announces, when its body carries that many, and nothing otherwise |
| Reporting.Frame | Public/Src/Sandbox/Linux/bxl_observer.cpp:316-353 | the length prefix is the text's length and the packet fits in PIPE_BUF; a text under the limit is the body; a longer one is cut to MaxMessageLength-1 characters and a NUL |
| Reporting.FrameRoundTrip | Public/Src/Sandbox/Linux/bxl_observer.cpp:316-353 | a text that fits reads back whole from its packet |
| Reporting.Send | Public/Src/Sandbox/Linux/bxl_observer.cpp:258-292 | a buffer longer than PIPE_BUF is fatal; anything else is delivered as one write |
| Reporting.SendReportAsWritten | Public/Src/Sandbox/Linux/bxl_observer.cpp:316-353 | as written: skipped exactly when the process tree has completed; a report that fits is delivered framed; an over-long report is fatal exactly when not in debug mode; a delivered packet fits in PIPE_BUF |
| Reporting.DebugTruncationStillOverflows | Public/Src/Sandbox/Linux/bxl_observer.cpp:316-353 | with the as-written debug truncation, an over-long report is delivered, but its length prefix still announces MaxMessageLength or more and its body ends in a NUL, so the reader cannot read it back |
| Reporting.DebugKeep | Public/Src/Sandbox/Linux/bxl_observer.cpp:316-353 | the corrected truncation keeps at most the whole path, and exactly enough of it for the report to be MaxMessageLength-1 characters long |
| Reporting.SendReport | Public/Src/Sandbox/Linux/bxl_observer.cpp:316-353 | corrected: skipped exactly when the process tree has completed; a report that fits is delivered framed; an over-long report is fatal exactly when not in debug mode; a delivered packet fits in PIPE_BUF |
| Reporting.SendReportDelivers | Public/Src/Sandbox/Linux/bxl_observer.cpp:316-353 | with the corrected truncation, every debug report and every report that fits is delivered and reads back whole, as the report with a prefix of its path that is either the whole path or as long as fits |
| Reporting.ReportAccessFraming | Public/Src/Sandbox/Linux/detours.c:66-142 | detours.c's framing: fatal exactly when the text reaches the message limit; otherwise the packet carries the text and reads back to it |
| IOEvents.NewIOEvent | Public/Src/Sandbox/MacOs/Interop/Sandbox/Data/IOEvent.hpp:60-101 | the pids, type, executable and modified flag are kept and oppid equals ppid; a NULL path becomes ""; a path without "/../" or "/./" is kept as it is, and one with them is what realpath leaves in its buffer; the mode is the source's stat mode cut to 16 bits when requested and stat succeeds, otherwise 0 |
| IOEvents.Canonical | Public/Src/Sandbox/MacOs/Interop/Sandbox/Data/IOEvent.hpp:84-99 | a path containing "/../" or "/./" is replaced by what realpath leaves in its buffer; any other path is kept; with a realpath that changes nothing, every path is kept |
| IOEvents.EventPath | Public/Src/Sandbox/MacOs/Interop/Sandbox/Data/IOEvent.hpp:112 | index 0 is the source path; every other index is the destination |
| IOEvents.MaxSize | Public/Src/Sandbox/MacOs/Interop/Sandbox/Data/IOEvent.hpp:124-131 | max_size is 3·5 digits of PID_MAX + 2·5 digits of USHRT_MAX + 1 + 3·PATH_MAX + 9, with the macOS PATH_MAX of 1024: 3107 |
| IOEvents.SerializedSizeBounded | Public/Src/Sandbox/MacOs/Interop/Sandbox/Data/IOEvent.hpp:124-131 | every event whose pids, type and mode are within their bounds and whose three paths are no longer than the macOS PATH_MAX (1024) serialises within max_size |
| Observer.Capture | Public/Src/Sandbox/Linux/bxl_observer.hpp:158-186 | result_t records the call's result and the errno it left |
| Observer.Restore | Public/Src/Sandbox/Linux/bxl_observer.hpp:158-186 | restore() returns the captured result and sets errno back to the captured value, whatever errno is now |
| Observer.RestoreUndoesClobbering | Public/Src/Sandbox/Linux/bxl_observer.hpp:158-186 | whatever the observer does to errno between the call and restore(), the caller sees the call's own errno |
| Observer.IsEnabled | Public/Src/Sandbox/Linux/bxl_observer.hpp:237-245 | IsEnabled: never without a valid sandbox; in the root process, or when child processes may not break away, exactly when the sandbox is valid |
| Observer.ShouldDeny | Public/Src/Sandbox/Linux/bxl_observer.hpp:361-371 | should_deny: only a denied access under a valid sandbox; never when unexpected accesses are not failed; a denied access with failing on is denied exactly when the sandbox is enabled |
| Observer.CheckAndForward | Public/Src/Sandbox/Linux/bxl_observer.hpp:126-146 | a denied access fails with EPERM and the error value without running the call; otherwise the call's result and errno are returned |
| Observer.UnenforcedNeverBlocks | Public/Src/Sandbox/Linux/bxl_observer.hpp:237-245 | a disabled sandbox, or one that does not fail unexpected accesses, never blocks a call |
| Observer.BreakawayChildDisabled | Public/Src/Sandbox/Linux/bxl_observer.hpp:237-245 | a breakaway child process is never enforced, whatever the manifest says |
| Observer.GetMode | Public/Src/Sandbox/Linux/bxl_observer.hpp:335-344 | the st_mode lstat gives, or 0 when lstat fails; errno is left as it was |
| Observer.EffectiveMode | Public/Src/Sandbox/Linux/bxl_observer.cpp:405-409 | a non-zero mode is kept; a zero mode is replaced by what lstat gives for the path |
| Observer.CheckUncached | Public/Src/Sandbox/Linux/bxl_observer.cpp:396-422 | a mode of 0 is looked up; non-files are not checked; EXEC reports the path as the executable, everything else the program; only an enabled sandbox checks |
| Observer.CreateAccessInternal | Public/Src/Sandbox/Linux/bxl_observer.cpp:396-422 | a missing second path is ""; a cache hit is not checked again; otherwise the result of the uncached check |
| Observer.SecondAccessNotChecked | Public/Src/Sandbox/Linux/bxl_observer.cpp:396-422 | asking twice about the same cacheable access checks it at most once |
| Reports.ModeOf | Public/Src/Sandbox/Linux/bxl_observer.hpp:335-344 | the path's lstat mode, or 0 when lstat fails |
| Reports.Resolve | Public/Src/Sandbox/Linux/bxl_observer.cpp:396-422 | a report keeps its own mode; one that passed 0 gets the looked-up mode |
| Reports.OpenEvent | Public/Src/Sandbox/Linux/detours.cpp:390-401 | the intended classification: CREATE exactly for a missing path opened with O_CREAT or O_TRUNC; WRITE exactly for an existing path opened with one of those and for writing; OPEN otherwise |
| Reports.OpenEventDetoursAsWritten | Public/Src/Sandbox/Linux/detours.cpp:390-401 | detours.cpp's test `oflag & O_WRONLY` treats O_RDWR as read-only |
| Reports.DetoursAgreesExceptReadWrite | Public/Src/Sandbox/Linux/detours.cpp:390-401 | the bit test agrees with the intent for every access mode except O_RDWR and the unused mode 3 |
| Reports.TruncatingReadWriteIsOpenAsWritten | Public/Src/Sandbox/Linux/detours.cpp:390-401 | an existing file opened O_RDWR \| O_TRUNC is truncated, yet reported as OPEN |
| Reports.ReadOnlyTruncateIsOpen | Public/Src/Sandbox/Linux/detours.cpp:387-401 | an existing file opened O_RDONLY \| O_TRUNC is reported as OPEN by the intended classification and by both sandboxes as written, not as the Write the comment at detours.cpp:388 describes |
| Reports.OpenEventPTraceAsWritten | Public/Src/Sandbox/Linux/PTraceSandbox.cpp:477-491 | as written, `oflag & O_ACCMODE == O_WRONLY` parses as `oflag & 0`, so the write test never passes |
| Reports.PTraceNeverWrites | Public/Src/Sandbox/Linux/PTraceSandbox.cpp:477-491 | the tracer never classifies an open as WRITE |
| Reports.PTraceAgreesExceptWrite | Public/Src/Sandbox/Linux/PTraceSandbox.cpp:477-491 | apart from the lost WRITE, the tracer agrees with the intended classification |
| Reports.CreatNeverOpens | Public/Src/Sandbox/Linux/detours.cpp:447-449 | creat() always reports a modification: CREATE for a missing path, WRITE for an existing one |
| Reports.CreateOnlyAgrees | Public/Src/Sandbox/Linux/PTraceSandbox.cpp:477-491 | O_CREAT alone is never a write, so both as-written tests agree with the intent on it |
| Reports.OpenReport | Public/Src/Sandbox/Linux/detours.cpp:390-401 | the open report carries the path, its lstat mode and the event the intended classification gives for whether that mode is non-zero |
| Reports.OflagIsWriteMatchesAccessMode | Public/Src/Sandbox/Linux/detours.c:188-191 | for every valid access mode, oflag_to_access and the intended classification agree on what counts as writing |
| Reports.NoFollowFromAtFlags | Public/Src/Sandbox/Linux/detours.cpp:752 | the at-flags of the *at calls become either no open flag or O_NOFOLLOW |
| Reports.NoFollowUnlessAtFollow | Public/Src/Sandbox/Linux/detours.cpp:882-885 | name_to_handle_at's flags become either no open flag or O_NOFOLLOW |
| Reports.UnlinkatOFlags | Public/Src/Sandbox/Linux/detours.cpp:592-598 | unlinkat's flags become either no open flag or O_NOFOLLOW |
| Reports.AtFlagsFollow | Public/Src/Sandbox/Linux/detours.cpp:752 | the three mappings, stated as whether each one follows the final link |
| Reports.Rebase | Public/Src/Sandbox/Linux/PTraceSandbox.cpp:730-764 | an entry under `from` is moved under `to` with the rest of it kept; an entry no longer than `from` becomes `to`; the result always starts with `to` |
| Reports.RebaseRoundTrip | Public/Src/Sandbox/Linux/PTraceSandbox.cpp:730-764 | moving an entry of a renamed directory back gives the entry again |
| PTrace.RemovePid | Public/Src/Sandbox/Linux/PTraceSandbox.cpp:297-319 | exactly the rows of other pids are kept; the table never grows, and is unchanged when the pid has no row |
| PTrace.AllTraceesHaveExited | Public/Src/Sandbox/Linux/PTraceSandbox.cpp:297-319 | the exit is reported and the tracee's rows dropped; the tracer stops exactly when no tracee is left, after sending its own exit notification |
| PTrace.FindTracee | Public/Src/Sandbox/Linux/PTraceSandbox.cpp:500-510 | a row for the pid from the table, and none exactly when the pid has no row |
| PTrace.FindTraceeUnique | Public/Src/Sandbox/Linux/PTraceSandbox.cpp:500-510 | in a table with one row per pid, the row found is the only row for the pid |
| PTrace.HandleChildProcessAsWritten | Public/Src/Sandbox/Linux/PTraceSandbox.cpp:512-542 | as written, the row looked up is the new child's, which is not yet in the table, so the fork report has no parent and no executable |
| PTrace.ForkLosesParentAsWritten | Public/Src/Sandbox/Linux/PTraceSandbox.cpp:512-542 | when make (pid 10) forks pid 11, the as-written report loses make's parent and executable |
| PTrace.HandleChildProcess | Public/Src/Sandbox/Linux/PTraceSandbox.cpp:512-542 | corrected: the row of the tracee that forked is looked up, and the child gets a row |
| PTrace.ChildInheritsFromParent | Public/Src/Sandbox/Linux/PTraceSandbox.cpp:512-542 | the child's row records the forking tracee as its parent and inherits its executable |
| PTrace.RemovePidUnique | Public/Src/Sandbox/Linux/PTraceSandbox.cpp:297-319 | retiring a tracee keeps one row per pid |
| PTrace.Classify | Public/Src/Sandbox/Linux/PTraceSandbox.cpp:207-284 | each wait status maps to exactly one action: exit and signal retire; the clone, fork, vfork, exit and seccomp events; other signals are re-injected; anything else aborts |
| PTrace.SignalsAreDelivered | Public/Src/Sandbox/Linux/PTraceSandbox.cpp:207-284 | a stop for any signal but SIGTRAP is resumed with that signal |
| PTrace.Step | Public/Src/Sandbox/Linux/PTraceSandbox.cpp:207-284 | one wake-up: aborts exactly on an unrecognised status; finishes only when the table empties, reporting the tracee's exit and then its own; a new child adds one row |
| PTrace.Trace | Public/Src/Sandbox/Linux/PTraceSandbox.cpp:165-284 | the loop waits while some tracee is left and stops for good exactly when the last one goes; an abort happens at the first unrecognised status; only handled system calls are dispatched |
| PTrace.FilterMatchesHandlers | Public/Src/Sandbox/Linux/PTraceSandbox.cpp:56-112 | the system calls the seccomp filter traps are exactly those with a handler |
| PTrace.ArgumentRegister | Public/Src/Sandbox/Linux/PTraceSandbox.cpp:321-356 | a register exactly for the indices 0 to 6, and index 0 (the return value) is RAX |
| PTrace.GetArgumentAddr | Public/Src/Sandbox/Linux/PTraceSandbox.cpp:321-356 | a word-aligned offset into the user area, non-zero exactly for the indices 0 to 6 |
| PTrace.ArgumentRegistersDistinct | Public/Src/Sandbox/Linux/PTraceSandbox.cpp:321-356 | different arguments are read from different registers, none of them ORIG_RAX |
| PTrace.Scan | Public/Src/Sandbox/Linux/PTraceSandbox.cpp:358-403 | the bytes stored are consecutive bytes of the argument from the start index, stay within the readable words and the length given, contain no NUL except possibly the last, and stay within PATH_MAX when bounded |
| PTrace.ReadOverrunsBufferAsWritten | Public/Src/Sandbox/Linux/PTraceSandbox.cpp:358-403 | an argument of 4104 readable bytes without a NUL makes the as-written loop store past the PATH_MAX buffer |
| PTrace.BoundedAgrees | Public/Src/Sandbox/Linux/PTraceSandbox.cpp:358-403 | for an argument the buffer holds, the bounded and unbounded loops store the same characters |
| PTrace.ShortArgumentsUnchanged | Public/Src/Sandbox/Linux/PTraceSandbox.cpp:358-403 | for an argument shorter than PATH_MAX, the bounded read returns what the unbounded one would |
| PTrace.CopyWord | Public/Src/Sandbox/Linux/PTraceSandbox.cpp:380-395 | copying one peeked word extends the buffer along the bounded scan: a full word when the scan goes on, or the whole scan when it stops |
| PTrace.ReadWord | Public/Src/Sandbox/Linux/PTraceSandbox.cpp:366-399 | one pass of the corrected read loop keeps the buffer a prefix of the bounded scan, a whole word longer when it goes on, and equal to the whole scan once it stops at a full buffer, a failed peek, a NUL or the length |
| PTrace.ReadArgumentString | Public/Src/Sandbox/Linux/PTraceSandbox.cpp:358-403 | corrected: the C string in the bounded read; it is a prefix of the argument's memory, free of NUL, and at most PATH_MAX characters |
| PTrace.ToInt32 | Public/Src/Sandbox/Linux/PTraceSandbox.cpp:411-415 | the low 32 bits, read as two's complement |
| PTrace.GetErrnoAsWritten | Public/Src/Sandbox/Linux/PTraceSandbox.cpp:411-415 | as written: 0 for a zero return, else 0xffffffffffffffff minus the return value, truncated to int |
| PTrace.GetErrnoOffByOneAsWritten | Public/Src/Sandbox/Linux/PTraceSandbox.cpp:699-710 | a failing mkdir, mkdirat or rmdir is reported with an errno one below the real one: ENOENT (2) arrives as EPERM (1) |
| PTrace.GetErrno | Public/Src/Sandbox/Linux/PTraceSandbox.cpp:411-415 | corrected: 0 for a zero return, else the return value negated, truncated to int |
| PTrace.GetErrnoRoundTrip | Public/Src/Sandbox/Linux/PTraceSandbox.cpp:411-415 | the kernel's -errno convention round-trips: a failure with errno e reads back as e, and success as 0 |
| PTrace.ReportOpenAsWritten | Public/Src/Sandbox/Linux/PTraceSandbox.cpp:477-491 | the tracer's open report uses the as-written classification, so an existing file opened for writing is reported as OPEN |
| PTrace.ReportOpenCreateOnly | Public/Src/Sandbox/Linux/PTraceSandbox.cpp:477-491 | with O_CREAT alone, as rename uses it, the precedence slip makes no difference |
| PTrace.MoveReports | Public/Src/Sandbox/Linux/PTraceSandbox.cpp:730-764 | one moved path gives two reports: an unlink of the source with its mode, then the open report of the destination with O_CREAT |
| PTrace.HandleRenameGeneric | Public/Src/Sandbox/Linux/PTraceSandbox.cpp:730-764 | a directory is reported as each entry's move, rebased under the new name; a directory that cannot be enumerated gives no reports; a file is reported as one move |
| PTrace.RenameMovesEveryEntry | Public/Src/Sandbox/Linux/PTraceSandbox.cpp:730-764 | every entry of a renamed directory is unlinked under its old name and created under the new one |
| PTrace.HandleReportAccessFd | Public/Src/Sandbox/Linux/PTraceSandbox.cpp:646-655 | the descriptor's path is reported exactly when it is absolute (a file); pipes and sockets are not |
| PTrace.HandleUnlink | Public/Src/Sandbox/Linux/PTraceSandbox.cpp:794-802 | an empty path is not reported; any other is reported as an unlink that does not follow a final link |
| PTrace.HandleUnlinkatAsWritten | Public/Src/Sandbox/Linux/PTraceSandbox.cpp:804-816 | as written, reported only when the descriptor is not AT_FDCWD and the path is not empty |
| PTrace.UnlinkatFromCwdUnreportedAsWritten | Public/Src/Sandbox/Linux/PTraceSandbox.cpp:804-816 | `rm out.txt` calls unlinkat(AT_FDCWD, "out.txt", 0), which the as-written tracer does not report |
| PTrace.HandleUnlinkat | Public/Src/Sandbox/Linux/PTraceSandbox.cpp:804-816 | corrected guard: only the empty path relative to the working directory goes unreported |
| PTrace.UnlinkatCoversUnlink | Public/Src/Sandbox/Linux/PTraceSandbox.cpp:794-816 | the corrected unlinkat reports everything unlink does; the as-written one reports only a subset |
| Detours.EventFromOpenMode | Public/Src/Sandbox/Linux/detours.cpp:298-307 | WRITE exactly when the fopen mode string contains 'a', 'w' or '+'; OPEN otherwise |
| Detours.StandardModes | Public/Src/Sandbox/Linux/detours.cpp:298-307 | "r" and "rb" read, and every standard mode with 'w', 'a' or '+' writes |
| Detours.ReportFileOpenAsWritten | Public/Src/Sandbox/Linux/detours.cpp:390-401 | as written, the path's mode (0 when lstat fails) and the `oflag & O_WRONLY` test decide the event |
| Detours.TruncatingOpenReportedAsRead | Public/Src/Sandbox/Linux/detours.cpp:390-401 | an existing file opened O_RDWR \| O_TRUNC is reported as a plain open, though it is truncated |
| Detours.ReportFileOpenAgrees | Public/Src/Sandbox/Linux/detours.cpp:390-401 | for O_WRONLY, O_RDONLY and O_CREAT alone the as-written report is already the intended one |
| Detours.CreatReportsModification | Public/Src/Sandbox/Linux/detours.cpp:447-449 | creat() is open() with O_CREAT \| O_WRONLY \| O_TRUNC: it reports CREATE or WRITE, never OPEN, as written and as intended |
| Detours.RenameEntries | Public/Src/Sandbox/Linux/detours.cpp:509-561 | the loop reports each entry's pair in order and stops at the first pair should_deny refuses (the sandbox is enabled, fails unexpected accesses and the policy denies it); it is refused exactly when some pair is |
| Detours.RenameEntriesDenied | Public/Src/Sandbox/Linux/detours.cpp:509-561 | the loop is refused exactly when should_deny refuses some entry's pair, and what it reported is a prefix of all the pairs |
| Detours.DeniedFirst | Public/Src/Sandbox/Linux/detours.cpp:509-561 | a first entry whose pair should_deny refuses stops the loop after its own pair is reported |
| Detours.AllowedFirst | Public/Src/Sandbox/Linux/detours.cpp:509-561 | a first entry whose pair should_deny lets through is reported, followed by whatever the loop reports for the remaining entries, with the same verdict |
| Detours.PairsMatchTracer | Public/Src/Sandbox/Linux/detours.cpp:509-561 | once modes are resolved, the pairs of all entries are exactly what the tracer reports for the same entries, in the same order |
| Detours.Renameat | Public/Src/Sandbox/Linux/detours.cpp:509-561 | a directory is reported as each entry's move pair up to the first one should_deny refuses; a directory that cannot be enumerated is one rename report; a file is an unlink and a create; refused exactly when should_deny refuses the reports' combined verdict, which needs an enabled sandbox that fails unexpected accesses |
| Detours.DeniedRenameDoesNotRun | Public/Src/Sandbox/Linux/detours.cpp:509-561 | a rename should_deny refuses fails with EPERM without running |
| Detours.UnenforcedRenameReportsAll | Public/Src/Sandbox/Linux/detours.cpp:509-561 | when the sandbox is disabled or does not fail unexpected accesses, no rename is refused and a directory's every entry pair is reported |
| Detours.PairMatchesTracer | Public/Src/Sandbox/Linux/detours.cpp:509-561 | once modes are resolved, an entry's pair is exactly what the tracer reports for it |
| Detours.RenameMatchesTracer | Public/Src/Sandbox/Linux/detours.cpp:509-561 | with nothing denied, the interposed renameat and the tracer's rename report the same accesses |
| Detours.InterposeUnlink | Public/Src/Sandbox/Linux/detours.cpp:585-590 | the empty path goes straight to the real call; anything else, NULL included, is reported without following a final link |
| Detours.InterposeUnlinkat | Public/Src/Sandbox/Linux/detours.cpp:592-598 | only the empty path relative to the working directory is forwarded unreported; removing a directory follows a final link |
| Detours.UnlinkIsUnlinkatFromCwd | Public/Src/Sandbox/Linux/detours.cpp:585-598 | unlink(p) is reported as unlinkat(AT_FDCWD, p, 0) |
| Detours.UnlinkatMatchesTracer | Public/Src/Sandbox/Linux/detours.cpp:592-598 | the corrected tracer and the interposed library agree on which unlinkat calls are reported and how |
| Detours.UnlinkMatchesTracer | Public/Src/Sandbox/Linux/detours.cpp:585-590 | the tracer's unlink agrees with the interposed one |
| Detours.AfterFdCall | Public/Src/Sandbox/Linux/detours.cpp:88-95 | ret_fd, close, fclose, dup, dup2 and dup3 forget the affected descriptor (the new one for a dup) and leave every other entry as it was |
| Detours.FdCallKeepsCoherent | Public/Src/Sandbox/Linux/detours.cpp:888-917 | whatever such a call did to the affected descriptor, the table stays coherent with the descriptors' links |
| Detours.AfterFork | Public/Src/Sandbox/Linux/detours.cpp:98-151 | in the child (result 0) the table is cleared and nothing is reported; in the parent the table is kept and a fork event names the child's pid, the process and the program path |
| Detours.ForkChildCoherent | Public/Src/Sandbox/Linux/detours.cpp:98-151 | the child's table is coherent with whatever descriptors the child holds |
| Decimal.Digits | Public/Src/Sandbox/Linux/detours.c:119-142 | a non-empty run of decimal digits without a leading zero |
| Decimal.ToDecimal | Public/Src/Sandbox/Linux/detours.c:119-142 | `%d`: a non-empty run of digits, preceded by '-' exactly when the value is negative |
| Decimal.DigitsRoundTrip | Public/Src/Sandbox/Linux/detours.c:119-142 | reading the digits `%d` writes for a non-negative value gives the value back |
| Decimal.DecimalHasNoBar | Public/Src/Sandbox/Linux/detours.c:119-142 | `%d` text never holds the '\|' that separates a message's fields |
| Decimal.Atoi | Public/Src/Sandbox/Linux/ptracedaemon.cpp:203-219 | atoi: after the leading white space, an optional sign and then the value of the digits that follow; 0 when there are none; negative only when the text has a '-' |
| Decimal.AtoiToDecimal | Public/Src/Sandbox/Linux/ptracedaemon.cpp:203-219 | atoi reads back what `%d` wrote, for every integer |
| Decimal.AtoiIgnoresSuffix | Public/Src/Sandbox/Linux/ptracedaemon.cpp:203-219 | text after the number does not change what atoi reads |
| Daemon.GetSubstring | Public/Src/Sandbox/Linux/ptracedaemon.cpp:84-98 | the text from start up to the next '\|' or the end, and the index just past that '\|' |
| Daemon.GetSubstringField | Public/Src/Sandbox/Linux/ptracedaemon.cpp:84-98 | a field free of '\|', followed by '\|' or the end, is read whole |
| Daemon.ParseMessage | Public/Src/Sandbox/Linux/ptracedaemon.cpp:203-219 | the fields of a run request are free of '\|'; other commands are ignored; the parse throws (None) only for a run request or an exit notification |
| Daemon.EncodeRun | Public/Src/Sandbox/Linux/PTraceSandbox.cpp:138-146 | the run request splits on '\|' into the run command, pid, parent pid, file and manifest path, when the last two are free of '\|' |
| Daemon.EncodeExit | Public/Src/Sandbox/Linux/PTraceSandbox.cpp:288-290 | the exit notification splits on '\|' into the exit command and the pid |
| Daemon.Deliver | Public/Src/Sandbox/Linux/ptracedaemon.cpp:179-197 | what mq_receive delivers: nothing exactly when the text is longer than MsgSize; otherwise a NUL-free prefix of it shorter than MsgSize, the whole text when it fits |
| Daemon.GetSubstringSplit | Public/Src/Sandbox/Linux/ptracedaemon.cpp:84-98 | getsubstring walks the parts Split gives: the field read at a part's start is that part |
| Daemon.ParseMessageSplit | Public/Src/Sandbox/Linux/ptracedaemon.cpp:203-219 | the whole parse, in terms of the message's '\|'-separated parts |
| Daemon.RunRoundTrip | Public/Src/Sandbox/Linux/ptracedaemon.cpp:203-219 | a run request reads back field for field exactly when the executable and manifest path are free of '\|' |
| Daemon.ExitRoundTrip | Public/Src/Sandbox/Linux/ptracedaemon.cpp:264-269 | an exit notification always reads back as the pid that sent it |
| Daemon.ShortRunThrows | Public/Src/Sandbox/Linux/ptracedaemon.cpp:203-219 | a run request with too few fields makes the parse throw |
| Daemon.GetEnvVar | Public/Src/Sandbox/Linux/ptracedaemon.cpp:100-106 | "name=value": the entry createEnv builds, from which stripping "name=" leaves the value |
| Daemon.LaunchRunner | Public/Src/Sandbox/Linux/ptracedaemon.cpp:221-254 | the runner gets `-c pid -p ppid -x exe -m queue`, and an environment of only the queue name and the manifest path |
| Runner.VerifyArgs | Public/Src/Sandbox/Linux/ptracerunner.cpp:6-44 | valid exactly when there is an observer, the tracee pid is non-negative and the queue name starts with '/' |
| Runner.ParentAndExeOnlyLogged | Public/Src/Sandbox/Linux/ptracerunner.cpp:6-44 | the parent pid and the executable never decide validity |
| Runner.ReadArgs | Public/Src/Sandbox/Linux/ptracerunner.cpp:55-76 | the runner reads each flag's value from the slot after it, and the pids with atoi |
| Runner.RunRequestReachesRunner | Public/Src/Sandbox/Linux/ptracerunner.cpp:55-76 | from a run request to the runner's check: the runner sees the sender's own pids and executable, and accepts exactly when it has an observer, the pid is non-negative and the queue name starts with '/' |
| PathSearch.SearchPath | Public/Src/Sandbox/Linux/observer_utilities.cpp:19-23 | PATH, or "/usr/bin" when it is unset |
| PathSearch.Candidate | Public/Src/Sandbox/Linux/observer_utilities.cpp:52-73 | the candidate is the root, '/', and the name |
| PathSearch.CheckIfPathExists | Public/Src/Sandbox/Linux/observer_utilities.cpp:52-73 | found exactly when the candidate's mode is not 0; the path is set only when it is found |
| PathSearch.FirstHit | Public/Src/Sandbox/Linux/observer_utilities.cpp:30-49 | the index of the first root that holds the name, or the number of roots when none does |
| PathSearch.ResolveFilenameWithEnv | Public/Src/Sandbox/Linux/observer_utilities.cpp:9-50 | an empty name or one with '/' is not searched; otherwise PATH's entries, the last and the empty ones included, are tried in order and the first hit gives the path and its mode |
| PathSearch.DefaultPathFindsShell | Public/Src/Sandbox/Linux/observer_utilities.cpp:19-23 | with PATH unset, `sh` resolves to /usr/bin/sh when that exists |
| ReportAccess.OflagToAccess | Public/Src/Sandbox/Linux/detours.c:188-191 | kWrite exactly when O_WRONLY or O_RDWR is set, kRead otherwise |
| ReportAccess.Fields | Public/Src/Sandbox/Linux/detours.c:119-142 | nine fields: the program name first, the `%d` of the error sixth, the function name seventh and the path last |
| ReportAccess.Line | Public/Src/Sandbox/Linux/detours.c:119-142 | a non-empty line ended by a newline |
| ReportAccess.Resolved | Public/Src/Sandbox/Linux/detours.c:119-142 | when realpath fails the error is 2 and the path is reported as given; otherwise the error is 0 and the resolved path is reported |
| ReportAccess.ReportAccess | Public/Src/Sandbox/Linux/detours.c:119-142 | a line of MaxMessageLength characters or more is fatal; otherwise the packet reads back as the line |
| ReportAccess.ReadLink | Public/Src/Sandbox/Linux/detours.c:144-150 | a link exactly when the descriptor has one, holding at most PATH_MAX characters from the start of it |
| ReportAccess.Cwd | Public/Src/Sandbox/Linux/detours.c:152-174 | the text getcwd leaves in the buffer is shorter than PATH_MAX, and is the working directory whenever that fits with its NUL |
| ReportAccess.FullPathAt | Public/Src/Sandbox/Linux/detours.c:152-174 | NoBase exactly when the directory is missing or empty; NoRoom exactly when it fills the PATH_MAX buffer; otherwise a path shorter than PATH_MAX that starts the directory, '/' and the name, and is all of them when they fit |
| ReportAccess.DirOf | Public/Src/Sandbox/Linux/detours.c:152-174 | getcwd's text for AT_FDCWD, the descriptor's link otherwise; never longer than PATH_MAX |
| ReportAccess.ReportAccessAt | Public/Src/Sandbox/Linux/detours.c:152-174 | fatal without a directory; an unterminated buffer when the directory fills it; otherwise report_access of the full path |
| ReportAccess.ReportAccessFd | Public/Src/Sandbox/Linux/detours.c:144-150 | the descriptor's link is reported; a descriptor without a link is reported with an empty path; the buffer is left unterminated exactly when the link is PATH_MAX characters or longer |
| ReportAccess.ReportPath | Public/Src/Sandbox/Linux/detours.c:176-186 | report_read, report_probe and report_write: an empty or relative name is reported at AT_FDCWD, an absolute one directly |
| ReportAccess.LineParses | Public/Src/Sandbox/Linux/detours.c:119-142 | dropping the newline and splitting at '\|' gives back the nine fields, when the program name and the path are free of '\|' |
| ReportAccess.RelativePathsAnchorAtCwd | Public/Src/Sandbox/Linux/detours.c:152-174 | a relative name is reported as the working directory, '/' and the name, when they fit |
| ReportAccess.RelativePathsNeedCwd | Public/Src/Sandbox/Linux/detours.c:152-174 | without a working directory a relative report is fatal; an absolute one does not need one |
| ReportAccess.RealpathDecidesErrorAndPath | Public/Src/Sandbox/Linux/detours.c:119-142 | the reported error and path are decided by realpath alone |
| ResolvedPathCache.Emplace | Public/Src/Sandbox/Windows/DetoursServices/ResolvedPathCache.h:22-53 | std::map::emplace: the pair is stored only when the key is absent, and the flag says whether it was |
| ResolvedPathCache.Find | Public/Src/Sandbox/Windows/DetoursServices/ResolvedPathCache.h:89-101 | the stored value, or null exactly when the key is absent |
| ResolvedPathCache.InsertResolvingCheckResult | Public/Src/Sandbox/Windows/DetoursServices/ResolvedPathCache.h:22-26 | the resolver cache gains the entry only when the path is new; the other two maps are unchanged |
| ResolvedPathCache.GetResolvingCheckResult | Public/Src/Sandbox/Windows/DetoursServices/ResolvedPathCache.h:28-31 | the stored check result, or null |
| ResolvedPathCache.InsertResolvedPathWithType | Public/Src/Sandbox/Windows/DetoursServices/ResolvedPathCache.h:33-37 | the target cache gains the (resolved, type) entry only when the path is new; the other maps are unchanged |
| ResolvedPathCache.GetResolvedPathAndType | Public/Src/Sandbox/Windows/DetoursServices/ResolvedPathCache.h:39-42 | the stored target and type, or null |
| ResolvedPathCache.InsertResolvedPaths | Public/Src/Sandbox/Windows/DetoursServices/ResolvedPathCache.h:44-48 | the paths map gains the entry under (path, flag) only when that key is new; the other maps are unchanged |
| ResolvedPathCache.GetResolvedPaths | Public/Src/Sandbox/Windows/DetoursServices/ResolvedPathCache.h:50-53 | the stored entries for (path, flag), or null |
| ResolvedPathCache.Invalidated | Public/Src/Sandbox/Windows/DetoursServices/ResolvedPathCache.h:55-75 | the path leaves the resolver and target caches and no other key does; the paths map only ever loses entries |
| ResolvedPathCache.EraseResolvedThrough | Public/Src/Sandbox/Windows/DetoursServices/ResolvedPathCache.h:66-74 | the loop keeps exactly the entries whose resolved map does not have the path as a key, each unchanged |
| ResolvedPathCache.InvalidatedPaths | Public/Src/Sandbox/Windows/DetoursServices/ResolvedPathCache.h:59-74 | erasing the two own entries and then the entries resolved through the path leaves exactly the surviving ones |
| ResolvedPathCache.Invalidate | Public/Src/Sandbox/Windows/DetoursServices/ResolvedPathCache.h:55-75 | Invalidate's statements leave the cache as Invalidated describes it |
| ResolvedPathCache.InvalidateForgets | Public/Src/Sandbox/Windows/DetoursServices/ResolvedPathCache.h:55-75 | after invalidating a path, no lookup of it hits, whatever the flag |
| ResolvedPathCache.InvalidateKeepsOthers | Public/Src/Sandbox/Windows/DetoursServices/ResolvedPathCache.h:55-75 | every other path's lookups are unchanged, unless their resolution went through the invalidated path |
| ResolvedPathCache.InvalidateIdempotent | Public/Src/Sandbox/Windows/DetoursServices/ResolvedPathCache.h:55-75 | invalidating twice is invalidating once |
| ResolvedPathCache.InsertAfterInvalidate | Public/Src/Sandbox/Windows/DetoursServices/ResolvedPathCache.h:22-31 | an insert after an invalidation always succeeds, and a lookup then returns what was inserted |
| ResolvedPathCache.FirstInsertWins | Public/Src/Sandbox/Windows/DetoursServices/ResolvedPathCache.h:33-42 | a second insert under the same key is refused, and the first value stays |
| ResolvedPathCache.FlagsAreIndependent | Public/Src/Sandbox/Windows/DetoursServices/ResolvedPathCache.h:44-53 | the entries for the two preserve-last-reparse-point flags are separate |
| CaseInsensitive.ToLower | Public/Src/Sandbox/Windows/DetoursServices/UtilityHelpers.h:16 | towlower in the C locale: 'A'-'Z' map to 'a'-'z', and every other character is unchanged |
| CaseInsensitive.Lower | Public/Src/Sandbox/Windows/DetoursServices/UtilityHelpers.h:47-48 | a string of the same length, lower-cased character by character |
| CaseInsensitive.Reverse | Public/Src/Sandbox/Windows/DetoursServices/UtilityHelpers.h:33 | the string read from its end (rbegin to rend) |
| CaseInsensitive.Equal | Public/Src/Sandbox/Windows/DetoursServices/UtilityHelpers.h:12-22 | CaseInsensitiveStringComparer: two strings are equal exactly when they are equal once lower-cased |
| CaseInsensitive.LessThan | Public/Src/Sandbox/Windows/DetoursServices/UtilityHelpers.h:27-42 | CaseInsensitiveStringLessThan: a shorter string is always less and a longer one never is; a string is never less than one the comparer calls equal |
| CaseInsensitive.Hash | Public/Src/Sandbox/Windows/DetoursServices/UtilityHelpers.h:45-51 | CaseInsensitiveStringHasher: the hash of a string equals std::hash of the lower-cased form of every string the comparer calls equal to it |
| CaseInsensitive.EqualIffSameLower | Public/Src/Sandbox/Windows/DetoursServices/UtilityHelpers.h:12-22 | the comparer calls two strings equal exactly when they are equal once lower-cased |
| CaseInsensitive.EqualIsEquivalence | Public/Src/Sandbox/Windows/DetoursServices/UtilityHelpers.h:12-22 | the comparer is reflexive, symmetric and transitive |
| CaseInsensitive.EqualHashesAlike | Public/Src/Sandbox/Windows/DetoursServices/UtilityHelpers.h:45-51 | strings the comparer calls equal hash alike, whatever std::hash is |
| CaseInsensitive.LexIrreflexive | Public/Src/Sandbox/Windows/DetoursServices/UtilityHelpers.h:33-34 | lexicographic order is irreflexive |
| CaseInsensitive.LexTransitive | Public/Src/Sandbox/Windows/DetoursServices/UtilityHelpers.h:33-34 | lexicographic order is transitive |
| CaseInsensitive.LexTrichotomy | Public/Src/Sandbox/Windows/DetoursServices/UtilityHelpers.h:33-34 | between strings of one length, exactly one of less, equal and greater holds |
| CaseInsensitive.LowerReverse | Public/Src/Sandbox/Windows/DetoursServices/UtilityHelpers.h:29-36 | reading backwards and lower-casing commute, and comparer-equality survives reading backwards |
| CaseInsensitive.LessThanIsStrictOrder | Public/Src/Sandbox/Windows/DetoursServices/UtilityHelpers.h:27-42 | LessThan is irreflexive and transitive |
| CaseInsensitive.IncomparableIffEqual | Public/Src/Sandbox/Windows/DetoursServices/UtilityHelpers.h:12-42 | neither string is less than the other exactly when the comparer calls them equal, so LessThan is a strict weak order whose equivalence is the comparer |
| CaseInsensitive.CaseIsIgnored | Public/Src/Sandbox/Windows/DetoursServices/UtilityHelpers.h:12-42 | "C:\\Windows" and "c:\\WINDOWS" are equal; neither of "A" and "a" is less than the other; a shorter string comes first, so "zz" is less than "aaa" |
| PathInfo.Zeroed | Public/Src/Sandbox/MacOs/Interop/Sandbox/Handlers/IOHandler.hpp:16 | the buffer is PATH_MAX NULs |
| PathInfo.NulIndex | Public/Src/Sandbox/MacOs/Interop/Sandbox/Handlers/IOHandler.hpp:28 | the index of the first NUL, or the length when there is none |
| PathInfo.CString | Public/Src/Sandbox/MacOs/Interop/Sandbox/Handlers/IOHandler.hpp:28 | strlen's view: the characters before the first NUL, none of them NUL |
| PathInfo.TokenString | Public/Src/Sandbox/MacOs/Interop/Sandbox/Handlers/IOHandler.hpp:23-29 | the C string a (data, length) token stands for: at most length characters, cut at the first NUL |
| PathInfo.Memccpy | Public/Src/Sandbox/MacOs/Interop/Sandbox/Handlers/IOHandler.hpp:26-27 | memccpy copies up to and including the first NUL within n characters and returns the position after it, or null when there was none; the rest of the buffer is unchanged |
| PathInfo.FromToken | Public/Src/Sandbox/MacOs/Interop/Sandbox/Handlers/IOHandler.hpp:23-29 | PathInfo(data, length) holds exactly the token's C string |
| PathInfo.CopyReadsBack | Public/Src/Sandbox/MacOs/Interop/Sandbox/Handlers/IOHandler.hpp:23-29 | a buffer that starts with a prefix and then holds a token reads back as the prefix and the token's C string |
| PathInfo.DirPrefix | Public/Src/Sandbox/MacOs/Interop/Sandbox/Handlers/IOHandler.hpp:41-63 | the directory's contribution is never empty and holds no NUL |
| PathInfo.DirectoryStep | Public/Src/Sandbox/MacOs/Interop/Sandbox/Handlers/IOHandler.hpp:51-63 | the buffer is PATH_MAX long, starts with the directory's contribution and is zero after it; the name is placed right after it, or one further as written when the directory token holds a NUL |
| PathInfo.JoinAsWritten | Public/Src/Sandbox/MacOs/Interop/Sandbox/Handlers/IOHandler.hpp:41-72 | the buffer left by the constructor as written, read as a C string |
| PathInfo.Join | Public/Src/Sandbox/MacOs/Interop/Sandbox/Handlers/IOHandler.hpp:41-72 | corrected: the name follows the '/' directly |
| PathInfo.JoinJoins | Public/Src/Sandbox/MacOs/Interop/Sandbox/Handlers/IOHandler.hpp:41-72 | the corrected join is the directory's C string, '/', and the name's C string; the root gets no second '/' |
| PathInfo.JoinAsWrittenWithoutNul | Public/Src/Sandbox/MacOs/Interop/Sandbox/Handlers/IOHandler.hpp:41-72 | without a NUL inside the directory token, the constructor as written joins as intended |
| PathInfo.JoinAsWrittenDropsName | Public/Src/Sandbox/MacOs/Interop/Sandbox/Handlers/IOHandler.hpp:54-65 | with a NUL inside the directory token, the name is copied past a NUL and lost: the result is the directory and '/' |
| PathInfo.JoinAsWrittenExample | Public/Src/Sandbox/MacOs/Interop/Sandbox/Handlers/IOHandler.hpp:54-65 | "ab" then a NUL, joined with "c", gives "ab/" as written and "ab/c" as intended |
| AccessHandler.Strlcpy | Public/Src/Sandbox/MacOs/Interop/Sandbox/Handlers/AccessHandler.cpp:32-57 | strlcpy keeps a prefix of at most size - 1 characters, and the whole string exactly when it fits |
| AccessHandler.IsPrefixCIff | Public/Src/Sandbox/MacOs/Interop/Sandbox/Handlers/AccessHandler.cpp:139-151 | is_prefix(s1, s2) holds exactly when s2 is a prefix of s1 |
| AccessHandler.IgnoreDataPartitionPrefix | Public/Src/Sandbox/MacOs/Interop/Sandbox/Handlers/AccessHandler.cpp:153-162 | a path under the data partition loses its first `adjust` characters; any other is unchanged |
| AccessHandler.ManifestKey | Public/Src/Sandbox/MacOs/Interop/Sandbox/Handlers/AccessHandler.cpp:18-25 | the tree is searched with the path less its leading '/'; a length of -1 means up to the end |
| AccessHandler.TryInitializeWithTrackedProcess | Public/Src/Sandbox/MacOs/Interop/Sandbox/Handlers/AccessHandler.cpp:6-16 | the tracked process for the pid, unless there is none or its pip disables the sandbox |
| AccessHandler.FileOpReport | Public/Src/Sandbox/MacOs/Interop/Sandbox/Handlers/AccessHandler.cpp:32-57 | the report carries the operation, the pid, the pip's root pid and id, the check's access and status, the explicit and should-report flags, and the policy path cut to the field |
| AccessHandler.ProcessReport | Public/Src/Sandbox/MacOs/Interop/Sandbox/Handlers/AccessHandler.cpp:66-126 | a life-cycle report is allowed, has error 0, is not a directory, is always reported and carries the process's own path |
| AccessHandler.TreeCompletedReport | Public/Src/Sandbox/MacOs/Interop/Sandbox/Handlers/AccessHandler.cpp:66-84 | a ProcessTreeCompleted report with no requested access |
| AccessHandler.ProcessExitedReport | Public/Src/Sandbox/MacOs/Interop/Sandbox/Handlers/AccessHandler.cpp:86-104 | a ProcessExit report with no requested access |
| AccessHandler.ChildSpawnedReport | Public/Src/Sandbox/MacOs/Interop/Sandbox/Handlers/AccessHandler.cpp:106-126 | a ProcessStart report that reads the executable; the path must not be empty |
| AccessHandler.CheckAndReport | Public/Src/Sandbox/MacOs/Interop/Sandbox/Handlers/AccessHandler.cpp:164-179 | the checker's verdict on the path less the data-partition prefix, and the report built from that verdict |
| AccessHandler.LifecycleReportsAgree | Public/Src/Sandbox/MacOs/Interop/Sandbox/Handlers/AccessHandler.cpp:66-126 | the three life-cycle reports differ only in operation, pid and requested access |
| AccessHandler.DataPartitionIsTransparent | Public/Src/Sandbox/MacOs/Interop/Sandbox/Handlers/AccessHandler.cpp:153-162 | a path under the data partition and the same path without the prefix reach the same policy path |
| IOHandler.HandleProcessFork | Public/Src/Sandbox/MacOs/Interop/Sandbox/Handlers/IOHandler.cpp:10-24 | with breakaway allowed nothing is tracked; otherwise the child is tracked and, when it is accepted, reported as spawned |
| IOHandler.HandleProcessExec | Public/Src/Sandbox/MacOs/Interop/Sandbox/Handlers/IOHandler.cpp:26-31 | the process takes the new executable path and is reported as spawned |
| IOHandler.HandleProcessUntracked | Public/Src/Sandbox/MacOs/Interop/Sandbox/Handlers/IOHandler.cpp:42-50 | the pid is untracked, and when the tree is then empty its completion is reported |
| IOHandler.HandleProcessExit | Public/Src/Sandbox/MacOs/Interop/Sandbox/Handlers/IOHandler.cpp:33-40 | the exit is reported, and then the pid is untracked |
| IOHandler.HandleLookup | Public/Src/Sandbox/MacOs/Interop/Sandbox/Handlers/IOHandler.cpp:54-57 | one lookup check of the path, not as a directory |
| IOHandler.OpenCheck | Public/Src/Sandbox/MacOs/Interop/Sandbox/Handlers/IOHandler.cpp:59-88 | a directory is enumerated and anything else is read |
| IOHandler.HandleOpen | Public/Src/Sandbox/MacOs/Interop/Sandbox/Handlers/IOHandler.cpp:59-88 | with a mode, the mode decides between a directory and a file; without one, lstat decides; the event is Invalid exactly when there is no mode and lstat fails |
| IOHandler.HandleClose | Public/Src/Sandbox/MacOs/Interop/Sandbox/Handlers/IOHandler.cpp:90-99 | a modified entry is checked for writing, as a file; otherwise it is read |
| IOHandler.PairChecks | Public/Src/Sandbox/MacOs/Interop/Sandbox/Handlers/IOHandler.cpp:101-141 | the source's check first, then the destination's |
| IOHandler.HandleLink | Public/Src/Sandbox/MacOs/Interop/Sandbox/Handlers/IOHandler.cpp:101-107 | the source is read and the new link written |
| IOHandler.HandleUnlink | Public/Src/Sandbox/MacOs/Interop/Sandbox/Handlers/IOHandler.cpp:109-114 | a write of the entry, as a directory or a file deletion |
| IOHandler.HandleReadlink | Public/Src/Sandbox/MacOs/Interop/Sandbox/Handlers/IOHandler.cpp:116-119 | one read check of the link |
| IOHandler.HandleRename | Public/Src/Sandbox/MacOs/Interop/Sandbox/Handlers/IOHandler.cpp:121-127 | the source is read and the destination written |
| IOHandler.HandleClone | Public/Src/Sandbox/MacOs/Interop/Sandbox/Handlers/IOHandler.cpp:129-134 | both ends are read and written, as files |
| IOHandler.HandleExchange | Public/Src/Sandbox/MacOs/Interop/Sandbox/Handlers/IOHandler.cpp:136-141 | both ends are read and written, as files |
| IOHandler.CreateChecker | Public/Src/Sandbox/MacOs/Interop/Sandbox/Handlers/IOHandler.cpp:143-164 | a missing path or a regular file is a write; a symbolic link is a symlink creation; anything else that exists is a directory creation, unenforced unless directory creation is enforced |
| IOHandler.HandleCreate | Public/Src/Sandbox/MacOs/Interop/Sandbox/Handlers/IOHandler.cpp:143-164 | one check of the source path for the process, with CreateChecker's checker; it is a directory exactly when the path exists as a directory, and then the operation is a directory creation, otherwise a vnode creation |
| IOHandler.HandleGenericWrite | Public/Src/Sandbox/MacOs/Interop/Sandbox/Handlers/IOHandler.cpp:166-173 | one write check of the source path, not as a directory |
| IOHandler.HandleGenericRead | Public/Src/Sandbox/MacOs/Interop/Sandbox/Handlers/IOHandler.cpp:175-189 | an existing path is read, or enumerated when it is a directory; a missing one is a lookup |
| IOHandler.HandleGenericProbe | Public/Src/Sandbox/MacOs/Interop/Sandbox/Handlers/IOHandler.cpp:191-204 | an existing path is probed; a missing one is a lookup |
| IOHandler.HandleKind | Public/Src/Sandbox/MacOs/Interop/Sandbox/Handlers/IOHandler.cpp:206-302 | no kind throws, and exactly the life-cycle kinds are allowed without a check |
| IOHandler.HandleKindByClass | Public/Src/Sandbox/MacOs/Interop/Sandbox/Handlers/IOHandler.cpp:206-302 | write-class kinds go to the generic write handler, stat kinds to the probe handler, and chdir, readdir and fsgetpath to the read handler |
| IOHandler.HandleKindIgnoresType | Public/Src/Sandbox/MacOs/Interop/Sandbox/Handlers/IOHandler.cpp:206-302 | no handler reads the event type: two events that differ only there are handled alike |
| IOHandler.HandleEvent | Public/Src/Sandbox/MacOs/Interop/Sandbox/Handlers/IOHandler.cpp:206-309 | ES_EVENT_TYPE_LAST is Invalid; a type with no case (an unlisted value or an AUTH kind the switch omits) throws, naming that event type; every other type goes to its kind's handler |
| IOHandler.ReadOnlyKindsNeverMutate | Public/Src/Sandbox/MacOs/Interop/Sandbox/Handlers/IOHandler.cpp:166-204 | a read-only kind never asks for a mutating check, and a write-class event asks for exactly one, on its source |
| IOHandler.MissingPathReadIsProbe | Public/Src/Sandbox/MacOs/Interop/Sandbox/Handlers/IOHandler.cpp:175-204 | a missing path gives the same lookup check whether it is read or probed |
| IOHandler.OpenNeverLooksUp | Public/Src/Sandbox/MacOs/Interop/Sandbox/Handlers/IOHandler.cpp:59-88 | an open never asks for a lookup: the fallback after the Invalid return cannot be reached |
| IOHandler.TwoPathEventsCheckBothEnds | Public/Src/Sandbox/MacOs/Interop/Sandbox/Handlers/IOHandler.cpp:101-141 | events with two paths check the source and then the destination, and only the destination may be checked for writing alone |
| IOHandler.AuthAndNotifyAgree | Public/Src/Sandbox/MacOs/Interop/Sandbox/Handlers/IOHandler.cpp:206-302 | a kind is handled alike as AUTH or NOTIFY whenever the switch names both |
| IOHandler.LifecycleAlwaysAllowed | Public/Src/Sandbox/MacOs/Interop/Sandbox/Handlers/IOHandler.cpp:10-50 | life-cycle events are always allowed; only exit untracks, and a fork under breakaway does nothing |
| EventProcessor.RemoveWhitelistedPid | Public/Src/Sandbox/MacOs/Interop/Sandbox/Sandbox.hpp:68-77 | the pid is erased, the other entries are kept, and the result says whether it was there |
| EventProcessor.Whitelist | Public/Src/Sandbox/MacOs/Interop/Sandbox/EventProcessor.hpp:33-35 | emplace adds the pid as true unless it is already there, and keeps every other entry |
| EventProcessor.Step | Public/Src/Sandbox/MacOs/Interop/Sandbox/EventProcessor.hpp:13-59 | the step shared by both versions: the whitelist changes only when the event is handled, and a handled event is the handler's result |
| EventProcessor.FoundAcrossCopies | Public/Src/Sandbox/MacOs/Interop/Sandbox/EventProcessor.hpp:21-22 | the as-written parent test, `find` on one copy of the pid map compared with `end` of another: it is taken to succeed for every pid, what a node-based std::map gives for this undefined comparison |
| EventProcessor.ProcessEventAsWritten | Public/Src/Sandbox/MacOs/Interop/Sandbox/EventProcessor.hpp:21-35 | as written, no event is ever muted or hits the assertion, and the whitelist never gains a pid |
| EventProcessor.ProcessEvent | Public/Src/Sandbox/MacOs/Interop/Sandbox/EventProcessor.hpp:13-59 | the host's events return at once; an event whose parents are not whitelisted is muted (or asserts); it is handled exactly when a parent is whitelisted and its pid is tracked; a fork whitelists the pid and an exit removes it |
| EventProcessor.RemoveIsIdempotent | Public/Src/Sandbox/MacOs/Interop/Sandbox/Sandbox.hpp:68-77 | removing a pid twice: the second removal finds nothing and changes nothing |
| EventProcessor.RemoveUndoesWhitelist | Public/Src/Sandbox/MacOs/Interop/Sandbox/Sandbox.hpp:68-77 | whitelisting a new pid and then removing it restores the map |
| EventProcessor.ForkAdmitsChildren | Public/Src/Sandbox/MacOs/Interop/Sandbox/EventProcessor.hpp:21-41 | once a tracked process has forked, its tracked children's events are handled rather than muted |
| EventProcessor.ExitFiltersChildren | Public/Src/Sandbox/MacOs/Interop/Sandbox/EventProcessor.hpp:21-56 | after a process exits, events whose only whitelisted parent it was are filtered out again |
| EventProcessor.AsWrittenAgreesWhenWhitelisted | Public/Src/Sandbox/MacOs/Interop/Sandbox/EventProcessor.hpp:13-59 | the two versions agree on every event whose parent is whitelisted, except for the map a fork leaves |
| EventProcessor.WhitelistExample | Public/Src/Sandbox/MacOs/Interop/Sandbox/EventProcessor.hpp:21-35 | as written, a fork leaves the map unchanged and a stray event is handled; corrected, the fork whitelists its pid and the stray event is muted |
| SubstitutePlugin.Find | Public/Src/Engine/UnitTests/Processes.TestPrograms/SubstituteProcessExecutionPlugin/dllmain.cpp:60-76 | wstring::find: the first index at which the marker occurs, or npos (-1) exactly when it occurs nowhere |
| SubstitutePlugin.CommandMatches | Public/Src/Engine/UnitTests/Processes.TestPrograms/SubstituteProcessExecutionPlugin/dllmain.cpp:52-79 | the shim is injected exactly when neither the command nor the arguments (NULL skipped) contain "DoNotShimMe" |
| SubstitutePlugin.DllMain | Public/Src/Engine/UnitTests/Processes.TestPrograms/SubstituteProcessExecutionPlugin/dllmain.cpp:12-27 | every notification succeeds |
| SubstitutePlugin.MarkerIsCaseSensitive | Public/Src/Engine/UnitTests/Processes.TestPrograms/SubstituteProcessExecutionPlugin/dllmain.cpp:58-67 | the marker is matched case-sensitively: "DONOTSHIMME" does not stop the shim, and NULL never does |

## Where the documentation and the code differ

The model follows the code in each of these cases.

- **IOHandler.cpp:59-88 (HandleOpen).** A comment promises a lookup check when
  the path's mode cannot be found. The code returns Invalid before it gets
  there. `IOHandler.OpenNeverLooksUp` states that the fallback cannot be reached.
- **detours.c:119-142.** report_access computes a "real" access from the
  path's mode and never uses it. The model reports the access the caller
  asked for.
- **EventProcessor.hpp:54.** `assert(false)` is modelled as the outcome
  `AssertFails`. A release build compiles it out and does nothing.
- **detours.cpp:387-389 (ReportFileOpen).** The comment says that opening an
  existing path with O_CREAT or O_TRUNC is a Write, whatever the access mode.
  The code (detours.cpp:394) also asks for O_WRONLY, and the tracer
  (PTraceSandbox.cpp:482) asks for O_WRONLY or O_RDWR. `Reports.OpenEvent`
  follows the tracer's access-mode test. So an existing file opened
  `O_RDONLY | O_TRUNC` is an Open in the model, not the Write the comment
  promises (`Reports.ReadOnlyTruncateIsOpen`).
- **PTraceSandbox.cpp:358-403.** A PTRACE_PEEKTEXT result of -1 is read as a
  failed peek, even when the word really is all ones. The model has the same
  ambiguity: an all-ones word ends the argument.

## Left out

- The policy tree, the manifest and `AccessCheckResult::Combine`. A check is a
  verdict parameter, or its deny bit. The macOS handlers return the list of
  checks they ask for rather than a combined result.
- The transports are left out: the pipe and FIFO writes, the message queue
  (beyond `Daemon.Deliver`) and EndpointSecurity's client calls
  (`es_mute_process`). So are locking: the `timed_mutex`, the shared mutex of
  ResolvedPathCache, and the AccessCache lock (modelled as a flag).
- Real system calls are oracles: the `lstat` and `stat` maps, the symbolic-link
  map, and the descriptors' links. fork and clone return values are inputs.
  The ptrace and seccomp calls are the wait statuses and memory given to
  `PTrace.Trace` and `PTrace.ReadArgumentString`.
- `get_variadic_argc` and `parse_variadic_args` in utils.c are left out. The
  variadic list is a sequence.
- `is_statically_linked` and the ELF inspection behind it are left out. The
  daemon is told which processes to trace.
- The `copy_file_range` and `sendfile` handlers are left out. They are
  descriptor reports of the same form as `PTrace.HandleReportAccessFd`.
- Decimal.Atoi: the overflow of atoi on more than 10 digits is not modelled.
  The value is the unbounded integer.
- CaseInsensitive.EqualHashesAlike: std::hash is a parameter. Only "equal
  strings hash alike" is stated, not the hash's distribution.
- ResolvedPathCache.Invalidate: the `it_next` iterator walk is modelled as a
  walk over the key set in an arbitrary order. Erasing an entry the walk has
  not reached yet cannot happen, because only the current entry is erased.
- AccessHandler.CheckAndReport: `kDataPartitionPrefix` and
  `kAdjustedPrefixLength` are defined outside these files, and are parameters.
  `PolicyResult.Path()` is taken to be the path that was queried.
- AccessHandler.FileOpReport: the report is a record. Its C layout and the
  callback that receives it are not modelled.
- IOHandler.ReadOnlyKindsNeverMutate: an open of a path that lstat cannot find
  is Invalid rather than a check. The lemma states the property for the checks
  that are made.
- EventProcessor.ProcessEventAsWritten: comparing iterators of two copies of
  the map is undefined behaviour. The model takes the outcome a node-based
  std::map gives: the test is always true.
- IOEvents.NewIOEvent: realpath is an oracle, and the event's serialisation
  format (IOEvent.cpp) is not part of this model. Only `max_size` is.
- The macOS `PATH_MAX` is 1024. It is used by PathInfo, IOEvents and
  AccessHandler. The Linux modules use Posix.PATH_MAX, 4096.
- PathResolver.NormalizePathAt: the join uses unbounded strcpy into the
  `fullpath` buffer of PATH_MAX characters (bxl_observer.cpp:897-910). A
  longer path overflows that buffer, which is undefined behaviour. The model
  joins whole strings. A working directory that getcwd cannot fit into the
  buffer (bxl_observer.cpp:887-890) is not modelled either: a present `cwd` is
  taken to fit.
- FdTable.FdToPath: a link of PATH_MAX characters or more fills fd_to_path's
  buffer (bxl_observer.cpp:834-860) with no NUL after it. The `std::string`
  then built from the buffer, both returned and cached, reads past its end,
  which is undefined behaviour. The model cuts such a link to the PATH_MAX
  characters the buffer holds (`FdTable.FillsBuffer`).
- PathResolver.ResolvePath: the PATH_MAX buffers are not modelled. readlink
  into a PATH_MAX buffer (bxl_observer.cpp:984) cuts a longer target, and
  the strcpy calls that splice it in have no bound; the model keeps whole
  strings.
- EnvUtils.EnsurePathsIncluded: a failed malloc returns envp unchanged
  (utils.c:276-279 and 299-302). The model has no allocation failure.
- EnvUtils.AddValueToEnv: a failed malloc returns the entry unchanged
  (utils.c:104-107). The model has no allocation failure.
- EnvUtils.EnsureEnvValue: a failed malloc returns envp unchanged
  (utils.c:39-43 and 190-193). The model has no allocation failure.
- EnvUtils.CreateEnvRoundTrip: createEnv returns NULL when malloc fails
  (utils.c:132-134). The model has no allocation failure.
- The Linux constants are those of x86-64 glibc. This includes the register
  offsets of `user_regs_struct`.

## Findings

| source | as written | input that shows it | evidently intended | confidence | as-written member | corrected member |
|---|---|---|---|---|---|---|
| Public/Src/Sandbox/Linux/utils.c:19-30 | skip_prefix advances both cursors before it compares, so the last prefix character is never compared | "ax" with prefix "ab" is accepted | every prefix character is compared | high; not executed | EnvUtils.SkipPrefixAsWritten, EnvUtils.SkipPrefixAcceptsLastCharMismatch | EnvUtils.SkipPrefix |
| Public/Src/Sandbox/Linux/bxl_observer.cpp:206-232 | the stat-class cases set the STAT key but have no `break`, so `default` replaces it with the event's own kind | a STAT after an ACCESS of the same path misses | the stat-class kinds share the STAT key | medium; not executed | AccessCache.KeyAsWritten, AccessCache.StatAfterAccessMissesAsWritten | AccessCache.Key, AccessCache.StatAfterAccessHits |
| Public/Src/Sandbox/Linux/PTraceSandbox.cpp:477-491 | `oflag & O_ACCMODE == O_WRONLY` parses as `oflag & (O_ACCMODE == O_WRONLY)`, which is `oflag & 0` | an existing file opened O_WRONLY is reported as OPEN | `(oflag & O_ACCMODE) == O_WRONLY` | high; not executed | Reports.OpenEventPTraceAsWritten, Reports.PTraceNeverWrites, PTrace.ReportOpenAsWritten | Reports.OpenEvent, Reports.PTraceAgreesExceptWrite |
| Public/Src/Sandbox/Linux/PTraceSandbox.cpp:411-415 | GetErrno computes 0xffffffffffffffff - r, which is one less than -r | mkdir failing with ENOENT (r = -2) is reported as errno 1 | 0 - r | high; not executed | PTrace.GetErrnoAsWritten, PTrace.GetErrnoOffByOneAsWritten | PTrace.GetErrno, PTrace.GetErrnoRoundTrip |
| Public/Src/Sandbox/Linux/utils.c:102-122 | the new entry is allocated with room for the old entry, the value and the NUL, but not for the ':' | an entry "P=a" gaining "b" needs 6 bytes and gets 5 | one more byte when a separator is inserted | high; not executed | EnvUtils.AddValueAllocOneShort | EnvUtils.AddValueAllocCorrectedFits |
| Public/Src/Sandbox/Linux/utils.c:273 | the prefix length is ARRAYSIZE of a pointer (8) minus 1, not the prefix's length | "LD_PRELOAD=" with one library gives "LD_PREL" and the library | the prefix's own length | high; not executed | EnvUtils.NewEntryAsWritten, EnvUtils.NewEntryAsWrittenCutsPrefix | EnvUtils.NewEntry, EnvUtils.EnsurePathsCase3Lists |
| Public/Src/Sandbox/Linux/PTraceSandbox.cpp:512-542 | the parent row is looked up under the new child's pid, which has no row yet | make (pid 10) forking pid 11 is reported with no parent and no executable | look up the tracee that forked | high; not executed | PTrace.HandleChildProcessAsWritten, PTrace.ForkLosesParentAsWritten | PTrace.HandleChildProcess, PTrace.ChildInheritsFromParent |
| Public/Src/Sandbox/MacOs/Interop/Sandbox/EventProcessor.hpp:33-35 | GetPidMap returns a copy (Sandbox.hpp:66), so the FORK emplace changes a temporary | a fork by pid 2 leaves the map at {1} | the pid is added to the sandbox's own map | high; not executed | EventProcessor.ProcessEventAsWritten, EventProcessor.WhitelistExample | EventProcessor.ProcessEvent, EventProcessor.ForkAdmitsChildren |
| Public/Src/Sandbox/Linux/bxl_observer.cpp:316-353 | the debug truncation keeps up to PATH_MAX minus the overflow characters of the path, which need not shorten it at all; the rebuilt report is cut by snprintf, and its length prefix still announces the untruncated length | any over-long debug report whose path is shorter than PATH_MAX: it is delivered with a prefix of MaxMessageLength or more and a body ending in a NUL, so the reader cannot read it back | cut just enough of the path for the report to fit PIPE_BUF | medium; not executed | Reporting.SendReportAsWritten, Reporting.DebugTruncationStillOverflows | Reporting.SendReport, Reporting.SendReportDelivers |
| Public/Src/Sandbox/Linux/PTraceSandbox.cpp:358-403 | the copy loop has no bound against the PATH_MAX buffer | 4104 readable bytes without a NUL are stored past the buffer | stop at PATH_MAX characters, so the NUL lands in the buffer's last byte | high; not executed | PTrace.ReadOverrunsBufferAsWritten | PTrace.ReadArgumentString, PTrace.BoundedAgrees |
| Public/Src/Sandbox/Linux/PTraceSandbox.cpp:804-816 | unlinkat is reported only when `dirfd != AT_FDCWD && path nonempty` | `rm out.txt` (unlinkat(AT_FDCWD, "out.txt", 0)) is not reported | skip only the empty path relative to the working directory, as detours.cpp:592-598 does | high; not executed | PTrace.HandleUnlinkatAsWritten, PTrace.UnlinkatFromCwdUnreportedAsWritten | PTrace.HandleUnlinkat, PTrace.UnlinkatCoversUnlink |
| Public/Src/Sandbox/Linux/detours.cpp:390-401 | the write test is `oflag & O_WRONLY`, which is false for O_RDWR | an existing file opened O_RDWR \| O_TRUNC is reported as OPEN | test the access mode for O_WRONLY or O_RDWR | high; not executed | Reports.OpenEventDetoursAsWritten, Reports.TruncatingReadWriteIsOpenAsWritten, Detours.ReportFileOpenAsWritten, Detours.TruncatingOpenReportedAsRead | Reports.OpenEvent, Reports.DetoursAgreesExceptReadWrite |
| Public/Src/Sandbox/MacOs/Interop/Sandbox/Handlers/IOHandler.hpp:54-65 | with a NUL inside the directory token, memccpy stops just after that NUL and the '/' overwrites it, so `fileLength = end - data` already counts the '/'; the name is then copied at `fileLength + 1`, one byte further on, and the zero byte left in between ends the string before the name | directory "ab" + NUL (length 3) joined with "c" gives "ab/" | the name follows the '/' directly | medium; not executed | PathInfo.JoinAsWritten, PathInfo.JoinAsWrittenDropsName, PathInfo.JoinAsWrittenExample | PathInfo.Join, PathInfo.JoinJoins |
| Public/Src/Sandbox/MacOs/Interop/Sandbox/EventProcessor.hpp:21-22 | `find` on one copy of the map is compared with `end()` of another copy, which is undefined behaviour and, with node-based maps, always unequal | an event from pid 9 whose parents 8 were never whitelisted is handled, not muted | look both up in one map | medium; not executed | EventProcessor.ProcessEventAsWritten, EventProcessor.WhitelistExample | EventProcessor.ProcessEvent, EventProcessor.ExitFiltersChildren |

=== FILE: accesscache.dfy ===
/**
 The Linux observer's de-duplication cache (IsCacheHit in bxl_observer.cpp).
 An access is remembered under a key derived from its event type; a second
 access with the same key and path is a hit and is not reported again.
 Accesses are never cached once the observer is disposed, when they name a
 second path, or when they are FORK, EXEC or EXIT. The cache is guarded by a
 timed mutex; `acquired` says whether the 1 ms try-lock succeeded.
 */
module AccessCache {
  import opened Events

  type Cache = map<EventType, set<string>>

  /** One call to IsCacheHit: the event, its two paths and the outcome of the try-lock. */
  datatype Call = Call(event: EventType, path: string, secondPath: string, acquired: bool)

  /** The key as the source computes it: the stat-class cases fall through into `default`. */
  function KeyAsWritten(e: EventType): (k: EventType)
    ensures e.Notify? && WriteClass(e.kind) ==> k == Notify(Write)
    ensures !(e.Notify? && WriteClass(e.kind)) ==> k == e
  {
    match e
    case Notify(kind) => if WriteClass(kind) then Notify(Write) else e
    case _ => e
  }

  /** The key with the intended coalescing: write-class kinds share WRITE and stat-class kinds share STAT. */
  function Key(e: EventType): (k: EventType)
    ensures e.Notify? && WriteClass(e.kind) ==> k == Notify(Write)
    ensures e.Notify? && StatClass(e.kind) ==> k == Notify(Stat)
    ensures !(e.Notify? && (WriteClass(e.kind) || StatClass(e.kind))) ==> k == e
  {
    match e
    case Notify(kind) =>
      if WriteClass(kind) then Notify(Write)
      else if StatClass(kind) then Notify(Stat)
      else e
    case _ => e
  }

  /** Whether IsCacheHit consults the cache at all. */
  predicate Cacheable(disposed: bool, a: Call) {
    !disposed && |a.secondPath| == 0 && !(a.event.Notify? && Lifecycle(a.event.kind)) && a.acquired
  }

  predicate Seen(cache: Cache, key: EventType, path: string) {
    key in cache && path in cache[key]
  }

  /** The cache after `path` is inserted under `key`. */
  function Record(cache: Cache, key: EventType, path: string): (c: Cache)
    ensures c.Keys == cache.Keys + {key}
    ensures forall k, p :: Seen(c, k, p) <==> Seen(cache, k, p) || (k == key && p == path)
  {
    cache[key := (if key in cache then cache[key] else {}) + {path}]
  }

  /** IsCacheHit as written: a hit when the path was seen before under the same (as-written) key. */
  function IsCacheHitAsWritten(disposed: bool, cache: Cache, a: Call): (r: (bool, Cache))
    ensures !Cacheable(disposed, a) ==> r == (false, cache)
    ensures Cacheable(disposed, a) ==>
      (r.0 <==> Seen(cache, KeyAsWritten(a.event), a.path)) && r.1 == Record(cache, KeyAsWritten(a.event), a.path)
  {
    if !Cacheable(disposed, a) then (false, cache)
    else
      var key := KeyAsWritten(a.event);
      (Seen(cache, key, a.path), Record(cache, key, a.path))
  }

  /** IsCacheHit with the intended key. */
  function IsCacheHit(disposed: bool, cache: Cache, a: Call): (r: (bool, Cache))
    ensures !Cacheable(disposed, a) ==> r == (false, cache)
    ensures Cacheable(disposed, a) ==>
      (r.0 <==> Seen(cache, Key(a.event), a.path)) && r.1 == Record(cache, Key(a.event), a.path)
  {
    if !Cacheable(disposed, a) then (false, cache)
    else
      var key := Key(a.event);
      (Seen(cache, key, a.path), Record(cache, key, a.path))
  }

  /** A cacheable access seen once is a hit the next time, for any event with the same key. */
  lemma RepeatHits(disposed: bool, cache: Cache, a: Call, b: Call)
    requires Cacheable(disposed, a) && Cacheable(disposed, b)
    requires Key(a.event) == Key(b.event) && a.path == b.path
    ensures IsCacheHit(disposed, IsCacheHit(disposed, cache, a).1, b).0
  {
  }

  /** The hits of a sequence of calls, starting from `cache`. */
  function Run(disposed: bool, cache: Cache, accesses: seq<Call>): (hits: seq<bool>)
    ensures |hits| == |accesses|
    decreases |accesses|
  {
    if |accesses| == 0 then []
    else
      var (hit, cache') := IsCacheHit(disposed, cache, accesses[0]);
      [hit] + Run(disposed, cache', accesses[1..])
  }

  /** Access `j` fills the cache entry that access `i` asks about. */
  predicate Earlier(disposed: bool, accesses: seq<Call>, j: nat, i: nat)
    requires j < |accesses| && i < |accesses|
  {
    Cacheable(disposed, accesses[j]) && Key(accesses[j].event) == Key(accesses[i].event) && accesses[j].path == accesses[i].path
  }

  /**
   The cache as a record of history: a call is a hit exactly when it is
   cacheable and its key and path were already in the cache or were
   recorded by an earlier cacheable call.
   */
  lemma {:induction false} RunHitsIffSeen(disposed: bool, cache: Cache, accesses: seq<Call>, i: nat)
    requires i < |accesses|
    ensures Run(disposed, cache, accesses)[i] <==>
      Cacheable(disposed, accesses[i]) &&
      (Seen(cache, Key(accesses[i].event), accesses[i].path) || exists j: nat :: j < i && Earlier(disposed, accesses, j, i))
    decreases i
  {
    var a := accesses[0];
    var cache' := IsCacheHit(disposed, cache, a).1;
    if i > 0 {
      var rest := accesses[1..];
      var k := i - 1;
      RunHitsIffSeen(disposed, cache', rest, k);
      assert rest[k] == accesses[i];
      var key, path := Key(accesses[i].event), accesses[i].path;
      assert Seen(cache', key, path) <==> Seen(cache, key, path) || Earlier(disposed, accesses, 0, i);
      if exists j: nat :: j < k && Earlier(disposed, rest, j, k) {
        var j: nat :| j < k && Earlier(disposed, rest, j, k);
        assert Earlier(disposed, accesses, j + 1, i);
      }
      if exists j: nat :: j < i && Earlier(disposed, accesses, j, i) {
        var j: nat :| j < i && Earlier(disposed, accesses, j, i);
        if j > 0 {
          assert Earlier(disposed, rest, j - 1, k);
        }
      }
    }
  }

  /** From an empty cache, a call is a hit exactly when an earlier cacheable call had the same key and path. */
  lemma HitIffEarlier(disposed: bool, accesses: seq<Call>, i: nat)
    requires i < |accesses|
    ensures Run(disposed, map[], accesses)[i] <==>
      Cacheable(disposed, accesses[i]) && exists j: nat :: j < i && Earlier(disposed, accesses, j, i)
  {
    RunHitsIffSeen(disposed, map[], accesses, i);
  }

  /** Write-class events share one key: a WRITE after a TRUNCATE of the same path is a hit. */
  lemma WritesCoalesce(cache: Cache, path: string)
    ensures var first := IsCacheHit(false, cache, Call(Notify(Truncate), path, "", true));
      IsCacheHit(false, first.1, Call(Notify(Write), path, "", true)).0
  {
  }

  /**
   As written, the stat-class kinds are not coalesced: a STAT right after an
   ACCESS of the same path, from an empty cache, is a miss.
   */
  lemma StatAfterAccessMissesAsWritten(path: string)
    ensures var first := IsCacheHitAsWritten(false, map[], Call(Notify(Access), path, "", true));
      !IsCacheHitAsWritten(false, first.1, Call(Notify(Stat), path, "", true)).0
  {
    assert KeyAsWritten(Notify(Access)) != KeyAsWritten(Notify(Stat));
  }

  /** With the intended key, the same STAT is a hit. */
  lemma StatAfterAccessHits(path: string)
    ensures var first := IsCacheHit(false, map[], Call(Notify(Access), path, "", true));
      IsCacheHit(false, first.1, Call(Notify(Stat), path, "", true)).0
  {
  }
}

=== FILE: accesshandler.dfy ===
/**
 The macOS sandbox's access handler (AccessHandler.cpp): how a path is
 turned into a policy lookup, and how the outcome of a check, or a process
 life-cycle event, becomes an AccessReport for BuildXL.

 The policy tree and the checkers are not part of this model. A checker's
 outcome is the parameter `verdict`: the access it requests, the file
 access status, the report level and whether it is reported at all. The
 data-partition prefix and the length it is skipped by are defined outside
 these files and are parameters too.
 */
module AccessHandler {
  import opened Wrappers
  import opened Strs

  /** MAXPATHLEN on macOS: the size of AccessReport's path field. */
  const MAXPATHLEN: nat := 1024

  /** RequestedAccess::Read. */
  const ReadAccess: nat := 1

  /** The operations the handlers report (FileOperation, without the kOp prefix). */
  datatype FileOperation =
    | MacLookup | MacReadlink | MacVNodeCreate | MacVNodeCloneSource | MacVNodeCloneDest
    | KAuthOpenDir | KAuthReadFile | KAuthClose | KAuthCloseModified
    | KAuthCreateHardlinkSource | KAuthCreateHardlinkDest | KAuthDeleteDir | KAuthDeleteFile
    | KAuthMoveSource | KAuthMoveDest | KAuthCopySource | KAuthCopyDest | KAuthCreateDir
    | KAuthVNodeWrite | KAuthVNodeRead | KAuthVNodeProbe
    | ProcessStart | ProcessExit | ProcessTreeCompleted

  /** The policy checks a handler can ask for (Checkers::Check*). */
  datatype Checker =
    | CheckRead | CheckWrite | CheckReadWrite | CheckLookup | CheckProbe | CheckEnumerateDir
    | CheckCreateSymlink | CheckCreateDirectory | CheckCreateDirectoryNoEnforcement

  datatype FileAccessStatus = Allowed | Denied | CannotDeterminePolicy

  datatype ReportLevel = Ignore | Report | ReportExplicit

  /** What AccessCheckResult exposes to the report: the access, its status, its level and ShouldReport(). */
  datatype CheckResult = CheckResult(access: nat, status: FileAccessStatus, level: ReportLevel, shouldReport: bool)

  datatype AccessReport = AccessReport(
    operation: FileOperation,
    pid: int,
    rootPid: int,
    requestedAccess: nat,
    status: FileAccessStatus,
    reportExplicitly: bool,
    error: nat,
    pipId: int,
    isDirectory: bool,
    shouldReport: bool,
    path: string)

  /** A pip: its root process id, its id and whether its manifest disables the sandbox. */
  datatype Pip = Pip(processId: int, pipId: int, detoursDisabled: bool)

  /** A tracked process: its executable path and the pip it belongs to. */
  datatype Process = Process(path: string, pip: Pip)

  /** strlcpy into a buffer of `size` characters: at most size - 1 characters are kept. */
  function Strlcpy(src: string, size: nat): (d: string)
    requires size > 0
    ensures IsPrefix(d, src)
    ensures |d| <= size - 1
    ensures |src| < size <==> d == src
  {
    if |src| < size then src else src[..size - 1]
  }

  /**
   is_prefix(s1, s2) as its loop is written: every character of s2 is
   compared with the next character of s1, and running off the end of s1
   compares against its NUL, which no character of s2 equals.
   */
  predicate IsPrefixC(s1: string, s2: string)
  {
    if |s2| == 0 then true
    else if |s1| == 0 then false
    else s1[0] == s2[0] && IsPrefixC(s1[1..], s2[1..])
  }

  /** is_prefix(s1, s2) holds exactly when s2 is a prefix of s1. */
  lemma {:induction false} IsPrefixCIff(s1: string, s2: string)
    ensures IsPrefixC(s1, s2) <==> IsPrefix(s2, s1)
  {
    if |s2| > 0 && |s1| > 0 {
      IsPrefixCIff(s1[1..], s2[1..]);
      if IsPrefix(s2, s1) {
        assert s1[1..][..|s2| - 1] == s1[..|s2|][1..];
      }
      if IsPrefixC(s1, s2) {
        assert s1[..|s2|] == [s1[0]] + s1[1..][..|s2| - 1];
      }
    }
  }

  /** IgnoreDataPartitionPrefix: a path under the data partition is shortened by `adjust` characters. */
  function IgnoreDataPartitionPrefix(path: string, dataPrefix: string, adjust: nat): (r: string)
    requires adjust <= |dataPrefix|
    ensures IsPrefix(dataPrefix, path) ==> r == path[adjust..]
    ensures !IsPrefix(dataPrefix, path) ==> r == path
  {
    IsPrefixCIff(path, dataPrefix);
    if IsPrefixC(path, dataPrefix) then path[adjust..] else path
  }

  /**
   FindManifestRecord: the policy tree is searched with the path less its
   leading '/'; a length of -1 stands for "up to the NUL".
   */
  function ManifestKey(absolutePath: string, pathLength: int): (r: (string, int))
    requires |absolutePath| > 0 && absolutePath[0] == '/'
    ensures "/" + r.0 == absolutePath
    ensures pathLength == -1 ==> r.1 == |absolutePath| - 1
    ensures pathLength != -1 ==> r.1 == pathLength
  {
    var key := absolutePath[1..];
    assert "/" + key == absolutePath;
    (key, if pathLength == -1 then |key| else pathLength)
  }

  /** TryInitializeWithTrackedProcess: the tracked process for `pid`, unless there is none or its pip disables the sandbox. */
  function TryInitializeWithTrackedProcess(tracked: map<int, Process>, pid: int): (r: Option<Process>)
    ensures r.Some? <==> pid in tracked && !tracked[pid].pip.detoursDisabled
    ensures r.Some? ==> r.value == tracked[pid]
  {
    if pid !in tracked || tracked[pid].pip.detoursDisabled then None else Some(tracked[pid])
  }

  /**
   CreateReportFileOpAccess: the report carries the operation, the pid, the
   pip's root pid and id, the check's access and status, whether it is
   reported explicitly and at all, and the policy path cut to the field.
   */
  function FileOpReport(proc: Process, operation: FileOperation, policyPath: string, check: CheckResult,
                        pid: int, isDir: bool, error: nat): (r: AccessReport)
    requires |policyPath| > 0
    ensures r.operation == operation && r.pid == pid && r.isDirectory == isDir && r.error == error
    ensures r.rootPid == proc.pip.processId && r.pipId == proc.pip.pipId
    ensures r.requestedAccess == check.access && r.status == check.status
    ensures r.reportExplicitly <==> check.level == ReportExplicit
    ensures r.shouldReport == check.shouldReport
    ensures |r.path| > 0 && IsPrefix(r.path, policyPath)
    ensures |policyPath| < MAXPATHLEN ==> r.path == policyPath
  {
    AccessReport(operation, pid, proc.pip.processId, check.access, check.status,
                 check.level == ReportExplicit, error, proc.pip.pipId, isDir, check.shouldReport,
                 Strlcpy(policyPath, MAXPATHLEN))
  }

  /** The common shape of the three process life-cycle reports: allowed, error 0, not a directory, always reported, with the process's own path. */
  function ProcessReport(proc: Process, operation: FileOperation, pid: int, access: nat): (r: AccessReport)
    ensures r.status == Allowed && r.error == 0 && !r.isDirectory && r.shouldReport && !r.reportExplicitly
    ensures r.operation == operation && r.pid == pid && r.requestedAccess == access
    ensures r.rootPid == proc.pip.processId && r.pipId == proc.pip.pipId
    ensures r.path == Strlcpy(proc.path, MAXPATHLEN)
  {
    AccessReport(operation, pid, proc.pip.processId, access, Allowed, false, 0, proc.pip.pipId,
                 false, true, Strlcpy(proc.path, MAXPATHLEN))
  }

  /** CreateReportProcessTreeCompleted: no access is requested. */
  function TreeCompletedReport(proc: Process, processId: int): (r: AccessReport)
    ensures r.operation == ProcessTreeCompleted && r.pid == processId && r.requestedAccess == 0
    ensures r.status == Allowed && r.error == 0 && r.path == Strlcpy(proc.path, MAXPATHLEN)
  {
    ProcessReport(proc, ProcessTreeCompleted, processId, 0)
  }

  /** CreateReportProcessExited: no access is requested. */
  function ProcessExitedReport(proc: Process, childPid: int): (r: AccessReport)
    ensures r.operation == ProcessExit && r.pid == childPid && r.requestedAccess == 0
    ensures r.status == Allowed && r.error == 0 && r.path == Strlcpy(proc.path, MAXPATHLEN)
  {
    ProcessReport(proc, ProcessExit, childPid, 0)
  }

  /** CreateReportChildProcessSpawned: a read of the executable; the process path must not be empty. */
  function ChildSpawnedReport(proc: Process, childPid: int): (r: AccessReport)
    requires |proc.path| > 0
    ensures r.operation == ProcessStart && r.pid == childPid && r.requestedAccess == ReadAccess
    ensures r.status == Allowed && r.error == 0 && r.path == Strlcpy(proc.path, MAXPATHLEN)
    ensures |r.path| > 0
  {
    ProcessReport(proc, ProcessStart, childPid, ReadAccess)
  }

  /** A path the policy can be asked about: absolute, hence not empty. */
  predicate PolicyPath(p: string) {
    |p| > 0 && p[0] == '/'
  }

  /**
   CheckAndCreateReportInternal: the path less the data-partition prefix is
   the policy path; the checker's verdict on it is returned, together with
   the report built from it.
   */
  function CheckAndReport(proc: Process, operation: FileOperation, path: string, checker: Checker,
                          pid: int, isDir: bool, error: nat,
                          verdict: (Checker, string, bool) -> CheckResult,
                          dataPrefix: string, adjust: nat): (r: (CheckResult, AccessReport))
    requires adjust <= |dataPrefix|
    requires PolicyPath(IgnoreDataPartitionPrefix(path, dataPrefix, adjust))
    ensures var policyPath := IgnoreDataPartitionPrefix(path, dataPrefix, adjust);
      r.0 == verdict(checker, policyPath, isDir) &&
      r.1 == FileOpReport(proc, operation, policyPath, r.0, pid, isDir, error)
  {
    var policyPath := IgnoreDataPartitionPrefix(path, dataPrefix, adjust);
    var result := verdict(checker, policyPath, isDir);
    (result, FileOpReport(proc, operation, policyPath, result, pid, isDir, error))
  }

  /** The three life-cycle reports differ only in operation, pid and requested access. */
  lemma LifecycleReportsAgree(proc: Process, a: int, b: int)
    requires |proc.path| > 0
    ensures TreeCompletedReport(proc, a).(operation := ProcessExit, pid := b) == ProcessExitedReport(proc, b)
    ensures ProcessExitedReport(proc, a).(operation := ProcessStart, pid := b, requestedAccess := ReadAccess) ==
            ChildSpawnedReport(proc, b)
  {
  }

  /** A path under the data partition and the same path without it reach the same policy entry when `adjust` strips exactly the prefix. */
  lemma DataPartitionIsTransparent(rest: string, dataPrefix: string)
    requires !IsPrefix(dataPrefix, rest)
    ensures IgnoreDataPartitionPrefix(dataPrefix + rest, dataPrefix, |dataPrefix|) ==
            IgnoreDataPartitionPrefix(rest, dataPrefix, |dataPrefix|)
  {
    assert IsPrefix(dataPrefix, dataPrefix + rest);
    assert (dataPrefix + rest)[|dataPrefix|..] == rest;
  }
}

=== FILE: caseinsensitive.dfy ===
/**
 The case-insensitive string comparer, ordering and hasher the Windows
 interposer keys its path sets and maps with (UtilityHelpers.h). Lower-casing
 is towlower in the C locale, which maps exactly the letters A-Z.
 */
module CaseInsensitive {

  function ToLower(c: char): (l: char)
    ensures 'A' <= c <= 'Z' ==> l as int == c as int + 32
    ensures !('A' <= c <= 'Z') ==> l == c
  {
    if 'A' <= c <= 'Z' then (c as int + 32) as char else c
  }

  function Lower(s: string): (l: string)
    ensures |l| == |s|
    ensures forall i :: 0 <= i < |s| ==> l[i] == ToLower(s[i])
  {
    seq(|s|, i requires 0 <= i < |s| => ToLower(s[i]))
  }

  function Reverse(s: string): (r: string)
    ensures |r| == |s|
    ensures forall i :: 0 <= i < |s| ==> r[i] == s[|s| - 1 - i]
  {
    seq(|s|, i requires 0 <= i < |s| => s[|s| - 1 - i])
  }

  /** CaseInsensitiveStringComparer: same length and equal character by character after lower-casing. */
  function Equal(lhs: string, rhs: string): (r: bool)
    ensures r <==> Lower(lhs) == Lower(rhs)
  {
    assert Lower(lhs) == Lower(rhs) ==> forall i :: 0 <= i < |lhs| ==> ToLower(lhs[i]) == Lower(lhs)[i];
    |lhs| == |rhs| && forall i :: 0 <= i < |lhs| ==> ToLower(lhs[i]) == ToLower(rhs[i])
  }

  /** std::lexicographical_compare with `<` on the (already lower-cased) characters. */
  predicate LexLess(x: string, y: string)
  {
    if |x| == 0 then |y| > 0
    else if |y| == 0 then false
    else if x[0] < y[0] then true
    else if y[0] < x[0] then false
    else LexLess(x[1..], y[1..])
  }

  /**
   CaseInsensitiveStringLessThan: a shorter string comes first; between
   strings of the same length, the arguments are swapped and both are read
   backwards, lower-cased.
   */
  function LessThan(lhs: string, rhs: string): (r: bool)
    ensures |lhs| < |rhs| ==> r
    ensures |rhs| < |lhs| ==> !r
    ensures r ==> !Equal(lhs, rhs)
  {
    if |lhs| == |rhs| then
      LowerReverse(lhs, rhs);
      LexIrreflexive(Lower(Reverse(lhs)));
      LexLess(Lower(Reverse(rhs)), Lower(Reverse(lhs)))
    else |lhs| < |rhs|
  }

  /** CaseInsensitiveStringHasher: the hash of the lower-cased string, for whatever `hash` std::hash is. */
  function Hash(hash: string -> int, s: string): (h: int)
    ensures forall t :: Equal(s, t) ==> h == hash(Lower(t))
  {
    hash(Lower(s))
  }

  /** Comparer-equal is the same as equal once lower-cased. */
  lemma EqualIffSameLower(a: string, b: string)
    ensures Equal(a, b) <==> Lower(a) == Lower(b)
  {
    if Lower(a) == Lower(b) {
      assert forall i :: 0 <= i < |a| ==> ToLower(a[i]) == Lower(a)[i] == Lower(b)[i] == ToLower(b[i]);
    }
  }

  /** The comparer is an equivalence relation. */
  lemma EqualIsEquivalence(a: string, b: string, c: string)
    ensures Equal(a, a)
    ensures Equal(a, b) ==> Equal(b, a)
    ensures Equal(a, b) && Equal(b, c) ==> Equal(a, c)
  {
    EqualIffSameLower(a, b);
    EqualIffSameLower(b, c);
    EqualIffSameLower(a, c);
  }

  /** Strings the comparer calls equal hash alike. */
  lemma EqualHashesAlike(hash: string -> int, a: string, b: string)
    requires Equal(a, b)
    ensures Hash(hash, a) == Hash(hash, b)
  {
    EqualIffSameLower(a, b);
  }

  /** Lexicographic order is irreflexive. */
  lemma {:induction false} LexIrreflexive(x: string)
    ensures !LexLess(x, x)
  {
    if |x| > 0 {
      LexIrreflexive(x[1..]);
    }
  }

  /** Lexicographic order is transitive. */
  lemma {:induction false} LexTransitive(x: string, y: string, z: string)
    requires LexLess(x, y) && LexLess(y, z)
    ensures LexLess(x, z)
  {
    if |x| > 0 && |y| > 0 && |z| > 0 && x[0] == y[0] && y[0] == z[0] {
      LexTransitive(x[1..], y[1..], z[1..]);
    }
  }

  /** Between strings of one length, exactly one of less, equal and greater holds. */
  lemma {:induction false} LexTrichotomy(x: string, y: string)
    requires |x| == |y|
    ensures x == y || LexLess(x, y) || LexLess(y, x)
    ensures !(LexLess(x, y) && LexLess(y, x))
  {
    if |x| > 0 && x[0] == y[0] {
      LexTrichotomy(x[1..], y[1..]);
      if x[1..] == y[1..] {
        assert x == [x[0]] + x[1..] && y == [y[0]] + y[1..];
      }
    }
  }

  /** Reading backwards and lower-casing commute, and comparer-equality survives reading backwards. */
  lemma LowerReverse(a: string, b: string)
    ensures Lower(Reverse(a)) == Lower(Reverse(b)) <==> Equal(a, b)
  {
    EqualIffSameLower(Reverse(a), Reverse(b));
    if Equal(Reverse(a), Reverse(b)) {
      forall i | 0 <= i < |a|
        ensures ToLower(a[i]) == ToLower(b[i])
      {
        assert a[i] == Reverse(a)[|a| - 1 - i];
        assert b[i] == Reverse(b)[|b| - 1 - i];
      }
    }
  }

  /** LessThan is a strict order: irreflexive and transitive. */
  lemma LessThanIsStrictOrder(a: string, b: string, c: string)
    ensures !LessThan(a, a)
    ensures LessThan(a, b) && LessThan(b, c) ==> LessThan(a, c)
  {
    LexIrreflexive(Lower(Reverse(a)));
    if LessThan(a, b) && LessThan(b, c) && |a| == |b| == |c| {
      LexTransitive(Lower(Reverse(c)), Lower(Reverse(b)), Lower(Reverse(a)));
    }
  }

  /** Neither string is less than the other exactly when the comparer calls them equal, so LessThan is a strict weak order whose equivalence is the comparer. */
  lemma IncomparableIffEqual(a: string, b: string)
    ensures !LessThan(a, b) && !LessThan(b, a) <==> Equal(a, b)
  {
    LowerReverse(a, b);
    if |a| == |b| {
      LexTrichotomy(Lower(Reverse(a)), Lower(Reverse(b)));
      LexIrreflexive(Lower(Reverse(a)));
    }
  }

  /** Letters differing only in case are equal under the comparer; "A" and "a" are neither less than the other. */
  lemma CaseIsIgnored()
    ensures Equal("C:\\Windows", "c:\\WINDOWS")
    ensures !LessThan("A", "a") && !LessThan("a", "A")
    ensures LessThan("zz", "aaa")
  {
    IncomparableIffEqual("A", "a");
  }
}

=== FILE: daemon.dfy ===
/**
 The message protocol between a traced process and the ptrace daemon
 (ptracedaemon.cpp, with the senders in PTraceSandbox.cpp): a message is
 '|'-separated fields whose first field is the command. A run request
 carries the tracee's pid, its parent's pid, the executable and the file
 access manifest path; an exit notification carries a pid.

 Message-queue calls are the transport only: what they deliver is modelled
 by `Deliver`, and the daemon's fork/exec of the runner by the argument
 and environment vectors it builds.
 */
module Daemon {
  import opened Wrappers
  import opened Strs
  import opened Decimal
  import EnvUtils

  /** PTRACED_MQ_MSG_SIZE: the queue's message size and the senders' buffer size. */
  const MsgSize: nat := 8192

  /** enum ptracecommand. */
  const RunCommand: int := 0
  const ExitNotificationCommand: int := 1

  const BxlPTraceMqName: string := "__BUILDXL_PTRACE_MQ_NAME"
  const BxlEnvFamPath: string := "__BUILDXL_FAM_PATH"

  /**
   getsubstring: the text from `start` up to the next '|' (or the end) and
   the index just past that '|'. std::string::substr throws when `start` is
   past the end, which is `None` here.
   */
  function GetSubstring(source: string, start: nat): (r: Option<(string, nat)>)
    ensures r.None? <==> start > |source|
    ensures r.Some? ==> var (sub, next) := r.value;
      '|' !in sub && next == start + |sub| + 1 && next <= |source| + 1 &&
      source[start..start + |sub|] == sub &&
      (next <= |source| ==> source[next - 1] == '|')
  {
    if start > |source| then None
    else
      var rest := source[start..];
      var k := IndexOf(rest, '|');
      assert forall i :: 0 <= i < k ==> rest[..k][i] == rest[i];
      Some((rest[..k], start + k + 1))
  }

  /** A '|'-free field at `start`, followed by '|' or the end, is read whole. */
  lemma GetSubstringField(source: string, start: nat, field: string)
    requires start + |field| <= |source| && source[start..start + |field|] == field
    requires '|' !in field
    requires start + |field| == |source| || source[start + |field|] == '|'
    ensures GetSubstring(source, start) == Some((field, start + |field| + 1))
  {
    var rest := source[start..];
    if |field| < |rest| {
      assert rest[|field|] == '|';
    }
    assert forall i :: 0 <= i < |field| ==> rest[i] == field[i];
  }

  /** What the daemon makes of one message; `None` when parsing throws. */
  datatype Message =
    | Run(traceePid: string, parentPid: string, exe: string, famPath: string)
    | ExitNotification(pid: int)
    | Ignored(command: int)

  /**
   The daemon's loop body: the command is atoi of the first field; a run
   request reads four more fields (each must start within the message), an
   exit notification one more, read with atoi; other commands are ignored.
   */
  function ParseMessage(source: string): (r: Option<Message>)
    ensures r.Some? && r.value.Run? ==>
      '|' !in r.value.traceePid && '|' !in r.value.parentPid && '|' !in r.value.exe && '|' !in r.value.famPath
    ensures r.Some? && r.value.Ignored? ==> r.value.command != RunCommand && r.value.command != ExitNotificationCommand
    ensures r.None? ==> Atoi(source[..IndexOf(source, '|')]) in {RunCommand, ExitNotificationCommand}
  {
    var (command, start) := GetSubstring(source, 0).value;
    var c := Atoi(command);
    if c == RunCommand then
      match GetSubstring(source, start)
      case None => None
      case Some((traceePid, s1)) =>
        match GetSubstring(source, s1)
        case None => None
        case Some((parentPid, s2)) =>
          match GetSubstring(source, s2)
          case None => None
          case Some((exe, s3)) =>
            match GetSubstring(source, s3)
            case None => None
            case Some((famPath, _)) => Some(Run(traceePid, parentPid, exe, famPath))
    else if c == ExitNotificationCommand then
      match GetSubstring(source, start)
      case None => None
      case Some((pid, _)) => Some(ExitNotification(Atoi(pid)))
    else Some(Ignored(c))
  }

  /** The run request the interposed library sends: `"%d|%d|%d|%s|%s"` of run, pid, parent pid, file and manifest path. */
  function EncodeRun(pid: int, ppid: int, file: string, fam: string): (m: string)
    ensures '|' !in file && '|' !in fam ==>
      Split(m, '|') == [ToDecimal(RunCommand), ToDecimal(pid), ToDecimal(ppid), file, fam]
  {
    var fields := [ToDecimal(RunCommand), ToDecimal(pid), ToDecimal(ppid), file, fam];
    var m := ToDecimal(RunCommand) + "|" + ToDecimal(pid) + "|" + ToDecimal(ppid) + "|" + file + "|" + fam;
    assert '|' !in file && '|' !in fam ==> Split(m, '|') == fields by {
      if '|' !in file && '|' !in fam {
        DecimalHasNoBar(RunCommand);
        DecimalHasNoBar(pid);
        DecimalHasNoBar(ppid);
        assert Join(fields[3..], '|') == file + "|" + fam by {
          assert fields[3..][1..] == [fam];
        }
        assert Join(fields[2..], '|') == ToDecimal(ppid) + "|" + file + "|" + fam by {
          assert fields[2..][1..] == fields[3..];
        }
        assert Join(fields[1..], '|') == ToDecimal(pid) + "|" + ToDecimal(ppid) + "|" + file + "|" + fam by {
          assert fields[1..][1..] == fields[2..];
        }
        assert Join(fields, '|') == m;
        SplitJoin(fields, '|');
      }
    }
    m
  }

  /** The exit notification the tracer sends: `"%d|%d"` of exitnotification and its pid. */
  function EncodeExit(pid: int): (m: string)
    ensures Split(m, '|') == [ToDecimal(ExitNotificationCommand), ToDecimal(pid)]
  {
    var fields := [ToDecimal(ExitNotificationCommand), ToDecimal(pid)];
    var m := ToDecimal(ExitNotificationCommand) + "|" + ToDecimal(pid);
    DecimalHasNoBar(ExitNotificationCommand);
    DecimalHasNoBar(pid);
    assert Join(fields, '|') == m by {
      assert fields[1..] == [ToDecimal(pid)];
    }
    SplitJoin(fields, '|');
    m
  }

  /**
   What arrives for a sent text: snprintf into a MsgSize buffer keeps at
   most MsgSize - 1 characters and a NUL and returns the full length; a
   length above MsgSize makes mq_send fail; the daemon NUL-terminates what it
   received and reads it as a C string.
   */
  function Deliver(text: string): (r: Option<string>)
    ensures r.None? <==> |text| > MsgSize
    ensures |text| < MsgSize && '\0' !in text ==> r == Some(text)
    ensures r.Some? ==> |r.value| < MsgSize && '\0' !in r.value && IsPrefix(r.value, text)
  {
    if |text| > MsgSize then None
    else
      var sent := if |text| == MsgSize then text[..MsgSize - 1] else text;
      var k := IndexOf(sent, '\0');
      assert k == |sent| ==> sent[..k] == sent;
      Some(sent[..k])
  }

  /**
   getsubstring walks the same parts Split gives: the field read at `start`
   is the first part of the rest of the message, and the next call starts
   at the remaining parts, or past the end when there are none.
   */
  lemma GetSubstringSplit(source: string, start: nat)
    requires start <= |source|
    ensures var parts := Split(source[start..], '|');
      var (sub, next) := GetSubstring(source, start).value;
      sub == parts[0] && (|parts| == 1 <==> next == |source| + 1) &&
      (|parts| > 1 ==> next <= |source| && Split(source[next..], '|') == parts[1..])
  {
    var t := source[start..];
    var k := IndexOf(t, '|');
    GetSubstringIs(source, start, t, k);
    if k < |t| {
      SplitAt(t, '|');
      assert source[start + k + 1..] == t[k + 1..];
    } else {
      SplitWhole(t, '|');
    }
  }

  /** getsubstring at `start` in terms of the rest `t` of the message and its first '|' at `k`. */
  lemma GetSubstringIs(source: string, start: nat, t: string, k: nat)
    requires start <= |source| && t == source[start..] && k == IndexOf(t, '|')
    ensures GetSubstring(source, start) == Some((t[..k], start + k + 1))
  {
  }

  /**
   The whole parse in terms of the message's '|'-separated parts: a run
   request needs five parts and takes parts 1 to 4 (more parts are
   ignored), an exit notification needs two, and with fewer the parse
   throws.
   */
  lemma ParseMessageSplit(source: string)
    ensures var parts := Split(source, '|');
      var c := Atoi(parts[0]);
      (c == RunCommand ==>
        (|parts| >= 5 <==> ParseMessage(source).Some?) &&
        (|parts| >= 5 ==> ParseMessage(source) == Some(Run(parts[1], parts[2], parts[3], parts[4])))) &&
      (c == ExitNotificationCommand ==>
        (|parts| >= 2 <==> ParseMessage(source).Some?) &&
        (|parts| >= 2 ==> ParseMessage(source) == Some(ExitNotification(Atoi(parts[1]))))) &&
      (c != RunCommand && c != ExitNotificationCommand ==> ParseMessage(source) == Some(Ignored(c)))
  {
    var parts := Split(source, '|');
    assert source[0..] == source;
    GetSubstringSplit(source, 0);
    var (_, s0) := GetSubstring(source, 0).value;
    if |parts| > 1 {
      GetSubstringSplit(source, s0);
      var (_, s1) := GetSubstring(source, s0).value;
      if |parts| > 2 {
        GetSubstringSplit(source, s1);
        var (_, s2) := GetSubstring(source, s1).value;
        if |parts| > 3 {
          GetSubstringSplit(source, s2);
          var (_, s3) := GetSubstring(source, s2).value;
          if |parts| > 4 {
            GetSubstringSplit(source, s3);
          }
        }
      }
    }
  }

  /**
   A run request is read back field for field exactly when the executable
   and the manifest path contain no '|': pids arrive as their decimal text.
   */
  lemma RunRoundTrip(pid: int, ppid: int, file: string, fam: string)
    ensures ParseMessage(EncodeRun(pid, ppid, file, fam)) == Some(Run(ToDecimal(pid), ToDecimal(ppid), file, fam))
      <==> '|' !in file && '|' !in fam
  {
    if '|' !in file && '|' !in fam {
      ParseMessageSplit(EncodeRun(pid, ppid, file, fam));
      AtoiToDecimal(RunCommand);
    }
  }

  /** An exit notification always reads back as the pid that sent it. */
  lemma ExitRoundTrip(pid: int)
    ensures ParseMessage(EncodeExit(pid)) == Some(ExitNotification(pid))
  {
    ParseMessageSplit(EncodeExit(pid));
    AtoiToDecimal(ExitNotificationCommand);
    AtoiToDecimal(pid);
  }

  /** A run request with too few fields makes the daemon's parse throw. */
  lemma ShortRunThrows()
    ensures ParseMessage("0|42") == None
  {
    assert GetSubstring("0|42", 0) == Some(("0", 2)) by {
      GetSubstringField("0|42", 0, "0");
    }
    AtoiIgnoresSuffix(0, "");
    assert ToDecimal(0) == "0";
    assert GetSubstring("0|42", 2) == Some(("42", 5)) by {
      GetSubstringField("0|42", 2, "42");
    }
  }

  /** getenvvar: "name=value", the same entry createEnv builds. */
  function GetEnvVar(name: string, value: string): (e: string)
    ensures e == EnvUtils.CreateEnv(name, value)
    ensures IsPrefix(name + "=", e) && e[|name| + 1..] == value
  {
    name + "=" + value
  }

  /** How the daemon starts the runner for a run request. */
  datatype Launch = Launch(argv: seq<string>, envp: seq<string>)

  /**
   The runner's argument vector (`-c pid -p ppid -x exe -m queue`) and its
   environment: the queue name and the manifest path, nothing else.
   */
  function LaunchRunner(m: Message, mqName: string): (l: Launch)
    requires m.Run?
    ensures l.argv == ["ptracerunner", "-c", m.traceePid, "-p", m.parentPid, "-x", m.exe, "-m", mqName]
    ensures l.envp == [GetEnvVar(BxlPTraceMqName, mqName), GetEnvVar(BxlEnvFamPath, m.famPath)]
  {
    Launch(["ptracerunner", "-c", m.traceePid, "-p", m.parentPid, "-x", m.exe, "-m", mqName],
           [GetEnvVar(BxlPTraceMqName, mqName), GetEnvVar(BxlEnvFamPath, m.famPath)])
  }
}

=== FILE: decimal.dfy ===
/**
 Decimal text for integers, as the sandbox's messages carry process ids:
 `%d` / std::to_string on the writing side and atoi on the reading side.
 atoi is modelled on unbounded integers: its behaviour on values outside
 `int` is undefined in C and not part of this model.
 */
module Decimal {

  predicate IsDigit(c: char) {
    '0' <= c <= '9'
  }

  /** The white-space characters atoi skips (isspace in the C locale). */
  predicate IsSpace(c: char) {
    c == ' ' || c == '\t' || c == '\n' || c == '\U{B}' || c == '\U{C}' || c == '\r'
  }

  function DigitChar(d: nat): (c: char)
    requires d < 10
    ensures IsDigit(c)
  {
    (d + '0' as int) as char
  }

  function DigitValue(c: char): (d: nat)
    requires IsDigit(c)
    ensures d < 10 && DigitChar(d) == c
  {
    (c as int - '0' as int)
  }

  /** The digits of `n`, most significant first, without leading zeros. */
  function Digits(n: nat): (s: string)
    ensures 1 <= |s|
    ensures forall i :: 0 <= i < |s| ==> IsDigit(s[i])
    ensures |s| > 1 ==> s[0] != '0'
  {
    if n < 10 then [DigitChar(n)] else Digits(n / 10) + [DigitChar(n % 10)]
  }

  /** `%d`: a minus sign for negative values, then the digits. */
  function ToDecimal(n: int): (s: string)
    ensures |s| >= 1
    ensures forall i :: 0 <= i < |s| ==> IsDigit(s[i]) || (i == 0 && s[i] == '-')
    ensures n >= 0 <==> IsDigit(s[0])
  {
    if n < 0 then "-" + Digits(-n) else Digits(n)
  }

  /** The value of a string of digits, read most significant first. */
  function DigitsValue(s: string): nat
    requires forall i :: 0 <= i < |s| ==> IsDigit(s[i])
  {
    if |s| == 0 then 0 else 10 * DigitsValue(s[..|s| - 1]) + DigitValue(s[|s| - 1])
  }

  /** The number of digits `s` starts with. */
  function LeadingDigits(s: string): (k: nat)
    ensures k <= |s|
    ensures forall i :: 0 <= i < k ==> IsDigit(s[i])
    ensures k < |s| ==> !IsDigit(s[k])
  {
    if |s| == 0 || !IsDigit(s[0]) then 0
    else
      var k := LeadingDigits(s[1..]);
      assert forall i :: 1 <= i < 1 + k ==> s[i] == s[1..][i - 1];
      1 + k
  }

  /** The number of white-space characters `s` starts with. */
  function LeadingSpaces(s: string): (k: nat)
    ensures k <= |s|
    ensures forall i :: 0 <= i < k ==> IsSpace(s[i])
    ensures k < |s| ==> !IsSpace(s[k])
  {
    if |s| == 0 || !IsSpace(s[0]) then 0
    else
      var k := LeadingSpaces(s[1..]);
      assert forall i :: 1 <= i < 1 + k ==> s[i] == s[1..][i - 1];
      1 + k
  }

  /** The value of the digits at the start of `s`; 0 when there are none. */
  function PrefixValue(s: string): (v: nat)
    ensures LeadingDigits(s) == 0 ==> v == 0
  {
    DigitsValue(s[..LeadingDigits(s)])
  }

  /**
   atoi: leading white space is skipped, an optional sign is read, then as
   many digits as follow; anything after them, and a string with no digits
   at all, contributes nothing.
   */
  function Atoi(s: string): (v: int)
    ensures var t := s[LeadingSpaces(s)..];
      (|t| > 0 && t[0] == '-' ==> v == -(PrefixValue(t[1..]) as int)) &&
      (|t| > 0 && t[0] == '+' ==> v == PrefixValue(t[1..])) &&
      (|t| == 0 || (t[0] != '-' && t[0] != '+') ==> v == PrefixValue(t))
    ensures v < 0 ==> '-' in s
  {
    var t := s[LeadingSpaces(s)..];
    if |t| > 0 && t[0] == '-' then -(PrefixValue(t[1..]) as int)
    else if |t| > 0 && t[0] == '+' then PrefixValue(t[1..])
    else PrefixValue(t)
  }

  /** Reading the digits of `n` back gives `n`. */
  lemma {:induction false} DigitsRoundTrip(n: nat)
    ensures DigitsValue(Digits(n)) == n
  {
    var s := Digits(n);
    if n >= 10 {
      DigitsRoundTrip(n / 10);
      assert s[..|s| - 1] == Digits(n / 10);
    }
  }

  /** atoi reads back what `%d` wrote, for every integer. */
  lemma AtoiToDecimal(n: int)
    ensures Atoi(ToDecimal(n)) == n
  {
    AtoiIgnoresSuffix(n, "");
    assert ToDecimal(n) + "" == ToDecimal(n);
  }

  /** Text after the number does not change what atoi reads. */
  lemma AtoiIgnoresSuffix(n: int, rest: string)
    requires |rest| == 0 || !IsDigit(rest[0])
    ensures Atoi(ToDecimal(n) + rest) == n
  {
    if n < 0 {
      assert ToDecimal(n) + rest == "-" + (Digits(-n) + rest);
      AtoiNegativeSuffix(-n, rest, ToDecimal(n) + rest);
    } else {
      AtoiDigitsSuffix(n, rest);
    }
  }

  /** atoi reads `-m` back from a minus sign, the digits of `m` and text that does not start with a digit. */
  lemma AtoiNegativeSuffix(m: nat, rest: string, t: string)
    requires |rest| == 0 || !IsDigit(rest[0])
    requires t == "-" + (Digits(m) + rest)
    ensures Atoi(t) == -(m as int)
  {
    AtoiDigitsSuffix(m, rest);
    assert t[1..] == Digits(m) + rest;
    AtoiUnspaced(t);
  }

  /** atoi reads `m` back from its digits followed by text that does not start with a digit. */
  lemma AtoiDigitsSuffix(m: nat, rest: string)
    requires |rest| == 0 || !IsDigit(rest[0])
    ensures Atoi(Digits(m) + rest) == m
    ensures PrefixValue(Digits(m) + rest) == m
  {
    AtoiUnspaced(Digits(m) + rest);
    PrefixValueAppend(Digits(m), rest);
    DigitsRoundTrip(m);
  }

  /** atoi on text that does not start with white space reads the sign and the digits at its start. */
  lemma AtoiUnspaced(t: string)
    requires |t| > 0 && !IsSpace(t[0])
    ensures t[0] == '-' ==> Atoi(t) == -(PrefixValue(t[1..]) as int)
    ensures t[0] == '+' ==> Atoi(t) == PrefixValue(t[1..])
    ensures t[0] != '-' && t[0] != '+' ==> Atoi(t) == PrefixValue(t)
  {
    assert t[LeadingSpaces(t)..] == t;
  }

  /** The digits at the start of `digits + rest` are exactly `digits` when `rest` does not start with one. */
  lemma PrefixValueAppend(digits: string, rest: string)
    requires forall i :: 0 <= i < |digits| ==> IsDigit(digits[i])
    requires |rest| == 0 || !IsDigit(rest[0])
    ensures PrefixValue(digits + rest) == DigitsValue(digits)
  {
    var body := digits + rest;
    assert forall i :: 0 <= i < |digits| ==> body[i] == digits[i];
    if |digits| < |body| {
      assert body[|digits|] == rest[0];
    }
    assert LeadingDigits(body) == |digits|;
    assert body[..|digits|] == digits;
  }

  /** `%d` text never contains the '|' that separates the fields of a message. */
  lemma DecimalHasNoBar(n: int)
    ensures '|' !in ToDecimal(n)
  {
  }
}

=== FILE: detours.dfy ===
/**
 The interposed library's own logic (detours.cpp): how fdopen/fopen mode
 strings and open() flags are classified, how renameat reports a rename,
 which unlink calls are reported and how, and when the file-descriptor
 table is reset.

 The policy verdict of a report (AccessCheckResult) is not part of this
 model: a `deny` predicate on reports stands for "the policy denies this
 access", and should_deny is Observer.ShouldDeny of that bit under the
 observer's configuration: the policy's denial counts only when the sandbox
 is enabled and fails unexpected accesses.
 */
module Detours {
  import opened Wrappers
  import opened Strs
  import opened Posix
  import opened Events
  import opened Reports
  import FdTable
  import Observer
  import PTrace
  import IOEvents

  // ----- fdopen / fopen mode strings -----

  /** The mode characters that open a stream for writing. */
  predicate IsWriteModeChar(c: char) {
    c == 'a' || c == 'w' || c == '+'
  }

  /** Some character of the mode string opens for writing (the loop of get_event_from_open_mode). */
  function HasWriteModeChar(s: string): (b: bool)
    ensures b <==> exists i :: 0 <= i < |s| && IsWriteModeChar(s[i])
  {
    if |s| == 0 then false
    else if IsWriteModeChar(s[0]) then true
    else
      var rest := HasWriteModeChar(s[1..]);
      assert forall i :: 1 <= i < |s| ==> s[i] == s[1..][i - 1];
      rest
  }

  /**
   get_event_from_open_mode: WRITE when the mode string contains 'a', 'w'
   or '+', OPEN otherwise and for a NULL mode. The string is the C string's
   characters before its NUL.
   */
  function EventFromOpenMode(mode: Option<string>): (k: Kind)
    ensures k == Write || k == Open
    ensures k == Write <==> mode.Some? && exists i :: 0 <= i < |mode.value| && IsWriteModeChar(mode.value[i])
  {
    if mode.Some? && HasWriteModeChar(mode.value) then Write else Open
  }

  /** The standard modes: "r" and "rb" read, every mode with 'w', 'a' or '+' writes. */
  lemma StandardModes()
    ensures EventFromOpenMode(Some("r")) == Open
    ensures EventFromOpenMode(Some("rb")) == Open
    ensures EventFromOpenMode(Some("r+")) == Write
    ensures EventFromOpenMode(Some("wb")) == Write
    ensures EventFromOpenMode(Some("a")) == Write
    ensures EventFromOpenMode(None) == Open
  {
    assert "r+"[1] == '+';
    assert "wb"[0] == 'w';
    assert "a"[0] == 'a';
  }

  // ----- open -----

  /**
   ReportFileOpen as written: the path's mode (0 when lstat fails) decides
   existence, and the write test is the O_WRONLY bit.
   */
  function ReportFileOpenAsWritten(lstat: map<string, Mode>, path: string, oflag: Flags): (r: Report)
    ensures r.path == path && r.second == "" && r.mode == ModeOf(lstat, path)
    ensures r.event == Notify(OpenEventDetoursAsWritten(ModeOf(lstat, path) != 0, oflag))
  {
    var mode := ModeOf(lstat, path);
    Report(Notify(OpenEventDetoursAsWritten(mode != 0, oflag)), path, "", mode)
  }

  /** An existing file opened O_RDWR | O_TRUNC is reported as a plain open, though it is truncated. */
  lemma TruncatingOpenReportedAsRead(lstat: map<string, Mode>, path: string)
    requires path in lstat && lstat[path] != 0
    ensures ReportFileOpenAsWritten(lstat, path, O_RDWR | O_TRUNC).event == Notify(Open)
    ensures OpenReport(lstat, path, O_RDWR | O_TRUNC).event == Notify(Write)
  {
    TruncatingReadWriteIsOpenAsWritten();
  }

  /** For O_WRONLY, O_RDONLY and O_CREAT alone the as-written report is already the intended one. */
  lemma ReportFileOpenAgrees(lstat: map<string, Mode>, path: string, oflag: Flags)
    requires oflag & O_ACCMODE != O_RDWR && oflag & O_ACCMODE != O_ACCMODE
    ensures ReportFileOpenAsWritten(lstat, path, oflag) == OpenReport(lstat, path, oflag)
  {
    DetoursAgreesExceptReadWrite(ModeOf(lstat, path) != 0, oflag);
  }

  /** creat() is open() with O_CREAT | O_WRONLY | O_TRUNC: it reports CREATE or WRITE, never OPEN, as written and as intended. */
  lemma CreatReportsModification(lstat: map<string, Mode>, path: string)
    ensures ReportFileOpenAsWritten(lstat, path, CreatFlags) == OpenReport(lstat, path, CreatFlags)
    ensures OpenReport(lstat, path, CreatFlags).event ==
      Notify(if ModeOf(lstat, path) != 0 then Write else Create)
  {
    CreatNeverOpens(ModeOf(lstat, path) != 0);
  }

  // ----- renameat -----

  /** The unlink report of a source path; mode 0 leaves it to be looked up. */
  function UnlinkReport(path: string): (r: Report)
    ensures r.event == Notify(Unlink) && r.path == path && r.second == "" && r.mode == 0
  {
    Report(Notify(Unlink), path, "", 0)
  }

  /** The two reports for one moved entry: unlink of the source, create of its rebased destination. */
  function MovePair(lstat: map<string, Mode>, entry: string, from: string, to: string): (p: seq<Report>)
    ensures |p| == 2
    ensures p[0] == UnlinkReport(entry)
    ensures p[1] == OpenReport(lstat, Rebase(entry, from, to), O_CREAT)
  {
    [UnlinkReport(entry), OpenReport(lstat, Rebase(entry, from, to), O_CREAT)]
  }

  /** The policy denies either access of an entry's pair. */
  predicate PairDenied(lstat: map<string, Mode>, entry: string, from: string, to: string, deny: Report -> bool) {
    deny(UnlinkReport(entry)) || deny(OpenReport(lstat, Rebase(entry, from, to), O_CREAT))
  }

  /** Every entry's pair, in enumeration order. */
  function MovePairs(lstat: map<string, Mode>, entries: seq<string>, from: string, to: string): (rs: seq<Report>)
    ensures |rs| == 2 * |entries|
  {
    if |entries| == 0 then []
    else MovePair(lstat, entries[0], from, to) + MovePairs(lstat, entries[1..], from, to)
  }

  /** should_deny of an entry's pair: the policy denies either access and denial is enforced. */
  predicate PairStops(c: Observer.Config, lstat: map<string, Mode>, entry: string, from: string, to: string, deny: Report -> bool) {
    Observer.ShouldDeny(c, PairDenied(lstat, entry, from, to, deny))
  }

  /** What renameat reports, and whether should_deny refuses the check it hands to check_and_fwd_renameat. */
  datatype Renamed = Renamed(reports: seq<Report>, denied: bool)

  /** The index of the first entry whose pair should_deny refuses, or the number of entries when there is none. */
  function FirstDenied(c: Observer.Config, lstat: map<string, Mode>, entries: seq<string>, from: string, to: string, deny: Report -> bool): (n: nat)
    ensures n <= |entries|
    ensures n < |entries| ==> PairStops(c, lstat, entries[n], from, to, deny)
    ensures forall i :: 0 <= i < n ==> !PairStops(c, lstat, entries[i], from, to, deny)
  {
    if |entries| == 0 then 0
    else if PairStops(c, lstat, entries[0], from, to, deny) then 0
    else
      var n := FirstDenied(c, lstat, entries[1..], from, to, deny);
      assert forall i :: 1 <= i < n + 1 ==> entries[i] == entries[1..][i - 1];
      1 + n
  }

  /**
   The loop over a directory's entries: each entry's pair is reported, and
   the loop stops after the first pair should_deny refuses. When denial is
   not enforced it never stops, and every pair is reported.
   */
  function RenameEntries(c: Observer.Config, lstat: map<string, Mode>, entries: seq<string>, from: string, to: string, deny: Report -> bool): (r: Renamed)
    ensures RenamedAs(c, lstat, entries, from, to, deny, r)
  {
    if |entries| == 0 then Renamed([], false)
    else if PairStops(c, lstat, entries[0], from, to, deny) then
      var r := Renamed(MovePair(lstat, entries[0], from, to), true);
      DeniedFirst(c, lstat, entries, from, to, deny);
      r
    else
      var rest := RenameEntries(c, lstat, entries[1..], from, to, deny);
      var r := Renamed(MovePair(lstat, entries[0], from, to) + rest.reports, rest.denied);
      AllowedFirst(c, lstat, entries, from, to, deny, rest);
      r
  }

  /**
   What the loop over a directory's entries leaves: refused exactly when
   should_deny refuses some entry's pair (FirstDenied is within the entries),
   and the reports are the pairs up to and including the first refused one.
   */
  predicate RenamedAs(c: Observer.Config, lstat: map<string, Mode>, entries: seq<string>, from: string, to: string, deny: Report -> bool, r: Renamed) {
    var n := FirstDenied(c, lstat, entries, from, to, deny);
    (r.denied <==> n < |entries|) &&
    r.reports == MovePairs(lstat, entries[..if r.denied then n + 1 else n], from, to)
  }

  /** The loop stops at a refused first entry, after reporting its pair. */
  lemma DeniedFirst(c: Observer.Config, lstat: map<string, Mode>, entries: seq<string>, from: string, to: string, deny: Report -> bool)
    requires |entries| > 0 && PairStops(c, lstat, entries[0], from, to, deny)
    ensures RenamedAs(c, lstat, entries, from, to, deny, Renamed(MovePair(lstat, entries[0], from, to), true))
  {
    assert FirstDenied(c, lstat, entries, from, to, deny) == 0;
    MovePairsCons(lstat, entries[..1], from, to);
    assert entries[..1][1..] == [];
  }

  /** A first entry's pair that should_deny lets through is reported, and the loop goes on with the rest. */
  lemma AllowedFirst(c: Observer.Config, lstat: map<string, Mode>, entries: seq<string>, from: string, to: string, deny: Report -> bool, rest: Renamed)
    requires |entries| > 0 && !PairStops(c, lstat, entries[0], from, to, deny)
    requires RenamedAs(c, lstat, entries[1..], from, to, deny, rest)
    ensures RenamedAs(c, lstat, entries, from, to, deny, Renamed(MovePair(lstat, entries[0], from, to) + rest.reports, rest.denied))
  {
    var m := FirstDenied(c, lstat, entries[1..], from, to, deny);
    var k := if rest.denied then m + 1 else m;
    assert FirstDenied(c, lstat, entries, from, to, deny) == m + 1;
    MovePairsTake(lstat, entries, k, from, to);
  }

  /** The pairs of the first k + 1 entries: the first entry's pair, then those of the next k. */
  lemma MovePairsTake(lstat: map<string, Mode>, entries: seq<string>, k: nat, from: string, to: string)
    requires k < |entries|
    ensures MovePairs(lstat, entries[..k + 1], from, to) == MovePair(lstat, entries[0], from, to) + MovePairs(lstat, entries[1..][..k], from, to)
  {
    MovePairsCons(lstat, entries[..k + 1], from, to);
    assert entries[..k + 1][1..] == entries[1..][..k];
  }

  /** The pairs of a non-empty list of entries: the first entry's pair, then the others'. */
  lemma MovePairsCons(lstat: map<string, Mode>, entries: seq<string>, from: string, to: string)
    requires |entries| > 0
    ensures MovePairs(lstat, entries, from, to) == MovePair(lstat, entries[0], from, to) + MovePairs(lstat, entries[1..], from, to)
  {
  }

  /** The loop is refused iff should_deny refuses some entry's pair, and what it reported is a prefix of every entry's pair. */
  lemma RenameEntriesDenied(c: Observer.Config, lstat: map<string, Mode>, entries: seq<string>, from: string, to: string, deny: Report -> bool)
    ensures RenameEntries(c, lstat, entries, from, to, deny).denied <==>
      exists i :: 0 <= i < |entries| && PairStops(c, lstat, entries[i], from, to, deny)
    ensures RenameEntries(c, lstat, entries, from, to, deny).reports <= MovePairs(lstat, entries, from, to)
  {
    var n := FirstDenied(c, lstat, entries, from, to, deny);
    var r := RenameEntries(c, lstat, entries, from, to, deny);
    var k := if r.denied then n + 1 else n;
    MovePairsPrefix(lstat, entries, k, from, to);
  }

  /** The pairs of a prefix of the entries are a prefix of all the pairs. */
  lemma {:induction false} MovePairsPrefix(lstat: map<string, Mode>, entries: seq<string>, k: nat, from: string, to: string)
    requires k <= |entries|
    ensures MovePairs(lstat, entries[..k], from, to) <= MovePairs(lstat, entries, from, to)
  {
    if k > 0 {
      MovePairsPrefix(lstat, entries[1..], k - 1, from, to);
      assert entries[..k][1..] == entries[1..][..k - 1];
    }
  }

  /**
   renameat on already normalised paths. A directory is reported entry by
   entry when it can be enumerated and as one RENAME of the two paths when
   it cannot; anything else is an unlink of the source and a create of the
   destination. The result is refused when should_deny refuses the check
   handed on: the first refused pair's, the RENAME's, or the file's two
   reports combined. An empty enumeration reports nothing and is not refused.
   */
  function Renameat(c: Observer.Config, lstat: map<string, Mode>, from: string, to: string, enumeration: Option<seq<string>>, deny: Report -> bool): (r: Renamed)
    ensures IsDir(ModeOf(lstat, from)) && enumeration.Some? ==> r == RenameEntries(c, lstat, enumeration.value, from, to, deny)
    ensures IsDir(ModeOf(lstat, from)) && enumeration.None? ==>
      r.reports == [Report(Notify(Rename), from, to, ModeOf(lstat, from))] &&
      (r.denied <==> Observer.ShouldDeny(c, deny(r.reports[0])))
    ensures !IsDir(ModeOf(lstat, from)) ==>
      r.reports == [UnlinkReport(from), OpenReport(lstat, to, O_CREAT)] &&
      (r.denied <==> Observer.ShouldDeny(c, deny(r.reports[0]) || deny(r.reports[1])))
    ensures r.denied ==> Observer.IsEnabled(c) && c.failUnexpected
  {
    var mode := ModeOf(lstat, from);
    if IsDir(mode) then
      match enumeration
      case Some(entries) => RenameEntries(c, lstat, entries, from, to, deny)
      case None =>
        var report := Report(Notify(Rename), from, to, mode);
        Renamed([report], Observer.ShouldDeny(c, deny(report)))
    else
      var reports := [UnlinkReport(from), OpenReport(lstat, to, O_CREAT)];
      Renamed(reports, Observer.ShouldDeny(c, deny(reports[0]) || deny(reports[1])))
  }

  /** A refused rename fails with EPERM without running. */
  lemma DeniedRenameDoesNotRun(c: Observer.Config, lstat: map<string, Mode>, from: string, to: string,
                               enumeration: Option<seq<string>>, deny: Report -> bool,
                               call: Observer.Captured<int>, errno: int)
    requires Renameat(c, lstat, from, to, enumeration, deny).denied
    ensures Observer.CheckAndForward(c, Renameat(c, lstat, from, to, enumeration, deny).denied, -1, call, errno)
      == Observer.Forwarded(-1, EPERM, false)
  {
  }

  /**
   When denial is not enforced (the sandbox is disabled or does not fail
   unexpected accesses) renameat is never refused, and an enumerated
   directory reports every entry's pair, whatever the policy says.
   */
  lemma UnenforcedRenameReportsAll(c: Observer.Config, lstat: map<string, Mode>, from: string, to: string,
                                   enumeration: Option<seq<string>>, deny: Report -> bool)
    requires !Observer.IsEnabled(c) || !c.failUnexpected
    ensures !Renameat(c, lstat, from, to, enumeration, deny).denied
    ensures IsDir(ModeOf(lstat, from)) && enumeration.Some? ==>
      Renameat(c, lstat, from, to, enumeration, deny).reports == MovePairs(lstat, enumeration.value, from, to)
  {
    if IsDir(ModeOf(lstat, from)) && enumeration.Some? {
      var entries := enumeration.value;
      assert FirstDenied(c, lstat, entries, from, to, deny) == |entries|;
      assert entries[..|entries|] == entries;
    }
  }

  /** Every report with the mode create_access_internal ends up giving it. */
  function ResolveAll(rs: seq<Report>, lstat: map<string, Mode>): (r: seq<Report>)
    ensures |r| == |rs|
    ensures forall i :: 0 <= i < |rs| ==> r[i] == Resolve(rs[i], lstat)
  {
    if |rs| == 0 then [] else [Resolve(rs[0], lstat)] + ResolveAll(rs[1..], lstat)
  }

  /**
   Once modes are resolved, an entry's pair is exactly what the tracer
   reports for it: the two sandboxes differ only in whether the unlink's
   mode is looked up early or late.
   */
  lemma PairMatchesTracer(lstat: map<string, Mode>, entry: string, from: string, to: string)
    ensures ResolveAll(MovePair(lstat, entry, from, to), lstat) ==
      ResolveAll(PTrace.MoveReports(lstat, entry, Rebase(entry, from, to)), lstat)
  {
  }

  lemma {:induction false} PairsMatchTracer(lstat: map<string, Mode>, entries: seq<string>, from: string, to: string)
    ensures ResolveAll(MovePairs(lstat, entries, from, to), lstat) ==
      ResolveAll(PTrace.MoveEntries(lstat, entries, from, to), lstat)
  {
    if |entries| > 0 {
      PairsMatchTracer(lstat, entries[1..], from, to);
      PairMatchesTracer(lstat, entries[0], from, to);
      var d := MovePairs(lstat, entries, from, to);
      var p := PTrace.MoveEntries(lstat, entries, from, to);
      assert d == MovePair(lstat, entries[0], from, to) + MovePairs(lstat, entries[1..], from, to);
      assert p == PTrace.MoveReports(lstat, entries[0], Rebase(entries[0], from, to)) + PTrace.MoveEntries(lstat, entries[1..], from, to);
    }
  }

  /**
   With nothing denied, the interposed renameat and the tracer's rename
   report the same accesses with the same modes, except that a directory
   that cannot be enumerated is one RENAME here and nothing there.
   */
  lemma RenameMatchesTracer(c: Observer.Config, lstat: map<string, Mode>, from: string, to: string, enumeration: Option<seq<string>>, deny: Report -> bool)
    requires !Renameat(c, lstat, from, to, enumeration, deny).denied
    ensures IsDir(ModeOf(lstat, from)) && enumeration.None? ==>
      |Renameat(c, lstat, from, to, enumeration, deny).reports| == 1 &&
      PTrace.HandleRenameGeneric(lstat, from, to, enumeration) == []
    ensures !(IsDir(ModeOf(lstat, from)) && enumeration.None?) ==>
      ResolveAll(Renameat(c, lstat, from, to, enumeration, deny).reports, lstat) ==
      ResolveAll(PTrace.HandleRenameGeneric(lstat, from, to, enumeration), lstat)
  {
    var r := Renameat(c, lstat, from, to, enumeration, deny);
    if IsDir(ModeOf(lstat, from)) && enumeration.Some? {
      var entries := enumeration.value;
      assert r == RenameEntries(c, lstat, entries, from, to, deny);
      assert entries[..|entries|] == entries;
      assert r.reports == MovePairs(lstat, entries, from, to);
      assert PTrace.HandleRenameGeneric(lstat, from, to, enumeration) == PTrace.MoveEntries(lstat, entries, from, to);
      PairsMatchTracer(lstat, entries, from, to);
    } else if !IsDir(ModeOf(lstat, from)) {
      assert Rebase(from, from, to) == to;
      assert r.reports == MovePair(lstat, from, from, to);
      assert PTrace.HandleRenameGeneric(lstat, from, to, enumeration) == PTrace.MoveReports(lstat, from, Rebase(from, from, to));
      PairMatchesTracer(lstat, from, from, to);
    }
  }

  // ----- unlink / unlinkat -----

  /** What an interposed call does before forwarding: forward at once, or report a request first. */
  datatype Interposed = ForwardOnly | Checked(request: Request)

  /** unlink: the empty path goes straight to the real call; anything else (NULL included) is reported without following a final link. */
  function InterposeUnlink(path: Option<string>): (r: Interposed)
    ensures r == ForwardOnly <==> path == Some("")
    ensures r.Checked? ==> r.request == Request(Notify(Unlink), AT_FDCWD, path, true)
  {
    if path == Some("") then ForwardOnly
    else Checked(Request(Notify(Unlink), AT_FDCWD, path, true))
  }

  /** unlinkat: only the empty path relative to the working directory is forwarded unreported; removing a directory follows a final link. */
  function InterposeUnlinkat(dirfd: int, path: Option<string>, flags: Flags): (r: Interposed)
    ensures r == ForwardOnly <==> dirfd == AT_FDCWD && path == Some("")
    ensures r.Checked? ==> r.request == Request(Notify(Unlink), dirfd, path, flags & AT_REMOVEDIR == 0)
  {
    if dirfd == AT_FDCWD && path == Some("") then ForwardOnly
    else
      AtFlagsFollow(flags);
      Checked(Request(Notify(Unlink), dirfd, path, !Follows(UnlinkatOFlags(flags))))
  }

  /** unlink(p) is reported as unlinkat(AT_FDCWD, p, 0). */
  lemma UnlinkIsUnlinkatFromCwd(path: Option<string>)
    ensures InterposeUnlink(path) == InterposeUnlinkat(AT_FDCWD, path, 0)
  {
  }

  /**
   The corrected tracer and the interposed library agree on which unlinkat
   calls are reported and how; the tracer as written misses every non-empty
   path relative to the working directory.
   */
  lemma UnlinkatMatchesTracer(dirfd: int, path: string, flags: Flags)
    ensures PTrace.HandleUnlinkat(dirfd, path, flags).Some? <==> InterposeUnlinkat(dirfd, Some(path), flags).Checked?
    ensures PTrace.HandleUnlinkat(dirfd, path, flags).Some? ==>
      PTrace.HandleUnlinkat(dirfd, path, flags).value == InterposeUnlinkat(dirfd, Some(path), flags).request
    ensures dirfd == AT_FDCWD && |path| > 0 ==>
      InterposeUnlinkat(dirfd, Some(path), flags).Checked? && PTrace.HandleUnlinkatAsWritten(dirfd, path, flags).None?
  {
    AtFlagsFollow(flags);
  }

  /** The tracer's unlink agrees with the interposed one. */
  lemma UnlinkMatchesTracer(path: string)
    ensures PTrace.HandleUnlink(path).Some? <==> InterposeUnlink(Some(path)).Checked?
    ensures PTrace.HandleUnlink(path).Some? ==> PTrace.HandleUnlink(path).value == InterposeUnlink(Some(path)).request
  {
  }

  // ----- the file-descriptor table -----

  /** The interposed calls that change what a descriptor names. */
  datatype FdCall =
    | Opened(fd: int)                // open/openat/creat/dup/name_to_handle_at returned fd (ret_fd)
    | Closed(fd: int)                // close, fclose
    | Duplicated(oldfd: int, newfd: int)  // dup2, dup3

  /** The descriptor whose link the call may change. */
  function Affected(c: FdCall): (fd: int)
    ensures c.Duplicated? ==> fd == c.newfd
    ensures !c.Duplicated? ==> fd == c.fd
  {
    match c
    case Opened(fd) => fd
    case Closed(fd) => fd
    case Duplicated(_, newfd) => newfd
  }

  /** ret_fd, close, fclose, dup2 and dup3 reset the entry of the affected descriptor and nothing else. */
  function AfterFdCall(t: FdTable.Table, c: FdCall): (r: FdTable.Table)
    ensures FdTable.Valid(t) ==> FdTable.Valid(r) && Affected(c) !in r.entries
    ensures forall fd :: fd != Affected(c) ==> (fd in r.entries <==> fd in t.entries)
    ensures forall fd :: fd != Affected(c) && fd in r.entries ==> r.entries[fd] == t.entries[fd]
  {
    FdTable.ResetEntry(t, Affected(c))
  }

  /**
   The table stays coherent across every such call: whatever the call did to
   the affected descriptor's link, the table no longer claims anything about
   it, and the other descriptors' links are unchanged.
   */
  lemma FdCallKeepsCoherent(t: FdTable.Table, c: FdCall, procFd: map<int, string>, procFd': map<int, string>)
    requires FdTable.Valid(t) && FdTable.Coherent(t, procFd)
    requires forall fd :: fd != Affected(c) ==> (fd in procFd' <==> fd in procFd)
    requires forall fd :: fd != Affected(c) && fd in procFd ==> procFd'[fd] == procFd[fd]
    ensures FdTable.Coherent(AfterFdCall(t, c), procFd')
  {
  }

  /**
   fork and clone: in the child (result 0) the table is cleared and nothing
   is reported; in the parent a FORK of the returned pid is reported with the
   observer's program as the executable, even when the result is -1.
   */
  function AfterFork(t: FdTable.Table, result: int, pid: int, ppid: int, progPath: string): (r: (FdTable.Table, Option<IOEvents.IOEvent>))
    ensures result == 0 ==> r.1.None? && r.0.entries == map[] && r.0.useFdTable == t.useFdTable
    ensures result != 0 ==> r.0 == t && r.1.Some?
    ensures r.1.Some? ==> (r.1.value.eventType == Notify(Fork) && r.1.value.cpid == result &&
      r.1.value.pid == pid && r.1.value.ppid == ppid &&
      r.1.value.src == progPath && r.1.value.executable == progPath && r.1.value.dst == "" && r.1.value.mode == 0)
  {
    if result == 0 then (FdTable.ResetAll(t), None)
    else (t, Some(IOEvents.IOEvent(pid, result, ppid, ppid, Notify(Fork), 0, false, progPath, progPath, "")))
  }

  /** The child's table is coherent with whatever descriptors the child holds. */
  lemma ForkChildCoherent(t: FdTable.Table, pid: int, ppid: int, progPath: string, procFd: map<int, string>)
    ensures FdTable.Coherent(AfterFork(t, 0, pid, ppid, progPath).0, procFd)
    ensures FdTable.Valid(AfterFork(t, 0, pid, ppid, progPath).0)
  {
  }
}

=== FILE: envutils.dfy ===
/**
 Environment-array surgery of the Linux sandbox (utils.c): making sure that
 `LD_PRELOAD` and the sandbox's own variables are present in the environment
 handed to a child process.

 An environment `envp` is a `seq<string>`: its entries in order, without the
 terminating NULL pointer. A C pointer that may be NULL is an `Option<string>`.
 Allocation failure (every `malloc` in the source returns its input unchanged
 when it fails) is not modelled.
 */
module EnvUtils {
  import opened Wrappers
  import opened Strs

  /** PATH_SEP_CHAR: separates the values of a list variable. */
  const PathSep: char := ':'

  /** sizeof(char *) on the 64-bit targets the sandbox is built for. */
  const PointerSize: nat := 8

  // ---------------------------------------------------------------------------
  // skip_prefix
  // ---------------------------------------------------------------------------

  /**
   skip_prefix exactly as its loop is written: both cursors advance before the
   characters are compared, so a mismatch on the last character of `prefix`
   leaves `prefix` at its NUL and is taken for a match. The result is the rest
   of `src` after the cursor.
   */
  function SkipPrefixAsWritten(src: string, prefix: string): (r: Option<string>)
    ensures r.Some? <==>
      |prefix| <= |src| && (|prefix| == 0 || src[..|prefix| - 1] == prefix[..|prefix| - 1])
    ensures r.Some? ==> r.value == src[|prefix|..]
    decreases |prefix|
  {
    if |prefix| == 0 then Some(src)
    else if |src| == 0 then None
    else if src[0] != prefix[0] then (if |prefix| == 1 then Some(src[1..]) else None)
    else
      var r := SkipPrefixAsWritten(src[1..], prefix[1..]);
      assert |prefix| > 1 && |prefix| <= |src| ==> src[..|prefix| - 1] == [src[0]] + src[1..][..|prefix| - 2];
      assert |prefix| > 1 ==> prefix[..|prefix| - 1] == [prefix[0]] + prefix[1..][..|prefix| - 2];
      r
  }

  /** "ax" is taken to start with "ab": only the first |prefix| - 1 characters are really compared. */
  lemma SkipPrefixAcceptsLastCharMismatch()
    ensures SkipPrefixAsWritten("ax", "ab") == Some("")
    ensures !IsPrefix("ab", "ax")
  {
    assert "ax"[..1] == "ab"[..1];
    assert "ax"[1] != "ab"[1];
  }

  /** Any single-character prefix is "found" at the head of any non-empty string. */
  lemma SkipPrefixOneCharAlwaysMatches(src: string, c: char)
    requires |src| > 0
    ensures SkipPrefixAsWritten(src, [c]) == Some(src[1..])
  {
  }

  /**
   skip_prefix as its comment describes it (compare, then advance): the rest
   of `src` after `prefix` when `src` starts with `prefix`, nothing otherwise.
   The rest of the model uses this definition.
   */
  function SkipPrefix(src: string, prefix: string): (r: Option<string>)
    ensures r.Some? <==> IsPrefix(prefix, src)
    ensures r.Some? ==> src == prefix + r.value
    decreases |prefix|
  {
    if |prefix| == 0 then Some(src)
    else if |src| == 0 || src[0] != prefix[0] then None
    else
      var r := SkipPrefix(src[1..], prefix[1..]);
      assert src == [src[0]] + src[1..];
      assert prefix == [prefix[0]] + prefix[1..];
      assert IsPrefix(prefix, src) ==> IsPrefix(prefix[1..], src[1..]);
      r
  }

  /** skip_prefix with a pointer that may be NULL: NULL in, NULL out. */
  function SkipPrefixOpt(src: Option<string>, prefix: string): (r: Option<string>)
    ensures r.Some? <==> src.Some? && IsPrefix(prefix, src.value)
    ensures r.Some? ==> src.value == prefix + r.value
  {
    if src.None? then None else SkipPrefix(src.value, prefix)
  }

  /** is_null_or_empty. */
  predicate IsNullOrEmpty(s: Option<string>) {
    s.None? || |s.value| == 0
  }

  // ---------------------------------------------------------------------------
  // createEnv, replace_KVP_in_envp
  // ---------------------------------------------------------------------------

  /** createEnv: "name=value". */
  function CreateEnv(name: string, value: string): (e: string)
    ensures |e| == |name| + 1 + |value|
    ensures IsPrefix(name, e) && e[|name|] == '=' && e[|name| + 1..] == value
  {
    name + "=" + value
  }

  /** Stripping the name and then "=" off a created entry gives back the value. */
  lemma CreateEnvRoundTrip(name: string, value: string)
    ensures SkipPrefixOpt(SkipPrefix(CreateEnv(name, value), name), "=") == Some(value)
  {
    var e := CreateEnv(name, value);
    assert e == name + ("=" + value);
    assert IsPrefix(name, e);
    var r1 := SkipPrefix(e, name);
    assert r1.value == "=" + value;
    assert IsPrefix("=", "=" + value);
  }

  /** replace_KVP_in_envp: a copy of `envp` whose `i`-th entry is `kvp`. */
  function ReplaceKvp(envp: seq<string>, i: nat, kvp: string): (r: seq<string>)
    requires i < |envp|
    ensures |r| == |envp|
    ensures r[i] == kvp
    ensures forall j :: 0 <= j < |envp| && j != i ==> r[j] == envp[j]
  {
    envp[..i] + [kvp] + envp[i + 1..]
  }

  // ---------------------------------------------------------------------------
  // Finding the variable
  // ---------------------------------------------------------------------------

  /** Index of the LAST entry that starts with `name`. */
  function LastMatch(envp: seq<string>, name: string): (r: Option<nat>)
    ensures r.Some? ==> r.value < |envp| && IsPrefix(name, envp[r.value])
    ensures r.Some? ==> forall j :: r.value < j < |envp| ==> !IsPrefix(name, envp[j])
    ensures r.None? ==> forall j :: 0 <= j < |envp| ==> !IsPrefix(name, envp[j])
    decreases |envp|
  {
    if |envp| == 0 then None
    else if IsPrefix(name, envp[|envp| - 1]) then Some(|envp| - 1)
    else LastMatch(envp[..|envp| - 1], name)
  }

  /**
   The forward scan at the head of ensure_env_value and
   ensure_paths_included_in_env: counts the entries and remembers the last one
   that starts with `name`.
   */
  method ScanEnv(envp: seq<string>, name: string) returns (found: bool, index: nat, count: nat)
    ensures count == |envp|
    ensures found <==> LastMatch(envp, name).Some?
    ensures found ==> index == LastMatch(envp, name).value
  {
    found, index, count := false, 0, 0;
    while count < |envp|
      invariant count <= |envp|
      invariant found ==> index < count && IsPrefix(name, envp[index])
      invariant found ==> forall j :: index < j < count ==> !IsPrefix(name, envp[j])
      invariant !found ==> forall j :: 0 <= j < count ==> !IsPrefix(name, envp[j])
    {
      if SkipPrefix(envp[count], name).Some? {
        found, index := true, count;
      }
      count := count + 1;
    }
  }

  // ---------------------------------------------------------------------------
  // ensure_env_value
  // ---------------------------------------------------------------------------

  /**
   ensure_env_value: makes sure "name=value" is in `envp`. When the variable
   is absent, "name=value" is appended. When present, its last entry is
   replaced by "name=value" unless the text after "name=" strictly extends
   `value` (then `envp` is returned as it is).
   */
  function EnsureEnvValue(envp: seq<string>, name: string, value: string): (r: seq<string>)
    ensures |envp| <= |r| <= |envp| + 1
    ensures forall j :: 0 <= j < |envp| && LastMatch(envp, name) != Some(j) ==> r[j] == envp[j]
    ensures LastMatch(r, name).Some?
    ensures IsPrefix(CreateEnv(name, value), r[LastMatch(r, name).value])
  {
    var found := LastMatch(envp, name);
    if found.None? then
      var r := envp + [CreateEnv(name, value)];
      assert IsPrefix(name, CreateEnv(name, value));
      r
    else
      var j := found.value;
      var next := SkipPrefixOpt(SkipPrefixOpt(SkipPrefix(envp[j], name), "="), value);
      if IsNullOrEmpty(next) then
        var r := ReplaceKvp(envp, j, CreateEnv(name, value));
        assert IsPrefix(name, CreateEnv(name, value));
        assert forall k :: j < k < |r| ==> r[k] == envp[k];
        r
      else
        ExtendsEntry(envp[j], name, value, next.value);
        envp
  }

  lemma ExtendsEntry(e: string, name: string, value: string, x: string)
    requires SkipPrefixOpt(SkipPrefixOpt(SkipPrefix(e, name), "="), value) == Some(x)
    ensures e == CreateEnv(name, value) + x
  {
    var o1 := SkipPrefix(e, name);
    var o2 := SkipPrefixOpt(o1, "=");
    assert o2.Some? && o1.Some?;
    var a, b := o1.value, o2.value;
    assert b == value + x;
    assert a == "=" + b;
    assert e == name + a;
    Regroup(name, "=", value, x);
  }

  /** Concatenation regrouped from the right to the left. */
  lemma Regroup(a: string, b: string, c: string, d: string)
    ensures a + (b + (c + d)) == a + b + c + d
  {
    assert b + (c + d) == (b + c) + d;
    assert a + ((b + c) + d) == (a + (b + c)) + d;
    assert a + (b + c) == (a + b) + c;
  }

  lemma ExtendsEntryConverse(e: string, name: string, value: string)
    requires IsPrefix(CreateEnv(name, value), e)
    ensures SkipPrefixOpt(SkipPrefixOpt(SkipPrefix(e, name), "="), value) == Some(e[|CreateEnv(name, value)|..])
  {
    var c := CreateEnv(name, value);
    var x := e[|c|..];
    assert e == c + x;
    assert e == name + ("=" + value + x);
    assert IsPrefix(name, e);
    var a := SkipPrefix(e, name).value;
    assert a == "=" + (value + x);
    assert IsPrefix("=", a);
    var b := SkipPrefix(a, "=").value;
    assert b == value + x;
    assert IsPrefix(value, b);
  }

  /** ensure_env_value leaves `envp` as it is exactly when the last entry already starts with "name=value". */
  lemma EnsureEnvValueUnchangedIff(envp: seq<string>, name: string, value: string)
    ensures EnsureEnvValue(envp, name, value) == envp <==>
      (LastMatch(envp, name).Some? && IsPrefix(CreateEnv(name, value), envp[LastMatch(envp, name).value]))
  {
    var found := LastMatch(envp, name);
    if found.Some? {
      var j := found.value;
      var c := CreateEnv(name, value);
      var next := SkipPrefixOpt(SkipPrefixOpt(SkipPrefix(envp[j], name), "="), value);
      EnsureEnvValueFound(envp, name, value);
      if IsNullOrEmpty(next) {
        ReplaceKvpUnchangedIff(envp, j, c);
        if IsPrefix(c, envp[j]) {
          ExtendsEntryConverse(envp[j], name, value);
          assert envp[j] == c + envp[j][|c|..];
        } else {
          assert envp[j] != c;
        }
      } else {
        ExtendsEntry(envp[j], name, value, next.value);
      }
    }
  }

  /** ensure_env_value when the variable is present: the last entry is replaced unless what follows "name=value" is not empty. */
  lemma EnsureEnvValueFound(envp: seq<string>, name: string, value: string)
    requires LastMatch(envp, name).Some?
    ensures var j := LastMatch(envp, name).value;
      var next := SkipPrefixOpt(SkipPrefixOpt(SkipPrefix(envp[j], name), "="), value);
      EnsureEnvValue(envp, name, value) == if IsNullOrEmpty(next) then ReplaceKvp(envp, j, CreateEnv(name, value)) else envp
  {
  }

  /** Replacing an entry leaves `envp` as it is exactly when the entry already holds the replacement. */
  lemma ReplaceKvpUnchangedIff(envp: seq<string>, i: nat, kvp: string)
    requires i < |envp|
    ensures ReplaceKvp(envp, i, kvp) == envp <==> envp[i] == kvp
  {
    var r := ReplaceKvp(envp, i, kvp);
    if envp[i] == kvp {
      assert forall k :: 0 <= k < |r| ==> r[k] == envp[k];
    }
  }

  /** A second ensure_env_value with the same arguments changes nothing. */
  lemma EnsureEnvValueIdempotent(envp: seq<string>, name: string, value: string)
    ensures EnsureEnvValue(EnsureEnvValue(envp, name, value), name, value) == EnsureEnvValue(envp, name, value)
  {
    var r := EnsureEnvValue(envp, name, value);
    EnsureEnvValueUnchangedIff(r, name, value);
  }

  // ---------------------------------------------------------------------------
  // add_value_to_env
  // ---------------------------------------------------------------------------

  /**
   The search loop of add_value_to_env over the text after the variable's
   prefix: true when `value` is found at the start of an item and is followed
   by the end of the text or by ':'. When the value is a proper prefix of an
   item, the search resumes from where the value ended.
   */
  function Listed(rest: string, value: string): bool
    decreases |rest|
  {
    if |rest| == 0 then false
    else if MatchesHere(rest, value) then true
    else
      var n := NextItem(rest, value);
      n.Some? && Listed(n.value, value)
  }

  /** The value is at the start of `rest` and is followed by the end of the text or by ':'. */
  predicate MatchesHere(rest: string, value: string) {
    var next := SkipPrefix(rest, value);
    next.Some? && (|next.value| == 0 || next.value[0] == PathSep)
  }

  /**
   Where the search goes on: after the first ':' that follows the value (when
   `rest` starts with it) or the start of `rest`; None when no ':' is left.
   */
  function NextItem(rest: string, value: string): (r: Option<string>)
    ensures r.Some? ==> |r.value| < |rest|
  {
    var from := Resume(rest, value);
    var k := IndexOf(from, PathSep);
    if k == |from| then None else Some(from[k + 1..])
  }

  /** Where the scan for the next ':' starts: after the value when `rest` starts with it, else at the start of `rest`. */
  function Resume(rest: string, value: string): (from: string)
    ensures |from| <= |rest|
  {
    var next := SkipPrefix(rest, value);
    if next.Some? then next.value else rest
  }

  lemma SliceIsPrefix(s: string, k: nat)
    requires k <= |s|
    ensures IsPrefix(s[..k], s)
  {
  }

  /** One step of the search: the first item matches, or the search goes on after the first ':'. */
  lemma ListedStep(rest: string, value: string)
    requires |rest| > 0 && |value| > 0 && PathSep !in value
    ensures var k := IndexOf(rest, PathSep);
      Listed(rest, value) <==> rest[..k] == value || (k < |rest| && Listed(rest[k + 1..], value))
  {
    StepByItems(rest, value);
  }

  /** For a value without ':', the search's step is a step over the first ':'-separated item. */
  lemma StepByItems(rest: string, value: string)
    requires |value| > 0 && PathSep !in value
    ensures var k := IndexOf(rest, PathSep);
      (MatchesHere(rest, value) <==> rest[..k] == value) &&
      (NextItem(rest, value).Some? <==> k < |rest|) &&
      (k < |rest| ==> NextItem(rest, value).value == rest[k + 1..])
  {
    var k := IndexOf(rest, PathSep);
    var next := SkipPrefix(rest, value);
    ResumeIs(rest, value);
    if next.Some? {
      var x := next.value;
      ListedStepAfterValue(rest, value, x);
      NextItemFrom(rest, value, x);
    } else {
      NextItemFrom(rest, value, rest);
      SliceIsPrefix(rest, k);
      assert rest[..k] != value;
    }
  }

  /** NextItem in terms of the text the search resumes from. */
  lemma NextItemFrom(rest: string, value: string, from: string)
    requires from == Resume(rest, value)
    ensures var k := IndexOf(from, PathSep);
      NextItem(rest, value) == if k == |from| then None else Some(from[k + 1..])
  {
  }

  /** Resume when `rest` starts with the value, and when it does not. */
  lemma ResumeIs(rest: string, value: string)
    ensures SkipPrefix(rest, value).Some? ==> Resume(rest, value) == SkipPrefix(rest, value).value
    ensures SkipPrefix(rest, value).None? ==> Resume(rest, value) == rest
  {
  }

  /** The step when `rest` starts with the value: the first item is the value, or the search skips what follows it. */
  lemma ListedStepAfterValue(rest: string, value: string, x: string)
    requires |value| > 0 && PathSep !in value && rest == value + x
    ensures var k := IndexOf(rest, PathSep);
      k == |value| + IndexOf(x, PathSep) &&
      (rest[..k] == value <==> |x| == 0 || x[0] == PathSep) &&
      (k < |rest| <==> IndexOf(x, PathSep) < |x|) &&
      (k < |rest| ==> rest[k + 1..] == x[IndexOf(x, PathSep) + 1..])
  {
    IndexOfAfterFree(value, x, PathSep);
    var k2 := IndexOf(x, PathSep);
    assert k2 == 0 <==> |x| == 0 || x[0] == PathSep;
    TakeAfterValue(rest, value, x, k2);
    if k2 < |x| {
      DropAfterValue(rest, value, x, k2);
    }
  }

  /** In `value + x`, the text up to an index past the value is the value only when the index is the value's end. */
  lemma TakeAfterValue(rest: string, value: string, x: string, k2: nat)
    requires rest == value + x && k2 <= |x|
    ensures rest[..|value| + k2] == value <==> k2 == 0
  {
    if k2 == 0 {
      assert rest[..|value|] == value;
    } else {
      assert |rest[..|value| + k2]| != |value|;
    }
  }

  /** In `value + x`, dropping past the value and k2 + 1 more characters leaves x without its first k2 + 1. */
  lemma DropAfterValue(rest: string, value: string, x: string, k2: nat)
    requires rest == value + x && k2 < |x|
    ensures rest[|value| + k2 + 1..] == x[k2 + 1..]
  {
  }

  /** For a non-empty value without ':' the search finds it exactly when it is one of the ':'-separated items. */
  lemma {:induction false} ListedIffItem(rest: string, value: string)
    requires |value| > 0 && PathSep !in value
    ensures Listed(rest, value) <==> value in Split(rest, PathSep)
    decreases |rest|
  {
    if |rest| == 0 {
      assert Split(rest, PathSep) == [rest];
    } else {
      var k := IndexOf(rest, PathSep);
      ListedStep(rest, value);
      if k < |rest| {
        ListedIffItem(rest[k + 1..], value);
        assert Split(rest, PathSep) == [rest[..k]] + Split(rest[k + 1..], PathSep);
      } else {
        assert rest[..k] == rest;
      }
    }
  }

  /** What add_value_to_env puts between the old text and the value: nothing after ':' or '=', else ':'. */
  function Separator(src: string): string {
    if |src| > 0 && (src[|src| - 1] == PathSep || src[|src| - 1] == '=') then [] else [PathSep]
  }

  /**
   add_value_to_env: `src` itself when it does not start with `envPrefix`,
   when `value` is empty, or when `value` is already one of the listed
   items; otherwise `src`, a separator when needed, and `value`.
   */
  function AddValueToEnv(src: string, value: string, envPrefix: string): (r: string)
    ensures r == src || (|value| > 0 && |r| >= |src| + |value| && IsPrefix(src, r) && r[|r| - |value|..] == value)
    ensures r == src <==>
      (!IsPrefix(envPrefix, src) || |value| == 0 || Listed(src[|envPrefix|..], value))
  {
    var pSrc := SkipPrefix(src, envPrefix);
    if pSrc.None? || |value| == 0 || Listed(pSrc.value, value) then src
    else
      var r := src + Separator(src) + value;
      assert r[..|src|] == src;
      r
  }

  /** Rest of an entry after its prefix, once the value is appended. */
  lemma AppendedRest(src: string, value: string, envPrefix: string)
    requires IsPrefix(envPrefix, src)
    ensures (src + Separator(src) + value)[|envPrefix|..] == src[|envPrefix|..] + Separator(src) + value
  {
  }

  /** Appending with ':' (or with nothing after a trailing ':') makes the value the last item. */
  lemma AppendListsValue(rest: string, sep: string, value: string)
    requires PathSep !in value
    requires sep == [PathSep] || (sep == [] && (|rest| == 0 || rest[|rest| - 1] == PathSep))
    ensures value in Split(rest + sep + value, PathSep)
  {
    if sep == [PathSep] {
      SplitAppend(rest, value, PathSep);
    } else if |rest| == 0 {
      assert rest + sep + value == value;
      SplitFree(value, PathSep);
    } else {
      var front := rest[..|rest| - 1];
      assert rest + sep + value == front + [PathSep] + value;
      SplitAppend(front, value, PathSep);
    }
  }

  /**
   After add_value_to_env the value is one of the listed items, provided the
   value is a non-empty item without ':' and the list does not end in '='
   (where the value would be glued on without a separator).
   */
  lemma AddedValueIsListed(src: string, value: string, envPrefix: string)
    requires IsPrefix(envPrefix, src)
    requires |value| > 0 && PathSep !in value
    requires var rest := src[|envPrefix|..]; |rest| == 0 || rest[|rest| - 1] != '='
    ensures var r := AddValueToEnv(src, value, envPrefix);
      IsPrefix(envPrefix, r) && value in Split(r[|envPrefix|..], PathSep)
  {
    var rest := src[|envPrefix|..];
    var r := AddValueToEnv(src, value, envPrefix);
    ListedIffItem(rest, value);
    if r != src {
      var sep := Separator(src);
      assert r == src + sep + value;
      assert IsPrefix(envPrefix, r) by {
        assert r[..|envPrefix|] == src[..|envPrefix|];
      }
      AppendedRest(src, value, envPrefix);
      assert |rest| > 0 ==> rest[|rest| - 1] == src[|src| - 1];
      AppendListsValue(rest, sep, value);
    }
  }

  /** Adding a value that is already listed changes nothing; so add_value_to_env is idempotent. */
  lemma AddValueToEnvIdempotent(src: string, value: string, envPrefix: string)
    requires IsPrefix(envPrefix, src)
    requires |value| > 0 && PathSep !in value
    requires var rest := src[|envPrefix|..]; |rest| == 0 || rest[|rest| - 1] != '='
    ensures var r := AddValueToEnv(src, value, envPrefix); AddValueToEnv(r, value, envPrefix) == r
  {
    var r := AddValueToEnv(src, value, envPrefix);
    AddedValueIsListed(src, value, envPrefix);
    ListedIffItem(r[|envPrefix|..], value);
  }

  /** Bytes add_value_to_env allocates for the new entry (line 103). */
  function AddValueAllocAsWritten(src: string, value: string): nat {
    |src| + |value| + 1
  }

  /** Bytes it needs: old text, separator, value and the terminating NUL. */
  function AddValueAllocCorrected(src: string, value: string): nat {
    |src| + |value| + 2
  }

  /** When a separator is inserted, the entry and its NUL need one byte more than the allocation. */
  lemma AddValueAllocOneShort(src: string, value: string, envPrefix: string)
    requires IsPrefix(envPrefix, src) && |value| > 0
    requires !Listed(src[|envPrefix|..], value)
    requires Separator(src) == [PathSep]
    ensures |AddValueToEnv(src, value, envPrefix)| + 1 == AddValueAllocAsWritten(src, value) + 1
  {
  }

  /** The corrected allocation always holds the new entry and its NUL. */
  lemma AddValueAllocCorrectedFits(src: string, value: string, envPrefix: string)
    ensures |AddValueToEnv(src, value, envPrefix)| + 1 <= AddValueAllocCorrected(src, value)
      || AddValueToEnv(src, value, envPrefix) == src
  {
  }

  // ---------------------------------------------------------------------------
  // ensure_paths_included_in_env
  // ---------------------------------------------------------------------------

  /** The NULL-or-empty-terminated argument list: the paths before the first empty one. */
  function Active(paths: seq<string>): (a: seq<string>)
    ensures |a| <= |paths|
    ensures forall i :: 0 <= i < |a| ==> a[i] == paths[i] && |a[i]| > 0
    ensures |a| < |paths| ==> |paths[|a|]| == 0
  {
    if |paths| == 0 || |paths[0]| == 0 then [] else [paths[0]] + Active(paths[1..])
  }

  /** The loop of case 1/2: add_value_to_env applied to each path in turn. */
  function AddAll(s: string, paths: seq<string>, envPrefix: string): (r: string)
    ensures |r| >= |s|
    ensures IsPrefix(s, r)
    decreases |paths|
  {
    if |paths| == 0 then s
    else AddAll(AddValueToEnv(s, paths[0], envPrefix), paths[1..], envPrefix)
  }

  /** The new entry of case 3 as written: `envPrefix` is copied, but the paths start at ARRAYSIZE(envPrefix) - 1. */
  function NewEntryAsWritten(envPrefix: string, paths: seq<string>): (r: string)
    ensures |paths| == 0 || |envPrefix| < PointerSize - 1 ==> r == envPrefix
    ensures |paths| > 0 && |envPrefix| >= PointerSize - 1 ==>
      |r| >= PointerSize - 1 && r[..PointerSize - 1] == envPrefix[..PointerSize - 1]
  {
    var prefixLen := PointerSize - 1;
    if |paths| == 0 then envPrefix
    else if |envPrefix| < prefixLen then envPrefix
    else envPrefix[..prefixLen] + Join(paths, PathSep)
  }

  /** "LD_PRELOAD=" with one library becomes "LD_PREL" followed by the library. */
  lemma NewEntryAsWrittenCutsPrefix()
    ensures NewEntryAsWritten("LD_PRELOAD=", ["/lib/d.so"]) == "LD_PREL/lib/d.so"
    ensures !IsPrefix("LD_PRELOAD=", NewEntryAsWritten("LD_PRELOAD=", ["/lib/d.so"]))
  {
    assert "LD_PRELOAD="[..7] == "LD_PREL";
    assert "LD_PREL/lib/d.so"[..11] == "LD_PREL/lib";
  }

  /** The new entry of case 3 as intended: the whole prefix, then the paths joined by ':'. */
  function NewEntry(envPrefix: string, paths: seq<string>): (r: string)
    ensures IsPrefix(envPrefix, r)
    ensures |paths| >= 1 && (forall i :: 0 <= i < |paths| ==> PathSep !in paths[i]) ==>
      Split(r[|envPrefix|..], PathSep) == paths
  {
    var r := envPrefix + Join(paths, PathSep);
    assert r[..|envPrefix|] == envPrefix;
    assert r[|envPrefix|..] == Join(paths, PathSep);
    JoinedPathsSplit(paths);
    r
  }
  /**
   Whenever there is a path to add and the prefix is longer than seven
   characters, the entry as written is shorter than the intended one by the
   prefix characters past the seventh, so the two differ.
   */
  lemma NewEntryAsWrittenLosesPrefixTail(envPrefix: string, paths: seq<string>)
    requires |paths| > 0 && |envPrefix| >= PointerSize - 1
    ensures |NewEntryAsWritten(envPrefix, paths)| + |envPrefix| == |NewEntry(envPrefix, paths)| + PointerSize - 1
    ensures |envPrefix| > PointerSize - 1 ==> NewEntryAsWritten(envPrefix, paths) != NewEntry(envPrefix, paths)
  {
  }


  lemma JoinedPathsSplit(paths: seq<string>)
    ensures |paths| >= 1 && (forall i :: 0 <= i < |paths| ==> PathSep !in paths[i]) ==>
      Split(Join(paths, PathSep), PathSep) == paths
  {
    if |paths| >= 1 && (forall i :: 0 <= i < |paths| ==> PathSep !in paths[i]) {
      SplitJoin(paths, PathSep);
    }
  }

  /**
   ensure_paths_included_in_env with `paths` standing for the variadic list.
   Case 1: the variable is present and lists every path: `envp` itself.
   Case 2: present but missing some: the last entry replaced by one with the paths added.
   Case 3: absent: a new entry with all paths appended.
   */
  function EnsurePathsIncluded(envp: seq<string>, envPrefix: string, paths: seq<string>): (r: seq<string>)
    ensures |envp| <= |r| <= |envp| + 1
    ensures forall j :: 0 <= j < |envp| && LastMatch(envp, envPrefix) != Some(j) ==> r[j] == envp[j]
    ensures LastMatch(r, envPrefix).Some?
  {
    var ps := Active(paths);
    var found := LastMatch(envp, envPrefix);
    if found.Some? then
      var j := found.value;
      var result := AddAll(envp[j], ps, envPrefix);
      if result == envp[j] then envp
      else
        var r := ReplaceKvp(envp, j, result);
        assert IsPrefix(envPrefix, result) by {
          assert result[..|envp[j]|] == envp[j];
          assert result[..|envPrefix|] == envp[j][..|envPrefix|];
        }
        assert forall k :: j < k < |r| ==> r[k] == envp[k];
        r
    else
      envp + [NewEntry(envPrefix, ps)]
  }

  lemma AddValueToEnvGrows(s: string, value: string, envPrefix: string)
    ensures AddValueToEnv(s, value, envPrefix) != s ==> |AddValueToEnv(s, value, envPrefix)| > |s|
  {
  }

  /** The path loop leaves the entry unchanged exactly when no single path would change it. */
  lemma {:induction false} AddAllUnchangedIff(s: string, paths: seq<string>, envPrefix: string)
    ensures AddAll(s, paths, envPrefix) == s <==>
      forall i :: 0 <= i < |paths| ==> AddValueToEnv(s, paths[i], envPrefix) == s
    decreases |paths|
  {
    if |paths| > 0 {
      var s1 := AddValueToEnv(s, paths[0], envPrefix);
      AddAllUnchangedIff(s1, paths[1..], envPrefix);
      if s1 != s {
        AddValueToEnvGrows(s, paths[0], envPrefix);
        assert |AddAll(s1, paths[1..], envPrefix)| >= |s1| > |s|;
      } else {
        assert forall i :: 1 <= i < |paths| ==> paths[i] == paths[1..][i - 1];
      }
    }
  }

  /** Case 1 of ensure_paths_included_in_env: `envp` comes back unchanged exactly when every path is already listed. */
  lemma EnsurePathsCase1Iff(envp: seq<string>, envPrefix: string, paths: seq<string>)
    requires LastMatch(envp, envPrefix).Some?
    requires forall i :: 0 <= i < |paths| ==> PathSep !in paths[i]
    ensures var j := LastMatch(envp, envPrefix).value;
      EnsurePathsIncluded(envp, envPrefix, paths) == envp <==>
      forall i :: 0 <= i < |Active(paths)| ==> Active(paths)[i] in Split(envp[j][|envPrefix|..], PathSep)
  {
    var j := LastMatch(envp, envPrefix).value;
    var ps := Active(paths);
    var rest := envp[j][|envPrefix|..];
    Case1Unchanged(envp, envPrefix, paths);
    AddAllUnchangedIff(envp[j], ps, envPrefix);
    forall i | 0 <= i < |ps|
      ensures AddValueToEnv(envp[j], ps[i], envPrefix) == envp[j] <==> ps[i] in Split(rest, PathSep)
    {
      ListedIffItem(rest, ps[i]);
    }
  }

  /** In case 1 the environment is unchanged exactly when the path loop leaves the matching entry unchanged. */
  lemma Case1Unchanged(envp: seq<string>, envPrefix: string, paths: seq<string>)
    requires LastMatch(envp, envPrefix).Some?
    ensures var j := LastMatch(envp, envPrefix).value;
      EnsurePathsIncluded(envp, envPrefix, paths) == envp <==> AddAll(envp[j], Active(paths), envPrefix) == envp[j]
  {
    var j := LastMatch(envp, envPrefix).value;
    var result := AddAll(envp[j], Active(paths), envPrefix);
    if result != envp[j] {
      assert EnsurePathsIncluded(envp, envPrefix, paths)[j] == result;
    }
  }

  /** Case 3 (no entry for the variable): a new last entry holding the prefix and exactly the paths. */
  lemma EnsurePathsCase3Lists(envp: seq<string>, envPrefix: string, paths: seq<string>)
    requires LastMatch(envp, envPrefix).None?
    requires |Active(paths)| >= 1
    requires forall i :: 0 <= i < |paths| ==> PathSep !in paths[i]
    ensures var r := EnsurePathsIncluded(envp, envPrefix, paths);
      |r| == |envp| + 1 && IsPrefix(envPrefix, r[|envp|]) &&
      Split(r[|envp|][|envPrefix|..], PathSep) == Active(paths)
  {
  }

  /** A path that add_value_to_env lists as one item: not empty, no ':', and not ending in '='. */
  predicate PlainItem(v: string) {
    |v| > 0 && PathSep !in v && v[|v| - 1] != '='
  }

  /** The items of the list an entry holds after its prefix. */
  function Items(entry: string, envPrefix: string): seq<string>
    requires IsPrefix(envPrefix, entry)
  {
    Split(entry[|envPrefix|..], PathSep)
  }

  /** The entry's list does not end in '=', where a value would be glued on without a separator. */
  predicate OpenList(entry: string, envPrefix: string)
    requires IsPrefix(envPrefix, entry)
  {
    var rest := entry[|envPrefix|..];
    |rest| == 0 || rest[|rest| - 1] != '='
  }

  /** add_value_to_env lists the value and keeps every non-empty item listed before. */
  lemma AddValueKeepsItems(src: string, value: string, envPrefix: string)
    requires IsPrefix(envPrefix, src) && OpenList(src, envPrefix) && PlainItem(value)
    ensures var r := AddValueToEnv(src, value, envPrefix);
      IsPrefix(envPrefix, r) && OpenList(r, envPrefix) && value in Items(r, envPrefix) &&
      forall x :: x in Items(src, envPrefix) && |x| > 0 ==> x in Items(r, envPrefix)
  {
    var r := AddValueToEnv(src, value, envPrefix);
    AddedValueIsListed(src, value, envPrefix);
    if r != src {
      var rest := src[|envPrefix|..];
      var sep := Separator(src);
      AppendedRest(src, value, envPrefix);
      assert |rest| > 0 ==> rest[|rest| - 1] == src[|src| - 1];
      AppendKeepsItems(rest, sep, value);
    }
  }

  /** Appending `sep` and a value to a list keeps its non-empty items. */
  lemma AppendKeepsItems(rest: string, sep: string, value: string)
    requires PathSep !in value
    requires sep == [PathSep] || (sep == [] && (|rest| == 0 || rest[|rest| - 1] == PathSep))
    ensures forall x :: x in Split(rest, PathSep) && |x| > 0 ==> x in Split(rest + sep + value, PathSep)
  {
    if sep == [PathSep] {
      SplitAppend(rest, value, PathSep);
    } else if |rest| > 0 {
      var front := rest[..|rest| - 1];
      TrailingSepItems(rest, front, value, rest + sep + value);
    }
  }

  /** A list ending in ':' holds an empty last item, which the value appended after that ':' takes the place of. */
  lemma TrailingSepItems(rest: string, front: string, value: string, t: string)
    requires PathSep !in value && |rest| > 0 && rest[|rest| - 1] == PathSep
    requires front == rest[..|rest| - 1] && t == rest + value
    ensures Split(rest, PathSep) == Split(front, PathSep) + [""]
    ensures Split(t, PathSep) == Split(front, PathSep) + [value]
  {
    assert rest == front + [PathSep] + "";
    SplitAppend(front, "", PathSep);
    assert t == front + [PathSep] + value;
    SplitAppend(front, value, PathSep);
  }

  /** The path loop lists every path and keeps every non-empty item of the entry it started from. */
  lemma {:induction false} AddAllLists(s: string, paths: seq<string>, envPrefix: string)
    requires IsPrefix(envPrefix, s) && OpenList(s, envPrefix)
    requires forall i :: 0 <= i < |paths| ==> PlainItem(paths[i])
    ensures var r := AddAll(s, paths, envPrefix);
      IsPrefix(envPrefix, r) && OpenList(r, envPrefix) &&
      (forall i :: 0 <= i < |paths| ==> paths[i] in Items(r, envPrefix)) &&
      (forall x :: x in Items(s, envPrefix) && |x| > 0 ==> x in Items(r, envPrefix))
    decreases |paths|
  {
    if |paths| > 0 {
      var s1 := AddValueToEnv(s, paths[0], envPrefix);
      AddValueKeepsItems(s, paths[0], envPrefix);
      assert forall i :: 0 <= i < |paths[1..]| ==> paths[1..][i] == paths[i + 1];
      AddAllLists(s1, paths[1..], envPrefix);
      assert AddAll(s, paths, envPrefix) == AddAll(s1, paths[1..], envPrefix);
      assert forall i :: 1 <= i < |paths| ==> paths[i] == paths[1..][i - 1];
    }
  }

  /**
   Cases 1 and 2 of ensure_paths_included_in_env: the variable's last entry
   afterwards lists every path and every non-empty item it listed before,
   provided no path holds ':' or ends in '=' and the old list does not end in '='.
   */
  lemma EnsurePathsCase2Lists(envp: seq<string>, envPrefix: string, paths: seq<string>)
    requires LastMatch(envp, envPrefix).Some?
    requires OpenList(envp[LastMatch(envp, envPrefix).value], envPrefix)
    requires forall i :: 0 <= i < |paths| ==> |paths[i]| == 0 || PlainItem(paths[i])
    ensures var j := LastMatch(envp, envPrefix).value; var r := EnsurePathsIncluded(envp, envPrefix, paths);
      |r| == |envp| && LastMatch(r, envPrefix) == Some(j) &&
      (forall i :: 0 <= i < |Active(paths)| ==> Active(paths)[i] in Items(r[j], envPrefix)) &&
      (forall x :: x in Items(envp[j], envPrefix) && |x| > 0 ==> x in Items(r[j], envPrefix))
  {
    var j := LastMatch(envp, envPrefix).value;
    var ps := Active(paths);
    ActivePlain(paths);
    AddAllLists(envp[j], ps, envPrefix);
    var r := EnsurePathsIncluded(envp, envPrefix, paths);
    assert r[j] == AddAll(envp[j], ps, envPrefix);
    LastMatchIs(r, envPrefix, j);
  }

  /** The active paths are the non-empty ones before the first empty path. */
  lemma ActivePlain(paths: seq<string>)
    requires forall i :: 0 <= i < |paths| ==> |paths[i]| == 0 || PlainItem(paths[i])
    ensures forall i :: 0 <= i < |Active(paths)| ==> PlainItem(Active(paths)[i])
  {
  }

  /** The last entry starting with the prefix is at `j` when it starts with it and none after it does. */
  lemma {:induction false} LastMatchIs(envp: seq<string>, name: string, j: nat)
    requires j < |envp| && IsPrefix(name, envp[j])
    requires forall k :: j < k < |envp| ==> !IsPrefix(name, envp[k])
    ensures LastMatch(envp, name) == Some(j)
    decreases |envp|
  {
    if j < |envp| - 1 {
      var init := envp[..|envp| - 1];
      LastMatchIs(init, name, j);
    }
  }
}

=== FILE: eventprocessor.dfy ===
/**
 The macOS sandbox's event loop step (EventProcessor.hpp) and the
 whitelisted-pid map it consults (Sandbox.hpp).

 An event from the host is dropped. Otherwise it is handled only when its
 parent or original parent is whitelisted and its pid belongs to a tracked
 process; a fork whitelists the forking pid and an exit removes it. Events
 whose parents are not whitelisted are muted (EndpointSecurity) or hit an
 assertion (interposing).

 Two things in the step as written differ from that: each `find(...) !=
 end()` test compares iterators of two different copies of the map, and
 the fork's emplace goes into a copy. `ProcessEventAsWritten` models both;
 `ProcessEvent` is the corrected step.
 */
module EventProcessor {
  import opened Wrappers
  import opened Events
  import opened IOEvents
  import opened AccessHandler
  import opened IOHandler

  datatype Backing = EndpointSecurity | Interposing

  datatype Outcome =
    | FromHost                  // the host's own event: returned at once
    | Muted                     // es_mute_process on the event's audit token
    | AssertFails               // assert(false): an interposed event from an unwhitelisted parent
    | NotTracked                // TryInitializeWithTrackedProcess failed
    | Handled(result: Handled)  // handler.HandleEvent(event)

  /** The sandbox state the step reads and changes. */
  datatype Sandbox = Sandbox(whitelisted: map<int, bool>, tracked: map<int, Process>)

  /** RemoveWhitelistedPid: the pid is erased, and the result says whether it was there. */
  function RemoveWhitelistedPid(pids: map<int, bool>, pid: int): (r: (map<int, bool>, bool))
    ensures r.1 <==> pid in pids
    ensures pid !in r.0 && r.0.Keys == pids.Keys - {pid}
    ensures forall p :: p in r.0 ==> r.0[p] == pids[p]
  {
    if pid in pids then (pids - {pid}, true) else (pids, false)
  }

  /** std::map::emplace: inserts unless the key is already there. */
  function Whitelist(pids: map<int, bool>, pid: int): (r: map<int, bool>)
    ensures r.Keys == pids.Keys + {pid}
    ensures pid in pids ==> r == pids
    ensures pid !in pids ==> r[pid] && forall p :: p in pids ==> r[p] == pids[p]
  {
    if pid in pids then pids else pids[pid := true]
  }

  /** The corrected whitelist test: the parent or the original parent is in the map. */
  predicate ParentWhitelisted(pids: map<int, bool>, e: IOEvent) {
    e.ppid in pids || e.oppid in pids
  }

  /**
   `GetPidMap().find(p) != GetPidMap().end()` as written: the two calls
   return two distinct copies, and an iterator into the first (its end when
   `p` is absent) is compared with the end of the second. That comparison is
   undefined behaviour; with a node-based std::map the two end sentinels are
   distinct objects, so the test comes out true for every `p`.
   */
  function FoundAcrossCopies(pids: map<int, bool>, p: int): (r: bool)
    ensures r
  {
    true
  }

  /**
   The step shared by both versions: `whitelisted` is the outcome of the
   parent test and `forkWhitelists` says whether a fork's emplace reaches
   the sandbox's map.
   */
  function Step(s: Sandbox, e: IOEvent, host: int, backing: Backing, env: Env,
                whitelisted: bool, forkWhitelists: bool): (r: (map<int, bool>, Outcome))
    ensures r.1.Handled? ==> r.1.result == HandleEvent(e, env)
    ensures r.0 != s.whitelisted ==> r.1.Handled?
  {
    if e.pid == host then (s.whitelisted, FromHost)
    else if whitelisted then
      if TryInitializeWithTrackedProcess(s.tracked, e.pid).None? then (s.whitelisted, NotTracked)
      else
        var pids :=
          if e.eventType == Notify(Fork) then (if forkWhitelists then Whitelist(s.whitelisted, e.pid) else s.whitelisted)
          else if e.eventType == Notify(Exit) then RemoveWhitelistedPid(s.whitelisted, e.pid).0
          else s.whitelisted;
        (pids, Handled(HandleEvent(e, env)))
    else (s.whitelisted, if backing == EndpointSecurity then Muted else AssertFails)
  }

  /** process_event as written: the parent test always passes and a fork's emplace is lost. */
  function ProcessEventAsWritten(s: Sandbox, e: IOEvent, host: int, backing: Backing, env: Env): (r: (map<int, bool>, Outcome))
    ensures r.1 != Muted && r.1 != AssertFails
    ensures r.0.Keys <= s.whitelisted.Keys
  {
    Step(s, e, host, backing, env,
         FoundAcrossCopies(s.whitelisted, e.ppid) || FoundAcrossCopies(s.whitelisted, e.oppid), false)
  }

  /** process_event as evidently intended: the parents are looked up in the map, and a fork whitelists its pid. */
  function ProcessEvent(s: Sandbox, e: IOEvent, host: int, backing: Backing, env: Env): (r: (map<int, bool>, Outcome))
    ensures e.pid == host ==> r == (s.whitelisted, FromHost)
    ensures e.pid != host && !ParentWhitelisted(s.whitelisted, e) ==>
      r.0 == s.whitelisted && r.1 == (if backing == EndpointSecurity then Muted else AssertFails)
    ensures e.pid != host && ParentWhitelisted(s.whitelisted, e) ==>
      (r.1 == NotTracked <==> e.pid !in s.tracked || s.tracked[e.pid].pip.detoursDisabled)
    ensures r.1.Handled? <==>
      e.pid != host && ParentWhitelisted(s.whitelisted, e) && TryInitializeWithTrackedProcess(s.tracked, e.pid).Some?
    ensures r.1.Handled? && e.eventType == Notify(Fork) ==> r.0 == Whitelist(s.whitelisted, e.pid)
    ensures r.1.Handled? && e.eventType == Notify(Exit) ==> r.0 == s.whitelisted - {e.pid}
    ensures e.eventType != Notify(Fork) && e.eventType != Notify(Exit) ==> r.0 == s.whitelisted
  {
    Step(s, e, host, backing, env, ParentWhitelisted(s.whitelisted, e), true)
  }

  /** Removing a pid twice: the second removal finds nothing and changes nothing. */
  lemma RemoveIsIdempotent(pids: map<int, bool>, pid: int)
    ensures var (once, _) := RemoveWhitelistedPid(pids, pid);
      RemoveWhitelistedPid(once, pid) == (once, false)
  {
  }

  /** Whitelisting and then removing a pid that was not whitelisted restores the map. */
  lemma RemoveUndoesWhitelist(pids: map<int, bool>, pid: int)
    requires pid !in pids
    ensures RemoveWhitelistedPid(Whitelist(pids, pid), pid) == (pids, true)
  {
    assert Whitelist(pids, pid) - {pid} == pids;
  }

  /** Once a tracked process has forked, the events of its tracked children are handled rather than muted. */
  lemma ForkAdmitsChildren(s: Sandbox, fork: IOEvent, child: IOEvent, host: int, backing: Backing, env: Env)
    requires fork.eventType == Notify(Fork) && fork.pid != host
    requires ParentWhitelisted(s.whitelisted, fork) && TryInitializeWithTrackedProcess(s.tracked, fork.pid).Some?
    requires child.ppid == fork.pid && child.pid != host && TryInitializeWithTrackedProcess(s.tracked, child.pid).Some?
    ensures var (pids, _) := ProcessEvent(s, fork, host, backing, env);
      ProcessEvent(s.(whitelisted := pids), child, host, backing, env).1 == Handled(HandleEvent(child, env))
  {
  }

  /** After a process exits, events whose only whitelisted parent it was are filtered out again. */
  lemma ExitFiltersChildren(s: Sandbox, exit: IOEvent, child: IOEvent, host: int, backing: Backing, env: Env)
    requires exit.eventType == Notify(Exit) && exit.pid != host
    requires ParentWhitelisted(s.whitelisted, exit) && TryInitializeWithTrackedProcess(s.tracked, exit.pid).Some?
    requires child.ppid == child.oppid == exit.pid && child.pid != host
    ensures var (pids, _) := ProcessEvent(s, exit, host, backing, env);
      ProcessEvent(s.(whitelisted := pids), child, host, backing, env).1 in {Muted, AssertFails}
  {
  }

  /** The two versions agree on every event whose parent is whitelisted, except for the map a fork leaves. */
  lemma AsWrittenAgreesWhenWhitelisted(s: Sandbox, e: IOEvent, host: int, backing: Backing, env: Env)
    requires ParentWhitelisted(s.whitelisted, e)
    ensures ProcessEventAsWritten(s, e, host, backing, env).1 == ProcessEvent(s, e, host, backing, env).1
    ensures e.eventType != Notify(Fork) ==> ProcessEventAsWritten(s, e, host, backing, env) == ProcessEvent(s, e, host, backing, env)
  {
  }

  /**
   A process with pid 2 whose parent 1 is whitelisted forks, and then its
   child 3 opens a file. As written, the fork leaves the map at {1}, and the
   child's event is handled only because the parent test always passes;
   with the parent test corrected but the emplace still lost it is muted.
   Corrected, 2 is whitelisted and the child's event is handled. An event
   whose parents were never whitelisted is handled as written and muted
   when corrected.
   */
  lemma WhitelistExample(env: Env)
    ensures var s := ExampleSandbox;
      ProcessEventAsWritten(s, ExampleFork, 0, EndpointSecurity, env).0 == map[1 := true] &&
      Step(s, ExampleOpen, 0, EndpointSecurity, env, ParentWhitelisted(s.whitelisted, ExampleOpen), false).1 == Muted &&
      ProcessEvent(s, ExampleFork, 0, EndpointSecurity, env).0 == map[1 := true, 2 := true] &&
      ProcessEvent(s.(whitelisted := map[1 := true, 2 := true]), ExampleOpen, 0, EndpointSecurity, env).1.Handled? &&
      ProcessEventAsWritten(s, ExampleStray, 0, EndpointSecurity, env).1.Handled? &&
      ProcessEvent(s, ExampleStray, 0, EndpointSecurity, env).1 == Muted
  {
    ForkExample(env);
    StrayExample(env);
  }

  /** The sandbox of the example: pid 1 whitelisted, pids 2, 3 and 9 tracked. */
  const ExampleSandbox := Sandbox(map[1 := true], map[2 := ExampleProcess, 3 := ExampleProcess, 9 := ExampleProcess])
  const ExampleProcess := Process("/bin/sh", Pip(1, 7, false))
  const ExampleFork := IOEvent(2, 3, 1, 1, Notify(Fork), 0, false, "/bin/sh", "", "")
  const ExampleOpen := IOEvent(3, 0, 2, 2, Notify(Open), 0x8000, false, "", "/tmp/a", "")
  const ExampleStray := IOEvent(9, 0, 8, 8, Notify(Open), 0x8000, false, "", "/tmp/a", "")

  /** The fork half of the example. */
  lemma ForkExample(env: Env)
    ensures var s := ExampleSandbox;
      ProcessEventAsWritten(s, ExampleFork, 0, EndpointSecurity, env).0 == map[1 := true] &&
      Step(s, ExampleOpen, 0, EndpointSecurity, env, ParentWhitelisted(s.whitelisted, ExampleOpen), false).1 == Muted &&
      ProcessEvent(s, ExampleFork, 0, EndpointSecurity, env).0 == map[1 := true, 2 := true] &&
      ProcessEvent(s.(whitelisted := map[1 := true, 2 := true]), ExampleOpen, 0, EndpointSecurity, env).1.Handled?
  {
    var s := ExampleSandbox;
    assert TryInitializeWithTrackedProcess(s.tracked, 2).Some?;
    assert TryInitializeWithTrackedProcess(s.tracked, 3).Some?;
    assert s.whitelisted[2 := true] == map[1 := true, 2 := true];
  }

  /** The stray half of the example: pid 9's parents were never whitelisted. */
  lemma StrayExample(env: Env)
    ensures var s := ExampleSandbox;
      ProcessEventAsWritten(s, ExampleStray, 0, EndpointSecurity, env).1.Handled? &&
      ProcessEvent(s, ExampleStray, 0, EndpointSecurity, env).1 == Muted
  {
    assert TryInitializeWithTrackedProcess(ExampleSandbox.tracked, 9).Some?;
  }
}

=== FILE: events.dfy ===
/**
 The EndpointSecurity event types (es_event_type_t) that the sandboxes
 name. Both the macOS sandbox and the Linux observer use them: the Linux
 observer reports every access with a NOTIFY type.

 An event type is an action (AUTH or NOTIFY) applied to a kind, the
 sentinel ES_EVENT_TYPE_LAST, or any other value the switch statements do
 not list.
 */
module Events {

  datatype Kind =
    | Exec | Fork | Exit | Lookup
    | Open | Close | Create
    | Truncate | SetAttrList | SetExtAttr | DeleteExtAttr | SetFlags | SetOwner | SetMode
    | Write | Utimes | SetTime | SetAcl
    | Chdir | ReadDir | FsGetPath
    | GetAttrList | GetExtAttr | ListExtAttr | Access | Stat
    | Clone | ExchangeData | Rename | Readlink | Link | Unlink

  datatype EventType =
    | Notify(kind: Kind)
    | Auth(kind: Kind)
    | Last
    | Unlisted(code: int)

  /** The kinds that change a file's contents or metadata. */
  predicate WriteClass(k: Kind) {
    match k
    case Truncate | SetAttrList | SetExtAttr | DeleteExtAttr | SetFlags | SetOwner | SetMode | Write | Utimes | SetTime | SetAcl => true
    case _ => false
  }

  /** The kinds that only look at a file's metadata. */
  predicate StatClass(k: Kind) {
    match k
    case GetAttrList | GetExtAttr | ListExtAttr | Access | Stat => true
    case _ => false
  }

  /** The kinds that read a directory or a path. */
  predicate ReadClass(k: Kind) {
    match k
    case Chdir | ReadDir | FsGetPath => true
    case _ => false
  }

  /** The kinds that start, clone or end a process. */
  predicate Lifecycle(k: Kind) {
    match k
    case Fork | Exec | Exit => true
    case _ => false
  }
}

=== FILE: fdtable.dfy ===
/**
 The observer's file-descriptor table (bxl_observer.cpp): a cache from small
 descriptors to the path they were last seen to name, so that the
 `/proc/self/fd/N` link need not be read on every access.

 The table is a map from descriptor to a non-empty path; a descriptor that is
 not in the map holds the empty string in the source. The `/proc/.../fd/N`
 links are an oracle `procFd`: a descriptor it does not contain is a failed
 read. A link is read into a zeroed PATH_MAX buffer, which readlink fills
 without adding a NUL.
 */
module FdTable {
  import opened Wrappers
  import opened Strs
  import Posix

  /** MAX_FD: only descriptors below it are cached. */
  const MaxFd: int := 1024

  datatype Table = Table(entries: map<int, string>, useFdTable: bool)

  predicate InRange(fd: int) { 0 <= fd < MaxFd }

  /** Only in-range descriptors, and only non-empty paths that fit the buffer, are ever held. */
  ghost predicate Valid(t: Table) {
    forall fd :: fd in t.entries ==> InRange(fd) && 0 < |t.entries[fd]| <= Posix.PATH_MAX
  }

  /**
   read_path_for_fd into fd_to_path's zeroed PATH_MAX buffer: readlink
   stores at most PATH_MAX characters of the link. A shorter link is ended
   by the buffer's zeros; a failed read leaves the buffer empty.
   */
  function ReadPath(procFd: map<int, string>, fd: int): (p: string)
    ensures |p| <= Posix.PATH_MAX
    ensures fd !in procFd ==> p == ""
    ensures fd in procFd ==> IsPrefix(p, procFd[fd])
    ensures fd in procFd && |procFd[fd]| < Posix.PATH_MAX ==> p == procFd[fd]
  {
    if fd !in procFd then ""
    else
      var link := procFd[fd];
      if |link| < Posix.PATH_MAX then link else link[..Posix.PATH_MAX]
  }

  /** A link of PATH_MAX characters or more fills the buffer, leaving no NUL in it. */
  predicate FillsBuffer(procFd: map<int, string>, fd: int) {
    fd in procFd && |procFd[fd]| >= Posix.PATH_MAX
  }

  /** Every held entry agrees with what a fresh read of the descriptor would give. */
  ghost predicate Coherent(t: Table, procFd: map<int, string>) {
    forall fd :: fd in t.entries ==> fd in procFd && t.entries[fd] == ReadPath(procFd, fd)
  }

  /** reset_fd_table_entry: forget one descriptor; out-of-range descriptors are ignored. */
  function ResetEntry(t: Table, fd: int): (r: Table)
    ensures InRange(fd) || Valid(t) ==> fd !in r.entries
    ensures r.useFdTable == t.useFdTable
    ensures forall other :: other != fd ==> (other in r.entries <==> other in t.entries)
    ensures forall other :: other != fd && other in r.entries ==> r.entries[other] == t.entries[other]
    ensures Valid(t) ==> Valid(r)
    ensures Valid(t) && !InRange(fd) ==> r == t
  {
    if InRange(fd) then t.(entries := t.entries - {fd}) else t
  }

  /** reset_fd_table: forget every descriptor. */
  function ResetAll(t: Table): (r: Table)
    ensures forall fd :: fd !in r.entries
    ensures r.useFdTable == t.useFdTable
    ensures Valid(r)
  {
    t.(entries := map[])
  }

  /**
   fd_to_path: the path a descriptor names, and the table afterwards.
   Out-of-range descriptors are read directly and never cached; a held entry
   is returned when the table is in use; otherwise the link is read, and a
   successful read is cached when the table is in use. A failed read yields "".
   A read link is at most PATH_MAX characters: a longer one is cut there.
   */
  function FdToPath(t: Table, fd: int, procFd: map<int, string>): (r: (string, Table))
    ensures r.1.useFdTable == t.useFdTable
    ensures !InRange(fd) ==> r == (ReadPath(procFd, fd), t)
    ensures InRange(fd) && t.useFdTable && fd in t.entries ==> r == (t.entries[fd], t)
    ensures !(InRange(fd) && t.useFdTable && fd in t.entries) ==>
      r.0 == ReadPath(procFd, fd) && (FillsBuffer(procFd, fd) ==> |r.0| == Posix.PATH_MAX)
    ensures Valid(t) ==> |r.0| <= Posix.PATH_MAX
    ensures !t.useFdTable ==> r.1 == t
    ensures fd !in procFd ==> r.1 == t
    ensures Valid(t) ==> Valid(r.1)
    ensures forall other :: other != fd ==>
      (other in r.1.entries <==> other in t.entries) &&
      (other in r.1.entries ==> r.1.entries[other] == t.entries[other])
  {
    if !InRange(fd) then
      (ReadPath(procFd, fd), t)
    else if t.useFdTable && fd in t.entries then
      (t.entries[fd], t)
    else if fd in procFd then
      var path := ReadPath(procFd, fd);
      if t.useFdTable && |path| > 0 then (path, t.(entries := t.entries[fd := path])) else (path, t)
    else
      ("", t)
  }

  /**
   While the table agrees with the descriptors' links, fd_to_path returns the
   same path as a fresh read, and the table keeps agreeing.
   */
  lemma FdToPathCoherent(t: Table, fd: int, procFd: map<int, string>)
    requires Coherent(t, procFd)
    ensures FdToPath(t, fd, procFd).0 == ReadPath(procFd, fd)
    ensures Coherent(FdToPath(t, fd, procFd).1, procFd)
  {
  }

  /** After a reset, a descriptor's next lookup goes to the filesystem. */
  lemma ResetForcesRead(t: Table, fd: int, procFd: map<int, string>)
    requires InRange(fd)
    ensures FdToPath(ResetEntry(t, fd), fd, procFd).0 == ReadPath(procFd, fd)
  {
  }

  /** A descriptor whose link changed is served stale from the table until it is reset. */
  lemma StaleWithoutReset(t: Table, fd: int, procFd: map<int, string>)
    requires InRange(fd) && t.useFdTable && fd in t.entries
    requires fd in procFd && ReadPath(procFd, fd) != t.entries[fd]
    ensures FdToPath(t, fd, procFd).0 != ReadPath(procFd, fd)
    ensures FdToPath(ResetEntry(t, fd), fd, procFd).0 == ReadPath(procFd, fd)
  {
  }
}

=== FILE: ioevent.dfy ===
/**
 The sandbox's description of one observed operation (IOEvent.hpp): the
 process ids, the event type, the file mode of the source path, whether the
 entry was modified, the executable and the two paths.

 stat and realpath are oracles: `stat` maps a path to its st_mode (a path
 that is not in it cannot be stat'ed), and `realpath` gives what realpath
 leaves in its buffer: the canonical form of the path when it succeeds and,
 when it fails, the pathname that caused the failure (as macOS realpath(3)
 documents). The constructor does not look at realpath's return value, so
 it keeps the buffer either way.

 This is macOS code: PATH_MAX is the macOS value, PathInfo.PATH_MAX.
 */
module IOEvents {
  import opened Wrappers
  import opened Strs
  import opened Posix
  import opened Events
  import PathInfo

  /** st_mode is kept in an unsigned short. */
  const USHRT_MAX: nat := 0xFFFF
  /** The largest process id on macOS. */
  const PID_MAX: nat := 99999

  datatype IOEvent = IOEvent(
    pid: int, cpid: int, ppid: int, oppid: int,
    eventType: EventType,
    mode: nat,
    modified: bool,
    executable: string,
    src: string,
    dst: string)

  /** Paths containing "/../" or "/./" are canonicalised by the constructor. */
  predicate NeedsRealpath(p: string) {
    Contains(p, "/../") || Contains(p, "/./")
  }

  /** A path as the constructor keeps it: as given, or what realpath leaves in the buffer when it looks truncated. */
  function Canonical(p: string, realpath: string -> string): (r: string)
    ensures !NeedsRealpath(p) ==> r == p
    ensures NeedsRealpath(p) ==> r == realpath(p)
    ensures (forall q :: realpath(q) == q) ==> r == p
  {
    if NeedsRealpath(p) then realpath(p) else p
  }

  /**
   The constructor used for interposed events: a missing path becomes "",
   the original parent is the parent, the mode is read with stat (of the path
   as given) when asked for and otherwise left 0, and truncated-looking paths
   are canonicalised.
   */
  function NewIOEvent(
    pid: int, cpid: int, ppid: int, eventType: EventType,
    src: Option<string>, dst: Option<string>, exec: string,
    getMode: bool, modified: bool,
    stat: map<string, Mode>, realpath: string -> string): (e: IOEvent)
    ensures e.oppid == e.ppid == ppid && e.pid == pid && e.cpid == cpid && e.eventType == eventType
    ensures src.None? ==> e.src == ""
    ensures dst.None? ==> e.dst == ""
    ensures src.Some? && !NeedsRealpath(src.value) ==> e.src == src.value
    ensures dst.Some? && !NeedsRealpath(dst.value) ==> e.dst == dst.value
    ensures src.Some? && NeedsRealpath(src.value) ==> e.src == realpath(src.value)
    ensures dst.Some? && NeedsRealpath(dst.value) ==> e.dst == realpath(dst.value)
    ensures e.mode <= USHRT_MAX
    ensures !getMode || src.GetOr("") !in stat ==> e.mode == 0
    ensures getMode && src.GetOr("") in stat ==> e.mode == stat[src.GetOr("")] as nat % (USHRT_MAX + 1)
    ensures e.modified == modified && e.executable == exec
  {
    var s := src.GetOr("");
    var d := dst.GetOr("");
    var mode := if getMode && s in stat then stat[s] as nat % (USHRT_MAX + 1) else 0;
    IOEvent(pid, cpid, ppid, ppid, eventType, mode, modified, exec,
            Canonical(s, realpath), Canonical(d, realpath))
  }

  /** GetEventPath: index 0 is the source path, every other index the destination. */
  function EventPath(e: IOEvent, index: int): (p: string)
    ensures index == 0 ==> p == e.src
    ensures index != 0 ==> p == e.dst
  {
    if index == 0 then e.src else e.dst
  }

  /** EventPathExists: a mode of 0 stands for "no such file". */
  predicate PathExists(e: IOEvent) {
    e.mode != 0
  }

  /** The number of decimal digits of `n` (std::to_string(n).length()). */
  function DecimalLength(n: nat): (d: nat)
    ensures d >= 1
    decreases n
  {
    if n < 10 then 1 else 1 + DecimalLength(n / 10)
  }

  lemma {:induction false} DecimalLengthMonotone(a: nat, b: nat)
    requires a <= b
    ensures DecimalLength(a) <= DecimalLength(b)
    decreases b
  {
    if a >= 10 {
      DecimalLengthMonotone(a / 10, b / 10);
    }
  }

  /**
   max_size: three pids, the type and the mode, the modified flag, three
   paths of at most the macOS PATH_MAX and nine delimiters.
   */
  function MaxSize(): (n: nat)
    ensures n == 3 * 5 + 2 * 5 + 1 + 3 * PathInfo.PATH_MAX + 9
    ensures n == 3107
  {
    assert DecimalLength(PID_MAX) == 5;
    assert DecimalLength(USHRT_MAX) == 5;
    3 * DecimalLength(PID_MAX) + 2 * DecimalLength(USHRT_MAX) + DecimalLength(1) + 3 * PathInfo.PATH_MAX + 9
  }

  /**
   The length of an event written as decimal fields and paths between nine
   delimiters (the layout max_size accounts for; the serialiser itself is
   not part of this model).
   */
  function SerializedSize(pid: nat, cpid: nat, ppid: nat, eventCode: nat, e: IOEvent): nat {
    DecimalLength(pid) + DecimalLength(cpid) + DecimalLength(ppid) +
    DecimalLength(eventCode) + DecimalLength(e.mode) + DecimalLength(if e.modified then 1 else 0) +
    |e.executable| + |e.src| + |e.dst| + 9
  }

  /** Every event within the documented bounds fits in max_size. */
  lemma SerializedSizeBounded(pid: nat, cpid: nat, ppid: nat, eventCode: nat, e: IOEvent)
    requires pid <= PID_MAX && cpid <= PID_MAX && ppid <= PID_MAX
    requires eventCode <= USHRT_MAX && e.mode <= USHRT_MAX
    requires |e.executable| <= PathInfo.PATH_MAX && |e.src| <= PathInfo.PATH_MAX && |e.dst| <= PathInfo.PATH_MAX
    ensures SerializedSize(pid, cpid, ppid, eventCode, e) <= MaxSize()
  {
    DecimalLengthMonotone(pid, PID_MAX);
    DecimalLengthMonotone(cpid, PID_MAX);
    DecimalLengthMonotone(ppid, PID_MAX);
    DecimalLengthMonotone(eventCode, USHRT_MAX);
    DecimalLengthMonotone(e.mode, USHRT_MAX);
    assert DecimalLength(PID_MAX) == 5;
    assert DecimalLength(USHRT_MAX) == 5;
  }
}

=== FILE: iohandler.dfy ===
/**
 The macOS sandbox's event handlers (IOHandler.cpp): every EndpointSecurity
 or interposed event is routed by its type to a handler, which either
 updates the process tree or names the policy checks to run on the event's
 paths.

 A file-system handler's outcome is the list of checks it asks for, in
 order; how the check results are combined (AccessCheckResult::Combine)
 is not part of this model. The sandbox's process tree is reached through
 the parameters of `Env`: whether breaking away is allowed, whether
 TrackChildProcess accepts the child, the tree size UntrackProcess leaves,
 and the pip's root pid. lstat is an oracle from path to st_mode.
 */
module IOHandler {
  import opened Wrappers
  import opened Posix
  import opened Events
  import opened IOEvents
  import opened AccessHandler

  /** One CheckAndReport call: the operation, the path, the checker, the pid and whether the path is a directory. */
  datatype Check = Check(op: FileOperation, path: string, checker: Checker, pid: int, isDir: bool)

  /** The process-tree reports a life-cycle handler sends. */
  datatype TreeReport = ChildSpawned(pid: int) | ProcessExited(pid: int) | TreeCompleted(rootPid: int)

  /**
   What a life-cycle handler does to the process tree: the child it asks to
   track, the new executable path of the current process, the pid it
   untracks, and the reports it sends.
   */
  datatype TreeEffects = TreeEffects(track: Option<int>, setPath: Option<string>, untrack: Option<int>, reports: seq<TreeReport>)

  datatype Handled =
    | Allow(effects: TreeEffects)   // s_allowedCheckResult
    | Checked(checks: seq<Check>)
    | Invalid                       // AccessCheckResult::Invalid()
    | Throws(eventType: EventType)  // BuildXLException("Unhandled ES event: " + the event's type)

  datatype Env = Env(
    breakaway: bool,
    childTracked: bool,
    treeSizeAfterUntrack: nat,
    processPid: int,
    rootPid: int,
    enforceDirectoryCreation: bool,
    lstat: map<string, Mode>)

  const NoEffects := TreeEffects(None, None, None, [])

  /** GetMode: the event's st_mode (an unsigned short) as a mode word. */
  function EventMode(e: IOEvent): Mode {
    (e.mode % 0x1_0000) as Mode
  }

  predicate EventIsDir(e: IOEvent) {
    IsDir(EventMode(e))
  }

  function Src(e: IOEvent): string { EventPath(e, 0) }

  function Dst(e: IOEvent): string { EventPath(e, 1) }

  /** HandleProcessFork: with breakaway allowed nothing is tracked; otherwise the child is tracked and, if accepted, reported. */
  function HandleProcessFork(e: IOEvent, env: Env): (r: Handled)
    ensures r.Allow?
    ensures env.breakaway ==> r.effects == NoEffects
    ensures !env.breakaway ==>
      (r.effects.track == Some(e.cpid) && r.effects.untrack.None? &&
       r.effects.reports == (if env.childTracked then [ChildSpawned(e.cpid)] else []))
  {
    if env.breakaway then Allow(NoEffects)
    else Allow(TreeEffects(Some(e.cpid), None, None, if env.childTracked then [ChildSpawned(e.cpid)] else []))
  }

  /** HandleProcessExec: the process takes the new executable path and is reported as spawned. */
  function HandleProcessExec(e: IOEvent, env: Env): (r: Handled)
    ensures r.Allow? && r.effects.setPath == Some(e.executable)
    ensures r.effects.reports == [ChildSpawned(env.processPid)] && r.effects.track.None?
  {
    Allow(TreeEffects(None, Some(e.executable), None, [ChildSpawned(env.processPid)]))
  }

  /** HandleProcessUntracked: the pid is untracked, and when the tree is then empty its completion is reported. */
  function HandleProcessUntracked(pid: int, env: Env): (r: Handled)
    ensures r.Allow? && r.effects.untrack == Some(pid)
    ensures r.effects.reports == (if env.treeSizeAfterUntrack == 0 then [TreeCompleted(env.rootPid)] else [])
  {
    Allow(TreeEffects(None, None, Some(pid), if env.treeSizeAfterUntrack == 0 then [TreeCompleted(env.rootPid)] else []))
  }

  /** HandleProcessExit: the exit is reported, then the pid is untracked. */
  function HandleProcessExit(e: IOEvent, env: Env): (r: Handled)
    ensures r.Allow? && r.effects.untrack == Some(e.pid)
    ensures |r.effects.reports| >= 1 && r.effects.reports[0] == ProcessExited(e.pid)
    ensures r.effects.reports[1..] == HandleProcessUntracked(e.pid, env).effects.reports
  {
    var untracked := HandleProcessUntracked(e.pid, env).effects;
    Allow(untracked.(reports := [ProcessExited(e.pid)] + untracked.reports))
  }

  function HandleLookup(e: IOEvent): (r: Handled)
    ensures r == Checked([Check(MacLookup, Src(e), CheckLookup, e.pid, false)])
  {
    Checked([Check(MacLookup, Src(e), CheckLookup, e.pid, false)])
  }

  /** The check of an open: directories are enumerated, anything else is read. */
  function OpenCheck(path: string, pid: int, isDir: bool): (c: Check)
    ensures c.isDir == isDir && c.path == path && c.pid == pid
    ensures isDir <==> c.checker == CheckEnumerateDir
    ensures isDir <==> c.op == KAuthOpenDir
    ensures !isDir ==> c.checker == CheckRead && c.op == KAuthReadFile
  {
    if isDir then Check(KAuthOpenDir, path, CheckEnumerateDir, pid, true)
    else Check(KAuthReadFile, path, CheckRead, pid, false)
  }

  /**
   HandleOpen: with a mode, the mode decides between a directory and a file
   open. Without one, lstat's mode decides; when lstat fails the result is
   Invalid, and the lookup written after that return is never reached.
   */
  function HandleOpen(e: IOEvent, env: Env): (r: Handled)
    ensures PathExists(e) ==> r == Checked([OpenCheck(Src(e), e.pid, EventIsDir(e))])
    ensures !PathExists(e) && Src(e) in env.lstat ==> r == Checked([OpenCheck(Src(e), e.pid, IsDir(env.lstat[Src(e)]))])
    ensures r == Invalid <==> !PathExists(e) && Src(e) !in env.lstat
  {
    if !PathExists(e) then
      if Src(e) in env.lstat then Checked([OpenCheck(Src(e), e.pid, IsDir(env.lstat[Src(e)]))])
      else Invalid
    else Checked([OpenCheck(Src(e), e.pid, EventIsDir(e))])
  }

  /** HandleClose: a modified entry is checked for writing (as a file); otherwise it is read. */
  function HandleClose(e: IOEvent): (r: Handled)
    ensures e.modified ==> r == Checked([Check(KAuthCloseModified, Src(e), CheckWrite, e.pid, false)])
    ensures !e.modified ==> r == Checked([Check(KAuthClose, Src(e), CheckRead, e.pid, EventIsDir(e))])
  {
    if e.modified then Checked([Check(KAuthCloseModified, Src(e), CheckWrite, e.pid, false)])
    else Checked([Check(KAuthClose, Src(e), CheckRead, e.pid, EventIsDir(e))])
  }

  /** The checks of an event with a source and a destination: the source first, then the destination. */
  function PairChecks(e: IOEvent, srcOp: FileOperation, srcChecker: Checker, dstOp: FileOperation, dstChecker: Checker, isDir: bool): (r: Handled)
    ensures r.Checked? && |r.checks| == 2
    ensures r.checks[0] == Check(srcOp, e.src, srcChecker, e.pid, isDir)
    ensures r.checks[1] == Check(dstOp, e.dst, dstChecker, e.pid, isDir)
  {
    Checked([Check(srcOp, Src(e), srcChecker, e.pid, isDir), Check(dstOp, Dst(e), dstChecker, e.pid, isDir)])
  }

  /** HandleLink: the source is read and the new link written. */
  function HandleLink(e: IOEvent): (r: Handled)
    ensures r == PairChecks(e, KAuthCreateHardlinkSource, CheckRead, KAuthCreateHardlinkDest, CheckWrite, EventIsDir(e))
  {
    PairChecks(e, KAuthCreateHardlinkSource, CheckRead, KAuthCreateHardlinkDest, CheckWrite, EventIsDir(e))
  }

  /** HandleUnlink: a write of the entry, as a directory or a file deletion. */
  function HandleUnlink(e: IOEvent): (r: Handled)
    ensures r.Checked? && |r.checks| == 1 && r.checks[0].checker == CheckWrite && r.checks[0].path == e.src
    ensures r.checks[0].op == (if EventIsDir(e) then KAuthDeleteDir else KAuthDeleteFile)
  {
    var isDir := EventIsDir(e);
    Checked([Check(if isDir then KAuthDeleteDir else KAuthDeleteFile, Src(e), CheckWrite, e.pid, isDir)])
  }

  function HandleReadlink(e: IOEvent): (r: Handled)
    ensures r == Checked([Check(MacReadlink, Src(e), CheckRead, e.pid, false)])
  {
    Checked([Check(MacReadlink, Src(e), CheckRead, e.pid, false)])
  }

  /** HandleRename: the source is read and the destination written. */
  function HandleRename(e: IOEvent): (r: Handled)
    ensures r == PairChecks(e, KAuthMoveSource, CheckRead, KAuthMoveDest, CheckWrite, EventIsDir(e))
  {
    PairChecks(e, KAuthMoveSource, CheckRead, KAuthMoveDest, CheckWrite, EventIsDir(e))
  }

  /** HandleClone: both ends are read and written, as files. */
  function HandleClone(e: IOEvent): (r: Handled)
    ensures r == PairChecks(e, MacVNodeCloneSource, CheckReadWrite, MacVNodeCloneDest, CheckReadWrite, false)
  {
    PairChecks(e, MacVNodeCloneSource, CheckReadWrite, MacVNodeCloneDest, CheckReadWrite, false)
  }

  /** HandleExchange: both ends are read and written, as files. */
  function HandleExchange(e: IOEvent): (r: Handled)
    ensures r == PairChecks(e, KAuthCopySource, CheckReadWrite, KAuthCopyDest, CheckReadWrite, false)
  {
    PairChecks(e, KAuthCopySource, CheckReadWrite, KAuthCopyDest, CheckReadWrite, false)
  }

  /**
   The checker of a create: a write when the entry does not exist (yet) or
   is a regular file, a symlink creation for a link, and otherwise a
   directory creation, enforced or not according to the manifest.
   */
  function CreateChecker(e: IOEvent, enforce: bool): (c: Checker)
    ensures !PathExists(e) ==> c == CheckWrite
    ensures PathExists(e) && IsLnk(EventMode(e)) ==> c == CheckCreateSymlink
    ensures PathExists(e) && IsReg(EventMode(e)) ==> c == CheckWrite
    ensures PathExists(e) && !IsLnk(EventMode(e)) && !IsReg(EventMode(e)) ==>
      c == (if enforce then CheckCreateDirectory else CheckCreateDirectoryNoEnforcement)
  {
    if !PathExists(e) then CheckWrite
    else if IsLnk(EventMode(e)) then CheckCreateSymlink
    else if IsReg(EventMode(e)) then CheckWrite
    else if enforce then CheckCreateDirectory
    else CheckCreateDirectoryNoEnforcement
  }

  /** HandleCreate: a directory (by an existing entry's mode) is a directory creation, anything else a vnode creation. */
  function HandleCreate(e: IOEvent, env: Env): (r: Handled)
    ensures r.Checked? && |r.checks| == 1 && r.checks[0].path == e.src && r.checks[0].pid == e.pid
    ensures r.checks[0].checker == CreateChecker(e, env.enforceDirectoryCreation)
    ensures r.checks[0].isDir <==> PathExists(e) && EventIsDir(e)
    ensures r.checks[0].op == (if r.checks[0].isDir then KAuthCreateDir else MacVNodeCreate)
  {
    var isDir := PathExists(e) && EventIsDir(e);
    Checked([Check(if isDir then KAuthCreateDir else MacVNodeCreate, Src(e),
                   CreateChecker(e, env.enforceDirectoryCreation), e.pid, isDir)])
  }

  function HandleGenericWrite(e: IOEvent): (r: Handled)
    ensures r == Checked([Check(KAuthVNodeWrite, Src(e), CheckWrite, e.pid, EventIsDir(e))])
  {
    Checked([Check(KAuthVNodeWrite, Src(e), CheckWrite, e.pid, EventIsDir(e))])
  }

  /** The lookup a read or probe of a missing path becomes. */
  function MissingPathLookup(e: IOEvent): Check {
    Check(MacLookup, Src(e), CheckLookup, e.pid, false)
  }

  function HandleGenericRead(e: IOEvent): (r: Handled)
    ensures !PathExists(e) ==> r == Checked([MissingPathLookup(e)])
    ensures PathExists(e) ==> r == Checked([Check(KAuthVNodeRead, Src(e), CheckRead, e.pid, EventIsDir(e))])
  {
    if !PathExists(e) then Checked([MissingPathLookup(e)])
    else Checked([Check(KAuthVNodeRead, Src(e), CheckRead, e.pid, EventIsDir(e))])
  }

  function HandleGenericProbe(e: IOEvent): (r: Handled)
    ensures !PathExists(e) ==> r == Checked([MissingPathLookup(e)])
    ensures PathExists(e) ==> r == Checked([Check(KAuthVNodeProbe, Src(e), CheckProbe, e.pid, EventIsDir(e))])
  {
    if !PathExists(e) then Checked([MissingPathLookup(e)])
    else Checked([Check(KAuthVNodeProbe, Src(e), CheckProbe, e.pid, EventIsDir(e))])
  }

  /** The kinds HandleEvent names with both an AUTH and a NOTIFY case; every other kind is named as NOTIFY only. */
  predicate AuthListed(k: Kind) {
    match k
    case Exec | Open | Create | Truncate | SetAttrList | SetExtAttr | DeleteExtAttr | SetFlags | SetOwner | SetMode | SetAcl
       | GetAttrList | GetExtAttr | ListExtAttr | Clone | ExchangeData | Rename | Readlink | Link | Unlink => true
    case _ => false
  }

  /** The event types HandleEvent has a case for. */
  predicate Listed(t: EventType) {
    t.Notify? || t.Last? || (t.Auth? && AuthListed(t.kind))
  }

  /** The handler for one kind of event. */
  function HandleKind(k: Kind, e: IOEvent, env: Env): (r: Handled)
    ensures !r.Throws?
    ensures Lifecycle(k) <==> r.Allow?
  {
    match k
    case Exec => HandleProcessExec(e, env)
    case Fork => HandleProcessFork(e, env)
    case Exit => HandleProcessExit(e, env)
    case Lookup => HandleLookup(e)
    case Open => HandleOpen(e, env)
    case Close => HandleClose(e)
    case Create => HandleCreate(e, env)
    case Truncate | SetAttrList | SetExtAttr | DeleteExtAttr | SetFlags | SetOwner | SetMode
       | Write | Utimes | SetTime | SetAcl => HandleGenericWrite(e)
    case Chdir | ReadDir | FsGetPath => HandleGenericRead(e)
    case GetAttrList | GetExtAttr | ListExtAttr | Access | Stat => HandleGenericProbe(e)
    case Clone => HandleClone(e)
    case ExchangeData => HandleExchange(e)
    case Rename => HandleRename(e)
    case Readlink => HandleReadlink(e)
    case Link => HandleLink(e)
    case Unlink => HandleUnlink(e)
  }

  /** The generic handlers: write-class kinds go to the write handler, stat kinds to the probe handler and path reads to the read handler. */
  lemma HandleKindByClass(k: Kind, e: IOEvent, env: Env)
    ensures WriteClass(k) ==> HandleKind(k, e, env) == HandleGenericWrite(e)
    ensures StatClass(k) ==> HandleKind(k, e, env) == HandleGenericProbe(e)
    ensures ReadClass(k) ==> HandleKind(k, e, env) == HandleGenericRead(e)
  {
  }

  /** HandleEvent: the switch on the event type. ES_EVENT_TYPE_LAST is Invalid; a type with no case throws, naming that type. */
  function HandleEvent(e: IOEvent, env: Env): (r: Handled)
    ensures e.eventType.Last? ==> r == Invalid
    ensures r.Throws? <==> !Listed(e.eventType)
    ensures r.Throws? ==> r.eventType == e.eventType
    ensures Listed(e.eventType) && !e.eventType.Last? ==> r == HandleKind(e.eventType.kind, e, env)
  {
    match e.eventType
    case Last => Invalid
    case Unlisted(_) => Throws(e.eventType)
    case Notify(k) => HandleKind(k, e, env)
    case Auth(k) => if AuthListed(k) then HandleKind(k, e, env) else Throws(e.eventType)
  }

  /** The checkers that can let an access change the file system. */
  predicate Mutating(c: Checker) {
    match c
    case CheckWrite | CheckReadWrite | CheckCreateSymlink | CheckCreateDirectory | CheckCreateDirectoryNoEnforcement => true
    case _ => false
  }

  /** The kinds that only look at the file system. */
  predicate ReadOnlyKind(k: Kind) {
    match k
    case Lookup | Open | Readlink | Chdir | ReadDir | FsGetPath | GetAttrList | GetExtAttr | ListExtAttr | Access | Stat => true
    case _ => false
  }

  /** An event of a read-only kind never asks for a mutating check, and a write-class event asks for exactly one, on its source. */
  lemma ReadOnlyKindsNeverMutate(e: IOEvent, env: Env)
    requires Listed(e.eventType) && !e.eventType.Last?
    ensures ReadOnlyKind(e.eventType.kind) ==>
      (HandleEvent(e, env).Checked? || HandleEvent(e, env) == Invalid) &&
      (HandleEvent(e, env).Checked? ==> forall c :: c in HandleEvent(e, env).checks ==> !Mutating(c.checker))
    ensures WriteClass(e.eventType.kind) ==>
      HandleEvent(e, env).Checked? && |HandleEvent(e, env).checks| == 1 &&
      Mutating(HandleEvent(e, env).checks[0].checker) && HandleEvent(e, env).checks[0].path == e.src
  {
  }

  /** A missing path is a lookup whether it is read or probed: both report the same check. */
  lemma MissingPathReadIsProbe(e: IOEvent)
    requires !PathExists(e)
    ensures HandleGenericRead(e) == HandleGenericProbe(e) == HandleLookup(e)
  {
  }

  /** An open never reports a lookup: the fallback after the Invalid return cannot be reached. */
  lemma OpenNeverLooksUp(e: IOEvent, env: Env)
    ensures HandleOpen(e, env).Checked? ==> HandleOpen(e, env).checks[0].op != MacLookup
    ensures HandleOpen(e, env).Checked? || HandleOpen(e, env) == Invalid
  {
  }

  /** Events with two paths check the source and then the destination, and only the destination may be checked for writing alone. */
  lemma TwoPathEventsCheckBothEnds(e: IOEvent, env: Env)
    requires e.eventType.Notify? && e.eventType.kind in {Link, Rename, Clone, ExchangeData}
    ensures var r := HandleEvent(e, env);
      r.Checked? && |r.checks| == 2 &&
      r.checks[0].path == EventPath(e, 0) && r.checks[1].path == EventPath(e, 1) &&
      r.checks[0].checker != CheckWrite
  {
  }

  /** The same kind is handled alike whether it arrives as AUTH or NOTIFY, when the switch names both. */
  lemma AuthAndNotifyAgree(e: IOEvent, env: Env, k: Kind)
    requires AuthListed(k)
    ensures HandleEvent(e.(eventType := Auth(k)), env) == HandleEvent(e.(eventType := Notify(k)), env)
  {
    var a, n := e.(eventType := Auth(k)), e.(eventType := Notify(k));
    assert HandleEvent(a, env) == HandleKind(k, a, env);
    assert HandleEvent(n, env) == HandleKind(k, n, env);
    HandleKindIgnoresType(k, a, n, env);
  }

  /** No handler looks at the event's type: events that differ only there are handled alike. */
  lemma HandleKindIgnoresType(k: Kind, a: IOEvent, b: IOEvent, env: Env)
    requires a.(eventType := b.eventType) == b
    ensures HandleKind(k, a, env) == HandleKind(k, b, env)
  {
    if k == Exec || k == Fork || k == Exit {
      LifecycleIgnoresType(k, a, b, env);
    } else if k == Lookup || k == Open || k == Close || k == Create || k == Readlink || k == Unlink {
      OnePathIgnoresType(k, a, b, env);
    } else if k == Clone || k == ExchangeData || k == Rename || k == Link {
      TwoPathIgnoresType(k, a, b, env);
    } else {
      GenericIgnoresType(k, a, b, env);
    }
  }

  /** The life-cycle handlers read the pids, the executable and the environment only. */
  lemma LifecycleIgnoresType(k: Kind, a: IOEvent, b: IOEvent, env: Env)
    requires a.(eventType := b.eventType) == b
    requires k == Exec || k == Fork || k == Exit
    ensures HandleKind(k, a, env) == HandleKind(k, b, env)
  {
    assert HandleProcessExec(a, env) == HandleProcessExec(b, env);
    assert HandleProcessFork(a, env) == HandleProcessFork(b, env);
    assert HandleProcessExit(a, env) == HandleProcessExit(b, env);
  }

  /** The one-path handlers read the source path, the mode, the modified flag and the pid only. */
  lemma OnePathIgnoresType(k: Kind, a: IOEvent, b: IOEvent, env: Env)
    requires a.(eventType := b.eventType) == b
    requires k == Lookup || k == Open || k == Close || k == Create || k == Readlink || k == Unlink
    ensures HandleKind(k, a, env) == HandleKind(k, b, env)
  {
    assert Src(a) == Src(b) && EventMode(a) == EventMode(b);
  }

  /** The two-path handlers read both paths, the mode and the pid only. */
  lemma TwoPathIgnoresType(k: Kind, a: IOEvent, b: IOEvent, env: Env)
    requires a.(eventType := b.eventType) == b
    requires k == Clone || k == ExchangeData || k == Rename || k == Link
    ensures HandleKind(k, a, env) == HandleKind(k, b, env)
  {
  }

  /** The generic write, read and probe handlers read the source path, the mode and the pid only. */
  lemma GenericIgnoresType(k: Kind, a: IOEvent, b: IOEvent, env: Env)
    requires a.(eventType := b.eventType) == b
    requires WriteClass(k) || ReadClass(k) || StatClass(k)
    ensures HandleKind(k, a, env) == HandleKind(k, b, env)
  {
    HandleKindByClass(k, a, env);
    HandleKindByClass(k, b, env);
  }

  /** Process life-cycle events are always allowed; only exit untracks, and fork under breakaway does nothing. */
  lemma LifecycleAlwaysAllowed(e: IOEvent, env: Env)
    requires e.eventType.Notify? && Lifecycle(e.eventType.kind)
    ensures HandleEvent(e, env).Allow?
    ensures HandleEvent(e, env).effects.untrack.Some? <==> e.eventType.kind == Exit
    ensures e.eventType.kind == Fork && env.breakaway ==> HandleEvent(e, env).effects == NoEffects
  {
  }
}

=== FILE: observer.dfy ===
/**
 The decisions the Linux observer (bxl_observer.hpp / bxl_observer.cpp)
 takes around every intercepted call: whether the sandbox is enabled,
 whether a denied access is enforced, how the real call is forwarded with
 its errno preserved, and which accesses are handed to the policy check.

 The policy check itself (IOHandler::CheckAccessAndBuildReport) is not part
 of this model; an access that reaches it is returned as `Evaluated` with
 the event it would be given.
 */
module Observer {
  import opened Wrappers
  import opened Posix
  import opened Events
  import opened IOEvents
  import AccessCache

  /**
   result_t: the value a forwarded call returned, and the errno it left
   behind, captured at once.
   */
  datatype Captured<T> = Captured(result: T, savedErrno: int)

  /** The constructor: capture the call's result together with the current errno. */
  function Capture<T>(result: T, errno: int): (c: Captured<T>)
    ensures c.result == result && c.savedErrno == errno
  {
    Captured(result, errno)
  }

  /** restore(): the captured result, and errno set back to the captured value, whatever it is now. */
  function Restore<T>(c: Captured<T>, currentErrno: int): (r: (T, int))
    ensures r.0 == c.result
    ensures r.1 == c.savedErrno
  {
    (c.result, c.savedErrno)
  }

  /** Whatever the observer does to errno between the call and restore(), the caller sees the call's own errno. */
  lemma RestoreUndoesClobbering<T>(result: T, errno: int, clobbered: int)
    ensures Restore(Capture(result, errno), clobbered) == (result, errno)
  {
  }

  /** The parts of the observer's state its decisions read. */
  datatype Config = Config(
    sandboxValid: bool,        // IsValid: the sandbox was initialised
    breakaway: bool,           // the pip lets child processes break away
    failUnexpected: bool,      // the manifest fails unexpected accesses
    pid: int,
    rootPid: int)

  /** IsEnabled: initialised, and not a child process that is allowed to break away. */
  function IsEnabled(c: Config): (r: bool)
    ensures r ==> c.sandboxValid
    ensures c.pid == c.rootPid ==> (r <==> c.sandboxValid)
    ensures !c.breakaway ==> (r <==> c.sandboxValid)
  {
    c.sandboxValid && !(c.breakaway && c.pid != c.rootPid)
  }

  /** should_deny: the access is denied by the policy and denial is enforced. */
  function ShouldDeny(c: Config, denied: bool): (r: bool)
    ensures r ==> denied && c.sandboxValid
    ensures !c.failUnexpected ==> !r
    ensures denied && c.failUnexpected ==> (r <==> IsEnabled(c))
  {
    IsEnabled(c) && denied && c.failUnexpected
  }

  /** The caller's view of an intercepted call: its result, errno afterwards, and whether the real call ran. */
  datatype Forwarded<T> = Forwarded(result: T, errno: int, ran: bool)

  /**
   check_and_fwd_*: a denied access fails with EPERM and `errorVal` without
   running the real call; otherwise the real call runs (`call` is what it
   returns and the errno it leaves) and its result is restored.
   */
  function CheckAndForward<T>(c: Config, denied: bool, errorVal: T, call: Captured<T>, errno: int): (r: Forwarded<T>)
    ensures ShouldDeny(c, denied) ==> r == Forwarded(errorVal, EPERM, false)
    ensures !ShouldDeny(c, denied) ==> r == Forwarded(call.result, call.savedErrno, true)
  {
    if ShouldDeny(c, denied) then Forwarded(errorVal, EPERM, false)
    else
      var (v, e) := Restore(call, errno);
      Forwarded(v, e, true)
  }

  /** A sandbox that is disabled, or that does not fail unexpected accesses, never blocks a call. */
  lemma UnenforcedNeverBlocks<T>(c: Config, denied: bool, errorVal: T, call: Captured<T>, errno: int)
    requires !IsEnabled(c) || !c.failUnexpected || !denied
    ensures CheckAndForward(c, denied, errorVal, call, errno).ran
    ensures CheckAndForward(c, denied, errorVal, call, errno).result == call.result
  {
  }

  /** A breakaway child process is never enforced, whatever the manifest says. */
  lemma BreakawayChildDisabled(c: Config)
    requires c.breakaway && c.pid != c.rootPid
    ensures !IsEnabled(c)
    ensures forall denied: bool :: !ShouldDeny(c, denied)
  {
  }

  /** get_mode: the st_mode lstat gives, or 0 when lstat fails; errno is left as it was. */
  function GetMode(lstat: map<string, Mode>, path: string, errno: int): (r: (Mode, int))
    ensures r.1 == errno
    ensures path in lstat ==> r.0 == lstat[path]
    ensures path !in lstat ==> r.0 == 0
  {
    (if path in lstat then lstat[path] else 0, errno)
  }

  /** is_non_file: a known mode that is neither a directory, a regular file nor a symbolic link. */
  predicate IsNonFile(mode: Mode) {
    mode != 0 && !IsDir(mode) && !IsReg(mode) && !IsLnk(mode)
  }

  datatype Checked =
    | NotChecked
    | Evaluated(event: IOEvent)

  /** What create_access_internal needs from the process around it. */
  datatype Context = Context(
    config: Config,
    disposed: bool,
    pid: int,
    ppid: int,
    progPath: string,
    lstat: map<string, Mode>,
    realpath: map<string, string>)

  /**
   The part of create_access_internal after the cache: an unknown mode is
   looked up; non-files are ignored; the executable is the reported path for
   EXEC and the observer's own program otherwise; the event reaches the
   policy check only when the sandbox is enabled.
   */
  /** The mode the check uses: the one passed in, or lstat's when that is 0. */
  function EffectiveMode(ctx: Context, path: string, mode: Mode): (m: Mode)
    ensures mode != 0 ==> m == mode
    ensures mode == 0 ==> m == GetMode(ctx.lstat, path, 0).0
  {
    if mode == 0 then GetMode(ctx.lstat, path, 0).0 else mode
  }

  function CheckUncached(ctx: Context, eventType: EventType, path: string, second: string, mode: Mode): (r: Checked)
    ensures !IsEnabled(ctx.config) ==> r == NotChecked
    ensures IsNonFile(EffectiveMode(ctx, path, mode)) ==> r == NotChecked
    ensures r.Evaluated? ==>
      r.event.src == path && r.event.dst == second && r.event.eventType == eventType &&
      r.event.executable == (if eventType == Notify(Exec) then path else ctx.progPath) &&
      r.event.mode == EffectiveMode(ctx, path, mode) as nat
    ensures IsEnabled(ctx.config) && !IsNonFile(EffectiveMode(ctx, path, mode)) ==> r.Evaluated?
  {
    var m := EffectiveMode(ctx, path, mode);
    if IsNonFile(m) then NotChecked
    else
      var execPath := if eventType == Notify(Exec) then path else ctx.progPath;
      var event := IOEvent(ctx.pid, 0, ctx.ppid, ctx.ppid, eventType, m as nat, false, execPath, path, second);
      if IsEnabled(ctx.config) then Evaluated(event) else NotChecked
  }

  /**
   create_access_internal: a missing second path is ""; when asked to, the
   cache is consulted first and a hit is not checked again.
   */
  function CreateAccessInternal(
    ctx: Context, cache: AccessCache.Cache, eventType: EventType,
    path: string, secondPath: Option<string>, mode: Mode, checkCache: bool, acquired: bool)
    : (r: (Checked, AccessCache.Cache))
    ensures var call := AccessCache.Call(eventType, path, secondPath.GetOr(""), acquired);
      var (hit, cache') := if checkCache then AccessCache.IsCacheHit(ctx.disposed, cache, call) else (false, cache);
      r == (if hit then NotChecked else CheckUncached(ctx, eventType, path, secondPath.GetOr(""), mode), cache')
  {
    var second := secondPath.GetOr("");
    var (hit, cache') :=
      if checkCache then AccessCache.IsCacheHit(ctx.disposed, cache, AccessCache.Call(eventType, path, second, acquired))
      else (false, cache);
    if hit then (NotChecked, cache')
    else (CheckUncached(ctx, eventType, path, second, mode), cache')
  }

  /** Asking twice about the same cacheable access checks it at most once. */
  lemma SecondAccessNotChecked(ctx: Context, cache: AccessCache.Cache, eventType: EventType, path: string, mode: Mode)
    requires AccessCache.Cacheable(ctx.disposed, AccessCache.Call(eventType, path, "", true))
    ensures var first := CreateAccessInternal(ctx, cache, eventType, path, None, mode, true, true);
      CreateAccessInternal(ctx, first.1, eventType, path, None, mode, true, true).0 == NotChecked
  {
  }
}

=== FILE: pathinfo.dfy ===
/**
 The macOS sandbox's fixed-size path buffer (PathInfo in IOHandler.hpp).
 EndpointSecurity hands paths over as (data, length) tokens whose data may
 hold a NUL before `length`; PathInfo copies them into a zeroed buffer of
 PATH_MAX characters with memccpy and takes strlen of the result. The
 buffer is modelled character by character: NUL is '\0', and the
 operations are memccpy, a one-character store and strlen.
 */
module PathInfo {

  /** PATH_MAX on macOS. */
  const PATH_MAX: nat := 1024

  const NUL: char := '\0'

  /** The zero-initialised buffer. */
  function Zeroed(): (z: seq<char>)
    ensures |z| == PATH_MAX
    ensures forall i :: 0 <= i < |z| ==> z[i] == NUL
  {
    seq(PATH_MAX, _ => NUL)
  }

  /** Index of the first NUL in `s`, or |s| when there is none. */
  function NulIndex(s: seq<char>): (k: nat)
    ensures k <= |s|
    ensures forall i :: 0 <= i < k ==> s[i] != NUL
    ensures k < |s| ==> s[k] == NUL
  {
    if |s| == 0 then 0
    else if s[0] == NUL then 0
    else 1 + NulIndex(s[1..])
  }

  /** strlen of a buffer: the characters before its first NUL. */
  function CString(buf: seq<char>): (s: string)
    ensures NUL !in s
    ensures |s| <= |buf| && buf[..|s|] == s
    ensures |s| < |buf| ==> buf[|s|] == NUL
  {
    buf[..NulIndex(buf)]
  }

  /** The C string a (data, length) token stands for: at most `length` characters, cut at the first NUL. */
  function TokenString(data: seq<char>, length: nat): (s: string)
    requires length <= |data|
    ensures NUL !in s && |s| <= length
    ensures IsPrefixOf(s, data)
    ensures |s| < length ==> data[|s|] == NUL
  {
    CString(data[..length])
  }

  predicate IsPrefixOf(p: seq<char>, s: seq<char>) {
    |p| <= |s| && s[..|p|] == p
  }

  /**
   memccpy(buf + off, src, '\0', n): copies src up to and including its
   first NUL, or n characters when there is none among them, and returns
   the position just past the copied NUL, or null.
   */
  function Memccpy(buf: seq<char>, off: nat, src: seq<char>, n: nat): (r: (seq<char>, Option))
    requires n <= |src| && off + n <= |buf|
    ensures |r.0| == |buf|
    ensures r.1.Past? <==> NulIndex(src[..n]) < n
    ensures r.1.Past? ==> r.1.at == off + NulIndex(src[..n]) + 1
    ensures var copied := if r.1.Past? then NulIndex(src[..n]) + 1 else n;
      r.0[..off] == buf[..off] && r.0[off..off + copied] == src[..copied] && r.0[off + copied..] == buf[off + copied..]
  {
    var k := NulIndex(src[..n]);
    if k < n then
      (buf[..off] + src[..k + 1] + buf[off + k + 1..], Past(off + k + 1))
    else
      (buf[..off] + src[..n] + buf[off + n..], Null)
  }

  /** memccpy's result: a position in the buffer, or null. */
  datatype Option = Past(at: nat) | Null

  /**
   PathInfo(data, length): the token is copied into the zeroed buffer,
   NUL-terminated at `length` when it held no NUL, and the path is the
   buffer's C string.
   */
  function FromToken(data: seq<char>, length: nat): (path: string)
    requires length < PATH_MAX && length <= |data|
    ensures path == TokenString(data, length)
  {
    var r := Memccpy(Zeroed(), 0, data, length);
    var buf := if r.1.Null? then r.0[length := NUL] else r.0;
    CopyReadsBack(buf, data[..length], []);
    CString(buf)
  }

  /**
   `buf` holds the token `src` at `at`: copied whole and followed by a NUL,
   or copied up to and including its own NUL.
   */
  predicate HoldsToken(buf: seq<char>, at: nat, src: seq<char>)
    requires at + |src| < |buf|
  {
    var k := NulIndex(src);
    if k < |src| then buf[at..at + k + 1] == src[..k + 1]
    else buf[at..at + |src|] == src && buf[at + |src|] == NUL
  }

  /** A buffer that starts with `prefix` and then holds the token `src` reads back as `prefix` and the token's C string. */
  lemma CopyReadsBack(buf: seq<char>, src: seq<char>, prefix: string)
    requires NUL !in prefix && |prefix| + |src| < |buf|
    requires buf[..|prefix|] == prefix
    requires HoldsToken(buf, |prefix|, src)
    ensures CString(buf) == prefix + CString(src)
  {
    var k := NulIndex(src);
    var p := |prefix|;
    if k < |src| {
      CopiedThrough(buf, p, src, k);
    } else {
      assert src[..k] == src;
    }
    var t := buf[..p + k];
    assert t == prefix + src[..k] by {
      assert t == buf[..p] + buf[p..p + k];
    }
    assert NUL !in t by {
      assert NUL !in src[..k];
    }
    NulIndexExact(buf, p + k);
  }

  /** A copy of `src[..k + 1]` at `at` holds `src[..k]` and then `src[k]`. */
  lemma CopiedThrough(buf: seq<char>, at: nat, src: seq<char>, k: nat)
    requires k < |src| && at + k + 1 <= |buf|
    requires buf[at..at + k + 1] == src[..k + 1]
    ensures buf[at..at + k] == src[..k] && buf[at + k] == src[k]
  {
    var w := buf[at..at + k + 1];
    assert buf[at..at + k] == w[..k];
    assert src[..k] == src[..k + 1][..k];
    assert buf[at + k] == w[k];
  }

  /** A buffer whose first NUL is at `k` has NulIndex `k`. */
  lemma {:induction false} NulIndexExact(buf: seq<char>, k: nat)
    requires k < |buf| && buf[k] == NUL
    requires forall i :: 0 <= i < k ==> buf[i] != NUL
    ensures NulIndex(buf) == k
  {
    if k > 0 {
      assert buf[1..][k - 1] == buf[k];
      NulIndexExact(buf[1..], k - 1);
    }
  }

  /** The directory token is exactly "/". */
  predicate RootOnly(dir: seq<char>, dirLength: nat) {
    dirLength == 1 && |dir| >= 1 && dir[0] == '/'
  }

  /** The length the constructor asserts to be below PATH_MAX. */
  function TotalLength(dir: seq<char>, dirLength: nat, tokenLength: nat): nat {
    dirLength + tokenLength + (if RootOnly(dir, dirLength) then 0 else 1)
  }

  /** What the directory contributes to the joined path: "/" alone, or its C string and '/'. */
  function DirPrefix(dir: seq<char>, dirLength: nat): (p: string)
    requires dirLength <= |dir|
    ensures NUL !in p && |p| >= 1
  {
    if RootOnly(dir, dirLength) then "/" else TokenString(dir, dirLength) + "/"
  }

  /** The directory token holds a NUL before its stated length. */
  predicate NulInside(dir: seq<char>, dirLength: nat)
    requires dirLength <= |dir|
  {
    |TokenString(dir, dirLength)| < dirLength && !RootOnly(dir, dirLength)
  }

  /** Every character of `b` from `p` on is NUL. */
  predicate ZeroFrom(b: seq<char>, p: nat) {
    forall i :: p <= i < |b| ==> b[i] == NUL
  }

  /**
   The directory step of PathInfo(file, token): the directory is copied;
   unless it is "/", a '/' is stored after it, and when the copy stopped at
   a NUL the '/' overwrites that NUL. The second component is where the
   name's copy then starts. As written, the directory length becomes the
   copied length with the NUL counted, and the name starts one further on;
   `intended` starts it right after the '/'.
   */
  function DirectoryStep(dir: seq<char>, dirLength: nat, intended: bool): (r: (seq<char>, nat))
    requires dirLength <= |dir| && dirLength < PATH_MAX
    ensures |r.0| == PATH_MAX
    ensures r.0[..|DirPrefix(dir, dirLength)|] == DirPrefix(dir, dirLength)
    ensures ZeroFrom(r.0, |DirPrefix(dir, dirLength)|)
    ensures r.1 == |DirPrefix(dir, dirLength)| + (if NulInside(dir, dirLength) && !intended then 1 else 0)
  {
    var b1 := Memccpy(Zeroed(), 0, dir, dirLength).0;
    var k := NulIndex(dir[..dirLength]);
    CopiedIntoZeroed(dir, dirLength, b1, k);
    if RootOnly(dir, dirLength) then
      (b1, 1)
    else if k == dirLength then
      SlashAfter(b1, dir, dirLength, dirLength);
      (b1[dirLength := '/'], dirLength + 1)
    else
      SlashAfter(b1, dir, dirLength, k);
      (b1[k := '/'], if intended then k + 1 else k + 2)
  }

  /**
   memccpy of the directory into the zeroed buffer: "/" alone is copied as
   is; otherwise the buffer holds the directory's C string, then zeros from
   just past the copied NUL, or from the end of a copy that met none.
   */
  lemma CopiedIntoZeroed(dir: seq<char>, dirLength: nat, b1: seq<char>, k: nat)
    requires dirLength <= |dir| && dirLength < PATH_MAX
    requires b1 == Memccpy(Zeroed(), 0, dir, dirLength).0 && k == NulIndex(dir[..dirLength])
    ensures |b1| == PATH_MAX
    ensures RootOnly(dir, dirLength) ==> b1[..1] == DirPrefix(dir, dirLength) && ZeroFrom(b1, 1)
    ensures Memccpy(Zeroed(), 0, dir, dirLength).1.Null? <==> k == dirLength
    ensures Memccpy(Zeroed(), 0, dir, dirLength).1.Past? ==> k < dirLength
    ensures k == dirLength ==> b1[..dirLength] == TokenString(dir, dirLength) && ZeroFrom(b1, dirLength + 1)
    ensures k < dirLength ==> b1[..k] == TokenString(dir, dirLength) && ZeroFrom(b1, k + 1)
  {
    var copied := if k < dirLength then k + 1 else dirLength;
    ZeroTail(b1, copied);
    if RootOnly(dir, dirLength) {
      assert b1[..1] == dir[..1];
    }
    if k == dirLength {
      CopiedWhole(b1, dir, dirLength);
    } else {
      CopiedToNul(b1, dir, dirLength, k);
    }
  }

  /** The directory copied whole into the zeroed buffer: its C string, then zeros. */
  lemma CopiedWhole(b1: seq<char>, dir: seq<char>, dirLength: nat)
    requires dirLength <= |dir| && dirLength < |b1|
    requires NulIndex(dir[..dirLength]) == dirLength
    requires b1[..dirLength] == dir[..dirLength] && ZeroFrom(b1, dirLength)
    ensures b1[..dirLength] == TokenString(dir, dirLength) && ZeroFrom(b1, dirLength + 1)
  {
    assert dir[..dirLength][..dirLength] == dir[..dirLength];
  }

  /** The directory copied up to its NUL at `k`: its C string, then zeros from k + 1. */
  lemma CopiedToNul(b1: seq<char>, dir: seq<char>, dirLength: nat, k: nat)
    requires dirLength <= |dir| && k < dirLength < |b1|
    requires k == NulIndex(dir[..dirLength])
    requires b1[..k + 1] == dir[..k + 1] && ZeroFrom(b1, k + 1)
    ensures b1[..k] == TokenString(dir, dirLength) && ZeroFrom(b1, k + 1)
  {
    assert b1[..k] == b1[..k + 1][..k] == dir[..k + 1][..k] == dir[..dirLength][..k];
  }

  /** A suffix equal to the zeroed buffer's is all zeros. */
  lemma ZeroTail(b1: seq<char>, from: nat)
    requires |b1| == PATH_MAX && from <= PATH_MAX && b1[from..] == Zeroed()[from..]
    ensures ZeroFrom(b1, from)
  {
    forall i | from <= i < |b1|
      ensures b1[i] == NUL
    {
      assert b1[i] == b1[from..][i - from];
    }
  }

  /** Storing '/' after the directory's C string, in a buffer that is zero past it, leaves DirPrefix and then zeros. */
  lemma SlashAfter(b1: seq<char>, dir: seq<char>, dirLength: nat, at: nat)
    requires dirLength <= |dir| && !RootOnly(dir, dirLength)
    requires at < |b1| && b1[..at] == TokenString(dir, dirLength) && ZeroFrom(b1, at + 1)
    ensures var b := b1[at := '/']; var p := DirPrefix(dir, dirLength);
      |p| == at + 1 && b[..|p|] == p && ZeroFrom(b, |p|) && |b| == |b1|
    ensures NulInside(dir, dirLength) <==> at < dirLength
  {
    var b := b1[at := '/'];
    assert b[..at + 1] == b1[..at] + [b[at]];
  }

  /** The buffer after the whole constructor, as written or as intended. */
  function JoinBuffer(dir: seq<char>, dirLength: nat, token: seq<char>, tokenLength: nat, intended: bool): (b: seq<char>)
    requires dirLength <= |dir| && tokenLength <= |token|
    requires TotalLength(dir, dirLength, tokenLength) < PATH_MAX
    ensures |b| == PATH_MAX
  {
    var (b2, start) := DirectoryStep(dir, dirLength, intended);
    var (b3, end) := Memccpy(b2, start, token, tokenLength);
    if end.Null? then b3[TotalLength(dir, dirLength, tokenLength) := NUL] else b3
  }

  /** PathInfo(file, token) as written. */
  function JoinAsWritten(dir: seq<char>, dirLength: nat, token: seq<char>, tokenLength: nat): (path: string)
    requires dirLength <= |dir| && tokenLength <= |token|
    requires TotalLength(dir, dirLength, tokenLength) < PATH_MAX
    ensures NUL !in path
  {
    CString(JoinBuffer(dir, dirLength, token, tokenLength, false))
  }

  /** PathInfo(file, token) as evidently intended: the name follows the '/' directly. */
  function Join(dir: seq<char>, dirLength: nat, token: seq<char>, tokenLength: nat): (path: string)
    requires dirLength <= |dir| && tokenLength <= |token|
    requires TotalLength(dir, dirLength, tokenLength) < PATH_MAX
    ensures NUL !in path
  {
    CString(JoinBuffer(dir, dirLength, token, tokenLength, true))
  }

  /** The name's copy into a buffer that is zero from `start` on, terminated at `total` when it had no NUL. */
  lemma NameCopied(b2: seq<char>, b3: seq<char>, end: Option, b: seq<char>, start: nat,
                   token: seq<char>, tokenLength: nat, total: nat)
    requires tokenLength <= |token| && start + tokenLength <= total < |b2| == PATH_MAX
    requires forall i :: start <= i < PATH_MAX ==> b2[i] == NUL
    requires (b3, end) == Memccpy(b2, start, token, tokenLength)
    requires b == if end.Null? then b3[total := NUL] else b3
    ensures b[..start] == b2[..start]
    ensures HoldsToken(b, start, token[..tokenLength])
  {
    if end.Null? && start + tokenLength < total {
      assert b3[start + tokenLength] == b3[start + tokenLength..][0] == b2[start + tokenLength] == NUL;
    }
  }

  /** The intended join is the directory's C string, '/', and the name's C string; "/" gets no second '/'. */
  lemma JoinJoins(dir: seq<char>, dirLength: nat, token: seq<char>, tokenLength: nat)
    requires dirLength <= |dir| && tokenLength <= |token|
    requires TotalLength(dir, dirLength, tokenLength) < PATH_MAX
    ensures Join(dir, dirLength, token, tokenLength) ==
      (if RootOnly(dir, dirLength) then "/" else TokenString(dir, dirLength) + "/") + TokenString(token, tokenLength)
  {
    var (b2, start) := DirectoryStep(dir, dirLength, true);
    var (b3, end) := Memccpy(b2, start, token, tokenLength);
    var b := JoinBuffer(dir, dirLength, token, tokenLength, true);
    var prefix := if RootOnly(dir, dirLength) then "/" else TokenString(dir, dirLength) + "/";
    assert start == |prefix|;
    NameCopied(b2, b3, end, b, start, token, tokenLength, TotalLength(dir, dirLength, tokenLength));
    CopyReadsBack(b, token[..tokenLength], prefix);
  }

  /** Without a NUL inside the directory token, the constructor joins as intended. */
  lemma JoinAsWrittenWithoutNul(dir: seq<char>, dirLength: nat, token: seq<char>, tokenLength: nat)
    requires dirLength <= |dir| && tokenLength <= |token|
    requires TotalLength(dir, dirLength, tokenLength) < PATH_MAX
    requires |TokenString(dir, dirLength)| == dirLength || RootOnly(dir, dirLength)
    ensures JoinAsWritten(dir, dirLength, token, tokenLength) == Join(dir, dirLength, token, tokenLength)
  {
    assert DirectoryStep(dir, dirLength, false) == DirectoryStep(dir, dirLength, true);
  }

  /** With a NUL inside the directory token, the name is copied past a NUL and lost: the result is the directory and '/'. */
  lemma JoinAsWrittenDropsName(dir: seq<char>, dirLength: nat, token: seq<char>, tokenLength: nat)
    requires dirLength <= |dir| && tokenLength <= |token|
    requires TotalLength(dir, dirLength, tokenLength) < PATH_MAX
    requires |TokenString(dir, dirLength)| < dirLength && !RootOnly(dir, dirLength)
    ensures JoinAsWritten(dir, dirLength, token, tokenLength) == TokenString(dir, dirLength) + "/"
  {
    var d := TokenString(dir, dirLength);
    var (b2, start) := DirectoryStep(dir, dirLength, false);
    var (b3, end) := Memccpy(b2, start, token, tokenLength);
    var b := JoinBuffer(dir, dirLength, token, tokenLength, false);
    assert start == |d| + 2;
    assert b3[..start] == b2[..start];
    assert b[..|d| + 1] == d + "/";
    assert b[|d| + 1] == NUL by {
      assert b3[..start][|d| + 1] == b2[|d| + 1];
    }
    CopyReadsBack(b, [], d + "/");
  }

  /** "ab" followed by a NUL, joined with "c": the name is lost as written and kept as intended. */
  lemma JoinAsWrittenExample()
    ensures JoinAsWritten("ab\0", 3, "c", 1) == "ab/"
    ensures Join("ab\0", 3, "c", 1) == "ab/c"
  {
    assert NulIndex("ab\0"[..3]) == 2;
    assert NulIndex("c"[..1]) == 1;
    JoinAsWrittenDropsName("ab\0", 3, "c", 1);
    JoinJoins("ab\0", 3, "c", 1);
  }
}

=== FILE: pathresolver.dfy ===
/**
 Path canonicalisation of the Linux observer (bxl_observer.cpp):
 resolve_path, which removes "//", "/./" and "/../" and follows every
 intermediate symbolic link (reporting each one as a readlink access), and
 normalize_path_at, which first makes a path absolute against the working
 directory or a directory descriptor.

 The filesystem is a finite map `links` from a path to the target of the
 symbolic link at that path; `readlink` is a lookup in it. The fixed-size
 buffers of the source (PATH_MAX) are not modelled.
 */
module PathResolver {
  import opened Wrappers
  import opened Strs
  import opened Posix
  import FdTable

  type Links = map<string, string>

  /** What readlink can return: a symbolic link never has an empty target. */
  ghost predicate WellFormed(links: Links) {
    forall k :: k in links ==> |links[k]| > 0
  }

  /** The slash at `i` starts one of the forms resolve_path removes: "//", "/./" or "/../". */
  predicate Redundant(s: string, i: nat) {
    i < |s| && s[i] == '/' &&
    ( (i + 1 < |s| && s[i + 1] == '/')
    || (i + 2 < |s| && s[i + 1] == '.' && s[i + 2] == '/')
    || (i + 3 < |s| && s[i + 1] == '.' && s[i + 2] == '.' && s[i + 3] == '/'))
  }

  /** None of "//", "/./", "/../" occurs in `s`. */
  predicate Clean(s: string) {
    forall i: nat :: i < |s| ==> !Redundant(s, i)
  }

  predicate Distinct(xs: seq<string>) {
    forall i, j :: 0 <= i < j < |xs| ==> xs[i] != xs[j]
  }

  /** The outcome of resolve_path: the resolved path and the readlink reports, in order. */
  datatype Resolution = Resolution(path: string, readlinks: seq<string>)

  /** find_prev_slash: the last '/' strictly before `p`. */
  function PrevSlash(s: string, p: nat): (q: nat)
    requires 1 <= p <= |s| && s[0] == '/'
    ensures q < p && s[q] == '/'
    ensures forall j :: q < j < p ==> s[j] != '/'
  {
    if s[p - 1] == '/' then p - 1 else PrevSlash(s, p - 1)
  }

  lemma CleanPrefix(s: string, k: nat)
    requires Clean(s) && k <= |s|
    ensures Clean(s[..k])
  {
    forall i: nat | i < k
      ensures !Redundant(s[..k], i)
    {
      assert !Redundant(s, i);
    }
  }

  /** Appending a character other than '/' cannot create a redundant form: each ends in '/'. */
  lemma CleanExtendOther(x: string, c: char)
    requires Clean(x) && c != '/'
    ensures Clean(x + [c])
  {
    var y := x + [c];
    forall i: nat | i < |y|
      ensures !Redundant(y, i)
    {
      if i < |x| {
        assert !Redundant(x, i);
      }
    }
  }

  /** Appending '/' after a component that is neither empty, "." nor "..". */
  lemma CleanExtendSlash(x: string, prev: nat)
    requires Clean(x) && prev < |x| && x[prev] == '/'
    requires forall j :: prev < j < |x| ==> x[j] != '/'
    requires var len := |x| - prev - 1;
      len != 0 && !(len == 1 && x[|x| - 1] == '.') && !(len == 2 && x[|x| - 1] == '.' && x[|x| - 2] == '.')
    ensures Clean(x + "/")
  {
    var y := x + "/";
    var n := |x|;
    forall i: nat | i < |y|
      ensures !Redundant(y, i)
    {
      if i < n {
        assert !Redundant(x, i);
      }
    }
  }

  /** Moving the cursor past a character that survived the checks keeps the scanned prefix clean. */
  lemma AdvanceClean(s: string, p: nat)
    requires 1 <= p < |s| && s[0] == '/'
    requires Clean(s[..p])
    requires var prev := PrevSlash(s, p); var len := p - prev - 1;
      s[p] == '/' ==> len != 0 && !(len == 1 && s[p - 1] == '.') && !(len == 2 && s[p - 1] == '.' && s[p - 2] == '.')
    ensures Clean(s[..p + 1])
  {
    assert s[..p + 1] == s[..p] + [s[p]];
    if s[p] == '/' {
      var prev := PrevSlash(s, p);
      assert s[..p][prev] == '/';
      CleanExtendSlash(s[..p], prev);
      assert s[..p + 1] == s[..p] + "/";
    } else {
      CleanExtendOther(s[..p], s[p]);
    }
  }

  lemma RootClean()
    ensures Clean("/")
  {
  }

  lemma VisitedGrows(keys: set<string>, visited: set<string>, x: string)
    requires x in keys && x !in visited
    ensures |keys - (visited + {x})| < |keys - visited|
  {
    assert keys - visited == (keys - (visited + {x})) + {x};
  }

  /** Keeping the first `keep` scanned characters of a path and replacing the rest leaves a clean prefix of length `keep`. */
  lemma CutClean(s: string, p: nat, keep: nat, tail: string)
    requires 1 <= keep <= p <= |s| && s[0] == '/'
    requires Clean(s[..p])
    ensures var s' := s[..keep] + tail;
      keep <= |s'| && s'[0] == '/' && Clean(s'[..keep])
  {
    var s' := s[..keep] + tail;
    assert s'[..keep] == s[..p][..keep];
    CleanPrefix(s[..p], keep);
  }

  /** Following a new link: the reports stay distinct and mirror the visited set, which grows towards the link set. */
  lemma FollowStep(links: Links, visited: set<string>, reports: seq<string>, prefix: string)
    requires visited <= links.Keys && prefix in links && prefix !in visited
    requires Distinct(reports) && (forall x :: x in reports <==> x in visited)
    ensures visited + {prefix} <= links.Keys
    ensures Distinct(reports + [prefix])
    ensures forall x :: x in reports + [prefix] <==> x in visited + {prefix}
    ensures |links.Keys - (visited + {prefix})| < |links.Keys - visited|
  {
    VisitedGrows(links.Keys, visited, prefix);
  }

  /** The component the cursor ends: the text between the last slash before `p` and `p`. */
  function Current(s: string, p: nat): string
    requires 1 <= p <= |s| && s[0] == '/'
  {
    s[PrevSlash(s, p) + 1..p]
  }

  /** No directory of `s` that ends at a slash before `p` (other than the root) is a symbolic link. */
  predicate Unlinked(links: Links, s: string, p: nat)
    requires p <= |s|
  {
    forall j :: 1 <= j < p && s[j] == '/' ==> s[..j] !in links
  }

  /** Two texts that agree up to `p'` agree on which of their directories before `p'` are links. */
  lemma UnlinkedPrefix(links: Links, s: string, p: nat, s': string, p': nat)
    requires p' <= p <= |s| && p' <= |s'| && s'[..p'] == s[..p']
    requires Unlinked(links, s, p)
    ensures Unlinked(links, s', p')
  {
    forall j | 1 <= j < p' && s'[j] == '/'
      ensures s'[..j] !in links
    {
      assert s'[j] == s'[..p'][j] == s[..p'][j] == s[j];
      assert s'[..j] == s'[..p'][..j] == s[..p'][..j] == s[..j];
    }
  }

  /**
   The rewrites at a slash under the cursor, which ends an empty, "." or ".."
   component: "//" drops the second slash, "/./" drops "./", and "/../"
   drops the preceding component too, never going above the root. The
   result is the rewritten path and the cursor the scan resumes at, or None
   when the cursor is at no such slash.
   */
  function Collapse(s: string, p: nat): (r: Option<(string, nat)>)
    requires 1 <= p <= |s| && s[0] == '/'
    requires Clean(s[..p])
    ensures r.Some? <==> p < |s| && s[p] == '/' && Current(s, p) in {"", ".", ".."}
    ensures r.Some? ==> var (s', p') := r.value;
      1 <= p' <= p && |s'| == |s| - (p + 1 - p') && s'[..p'] == s[..p'] && s'[p'..] == s[p + 1..]
    ensures r.Some? && Current(s, p) == "" ==> r.value.1 == p
    ensures r.Some? && Current(s, p) == "." ==> r.value.1 == p - 1
    ensures r.Some? && Current(s, p) == ".." ==>
      r.value.1 == (if PrevSlash(s, p) == 0 then 1 else PrevSlash(s, PrevSlash(s, p)) + 1)
    ensures r.Some? ==> var (s', p') := r.value;
      s'[0] == '/' && Clean(s'[..p']) && 2 * |s'| - p' < 2 * |s| - p
    ensures r.None? && p < |s| && s[p] == '/' ==> var len := p - PrevSlash(s, p) - 1;
      len != 0 && !(len == 1 && s[p - 1] == '.') && !(len == 2 && s[p - 1] == '.' && s[p - 2] == '.')
  {
    var atSlash := p < |s| && s[p] == '/';
    var prev := PrevSlash(s, p);
    var len := p - prev - 1;
    CurrentIs(s, p);
    if atSlash && len == 0 then
      Cut(s, p, p)
    else if atSlash && len == 1 && s[p - 1] == '.' then
      Cut(s, p, p - 1)
    else if atSlash && len == 2 && s[p - 1] == '.' && s[p - 2] == '.' then
      var q := if prev > 0 then PrevSlash(s, prev) else prev;
      Cut(s, p, q + 1)
    else None
  }

  /** The current component in terms of its length and last characters. */
  lemma CurrentIs(s: string, p: nat)
    requires 1 <= p <= |s| && s[0] == '/'
    ensures var len := p - PrevSlash(s, p) - 1;
      (Current(s, p) == "" <==> len == 0) &&
      (Current(s, p) == "." <==> len == 1 && s[p - 1] == '.') &&
      (Current(s, p) == ".." <==> len == 2 && s[p - 1] == '.' && s[p - 2] == '.')
  {
    var c := Current(s, p);
    var len := p - PrevSlash(s, p) - 1;
    assert |c| == len;
    if len == 1 {
      assert c[0] == s[p - 1];
    } else if len == 2 {
      assert c[0] == s[p - 2] && c[1] == s[p - 1];
    }
  }

  /** Removing `s[keep..p + 1]` from a path whose scanned part is clean. */
  function Cut(s: string, p: nat, keep: nat): (r: Option<(string, nat)>)
    requires 1 <= keep <= p < |s| && s[0] == '/'
    requires Clean(s[..p])
    ensures r.Some? && r.value.1 == keep
    ensures var (s', p') := r.value;
      |s'| == |s| - (p + 1 - p') && s'[..p'] == s[..p'] && s'[p'..] == s[p + 1..] &&
      s'[0] == '/' && Clean(s'[..p']) && 2 * |s'| - p' < 2 * |s| - p
  {
    CutClean(s, p, keep, s[p + 1..]);
    var s' := s[..keep] + s[p + 1..];
    assert s'[..keep] == s[..keep];
    Some((s', keep))
  }

  /**
   The scanning loop of resolve_path. `s` is the path being rewritten, `p`
   the cursor (index `|s|` stands for the NUL), `visited` the symbolic links
   met so far and `reports` their readlink reports in order. The result is
   clean, no directory on it is a link, and it extends the reports in the
   order the links are met.
   */
  function Walk(links: Links, follow: bool, s: string, p: nat, visited: set<string>, reports: seq<string>): (r: Resolution)
    requires WellFormed(links)
    requires 1 <= p <= |s| && s[0] == '/'
    requires Clean(s[..p]) && Unlinked(links, s, p)
    requires visited <= links.Keys
    requires Distinct(reports) && (forall x :: x in reports <==> x in visited)
    ensures |r.path| >= 1 && r.path[0] == '/'
    ensures Clean(r.path) && Unlinked(links, r.path, |r.path|)
    ensures reports <= r.readlinks
    ensures Distinct(r.readlinks)
    ensures forall x :: x in r.readlinks ==> x in links
    decreases |links.Keys - visited|, 2 * |s| - p, 1
  {
    var collapsed := Collapse(s, p);
    if collapsed.Some? then
      UnlinkedPrefix(links, s, p, collapsed.value.0, collapsed.value.1);
      Walk(links, follow, collapsed.value.0, collapsed.value.1, visited, reports)
    else
      var query := (p < |s| && s[p] == '/') || (p == |s| && follow);
      if !query || s[..p] !in links then
        if p == |s| then
          assert s[..p] == s;
          Resolution(s, reports)
        else
          AdvanceClean(s, p);
          Walk(links, follow, s, p + 1, visited, reports)
      else if s[..p] in visited then
        // a link met before: stop, leaving the path cut at this prefix
        UnlinkedPrefix(links, s, p, s[..p], p);
        Resolution(s[..p], reports)
      else
        Follow(links, follow, s, p, visited, reports)
  }

  /** The rest of the path after the link at `s[..p]`: a target ending in '/' absorbs the slash at the cursor. */
  function After(target: string, s: string, p: nat): string
    requires p <= |s|
  {
    if |target| > 0 && target[|target| - 1] == '/' && p < |s| && s[p] == '/' then s[p + 1..] else s[p..]
  }

  /**
   Replacing the link `s[..p]` (met for the first time) by its target: an
   absolute target restarts the scan at its root with the target followed
   by the rest of the path; a relative one replaces the link's last
   component and the scan resumes at the start of the target. The result
   is the rewritten path and the cursor the scan resumes at.
   */
  function Substitute(links: Links, s: string, p: nat): (r: (string, nat))
    requires WellFormed(links)
    requires 1 <= p <= |s| && s[0] == '/'
    requires Clean(s[..p]) && s[..p] in links
    ensures var target := links[s[..p]];
      target[0] == '/' ==> r == (target + After(target, s, p), 1)
    ensures var target := links[s[..p]];
      target[0] != '/' ==> r.1 == PrevSlash(s, p) + 1 && r.0 == s[..r.1] + target + After(target, s, p)
    ensures 1 <= r.1 <= |r.0| && r.0[0] == '/' && r.0[..r.1] == s[..r.1]
    ensures Clean(r.0[..r.1])
  {
    var target := links[s[..p]];
    var buf := target + After(target, s, p);
    if target[0] == '/' then
      assert buf[..1] == "/";
      RootClean();
      (buf, 1)
    else
      var q := PrevSlash(s, p);
      CutClean(s, p, q + 1, buf);
      var s' := s[..q + 1] + buf;
      assert s'[..q + 1] == s[..q + 1];
      assert s' == s[..q + 1] + target + After(target, s, p);
      (s', q + 1)
  }

  /** Following a link met for the first time: it is reported right after the earlier reports, and the scan goes on over its substitution. */
  function Follow(links: Links, follow: bool, s: string, p: nat, visited: set<string>, reports: seq<string>): (r: Resolution)
    requires WellFormed(links)
    requires 1 <= p <= |s| && s[0] == '/'
    requires Clean(s[..p]) && Unlinked(links, s, p)
    requires visited <= links.Keys && s[..p] in links && s[..p] !in visited
    requires Distinct(reports) && (forall x :: x in reports <==> x in visited)
    ensures |r.path| >= 1 && r.path[0] == '/'
    ensures Clean(r.path) && Unlinked(links, r.path, |r.path|)
    ensures reports + [s[..p]] <= r.readlinks
    ensures Distinct(r.readlinks)
    ensures forall x :: x in r.readlinks ==> x in links
    decreases |links.Keys - visited|, 2 * |s| - p, 0
  {
    var prefix := s[..p];
    var (next, start) := Substitute(links, s, p);
    FollowStep(links, visited, reports, prefix);
    UnlinkedPrefix(links, s, p, next, start);
    Walk(links, follow, next, start, visited + {prefix}, reports + [prefix])
  }

  /**
   resolve_path: a path that is not absolute is left as it is; an absolute
   one is scanned from just after its root. The result of an absolute path
   is clean and no directory on it is a symbolic link.
   */
  function ResolvePath(links: Links, path: string, follow: bool): (r: Resolution)
    requires WellFormed(links)
    ensures (|path| == 0 || path[0] != '/') ==> r == Resolution(path, [])
    ensures |path| > 0 && path[0] == '/' ==>
      |r.path| > 0 && r.path[0] == '/' && Clean(r.path) && Unlinked(links, r.path, |r.path|)
    ensures Distinct(r.readlinks)
    ensures forall x :: x in r.readlinks ==> x in links
  {
    if |path| == 0 || path[0] != '/' then Resolution(path, [])
    else
      assert path[..1] == "/";
      RootClean();
      Walk(links, follow, path, 1, {}, [])
  }

  lemma DistinctSubsetBound(xs: seq<string>, keys: set<string>)
    requires Distinct(xs) && forall x :: x in xs ==> x in keys
    ensures |xs| <= |keys|
    decreases |xs|
  {
    if |xs| > 0 {
      var last := xs[|xs| - 1];
      var init := xs[..|xs| - 1];
      assert forall x :: x in init ==> x in keys - {last};
      DistinctSubsetBound(init, keys - {last});
    }
  }

  /** Every link is reported at most once, so there are never more readlink reports than links. */
  lemma ReadlinksBounded(links: Links, path: string, follow: bool)
    requires WellFormed(links)
    ensures |ResolvePath(links, path, follow).readlinks| <= |links.Keys|
  {
    var r := ResolvePath(links, path, follow);
    DistinctSubsetBound(r.readlinks, links.Keys);
  }

  /** In a clean path, the component that ends at a slash is neither empty, "." nor "..". */
  lemma SlashEndsPlainComponent(s: string, p: nat)
    requires Clean(s) && 1 <= p < |s| && s[0] == '/' && s[p] == '/'
    ensures var prev := PrevSlash(s, p); var len := p - prev - 1;
      len != 0 && !(len == 1 && s[p - 1] == '.') && !(len == 2 && s[p - 1] == '.' && s[p - 2] == '.')
  {
    assert !Redundant(s, PrevSlash(s, p));
  }

  /** Without symbolic links, the scan of a path with no redundant form rewrites nothing. */
  lemma {:induction false} WalkCleanIdentity(follow: bool, s: string, p: nat)
    requires 1 <= p <= |s| && s[0] == '/'
    requires Clean(s) && Clean(s[..p])
    ensures Walk(map[], follow, s, p, {}, []) == Resolution(s, [])
    decreases |s| - p
  {
    if p < |s| {
      if s[p] == '/' {
        SlashEndsPlainComponent(s, p);
        CurrentIs(s, p);
      }
      WalkAdvances(follow, s, p);
      WalkCleanIdentity(follow, s, p + 1);
    } else {
      assert s[..p] == s;
    }
  }

  /** Without symbolic links, resolve_path is idempotent. */
  lemma ResolveIdempotentWithoutLinks(path: string, follow: bool)
    ensures var once := ResolvePath(map[], path, follow);
      ResolvePath(map[], once.path, follow) == Resolution(once.path, [])
  {
    var once := ResolvePath(map[], path, follow);
    if |once.path| > 0 && once.path[0] == '/' {
      CleanPrefix(once.path, 1);
      WalkCleanIdentity(follow, once.path, 1);
    }
  }

  // ---------------------------------------------------------------------------
  // The lexical reading of a path, without symbolic links
  // ---------------------------------------------------------------------------

  /** The kept directories under the root, each followed by its slash. */
  function Render(dirs: seq<string>): (r: string)
    ensures |r| >= 1 && r[0] == '/' && r[|r| - 1] == '/'
  {
    if |dirs| == 0 then "/" else Render(dirs[..|dirs| - 1]) + dirs[|dirs| - 1] + "/"
  }

  /**
   A path read component by component after its root: `dirs` are the
   directories kept so far and `cur` the component being read. A slash ends
   `cur`: an empty or "." component is dropped, ".." drops the last kept
   directory (none at the root), any other component is kept. The last
   component, which no slash ends, stays as it is.
   */
  function Lex(dirs: seq<string>, cur: string, rest: string): string
    decreases |rest|
  {
    if |rest| == 0 then Render(dirs) + cur
    else if rest[0] != '/' then Lex(dirs, cur + [rest[0]], rest[1..])
    else if cur == "" || cur == "." then Lex(dirs, "", rest[1..])
    else if cur == ".." then Lex(if |dirs| == 0 then dirs else dirs[..|dirs| - 1], "", rest[1..])
    else Lex(dirs + [cur], "", rest[1..])
  }

  /** The lexical canonical form of a path; a path that is not absolute is its own. */
  function Lexical(path: string): string {
    if |path| == 0 || path[0] != '/' then path else Lex([], "", path[1..])
  }

  /** The scan has read `s[..p]` as the directories `dirs` and the current component `cur`. */
  predicate ReadAs(s: string, p: nat, dirs: seq<string>, cur: string) {
    p <= |s| && s[..p] == Render(dirs) + cur &&
    '/' !in cur && forall i :: 0 <= i < |dirs| ==> '/' !in dirs[i]
  }

  /** The last slash before the cursor is the one that ends the kept directories. */
  lemma PrevSlashAt(s: string, p: nat, dirs: seq<string>, cur: string)
    requires ReadAs(s, p, dirs, cur)
    ensures |Render(dirs)| + |cur| == p && 1 <= p && s[0] == '/'
    ensures PrevSlash(s, p) == p - |cur| - 1 && Current(s, p) == cur
  {
    var m := p - |cur| - 1;
    assert s[..p][0] == '/';
    assert s[m] == s[..p][m] == Render(dirs)[m] == '/';
    forall i | m < i < p
      ensures s[i] != '/'
    {
      assert s[i] == s[..p][i] == cur[i - m - 1];
    }
    var q := PrevSlash(s, p);
    assert Current(s, p) == s[..p][m + 1..] == cur;
  }

  /** Reading a character other than '/' extends the current component. */
  lemma ReadOther(s: string, p: nat, dirs: seq<string>, cur: string)
    requires ReadAs(s, p, dirs, cur) && p < |s| && s[p] != '/'
    ensures ReadAs(s, p + 1, dirs, cur + [s[p]])
    ensures Lex(dirs, cur, s[p..]) == Lex(dirs, cur + [s[p]], s[p + 1..])
  {
    assert s[..p + 1] == s[..p] + [s[p]];
    assert s[p..][1..] == s[p + 1..];
  }

  /** Reading a slash after a plain component keeps it as a directory. */
  lemma ReadKeep(s: string, p: nat, dirs: seq<string>, cur: string)
    requires ReadAs(s, p, dirs, cur) && p < |s| && s[p] == '/'
    requires cur != "" && cur != "." && cur != ".."
    ensures ReadAs(s, p + 1, dirs + [cur], "")
    ensures Lex(dirs, cur, s[p..]) == Lex(dirs + [cur], "", s[p + 1..])
  {
    assert (dirs + [cur])[..|dirs|] == dirs;
    assert s[..p + 1] == s[..p] + [s[p]];
    assert s[p..][1..] == s[p + 1..];
  }

  /** The directories that remain after a slash ends `cur`, one of "", "." and "..". */
  function Dropped(dirs: seq<string>, cur: string): seq<string> {
    if cur == ".." && |dirs| > 0 then dirs[..|dirs| - 1] else dirs
  }

  /** A slash after an empty, "." or ".." component: the lexical reading drops it (and a directory for ".."). */
  lemma ReadDrop(s: string, p: nat, dirs: seq<string>, cur: string)
    requires ReadAs(s, p, dirs, cur) && p < |s| && s[p] == '/'
    requires cur == "" || cur == "." || cur == ".."
    ensures Lex(dirs, cur, s[p..]) == Lex(Dropped(dirs, cur), "", s[p + 1..])
  {
    assert s[p..][1..] == s[p + 1..];
  }

  /** The cursor Collapse resumes at is the end of the directories the lexical reading keeps. */
  lemma CollapseReads(s: string, p: nat, dirs: seq<string>, cur: string, s': string, p': nat)
    requires ReadAs(s, p, dirs, cur) && 1 <= p < |s| && s[0] == '/' && s[p] == '/' && Clean(s[..p])
    requires cur == "" || cur == "." || cur == ".."
    requires Collapse(s, p) == Some((s', p'))
    ensures ReadAs(s', p', Dropped(dirs, cur), "") && s'[p'..] == s[p + 1..]
  {
    PrevSlashAt(s, p, dirs, cur);
    if cur == ".." && |dirs| > 0 {
      ParentReads(s, p, dirs, p');
    } else if cur == ".." {
      assert s'[..p'] == s[..1] == "/";
    } else {
      assert s'[..p'] == s[..p][..p'] == Render(dirs);
    }
  }

  /** "/../" below the root: the cursor resumes just after the directories before the last one. */
  lemma ParentReads(s: string, p: nat, dirs: seq<string>, p': nat)
    requires ReadAs(s, p, dirs, "..") && |dirs| > 0 && 3 <= p
    requires p' == (if p - 3 == 0 then 1 else PrevSlash(s, p - 3) + 1)
    ensures p' <= p && s[..p'] == Render(dirs[..|dirs| - 1])
  {
    var init := dirs[..|dirs| - 1];
    var last := dirs[|dirs| - 1];
    var prev := p - 3;
    assert Render(dirs) == Render(init) + last + "/";
    assert s[..prev] == s[..p][..prev] == Render(init) + last;
    assert forall i :: 0 <= i < |init| ==> init[i] == dirs[i];
    PrevSlashAt(s, prev, init, last);
    TakeWithin(s, prev, Render(init), last);
  }

  /** A text whose first `k` characters are `a + b` starts with `a`. */
  lemma TakeWithin(s: string, k: nat, a: string, b: string)
    requires k <= |s| && s[..k] == a + b
    ensures s[..|a|] == a
  {
    assert s[..|a|] == s[..k][..|a|];
  }

  /** Without links, a scan step that rewrites nothing moves the cursor on by one. */
  lemma WalkAdvances(follow: bool, s: string, p: nat)
    requires 1 <= p < |s| && s[0] == '/' && Clean(s[..p]) && Collapse(s, p).None?
    ensures Clean(s[..p + 1])
    ensures Walk(map[], follow, s, p, {}, []) == Walk(map[], follow, s, p + 1, {}, [])
  {
    AdvanceClean(s, p);
  }

  /** A scan step that rewrites goes on from the rewritten path. */
  lemma WalkCollapses(follow: bool, s: string, p: nat, s': string, p': nat)
    requires 1 <= p <= |s| && s[0] == '/' && Clean(s[..p]) && Collapse(s, p) == Some((s', p'))
    ensures Walk(map[], follow, s, p, {}, []) == Walk(map[], follow, s', p', {}, [])
  {
  }

  /** At the end of the path, without links, the scan returns the path, which is the lexical reading. */
  lemma WalkEnds(follow: bool, s: string, dirs: seq<string>, cur: string)
    requires 1 <= |s| && s[0] == '/' && Clean(s[..|s|]) && ReadAs(s, |s|, dirs, cur)
    ensures Walk(map[], follow, s, |s|, {}, []) == Resolution(Lex(dirs, cur, s[|s|..]), [])
  {
    assert s[..|s|] == s;
    assert s[|s|..] == [];
  }

  /** One step of the scan without links, matched by one character of the lexical reading. */
  lemma WalkStep(follow: bool, s: string, p: nat, dirs: seq<string>, cur: string)
    returns (s2: string, p2: nat, dirs2: seq<string>, cur2: string)
    requires 1 <= p < |s| && s[0] == '/' && Clean(s[..p])
    requires ReadAs(s, p, dirs, cur)
    ensures 1 <= p2 <= |s2| && s2[0] == '/' && Clean(s2[..p2]) && ReadAs(s2, p2, dirs2, cur2)
    ensures 2 * |s2| - p2 < 2 * |s| - p
    ensures Walk(map[], follow, s, p, {}, []) == Walk(map[], follow, s2, p2, {}, [])
    ensures Lex(dirs, cur, s[p..]) == Lex(dirs2, cur2, s2[p2..])
  {
    PrevSlashAt(s, p, dirs, cur);
    if s[p] == '/' && (cur == "" || cur == "." || cur == "..") {
      s2, p2, dirs2, cur2 := DropStep(follow, s, p, dirs, cur);
    } else {
      s2, p2, dirs2, cur2 := ReadStep(follow, s, p, dirs, cur);
    }
  }

  /** A scan step at a slash ending an empty, "." or ".." component: the rewrite matches the lexical drop. */
  lemma DropStep(follow: bool, s: string, p: nat, dirs: seq<string>, cur: string)
    returns (s2: string, p2: nat, dirs2: seq<string>, cur2: string)
    requires 1 <= p < |s| && s[0] == '/' && Clean(s[..p])
    requires ReadAs(s, p, dirs, cur) && Current(s, p) == cur
    requires s[p] == '/' && (cur == "" || cur == "." || cur == "..")
    ensures 1 <= p2 <= |s2| && s2[0] == '/' && Clean(s2[..p2]) && ReadAs(s2, p2, dirs2, cur2)
    ensures 2 * |s2| - p2 < 2 * |s| - p
    ensures Walk(map[], follow, s, p, {}, []) == Walk(map[], follow, s2, p2, {}, [])
    ensures Lex(dirs, cur, s[p..]) == Lex(dirs2, cur2, s2[p2..])
  {
    var (s', p') := Collapse(s, p).value;
    WalkCollapses(follow, s, p, s', p');
    CollapseReads(s, p, dirs, cur, s', p');
    ReadDrop(s, p, dirs, cur);
    s2, p2, dirs2, cur2 := s', p', Dropped(dirs, cur), "";
  }

  /** A scan step that rewrites nothing: the character is read into the current component, or a slash keeps it. */
  lemma ReadStep(follow: bool, s: string, p: nat, dirs: seq<string>, cur: string)
    returns (s2: string, p2: nat, dirs2: seq<string>, cur2: string)
    requires 1 <= p < |s| && s[0] == '/' && Clean(s[..p])
    requires ReadAs(s, p, dirs, cur) && Current(s, p) == cur
    requires s[p] != '/' || (cur != "" && cur != "." && cur != "..")
    ensures 1 <= p2 <= |s2| && s2[0] == '/' && Clean(s2[..p2]) && ReadAs(s2, p2, dirs2, cur2)
    ensures 2 * |s2| - p2 < 2 * |s| - p
    ensures Walk(map[], follow, s, p, {}, []) == Walk(map[], follow, s2, p2, {}, [])
    ensures Lex(dirs, cur, s[p..]) == Lex(dirs2, cur2, s2[p2..])
  {
    WalkAdvances(follow, s, p);
    if s[p] != '/' {
      ReadOther(s, p, dirs, cur);
      s2, p2, dirs2, cur2 := s, p + 1, dirs, cur + [s[p]];
    } else {
      ReadKeep(s, p, dirs, cur);
      s2, p2, dirs2, cur2 := s, p + 1, dirs + [cur], "";
    }
  }

  /** Without symbolic links, the scan from a state read as `dirs` and `cur` gives the lexical reading. */
  lemma {:induction false} WalkLexical(follow: bool, s: string, p: nat, dirs: seq<string>, cur: string)
    requires 1 <= p <= |s| && s[0] == '/' && Clean(s[..p])
    requires ReadAs(s, p, dirs, cur)
    ensures Walk(map[], follow, s, p, {}, []) == Resolution(Lex(dirs, cur, s[p..]), [])
    decreases 2 * |s| - p
  {
    if p == |s| {
      WalkEnds(follow, s, dirs, cur);
    } else {
      var s2, p2, dirs2, cur2 := WalkStep(follow, s, p, dirs, cur);
      WalkLexical(follow, s2, p2, dirs2, cur2);
    }
  }

  /** Without symbolic links, resolve_path computes the lexical canonical form and reports nothing. */
  lemma ResolveIsLexical(path: string, follow: bool)
    ensures ResolvePath(map[], path, follow) == Resolution(Lexical(path), [])
  {
    if |path| > 0 && path[0] == '/' {
      assert path[..1] == "/" == Render([]) + "";
      RootClean();
      WalkLexical(follow, path, 1, [], "");
    }
  }

  /** Reading a character other than '/' adds it to the current component, giving `cur'`. */
  lemma LexOther(dirs: seq<string>, cur: string, c: char, tail: string, cur': string)
    requires c != '/' && cur' == cur + [c]
    ensures Lex(dirs, cur, [c] + tail) == Lex(dirs, cur', tail)
  {
    assert ([c] + tail)[1..] == tail;
  }

  /** A slash ends the current component: an empty, "." or ".." one is dropped, any other kept, giving `dirs'`. */
  lemma LexSlash(dirs: seq<string>, cur: string, tail: string, dirs': seq<string>)
    requires dirs' == if cur == "" || cur == "." || cur == ".." then Dropped(dirs, cur) else dirs + [cur]
    ensures Lex(dirs, cur, ['/'] + tail) == Lex(dirs', "", tail)
  {
    assert (['/'] + tail)[1..] == tail;
  }

  /** With nothing left to read, the reading is the kept directories and the last component. */
  lemma LexDone(dirs: seq<string>, cur: string, r: string)
    requires r == Render(dirs) + cur
    ensures Lex(dirs, cur, []) == r
  {
  }

  /** "//" loses its second slash: "/x//y" reads as "/x/y". */
  lemma LexicalDoubleSlash(x: char, y: char)
    requires x != '/' && x != '.' && y != '/'
    ensures Lexical(['/', x, '/', '/', y]) == ['/', x, '/', y]
  {
    assert ['/', x, '/', '/', y][1..] == [x] + (['/'] + (['/'] + ([y] + [])));
    LexOther([], "", x, ['/'] + (['/'] + ([y] + [])), [x]);
    LexSlash([], [x], ['/'] + ([y] + []), [[x]]);
    LexSlash([[x]], "", [y] + [], [[x]]);
    LexOther([[x]], "", y, [], [y]);
    assert Render([[x]]) == ['/', x, '/'];
    LexDone([[x]], [y], ['/', x, '/', y]);
  }

  /** "/./" loses its "./": "/x/./y" reads as "/x/y". */
  lemma LexicalDot(x: char, y: char)
    requires x != '/' && x != '.' && y != '/'
    ensures Lexical(['/', x, '/', '.', '/', y]) == ['/', x, '/', y]
  {
    assert ['/', x, '/', '.', '/', y][1..] == [x] + (['/'] + (['.'] + (['/'] + ([y] + []))));
    LexOther([], "", x, ['/'] + (['.'] + (['/'] + ([y] + []))), [x]);
    LexSlash([], [x], ['.'] + (['/'] + ([y] + [])), [[x]]);
    LexOther([[x]], "", '.', ['/'] + ([y] + []), ".");
    LexSlash([[x]], ".", [y] + [], [[x]]);
    LexOther([[x]], "", y, [], [y]);
    assert Render([[x]]) == ['/', x, '/'];
    LexDone([[x]], [y], ['/', x, '/', y]);
  }

  /** "/../" removes the directory before it: "/x/../y" reads as "/y". */
  lemma LexicalParent(x: char, y: char)
    requires x != '/' && x != '.' && y != '/'
    ensures Lexical(['/', x, '/', '.', '.', '/', y]) == ['/', y]
  {
    assert ['/', x, '/', '.', '.', '/', y][1..] == [x] + (['/'] + (['.'] + (['.'] + (['/'] + ([y] + [])))));
    LexOther([], "", x, ['/'] + (['.'] + (['.'] + (['/'] + ([y] + [])))), [x]);
    LexSlash([], [x], ['.'] + (['.'] + (['/'] + ([y] + []))), [[x]]);
    LexOther([[x]], "", '.', ['.'] + (['/'] + ([y] + [])), ".");
    LexOther([[x]], ".", '.', ['/'] + ([y] + []), "..");
    LexSlash([[x]], "..", [y] + [], []);
    LexOther([], "", y, [], [y]);
    LexDone([], [y], ['/', y]);
  }

  /** At the root "/../" removes only itself: "/../y" reads as "/y". */
  lemma LexicalParentAtRoot(y: char)
    requires y != '/'
    ensures Lexical(['/', '.', '.', '/', y]) == ['/', y]
  {
    assert ['/', '.', '.', '/', y][1..] == ['.'] + (['.'] + (['/'] + ([y] + [])));
    LexOther([], "", '.', ['.'] + (['/'] + ([y] + [])), ".");
    LexOther([], ".", '.', ['/'] + ([y] + []), "..");
    LexSlash([], "..", [y] + [], []);
    LexOther([], "", y, [], [y]);
    LexDone([], [y], ['/', y]);
  }

  /** A last component is never rewritten, not even "..": "/x/.." is left as it is. */
  lemma LexicalKeepsLast(x: char)
    requires x != '/' && x != '.'
    ensures Lexical(['/', x, '/', '.', '.']) == ['/', x, '/', '.', '.']
  {
    assert ['/', x, '/', '.', '.'][1..] == [x] + (['/'] + (['.'] + (['.'] + [])));
    LexOther([], "", x, ['/'] + (['.'] + (['.'] + [])), [x]);
    LexSlash([], [x], ['.'] + (['.'] + []), [[x]]);
    LexOther([[x]], "", '.', ['.'] + [], ".");
    LexOther([[x]], ".", '.', [], "..");
    assert Render([[x]]) == ['/', x, '/'];
    LexDone([[x]], "..", ['/', x, '/', '.', '.']);
  }

  /** An absolute link target restarts the scan: with "/l" -> "/x", the link in "/l/b" makes "/x/b", scanned from its root. */
  lemma AbsoluteLinkExample()
    ensures "/l/b"[..2] == "/l" && Substitute(map["/l" := "/x"], "/l/b", 2) == ("/x/b", 1)
  {
    var s := "/l/b";
    assert s[..2] == "/l" && s[2..] == "/b";
    assert After("/x", s, 2) == "/b";
    assert "/x" + "/b" == "/x/b";
  }

  /** A relative link target replaces the last component: with "/d/l" -> "t", "/d/l/b" makes "/d/t/b", scanned from "t". */
  lemma RelativeLinkExample()
    ensures "/d/l/b"[..4] == "/d/l" && Substitute(map["/d/l" := "t"], "/d/l/b", 4) == ("/d/t/b", 3)
  {
    var s := "/d/l/b";
    assert s[..4] == "/d/l" && s[4..] == "/b" && s[..3] == "/d/";
    assert PrevSlash(s, 4) == 2;
    assert After("t", s, 4) == "/b";
    assert "/d/" + "t" + "/b" == "/d/t/b";
  }

  /** A target ending in '/' absorbs the slash after the link: with "/l" -> "/x/", "/l/b" makes "/x/b". */
  lemma TrailingSlashLinkExample()
    ensures "/l/b"[..2] == "/l" && Substitute(map["/l" := "/x/"], "/l/b", 2) == ("/x/b", 1)
  {
    var s := "/l/b";
    assert s[..2] == "/l" && s[3..] == "b";
    assert After("/x/", s, 2) == "b";
    assert "/x/" + "b" == "/x/b";
  }

  // ---------------------------------------------------------------------------
  // normalize_path_at
  // ---------------------------------------------------------------------------

  datatype Normalized =
    | Path(path: string, readlinks: seq<string>)
    | Fatal(reason: string)

  /** Where relative paths are anchored: the working directory (None: getcwd failed) and the descriptor links. */
  datatype Process = Process(cwd: Option<string>, procFd: map<int, string>, links: Links)

  /** The directory a relative path is joined to: the cwd for AT_FDCWD, otherwise the descriptor's path. */
  function BaseDir(proc: Process, t: FdTable.Table, dirfd: int): (r: (Option<string>, FdTable.Table))
    ensures dirfd == AT_FDCWD ==> r == (proc.cwd, t)
    ensures dirfd != AT_FDCWD ==> r == (Some(FdTable.FdToPath(t, dirfd, proc.procFd).0), FdTable.FdToPath(t, dirfd, proc.procFd).1)
  {
    if dirfd == AT_FDCWD then (proc.cwd, t)
    else
      var (p, t') := FdTable.FdToPath(t, dirfd, proc.procFd);
      (Some(p), t')
  }

  /**
   normalize_path_at: no pathname gives the descriptor's own path, unresolved;
   a relative pathname is joined to the base directory with '/', and an
   unavailable or empty base is fatal; the result is then resolved, following
   the final link unless O_NOFOLLOW is set.
   */
  function NormalizePathAt(proc: Process, t: FdTable.Table, dirfd: int, pathname: Option<string>, oflags: Flags)
    : (r: (Normalized, FdTable.Table))
    requires WellFormed(proc.links)
    ensures pathname.None? ==>
      r == (Path(FdTable.FdToPath(t, dirfd, proc.procFd).0, []), FdTable.FdToPath(t, dirfd, proc.procFd).1)
    ensures pathname.Some? && IsPrefix("/", pathname.value) ==>
      r.1 == t && r.0 == Path(ResolvePath(proc.links, pathname.value, oflags & O_NOFOLLOW == 0).path,
                              ResolvePath(proc.links, pathname.value, oflags & O_NOFOLLOW == 0).readlinks)
    ensures pathname.Some? && !IsPrefix("/", pathname.value) ==>
      var base := BaseDir(proc, t, dirfd).0;
      (r.0.Fatal? <==> base.None? || |base.value| == 0) &&
      (r.0.Path? ==> r.0.path == ResolvePath(proc.links, base.value + "/" + pathname.value, oflags & O_NOFOLLOW == 0).path)
    ensures pathname.Some? && (IsPrefix("/", pathname.value) || (BaseDir(proc, t, dirfd).0.Some? && IsPrefix("/", BaseDir(proc, t, dirfd).0.value))) ==>
      r.0.Path? ==> |r.0.path| > 0 && r.0.path[0] == '/' && Clean(r.0.path)
  {
    if pathname.None? then
      var (p, t') := FdTable.FdToPath(t, dirfd, proc.procFd);
      (Path(p, []), t')
    else
      var name := pathname.value;
      var follow := oflags & O_NOFOLLOW == 0;
      if |name| > 0 && name[0] == '/' then
        var res := ResolvePath(proc.links, name, follow);
        (Path(res.path, res.readlinks), t)
      else
        var (base, t') := BaseDir(proc, t, dirfd);
        if base.None? then (Fatal("Could not get CWD"), t')
        else if |base.value| == 0 then (Fatal("Could not get path for fd"), t')
        else
          var full := base.value + "/" + name;
          var res := ResolvePath(proc.links, full, follow);
          (Path(res.path, res.readlinks), t')
  }

  /** normalize_path: normalize_path_at relative to the working directory. */
  function NormalizePath(proc: Process, t: FdTable.Table, pathname: Option<string>, oflags: Flags)
    : (r: (Normalized, FdTable.Table))
    requires WellFormed(proc.links)
    ensures pathname.Some? ==> r.1 == t
    ensures pathname.Some? && !IsPrefix("/", pathname.value) ==>
      (r.0.Fatal? <==> proc.cwd.None? || |proc.cwd.value| == 0)
  {
    NormalizePathAt(proc, t, AT_FDCWD, pathname, oflags)
  }
}

=== FILE: pathsearch.dfy ===
/**
 Looking a bare program name up on PATH (observer_utilities.cpp), as the
 interposed exec calls of the p family do before reporting: the entries of
 PATH are tried left to right and the first `root/name` that lstat finds
 wins. lstat is an oracle from path to st_mode; a path that is not in it,
 or whose mode is 0, does not exist.
 */
module PathSearch {
  import opened Wrappers
  import opened Strs
  import opened Posix

  /** The search path: PATH, or "/usr/bin" when it is unset. */
  function SearchPath(envPath: Option<string>): (p: string)
    ensures envPath.None? ==> p == "/usr/bin"
    ensures envPath.Some? ==> p == envPath.value
  {
    envPath.GetOr("/usr/bin")
  }

  /** The candidate check_if_path_exists builds: root, '/', name. */
  function Candidate(root: string, filename: string): (c: string)
    ensures |c| == |root| + 1 + |filename|
    ensures IsPrefix(root, c) && c[|root|] == '/' && c[|root| + 1..] == filename
  {
    root + "/" + filename
  }

  function ModeOf(lstat: map<string, Mode>, path: string): (m: Mode)
    ensures path in lstat ==> m == lstat[path]
    ensures path !in lstat ==> m == 0
  {
    if path in lstat then lstat[path] else 0
  }

  predicate Hit(lstat: map<string, Mode>, root: string, filename: string) {
    ModeOf(lstat, Candidate(root, filename)) != 0
  }

  /** check_if_path_exists: found iff the candidate's mode is not 0; the path is set only when it is found. */
  function CheckIfPathExists(lstat: map<string, Mode>, root: string, filename: string, path: string): (r: (bool, string, Mode))
    ensures r.0 <==> Hit(lstat, root, filename)
    ensures r.2 == ModeOf(lstat, Candidate(root, filename))
    ensures r.1 == (if r.0 then Candidate(root, filename) else path)
  {
    var candidate := root + "/" + filename;
    var mode := ModeOf(lstat, candidate);
    if mode != 0 then (true, candidate, mode) else (false, path, mode)
  }

  /** The index of the first root that holds the name, or the number of roots when none does. */
  function FirstHit(lstat: map<string, Mode>, roots: seq<string>, filename: string): (k: nat)
    ensures k <= |roots|
    ensures k < |roots| ==> Hit(lstat, roots[k], filename)
    ensures forall i :: 0 <= i < k ==> !Hit(lstat, roots[i], filename)
  {
    if |roots| == 0 then 0
    else if Hit(lstat, roots[0], filename) then 0
    else
      var k := FirstHit(lstat, roots[1..], filename);
      assert forall i :: 1 <= i < k + 1 ==> roots[i] == roots[1..][i - 1];
      1 + k
  }

  /** A name that is empty or contains '/' is not looked up on PATH. */
  predicate IsBareName(filename: string) {
    |filename| > 0 && '/' !in filename
  }

  /**
   resolve_filename_with_env: for a bare name, PATH's ':'-separated entries
   (the last one included, empty entries too) are tried in order, and the
   first hit gives the path and its mode. Otherwise the result is false, the
   mode 0 and the path is left as it was.
   */
  method ResolveFilenameWithEnv(filename: string, envPath: Option<string>, lstat: map<string, Mode>, path: string)
    returns (found: bool, mode: Mode, path': string)
    ensures !IsBareName(filename) ==> !found && mode == 0 && path' == path
    ensures IsBareName(filename) ==>
      var roots := Split(SearchPath(envPath), ':');
      var k := FirstHit(lstat, roots, filename);
      (found <==> k < |roots|) &&
      (found ==> path' == Candidate(roots[k], filename) && mode == ModeOf(lstat, path') && mode != 0) &&
      (!found ==> path' == path && mode == 0)
  {
    mode := 0;
    path' := path;
    if |filename| == 0 || '/' in filename {
      return false, mode, path';
    }
    var env := SearchPath(envPath);
    ghost var roots := Split(env, ':');
    var start := 0;
    ghost var j := 0;
    assert env[start..] == env;
    while true
      invariant start <= |env| && j < |roots|
      invariant Remains(env, start, roots, j)
      invariant forall i :: 0 <= i < j ==> !Hit(lstat, roots[i], filename)
      invariant path' == path
      decreases |env| - start
    {
      var pos := IndexOf(env[start..], ':');
      if pos == |env| - start {
        break;
      }
      var root := env[start..start + pos];
      var next := start + pos + 1;
      Advance(env, start, pos, next, roots, j);
      start, j := next, j + 1;
      var check := CheckIfPathExists(lstat, root, filename, path');
      path', mode := check.1, check.2;
      if check.0 {
        FirstHitIs(lstat, roots, filename, j - 1);
        return true, mode, path';
      }
      Missed(lstat, roots, filename, j - 1);
    }
    Last(env, start, roots, j);
    var check := CheckIfPathExists(lstat, env[start..], filename, path');
    found, path', mode := check.0, check.1, check.2;
    FirstHitIs(lstat, roots, filename, if found then j else |roots|);
  }

  /** The entries of PATH from `start` on are the roots from `j` on. */
  predicate Remains(env: string, start: nat, roots: seq<string>, j: nat)
    requires start <= |env| && j < |roots|
  {
    Split(env[start..], ':') == roots[j..]
  }

  /** One step of the search: the rest of PATH up to the next ':' is the next entry, and the entries after it follow the ':'. */
  lemma Advance(env: string, start: nat, pos: nat, next: nat, roots: seq<string>, j: nat)
    requires start <= |env| && j < |roots| && Remains(env, start, roots, j)
    requires pos == IndexOf(env[start..], ':') < |env| - start && next == start + pos + 1
    ensures env[start..start + pos] == roots[j] && j + 1 < |roots|
    ensures next <= |env| && Remains(env, next, roots, j + 1)
  {
    var rest := env[start..];
    assert rest[..pos] == env[start..start + pos];
    assert rest[pos + 1..] == env[start + pos + 1..];
    assert roots[j..][1..] == roots[j + 1..];
  }

  /** A miss at the next entry extends the run of misses by one. */
  lemma Missed(lstat: map<string, Mode>, roots: seq<string>, filename: string, k: nat)
    requires k < |roots|
    requires forall i :: 0 <= i < k ==> !Hit(lstat, roots[i], filename)
    requires !Hit(lstat, roots[k], filename)
    ensures forall i :: 0 <= i < k + 1 ==> !Hit(lstat, roots[i], filename)
  {
  }

  /** The last entry: no ':' is left, and the rest of PATH is the last root. */
  lemma Last(env: string, start: nat, roots: seq<string>, j: nat)
    requires start <= |env| && j < |roots| && Remains(env, start, roots, j)
    requires IndexOf(env[start..], ':') == |env| - start
    ensures env[start..] == roots[j] && j == |roots| - 1
  {
  }

  /** The first hit is the one index before which nothing hits and at which something does (or the end). */
  lemma FirstHitIs(lstat: map<string, Mode>, roots: seq<string>, filename: string, k: nat)
    requires k <= |roots|
    requires forall i :: 0 <= i < k ==> !Hit(lstat, roots[i], filename)
    requires k < |roots| ==> Hit(lstat, roots[k], filename)
    ensures FirstHit(lstat, roots, filename) == k
  {
  }

  /** With PATH unset, `sh` resolves to /usr/bin/sh when that exists. */
  lemma DefaultPathFindsShell(lstat: map<string, Mode>)
    requires "/usr/bin/sh" in lstat && lstat["/usr/bin/sh"] != 0
    ensures Split(SearchPath(None), ':') == ["/usr/bin"]
    ensures FirstHit(lstat, Split(SearchPath(None), ':'), "sh") == 0
    ensures Candidate("/usr/bin", "sh") == "/usr/bin/sh"
  {
    SplitFree("/usr/bin", ':');
    assert Candidate("/usr/bin", "sh") == "/usr/bin/sh";
  }
}

=== FILE: posix.dfy ===
/**
 The POSIX constants the sandbox tests, with their values on Linux x86-64
 (the platform the Linux sandbox targets). Flag words and file modes are
 32-bit bit vectors so that the source's `&` and `|` read the same here.
 */
module Posix {

  type Flags = bv32

  const O_ACCMODE: Flags := 0x3
  const O_RDONLY: Flags := 0x0
  const O_WRONLY: Flags := 0x1
  const O_RDWR: Flags := 0x2
  const O_CREAT: Flags := 0x40
  const O_TRUNC: Flags := 0x200
  const O_NOFOLLOW: Flags := 0x20000

  const AT_SYMLINK_NOFOLLOW: Flags := 0x100
  const AT_REMOVEDIR: Flags := 0x200
  const AT_SYMLINK_FOLLOW: Flags := 0x400

  /** The special directory descriptor meaning "the current working directory". */
  const AT_FDCWD: int := -100

  type Mode = bv32

  const S_IFMT: Mode := 0xF000
  const S_IFDIR: Mode := 0x4000
  const S_IFREG: Mode := 0x8000
  const S_IFLNK: Mode := 0xA000

  predicate IsDir(m: Mode) { m & S_IFMT == S_IFDIR }
  predicate IsReg(m: Mode) { m & S_IFMT == S_IFREG }
  predicate IsLnk(m: Mode) { m & S_IFMT == S_IFLNK }

  /** Largest atomic pipe write; the report channel's bound. */
  const PIPE_BUF: nat := 4096
  const PATH_MAX: nat := 4096

  const EPERM: int := 1
  const ENOENT: int := 2
}

=== FILE: ptrace.dfy ===
/**
 The ptrace tracer (PTraceSandbox.cpp) that watches statically linked
 processes, which the interposed library cannot see.

 ptrace, wait and the seccomp filter are not called: what the kernel tells
 the tracer is an input. A wake-up is a `Stop` (the pid wait() returned, its
 decoded status and, for fork events, the new child's pid); the tracee's
 memory behind a string argument is a sequence of bytes; registers are
 numbered as in x86-64's user_regs_struct.
 */
module PTrace {
  import opened Wrappers
  import opened Strs
  import opened Posix
  import opened Events
  import opened Reports

  // ----- The tracee table -----

  /** One row of m_traceeTable: a traced pid, its parent and its executable. */
  datatype Tracee = Tracee(pid: int, parent: int, exe: string)

  /** The std::remove_if/erase idiom: every row for `pid` is dropped, the rest keep their order. */
  function RemovePid(table: seq<Tracee>, pid: int): (r: seq<Tracee>)
    ensures forall t :: t in r <==> t in table && t.pid != pid
    ensures |r| <= |table|
    ensures (forall t :: t in table ==> t.pid != pid) ==> r == table
  {
    if |table| == 0 then []
    else if table[0].pid == pid then RemovePid(table[1..], pid)
    else [table[0]] + RemovePid(table[1..], pid)
  }

  /** No pid has two rows. */
  predicate UniquePids(table: seq<Tracee>) {
    forall i, j :: 0 <= i < j < |table| ==> table[i].pid != table[j].pid
  }

  /** The outcome of AllTraceesHaveExited: the table left, whether the tracer stops, and the pids exit reports went out for. */
  datatype Retired = Retired(table: seq<Tracee>, shouldExit: bool, exitReports: seq<int>)

  /**
   AllTraceesHaveExited: report the exit of the current tracee, drop its rows,
   and when none are left also report the exit of the tracer itself (`self`).
   */
  function AllTraceesHaveExited(table: seq<Tracee>, current: int, self: int): (r: Retired)
    ensures forall t :: t in r.table <==> t in table && t.pid != current
    ensures r.shouldExit <==> |r.table| == 0
    ensures r.shouldExit <==> forall t :: t in table ==> t.pid == current
    ensures r.exitReports == if r.shouldExit then [current, self] else [current]
  {
    var rest := RemovePid(table, current);
    assert |rest| > 0 ==> rest[0] in rest;
    var shouldExit := |rest| == 0;
    Retired(rest, shouldExit, if shouldExit then [current, self] else [current])
  }

  /** The first row for `pid`, as FindParentProcess returns it. */
  function FindTracee(table: seq<Tracee>, pid: int): (r: Option<Tracee>)
    ensures r.Some? ==> r.value in table && r.value.pid == pid
    ensures r.None? <==> forall t :: t in table ==> t.pid != pid
  {
    if |table| == 0 then None
    else if table[0].pid == pid then Some(table[0])
    else FindTracee(table[1..], pid)
  }

  /** In a table without duplicate pids, the row found is the only row for the pid. */
  lemma {:induction false} FindTraceeUnique(table: seq<Tracee>, t: Tracee)
    requires UniquePids(table) && t in table
    ensures FindTracee(table, t.pid) == Some(t)
  {
    if table[0] != t {
      assert t in table[1..];
      FindTraceeUnique(table[1..], t);
    }
  }

  /** The FORK report: the tracee that forked, the new child, the forking tracee's parent and its executable. */
  datatype ForkReport = ForkReport(pid: int, childPid: int, ppid: int, exe: string)

  /**
   HandleChildProcess as written: the row looked up is the new child's, which
   is not in the table yet; when it is missing the parent is 0 and the
   executable is the tracer's own program path.
   */
  function HandleChildProcessAsWritten(table: seq<Tracee>, current: int, newPid: int, progPath: string): (r: (ForkReport, seq<Tracee>))
    ensures r.0.pid == current && r.0.childPid == newPid
    ensures r.1 == table + [Tracee(newPid, current, r.0.exe)]
    ensures (forall t :: t in table ==> t.pid != newPid) ==> r.0.ppid == 0 && r.0.exe == progPath
  {
    var (ppid, exe) := match FindTracee(table, newPid)
      case Some(t) => (t.parent, t.exe)
      case None => (0, progPath);
    (ForkReport(current, newPid, ppid, exe), table + [Tracee(newPid, current, exe)])
  }

  /** A concrete run: `make` (pid 10) forks pid 11; the report loses make's parent and executable. */
  lemma ForkLosesParentAsWritten()
    ensures var r := HandleChildProcessAsWritten([Tracee(10, 1, "/usr/bin/make")], 10, 11, "/usr/bin/bxl-tracer");
      r.0 == ForkReport(10, 11, 0, "/usr/bin/bxl-tracer") &&
      r.1[1] == Tracee(11, 10, "/usr/bin/bxl-tracer")
  {
  }

  /** HandleChildProcess with the lookup it intends: the row of the tracee that forked. */
  function HandleChildProcess(table: seq<Tracee>, current: int, newPid: int, progPath: string): (r: (ForkReport, seq<Tracee>))
    ensures r.0.pid == current && r.0.childPid == newPid
    ensures r.1 == table + [Tracee(newPid, current, r.0.exe)]
    ensures FindTracee(table, current).Some? ==>
      r.0.ppid == FindTracee(table, current).value.parent && r.0.exe == FindTracee(table, current).value.exe
    ensures FindTracee(table, current).None? ==> r.0.ppid == 0 && r.0.exe == progPath
  {
    var (ppid, exe) := match FindTracee(table, current)
      case Some(t) => (t.parent, t.exe)
      case None => (0, progPath);
    (ForkReport(current, newPid, ppid, exe), table + [Tracee(newPid, current, exe)])
  }

  /**
   The child's row records the forking tracee as its parent and inherits its
   executable, and the table keeps one row per pid.
   */
  lemma ChildInheritsFromParent(table: seq<Tracee>, parent: Tracee, newPid: int, progPath: string)
    requires UniquePids(table) && parent in table
    requires forall t :: t in table ==> t.pid != newPid
    ensures var r := HandleChildProcess(table, parent.pid, newPid, progPath);
      r.0 == ForkReport(parent.pid, newPid, parent.parent, parent.exe) &&
      UniquePids(r.1) &&
      FindTracee(r.1, newPid) == Some(Tracee(newPid, parent.pid, parent.exe))
  {
    FindTraceeUnique(table, parent);
    var r := HandleChildProcess(table, parent.pid, newPid, progPath);
    assert forall i :: 0 <= i < |table| ==> table[i] in table;
    FindTraceeUnique(r.1, Tracee(newPid, parent.pid, parent.exe));
  }

  /** Retiring a tracee keeps one row per pid. */
  lemma {:induction false} RemovePidUnique(table: seq<Tracee>, pid: int)
    requires UniquePids(table)
    ensures UniquePids(RemovePid(table, pid))
  {
    if |table| > 0 {
      RemovePidUnique(table[1..], pid);
      var rest := RemovePid(table[1..], pid);
      assert forall t :: t in rest ==> t in table[1..];
      assert forall i :: 1 <= i < |table| ==> table[i].pid != table[0].pid;
      assert forall t :: t in table[1..] ==> t.pid != table[0].pid;
    }
  }

  // ----- The wait loop -----

  const SIGTRAP: bv8 := 5
  const PTRACE_EVENT_FORK: int := 1
  const PTRACE_EVENT_VFORK: int := 2
  const PTRACE_EVENT_CLONE: int := 3
  const PTRACE_EVENT_EXIT: int := 6
  const PTRACE_EVENT_SECCOMP: int := 7

  /**
   A wait status as the WIF* macros decode it. A stop carries its signal
   (WSTOPSIG) and the ptrace event in the byte above it, so that
   `status >> 8 == (SIGTRAP | EVENT << 8)` is `sig == SIGTRAP && event == EVENT`.
   */
  datatype WaitStatus =
    | Exited(code: int)
    | Signaled(termSig: int)
    | Stopped(sig: bv8, event: int)
    | Unrecognised

  /** What the loop does with one status. */
  datatype Action =
    | Retire           // the tracee is gone: AllTraceesHaveExited, stop when it says so
    | Abort            // neither exited, signalled nor stopped: _exit(-1)
    | NewChild         // clone, fork or vfork: HandleChildProcess
    | ExitEvent        // the tracee is about to exit: AllTraceesHaveExited, resume it, stop when it was the last
    | Syscall          // a seccomp stop: handle the system call, then PTRACE_CONT
    | Reinject(sig: bv8) // a signal-delivery stop: resume delivering the signal
    | Resume           // any other stop: PTRACE_SYSCALL

  predicate IsEvent(s: WaitStatus, event: int) {
    s.Stopped? && s.sig == SIGTRAP && s.event == event
  }

  /** The dispatch of AttachToProcess, in the order of its tests. */
  function Classify(s: WaitStatus): (a: Action)
    ensures a == Retire <==> s.Exited? || s.Signaled?
    ensures a == Abort <==> s.Unrecognised?
    ensures a == NewChild <==> IsEvent(s, PTRACE_EVENT_CLONE) || IsEvent(s, PTRACE_EVENT_FORK) || IsEvent(s, PTRACE_EVENT_VFORK)
    ensures a == ExitEvent <==> IsEvent(s, PTRACE_EVENT_EXIT)
    ensures a == Syscall <==> IsEvent(s, PTRACE_EVENT_SECCOMP)
    ensures a.Reinject? ==> s.Stopped? && a.sig == s.sig && s.sig & 0x80 == 0
  {
    match s
    case Exited(_) => Retire
    case Signaled(_) => Retire
    case Unrecognised => Abort
    case Stopped(sig, event) =>
      if IsEvent(s, PTRACE_EVENT_CLONE) || IsEvent(s, PTRACE_EVENT_FORK) || IsEvent(s, PTRACE_EVENT_VFORK) then NewChild
      else if IsEvent(s, PTRACE_EVENT_EXIT) then ExitEvent
      else if IsEvent(s, PTRACE_EVENT_SECCOMP) then Syscall
      else if sig & 0x80 == 0 then Reinject(sig)
      else Resume
  }

  /**
   Signals are passed on: a stop for any signal but SIGTRAP is resumed with
   that signal, and a system-call stop (bit 7 set, PTRACE_O_TRACESYSGOOD)
   never is.
   */
  lemma SignalsAreDelivered(s: WaitStatus)
    requires s.Stopped?
    ensures s.sig != SIGTRAP && s.sig & 0x80 == 0 ==> Classify(s) == Reinject(s.sig)
    ensures s.sig & 0x80 != 0 ==> Classify(s) == Resume
  {
  }

  /** One wake-up: the pid wait() returned, its status, and the event message (the new pid for fork events). */
  datatype Stop = Stop(pid: int, status: WaitStatus, eventMsg: int, syscall: string)

  /** What the tracer has done so far. */
  datatype Tracer = Tracer(table: seq<Tracee>, forks: seq<ForkReport>, exitReports: seq<int>, syscalls: seq<string>)

  datatype Outcome = Running | Finished | Aborted

  /** One iteration of the wait loop. */
  function Step(st: Tracer, s: Stop, progPath: string, self: int): (r: (Tracer, Outcome))
    ensures r.1 == Aborted <==> Classify(s.status) == Abort
    ensures r.1 == Finished ==> |r.0.table| == 0 && (Classify(s.status) == Retire || Classify(s.status) == ExitEvent)
    ensures r.1 == Finished ==> r.0.exitReports == st.exitReports + [s.pid, self]
    ensures r.1 == Running && |st.table| > 0 ==> |r.0.table| > 0
    ensures Classify(s.status) == NewChild ==> r.1 == Running && |r.0.table| == |st.table| + 1
  {
    match Classify(s.status)
    case Abort => (st, Aborted)
    case Retire | ExitEvent =>
      var ret := AllTraceesHaveExited(st.table, s.pid, self);
      (st.(table := ret.table, exitReports := st.exitReports + ret.exitReports),
       if ret.shouldExit then Finished else Running)
    case NewChild =>
      var (report, table') := HandleChildProcess(st.table, s.pid, s.eventMsg, progPath);
      (st.(table := table', forks := st.forks + [report]), Running)
    case Syscall =>
      var handled := if s.syscall in HandledSyscalls then [s.syscall] else [];
      (st.(syscalls := st.syscalls + handled), Running)
    case Reinject(_) => (st, Running)
    case Resume => (st, Running)
  }

  /**
   AttachToProcess's loop over the wake-ups, starting with the root tracee in
   the table. It keeps waiting only while some tracee is left, and it stops
   for good exactly when the last one has gone.
   */
  method Trace(root: Tracee, stops: seq<Stop>, progPath: string, self: int) returns (st: Tracer, outcome: Outcome, consumed: nat)
    ensures consumed <= |stops|
    ensures outcome == Running ==> consumed == |stops| && |st.table| > 0
    ensures outcome == Finished ==> consumed > 0 && |st.table| == 0 && |st.exitReports| > 0 && st.exitReports[|st.exitReports| - 1] == self
    ensures outcome == Aborted ==> consumed > 0 && Classify(stops[consumed - 1].status) == Abort
    ensures outcome != Running ==> forall i :: 0 <= i < consumed - 1 ==> Classify(stops[i].status) != Abort
    ensures forall c :: c in st.syscalls ==> c in HandledSyscalls
  {
    st := Tracer([root], [], [], []);
    outcome := Running;
    consumed := 0;
    while consumed < |stops| && outcome == Running
      invariant consumed <= |stops|
      invariant outcome == Running ==> |st.table| > 0
      invariant outcome == Finished ==> consumed > 0 && |st.table| == 0 && |st.exitReports| > 0 && st.exitReports[|st.exitReports| - 1] == self
      invariant outcome == Aborted ==> consumed > 0 && Classify(stops[consumed - 1].status) == Abort
      invariant forall i :: 0 <= i < consumed - 1 ==> Classify(stops[i].status) != Abort
      invariant outcome == Running ==> forall i :: 0 <= i < consumed ==> Classify(stops[i].status) != Abort
      invariant forall c :: c in st.syscalls ==> c in HandledSyscalls
    {
      var next := Step(st, stops[consumed], progPath, self);
      st, outcome := next.0, next.1;
      consumed := consumed + 1;
    }
  }

  // ----- System calls -----

  /** The system calls the seccomp filter sends to the tracer (the BPF program's TRACE_SYSCALL list). */
  const FilteredSyscalls: set<string> := {
    "execveat", "execve", "stat", "lstat", "fstat", "newfstatat", "access", "faccessat",
    "creat", "open", "openat", "write", "writev", "pwritev", "pwritev2", "pwrite64",
    "truncate", "ftruncate", "rmdir", "rename", "renameat", "link", "linkat", "unlink",
    "unlinkat", "symlink", "symlinkat", "readlink", "readlinkat", "utime", "utimes",
    "utimensat", "futimesat", "mkdir", "mkdirat", "mknod", "mknodat", "chmod", "fchmod",
    "fchmodat", "chown", "fchown", "lchown", "fchownat", "sendfile", "copy_file_range",
    "name_to_handle_at"}

  /** The system calls HandleSysCallGeneric has a handler for (its switch). */
  const HandledSyscalls: set<string> := {
    "execveat", "execve", "stat", "lstat", "fstat", "newfstatat", "access", "faccessat",
    "creat", "open", "openat", "write", "writev", "pwritev", "pwritev2", "pwrite64",
    "truncate", "ftruncate", "rmdir", "rename", "renameat", "link", "linkat", "unlink",
    "unlinkat", "symlink", "symlinkat", "readlink", "readlinkat", "utime", "utimes",
    "utimensat", "futimesat", "mkdir", "mkdirat", "mknod", "mknodat", "chmod", "fchmod",
    "fchmodat", "chown", "fchown", "lchown", "fchownat", "sendfile", "copy_file_range",
    "name_to_handle_at"}

  /** Every system call the filter traps has a handler, and no handler waits for a call the filter lets through. */
  lemma FilterMatchesHandlers()
    ensures FilteredSyscalls == HandledSyscalls
  {
  }

  // ----- Reading arguments -----

  /** Slots of x86-64's user_regs_struct. */
  const R10: int := 7
  const R9: int := 8
  const R8: int := 9
  const RAX: int := 10
  const RDX: int := 12
  const RSI: int := 13
  const RDI: int := 14
  const ORIG_RAX: int := 15

  /** sizeof(long): registers are peeked, and memory is read, a word at a time. */
  const WordSize: nat := 8

  /** The register holding a system call's argument `index`: 0 is the return value, 1 to 6 the arguments. */
  function ArgumentRegister(index: int): (r: Option<int>)
    ensures r.Some? <==> 0 <= index <= 6
    ensures index == 0 ==> r == Some(RAX)
  {
    match index
    case 0 => Some(RAX)
    case 1 => Some(RDI)
    case 2 => Some(RSI)
    case 3 => Some(RDX)
    case 4 => Some(R10)
    case 5 => Some(R8)
    case 6 => Some(R9)
    case _ => None
  }

  /** GetArgumentAddr: the offset of the register in the user area, or 0 past the sixth argument. */
  function GetArgumentAddr(index: int): (addr: int)
    ensures addr % WordSize == 0
    ensures addr != 0 <==> 0 <= index <= 6
  {
    match ArgumentRegister(index)
    case Some(reg) => WordSize * reg
    case None => 0
  }

  /** Different arguments are read from different registers, none of them the system call number. */
  lemma ArgumentRegistersDistinct(i: int, j: int)
    requires 0 <= i <= 6 && 0 <= j <= 6 && i != j
    ensures GetArgumentAddr(i) != GetArgumentAddr(j)
    ensures GetArgumentAddr(i) != WordSize * ORIG_RAX
  {
  }

  /** A word whose bytes are all 0xFF reads as -1, which PTRACE_PEEKTEXT also returns on failure. */
  predicate AllOnes(w: seq<char>) {
    forall i :: 0 <= i < |w| ==> w[i] == 0xFF as char
  }

  /**
   Whether the peek of word `k` succeeds, as the loop sees it: the word lies
   within the readable memory and is not all ones.
   */
  predicate PeekOk(mem: seq<char>, k: nat) {
    WordSize * k + WordSize <= |mem| && !AllOnes(mem[WordSize * k .. WordSize * k + WordSize])
  }

  /** The first word, from word `k` on, whose peek fails; the loop reads no byte at or past it. */
  function FirstFailedPeek(mem: seq<char>, k: nat): (r: nat)
    requires WordSize * k <= |mem|
    ensures k <= r && WordSize * r <= |mem|
    ensures !PeekOk(mem, r)
    ensures forall k' :: k <= k' < r ==> PeekOk(mem, k')
    decreases |mem| - WordSize * k
  {
    if PeekOk(mem, k) then FirstFailedPeek(mem, k + 1) else k
  }

  /** A failing peek after a run of successful ones is the first failure. */
  lemma {:induction false} FirstFailedPeekIs(mem: seq<char>, s: nat, k: nat)
    requires s <= k && WordSize * k <= |mem|
    requires forall k' :: s <= k' < k ==> PeekOk(mem, k')
    requires !PeekOk(mem, k)
    ensures FirstFailedPeek(mem, s) == k
    decreases k - s
  {
    if s < k {
      FirstFailedPeekIs(mem, s + 1, k);
    }
  }

  /** A word whose peek succeeds after a run of successful ones lies before the first failure. */
  lemma BeforeFirstFailed(mem: seq<char>, k: nat)
    requires forall k' :: 0 <= k' < k ==> PeekOk(mem, k')
    requires PeekOk(mem, k)
    ensures k < FirstFailedPeek(mem, 0)
  {
  }

  /**
   The characters ReadArgumentString stores into its buffer, from byte `j`
   of the argument on, when the bytes before `limit` (a multiple of the word
   size) lie in words whose peek succeeds: it stops after a NUL when the
   string is NUL-terminated, after `length` characters when a length is
   given, and at the first failed peek. `bounded` adds the stop the buffer
   needs: nothing is stored at index PATH_MAX or beyond.
   */
  function Scan(mem: seq<char>, limit: nat, j: nat, nullTerminated: bool, length: int, bounded: bool): (stored: string)
    requires limit <= |mem| && j <= limit
    ensures j + |stored| <= limit
    ensures forall i :: 0 <= i < |stored| ==> stored[i] == mem[j + i]
    ensures nullTerminated ==> forall i :: 0 <= i < |stored| - 1 ==> stored[i] != '\0'
    ensures length > 0 && j < length ==> j + |stored| <= length
    ensures bounded && j <= PATH_MAX ==> j + |stored| <= PATH_MAX
    decreases limit - j
  {
    if bounded && j >= PATH_MAX then []
    else if j >= limit then []
    else
      var c := mem[j];
      if (nullTerminated && c == '\0') || (length > 0 && j + 1 == length) then [c]
      else [c] + Scan(mem, limit, j + 1, nullTerminated, length, bounded)
  }

  /** The characters stored for the argument at the start of `mem`. */
  function Stored(mem: seq<char>, nullTerminated: bool, length: int, bounded: bool): (stored: string)
    ensures bounded ==> |stored| <= PATH_MAX
    ensures IsPrefix(stored, mem)
  {
    var s := Scan(mem, WordSize * FirstFailedPeek(mem, 0), 0, nullTerminated, length, bounded);
    assert mem[..|s|] == s;
    s
  }

  /** std::string(argument): the buffer up to its first NUL. */
  function CString(buffer: string): (s: string)
    ensures '\0' !in s
    ensures IsPrefix(s, buffer)
    ensures |s| < |buffer| ==> buffer[|s|] == '\0'
  {
    buffer[..IndexOf(buffer, '\0')]
  }

  /** Without a NUL before `limit`, the unbounded loop stores every byte up to it. */
  lemma {:induction false} ScanStoresEverything(mem: seq<char>, limit: nat, j: nat)
    requires limit <= |mem| && j <= limit
    requires forall i :: j <= i < limit ==> mem[i] != '\0'
    ensures |Scan(mem, limit, j, true, 0, false)| == limit - j
    decreases limit - j
  {
    if j < limit {
      ScanStoresEverything(mem, limit, j + 1);
    }
  }

  /** Memory without an all-ones word can be peeked to its end. */
  lemma {:induction false} AllWordsReadable(mem: seq<char>, k: nat)
    requires |mem| % WordSize == 0 && WordSize * k <= |mem|
    requires forall i :: 0 <= i < |mem| ==> mem[i] != 0xFF as char
    ensures WordSize * FirstFailedPeek(mem, k) == |mem|
    decreases |mem| - WordSize * k
  {
    if WordSize * k < |mem| {
      assert PeekOk(mem, k) by {
        assert mem[WordSize * k .. WordSize * k + WordSize][0] == mem[WordSize * k];
      }
      AllWordsReadable(mem, k + 1);
    }
  }

  /**
   The loop as written has no bound: an over-long path (4104 readable bytes
   without a NUL, say) is stored whole, so the NUL ReadArgumentString writes
   after the last stored character is past index PATH_MAX of its
   PATH_MAX + 1 character buffer.
   */
  lemma ReadOverrunsBufferAsWritten(mem: seq<char>)
    requires |mem| % WordSize == 0 && |mem| > PATH_MAX
    requires forall i :: 0 <= i < |mem| ==> mem[i] != '\0' && mem[i] != 0xFF as char
    ensures |Stored(mem, true, 0, false)| > PATH_MAX
  {
    AllWordsReadable(mem, 0);
    ScanStoresEverything(mem, |mem|, 0);
  }

  /** The bound changes nothing for an argument the buffer holds: both loops store the same characters. */
  lemma {:induction false} BoundedAgrees(mem: seq<char>, limit: nat, j: nat, nullTerminated: bool, length: int)
    requires limit <= |mem| && j <= limit
    requires j + |Scan(mem, limit, j, nullTerminated, length, false)| < PATH_MAX
    ensures Scan(mem, limit, j, nullTerminated, length, true) == Scan(mem, limit, j, nullTerminated, length, false)
    decreases limit - j
  {
    if j < limit {
      var c := mem[j];
      if !((nullTerminated && c == '\0') || (length > 0 && j + 1 == length)) {
        BoundedAgrees(mem, limit, j + 1, nullTerminated, length);
      }
    }
  }

  /** For an argument shorter than PATH_MAX the bounded read returns what the unbounded one would. */
  lemma ShortArgumentsUnchanged(mem: seq<char>, nullTerminated: bool, length: int)
    requires |Stored(mem, nullTerminated, length, false)| < PATH_MAX
    ensures Stored(mem, nullTerminated, length, true) == Stored(mem, nullTerminated, length, false)
  {
    BoundedAgrees(mem, WordSize * FirstFailedPeek(mem, 0), 0, nullTerminated, length);
  }

  /** The inner loop of ReadArgumentString: copy the bytes of one successfully peeked word. */
  method CopyWord(mem: seq<char>, ghost limit: nat, buffer: string, k: nat, nullTerminated: bool, length: int)
    returns (buffer': string, stop: bool)
    requires limit <= |mem| && WordSize * k + WordSize <= limit
    requires |buffer| == WordSize * k
    requires Scan(mem, limit, 0, nullTerminated, length, true) == buffer + Scan(mem, limit, |buffer|, nullTerminated, length, true)
    ensures |buffer'| <= limit
    ensures !stop ==> |buffer'| == WordSize * (k + 1)
    ensures !stop ==> Scan(mem, limit, 0, nullTerminated, length, true) == buffer' + Scan(mem, limit, |buffer'|, nullTerminated, length, true)
    ensures stop ==> Scan(mem, limit, 0, nullTerminated, length, true) == buffer'
  {
    buffer' := buffer;
    var i := 0;
    stop := false;
    while i < WordSize && !stop
      invariant 0 <= i <= WordSize
      invariant |buffer'| <= limit
      invariant !stop ==> |buffer'| == WordSize * k + i
      invariant !stop ==> Scan(mem, limit, 0, nullTerminated, length, true) == buffer' + Scan(mem, limit, |buffer'|, nullTerminated, length, true)
      invariant stop ==> Scan(mem, limit, 0, nullTerminated, length, true) == buffer'
    {
      ghost var whole := Scan(mem, limit, 0, nullTerminated, length, true);
      if |buffer'| >= PATH_MAX {
        ScanEnds(mem, limit, buffer', whole, nullTerminated, length);
        stop := true;
      } else {
        ScanExtends(mem, limit, buffer', whole, nullTerminated, length);
        var c := mem[|buffer'|];
        buffer' := buffer' + [c];
        if (nullTerminated && c == '\0') || (length > 0 && |buffer'| == length) {
          stop := true;
        }
      }
      i := i + 1;
    }
  }

  /** The bounded scan stores nothing at the buffer's end or at the limit: what was copied is all. */
  lemma ScanEnds(mem: seq<char>, limit: nat, p: string, whole: string, nullTerminated: bool, length: int)
    requires |p| <= limit <= |mem| && (|p| >= PATH_MAX || |p| == limit)
    requires whole == p + Scan(mem, limit, |p|, nullTerminated, length, true)
    ensures whole == p
  {
    assert Scan(mem, limit, |p|, nullTerminated, length, true) == [];
    assert p + [] == p;
  }

  /** One byte of the bounded scan: it is copied, and the scan stops after it or goes on. */
  lemma ScanExtends(mem: seq<char>, limit: nat, p: string, whole: string, nullTerminated: bool, length: int)
    requires |p| < limit <= |mem| && |p| < PATH_MAX
    requires whole == p + Scan(mem, limit, |p|, nullTerminated, length, true)
    ensures var c := mem[|p|];
      var q := p + [c];
      if (nullTerminated && c == '\0') || (length > 0 && |q| == length) then whole == q
      else whole == q + Scan(mem, limit, |q|, nullTerminated, length, true)
  {
    var c := mem[|p|];
    var rest := Scan(mem, limit, |p| + 1, nullTerminated, length, true);
    if !((nullTerminated && c == '\0') || (length > 0 && |p| + 1 == length)) {
      assert Scan(mem, limit, |p|, nullTerminated, length, true) == [c] + rest;
      assert p + ([c] + rest) == (p + [c]) + rest;
    }
  }

  /**
   ReadArgumentString with the buffer bound: the words of the argument are
   peeked one at a time and their bytes copied until the argument ends, a
   peek fails or the buffer is full; the result is the buffer up to its
   first NUL.
   */
  method ReadArgumentString(mem: seq<char>, nullTerminated: bool, length: int) returns (arg: string)
    ensures arg == CString(Stored(mem, nullTerminated, length, true))
    ensures |arg| <= PATH_MAX && '\0' !in arg
    ensures IsPrefix(arg, mem)
  {
    ghost var limit := WordSize * FirstFailedPeek(mem, 0);
    var buffer: string := [];
    var k: nat := 0;
    var finished := false;
    while !finished
      invariant Reading(mem, limit, buffer, k, finished, nullTerminated, length)
      decreases !finished, limit - WordSize * k
    {
      buffer, k, finished := ReadWord(mem, limit, buffer, k, nullTerminated, length);
    }
    arg := CString(buffer);
  }

  /**
   The state of ReadArgumentString's outer loop: the first k words peeked
   successfully, and the buffer holds the bytes of those words the bounded
   scan stores (all of it once the loop has finished).
   */
  predicate Reading(mem: seq<char>, limit: nat, buffer: string, k: nat, finished: bool, nullTerminated: bool, length: int) {
    limit == WordSize * FirstFailedPeek(mem, 0) &&
    WordSize * k <= limit && |buffer| <= limit &&
    (forall k' :: 0 <= k' < k ==> PeekOk(mem, k')) &&
    (!finished ==>
      |buffer| == WordSize * k &&
      Scan(mem, limit, 0, nullTerminated, length, true) == buffer + Scan(mem, limit, |buffer|, nullTerminated, length, true)) &&
    (finished ==> Scan(mem, limit, 0, nullTerminated, length, true) == buffer)
  }

  /** One pass of the outer loop: stop at a full buffer or a failed peek, otherwise copy word k. */
  method ReadWord(mem: seq<char>, ghost limit: nat, buffer: string, k: nat, nullTerminated: bool, length: int)
    returns (buffer': string, k': nat, finished: bool)
    requires Reading(mem, limit, buffer, k, false, nullTerminated, length)
    ensures Reading(mem, limit, buffer', k', finished, nullTerminated, length)
    ensures !finished ==> k' == k + 1
  {
    var whole := Scan(mem, limit, 0, nullTerminated, length, true);
    if |buffer| >= PATH_MAX {
      ScanEnds(mem, limit, buffer, whole, nullTerminated, length);
      return buffer, k, true;
    }
    if !PeekOk(mem, k) {
      FirstFailedPeekIs(mem, 0, k);
      ScanEnds(mem, limit, buffer, whole, nullTerminated, length);
      return buffer, k, true;
    }
    BeforeFirstFailed(mem, k);
    var stop;
    buffer', stop := CopyWord(mem, limit, buffer, k, nullTerminated, length);
    k' := if stop then k else k + 1;
    finished := stop;
  }

  /** ReadArgumentLong as a two's-complement 64-bit value. */
  newtype Long = x: int | -0x8000_0000_0000_0000 <= x < 0x8000_0000_0000_0000

  const TwoTo64: int := 0x1_0000_0000_0000_0000
  const TwoTo32: int := 0x1_0000_0000

  /** The largest errno a system call returns as -errno. */
  const MaxErrno: int := 4095

  /** The conversion to `int`: the low 32 bits, read as two's complement. */
  function ToInt32(x: int): (r: int)
    ensures -0x8000_0000 <= r < 0x8000_0000
    ensures (x - r) % TwoTo32 == 0
    ensures -0x8000_0000 <= x < 0x8000_0000 ==> r == x
  {
    var m := x % TwoTo32;
    if m >= 0x8000_0000 then m - TwoTo32 else m
  }

  /** The unsigned reading of a 64-bit value. */
  function Unsigned(r: Long): (u: int)
    ensures 0 <= u < TwoTo64
    ensures r >= 0 ==> u == r as int
    ensures r < 0 ==> u == r as int + TwoTo64
  {
    (r as int) % TwoTo64
  }

  /** What a failing system call leaves in RAX. */
  function SyscallFailure(errno: int): (r: Long)
    requires 1 <= errno <= MaxErrno
    ensures r as int == -errno
  {
    -errno as Long
  }

  /** GetErrno as written: 0 for a zero return, else 0xffffffffffffffff minus the return value, truncated to int. */
  function GetErrnoAsWritten(r: Long): (e: int)
    ensures r == 0 ==> e == 0
    ensures -0x8000_0000 < r as int < 0 ==> e == -(r as int) - 1
  {
    if r == 0 then 0 else ToInt32((TwoTo64 - 1) - Unsigned(r))
  }

  /** A failing mkdir, mkdirat or rmdir is reported with the errno below the real one: ENOENT (2) arrives as EPERM (1). */
  lemma GetErrnoOffByOneAsWritten(errno: int)
    requires 1 <= errno <= MaxErrno
    ensures GetErrnoAsWritten(SyscallFailure(errno)) == errno - 1
    ensures GetErrnoAsWritten(SyscallFailure(ENOENT)) == EPERM
  {
  }

  /** GetErrno as intended: 0 for a zero return, else the return value negated (0 - r), truncated to int. */
  function GetErrno(r: Long): (e: int)
    ensures r == 0 ==> e == 0
    ensures -0x8000_0000 < r as int < 0 ==> e == -(r as int)
  {
    if r == 0 then 0 else ToInt32(TwoTo64 - Unsigned(r))
  }

  /** The kernel's -errno convention round-trips: a failure with errno e reads back as e, and success as 0. */
  lemma GetErrnoRoundTrip(errno: int)
    requires 1 <= errno <= MaxErrno
    ensures GetErrno(SyscallFailure(errno)) == errno
    ensures GetErrno(0) == 0
  {
  }

  // ----- Handlers -----

  /**
   ReportOpen as written: the path's mode decides between CREATE, WRITE and
   OPEN with the tracer's classification, and the mode goes with the report.
   */
  function ReportOpenAsWritten(lstat: map<string, Mode>, path: string, oflag: Flags): (r: Report)
    ensures r.path == path && r.second == "" && r.mode == ModeOf(lstat, path)
    ensures r.event == Notify(OpenEventPTraceAsWritten(ModeOf(lstat, path) != 0, oflag))
    ensures r.event != Notify(Write)
  {
    PTraceNeverWrites(ModeOf(lstat, path) != 0, oflag);
    var mode := ModeOf(lstat, path);
    Report(Notify(OpenEventPTraceAsWritten(mode != 0, oflag)), path, "", mode)
  }

  /** With O_CREAT alone, as rename uses it, the precedence slip makes no difference. */
  lemma ReportOpenCreateOnly(lstat: map<string, Mode>, path: string)
    ensures ReportOpenAsWritten(lstat, path, O_CREAT) == OpenReport(lstat, path, O_CREAT)
  {
    CreateOnlyAgrees(ModeOf(lstat, path) != 0);
  }

  /** The two reports HandleRenameGeneric makes for one moved path: the source is unlinked, the destination created. */
  function MoveReports(lstat: map<string, Mode>, source: string, dest: string): (rs: seq<Report>)
    ensures |rs| == 2
    ensures rs[0] == Report(Notify(Unlink), source, "", ModeOf(lstat, source))
    ensures rs[1] == OpenReport(lstat, dest, O_CREAT)
  {
    [Report(Notify(Unlink), source, "", ModeOf(lstat, source)), OpenReport(lstat, dest, O_CREAT)]
  }

  /** The moves for the entries of a renamed directory, in enumeration order. */
  function MoveEntries(lstat: map<string, Mode>, entries: seq<string>, from: string, to: string): (rs: seq<Report>)
    ensures |rs| == 2 * |entries|
    ensures forall i :: 0 <= i < |entries| ==> rs[2 * i .. 2 * i + 2] == MoveReports(lstat, entries[i], Rebase(entries[i], from, to))
    decreases |entries|
  {
    if |entries| == 0 then []
    else
      var rest := MoveEntries(lstat, entries[1..], from, to);
      var rs := MoveReports(lstat, entries[0], Rebase(entries[0], from, to)) + rest;
      assert forall i :: 1 <= i < |entries| ==> rs[2 * i .. 2 * i + 2] == rest[2 * (i - 1) .. 2 * (i - 1) + 2];
      rs
  }

  /**
   HandleRenameGeneric, given the two normalised paths and the result of
   enumerating the source directory recursively (None when it fails): a
   directory's entries are each moved, a failed enumeration reports nothing,
   and anything else is moved as one path.
   */
  function HandleRenameGeneric(lstat: map<string, Mode>, from: string, to: string, enumeration: Option<seq<string>>): (rs: seq<Report>)
    ensures IsDir(ModeOf(lstat, from)) && enumeration.None? ==> rs == []
    ensures IsDir(ModeOf(lstat, from)) && enumeration.Some? ==> rs == MoveEntries(lstat, enumeration.value, from, to)
    ensures !IsDir(ModeOf(lstat, from)) ==> rs == MoveReports(lstat, from, to)
  {
    if IsDir(ModeOf(lstat, from)) then
      match enumeration
      case None => []
      case Some(entries) => MoveEntries(lstat, entries, from, to)
    else MoveReports(lstat, from, to)
  }

  /** Every entry of a renamed directory is unlinked under its old name and created under the new one. */
  lemma RenameMovesEveryEntry(lstat: map<string, Mode>, from: string, to: string, entries: seq<string>, i: nat)
    requires IsDir(ModeOf(lstat, from)) && i < |entries| && IsPrefix(from, entries[i])
    ensures var rs := HandleRenameGeneric(lstat, from, to, Some(entries));
      rs[2 * i].event == Notify(Unlink) && rs[2 * i].path == entries[i] &&
      rs[2 * i + 1].path == to + entries[i][|from|..] &&
      Rebase(rs[2 * i + 1].path, to, from) == entries[i]
  {
    var rs := HandleRenameGeneric(lstat, from, to, Some(entries));
    assert rs[2 * i .. 2 * i + 2][0] == rs[2 * i];
    assert rs[2 * i .. 2 * i + 2][1] == rs[2 * i + 1];
    RebaseRoundTrip(entries[i], from, to);
  }

  /**
   HandleReportAccessFd: a descriptor's path is reported only when it is a
   file path; readlink of /proc/self/fd gives "type:[inode]" for pipes and
   sockets, and "" when it fails.
   */
  function HandleReportAccessFd(fdPath: string, event: EventType): (r: Option<Report>)
    ensures r.Some? <==> |fdPath| > 0 && fdPath[0] == '/'
    ensures r.Some? ==> r.value == Report(event, fdPath, "", 0)
  {
    if |fdPath| > 0 && fdPath[0] == '/' then Some(Report(event, fdPath, "", 0)) else None
  }

  /** The unlink handler: an empty path is not reported. */
  function HandleUnlink(path: string): (r: Option<Request>)
    ensures r.Some? <==> |path| > 0
    ensures r.Some? ==> r.value == Request(Notify(Unlink), AT_FDCWD, Some(path), true)
  {
    if |path| > 0 then Some(Request(Notify(Unlink), AT_FDCWD, Some(path), true)) else None
  }

  /**
   The unlinkat handler as written: reported only when the descriptor is not
   AT_FDCWD and the path is not empty.
   */
  function HandleUnlinkatAsWritten(dirfd: int, path: string, flags: Flags): (r: Option<Request>)
    ensures r.Some? <==> dirfd != AT_FDCWD && |path| > 0
    ensures r.Some? ==> r.value == Request(Notify(Unlink), dirfd, Some(path), !Follows(UnlinkatOFlags(flags)))
  {
    if dirfd != AT_FDCWD && |path| > 0 then
      Some(Request(Notify(Unlink), dirfd, Some(path), UnlinkatOFlags(flags) == O_NOFOLLOW))
    else None
  }

  /** `rm out.txt` calls unlinkat(AT_FDCWD, "out.txt", 0), which the tracer does not report. */
  lemma UnlinkatFromCwdUnreportedAsWritten()
    ensures HandleUnlinkatAsWritten(AT_FDCWD, "out.txt", 0).None?
  {
  }

  /**
   The unlinkat guard as the interposed unlinkat has it: only the empty path
   relative to the working directory is skipped.
   */
  function HandleUnlinkat(dirfd: int, path: string, flags: Flags): (r: Option<Request>)
    ensures r.None? <==> dirfd == AT_FDCWD && |path| == 0
    ensures r.Some? ==> r.value == Request(Notify(Unlink), dirfd, Some(path), !Follows(UnlinkatOFlags(flags)))
  {
    if dirfd == AT_FDCWD && |path| == 0 then None
    else Some(Request(Notify(Unlink), dirfd, Some(path), UnlinkatOFlags(flags) == O_NOFOLLOW))
  }

  /** The corrected unlinkat reports everything unlink does, and the as-written one reports a subset of it. */
  lemma UnlinkatCoversUnlink(path: string, flags: Flags)
    ensures HandleUnlink(path).Some? <==> HandleUnlinkat(AT_FDCWD, path, flags).Some?
    ensures forall dirfd :: HandleUnlinkatAsWritten(dirfd, path, flags).Some? ==> HandleUnlinkat(dirfd, path, flags).Some?
  {
  }
}

=== FILE: reportaccess.dfy ===
/**
 The access reports of the plain-C interposer (detours.c): each intercepted
 call reports its path, made absolute against the working directory or a
 directory descriptor, as one '|'-separated line on the report channel.

 The process context the reports read (the program name, the pid, the
 working directory, the targets of /proc/self/fd links and realpath) is
 the parameter `Ctx`; a missing entry is a failing call.
 */
module ReportAccess {
  import opened Wrappers
  import opened Strs
  import opened Posix
  import opened Decimal
  import opened Reporting
  import Reports

  /** RequestedAccess values. */
  const kRead: nat := 1
  const kWrite: nat := 2
  const kProbe: nat := 4

  /** FileAccessStatus::kAllowed: every report says the access was allowed. */
  const kAllowed: nat := 1

  /** Operation values. */
  const kOpWrite: nat := 24
  const kOpRead: nat := 25
  const kOpProbe: nat := 26

  /** The error a report carries when realpath fails (ENOENT). */
  const RealpathFailed: nat := 2

  datatype Ctx = Ctx(
    progname: string,
    pid: int,
    cwd: Option<string>,             // getcwd: None when it fails
    fdLinks: map<int, string>,       // readlink of /proc/self/fd/N
    realpath: map<string, string>)   // realpath: absent when it fails

  /** What a report call ends in: the report is framed and sent (or fatal), or the path buffer was left without a NUL. */
  datatype Reported = Sent(outcome: Outcome) | Unterminated

  /** oflag_to_access: a write when O_WRONLY or O_RDWR is set, a read otherwise. */
  function OflagToAccess(oflag: Flags): (a: nat)
    ensures a == kWrite <==> Reports.OflagIsWrite(oflag)
    ensures a == kRead <==> !Reports.OflagIsWrite(oflag)
  {
    if oflag & (O_WRONLY | O_RDWR) != 0 then kWrite else kRead
  }

  /** The nine fields of a report line, in order. */
  function Fields(ctx: Ctx, access: nat, err: nat, fname: string, opcode: nat, path: string): (f: seq<string>)
    ensures |f| == 9 && f[0] == ctx.progname && f[5] == ToDecimal(err) && f[6] == fname && f[8] == path
  {
    [ctx.progname, ToDecimal(ctx.pid), ToDecimal(access), ToDecimal(kAllowed), ToDecimal(1),
     ToDecimal(err), fname, ToDecimal(opcode), path]
  }

  /** `"%s|%d|%d|%d|%d|%d|%s|%d|%s\n"`: the fields joined by '|' and a newline. */
  function Line(fields: seq<string>): (line: string)
    ensures |line| > 0 && line[|line| - 1] == '\n'
  {
    Join(fields, '|') + "\n"
  }

  /** The fields that realpath's outcome decides: the error and the path reported. */
  function Resolved(ctx: Ctx, pathname: string): (r: (nat, string))
    ensures pathname in ctx.realpath ==> r == (0, ctx.realpath[pathname])
    ensures pathname !in ctx.realpath ==> r == (RealpathFailed, pathname)
  {
    if pathname in ctx.realpath then (0, ctx.realpath[pathname]) else (RealpathFailed, pathname)
  }

  /**
   report_access: the line for the resolved path (or, when realpath fails,
   the path as given with error 2) is framed and sent. The access reported
   is the requested one even when realpath fails.
   */
  function ReportAccess(ctx: Ctx, fname: string, pathname: string, access: nat, opcode: nat): (r: Outcome)
    ensures var (err, path) := Resolved(ctx, pathname);
      var line := Line(Fields(ctx, access, err, fname, opcode, path));
      (r == Fatal <==> |line| >= MaxMessageLength) &&
      (r != Fatal ==> r.Delivered? && Unframe(r.packet) == Some(line))
  {
    var (err, path) := Resolved(ctx, pathname);
    ReportAccessFraming(Line(Fields(ctx, access, err, fname, opcode, path)))
  }

  /** The characters readlink stores into a PATH_MAX buffer (it adds no NUL); None when it fails. */
  function ReadLink(ctx: Ctx, fd: int): (r: Option<string>)
    ensures r.Some? <==> fd in ctx.fdLinks
    ensures r.Some? ==> |r.value| <= PATH_MAX && IsPrefix(r.value, ctx.fdLinks[fd])
  {
    if fd !in ctx.fdLinks then None
    else
      var t := ctx.fdLinks[fd];
      Some(if |t| <= PATH_MAX then t else t[..PATH_MAX])
  }

  /** getcwd into a PATH_MAX buffer: it fails, leaving the buffer empty, when the directory does not fit with its NUL. */
  function Cwd(ctx: Ctx): (d: string)
    ensures |d| < PATH_MAX
    ensures ctx.cwd.Some? && |ctx.cwd.value| < PATH_MAX ==> d == ctx.cwd.value
  {
    if ctx.cwd.Some? && |ctx.cwd.value| < PATH_MAX then ctx.cwd.value else ""
  }

  /** The outcome of building report_access_at's full path. */
  datatype FullPath = NoBase | Path(path: string) | NoRoom

  /**
   report_access_at's path: the directory (the working directory for
   AT_FDCWD, the descriptor's link otherwise), then "/" and the name as
   snprintf leaves them in the rest of the PATH_MAX buffer. A directory of
   length 0 or less is fatal; one filling the whole buffer leaves no room
   for the NUL.
   */
  function FullPathAt(ctx: Ctx, dirfd: int, pathname: string): (r: FullPath)
    ensures r.Path? ==>
      (DirOf(ctx, dirfd).Some? && |r.path| < PATH_MAX && IsPrefix(r.path, DirOf(ctx, dirfd).value + "/" + pathname))
    ensures r.Path? && |DirOf(ctx, dirfd).value| + 1 + |pathname| < PATH_MAX ==>
      r.path == DirOf(ctx, dirfd).value + "/" + pathname
    ensures r == NoBase <==> DirOf(ctx, dirfd).None? || |DirOf(ctx, dirfd).value| == 0
    ensures r == NoRoom <==> DirOf(ctx, dirfd).Some? && |DirOf(ctx, dirfd).value| == PATH_MAX
  {
    match DirOf(ctx, dirfd)
    case None => NoBase
    case Some(base) =>
      if |base| == 0 then NoBase
      else if |base| == PATH_MAX then NoRoom
      else
        var tail := "/" + pathname;
        var room := PATH_MAX - |base| - 1;
        var kept := if |tail| <= room then tail else tail[..room];
        assert IsPrefix(base + kept, base + tail) by {
          assert (base + tail)[..|base + kept|] == base + tail[..|kept|];
        }
        Path(base + kept)
  }

  /** The directory a relative name is taken against: getcwd for AT_FDCWD, the descriptor's link otherwise. */
  function DirOf(ctx: Ctx, dirfd: int): (d: Option<string>)
    ensures d.Some? ==> |d.value| <= PATH_MAX
    ensures dirfd == AT_FDCWD ==> d == Some(Cwd(ctx))
    ensures dirfd != AT_FDCWD ==> d == ReadLink(ctx, dirfd)
  {
    if dirfd == AT_FDCWD then Some(Cwd(ctx)) else ReadLink(ctx, dirfd)
  }

  /** report_access_at: fatal without a directory, otherwise report_access of the full path. */
  function ReportAccessAt(ctx: Ctx, fname: string, dirfd: int, pathname: string, access: nat, opcode: nat): (r: Reported)
    ensures FullPathAt(ctx, dirfd, pathname) == NoBase ==> r == Sent(Fatal)
    ensures FullPathAt(ctx, dirfd, pathname) == NoRoom ==> r == Unterminated
    ensures FullPathAt(ctx, dirfd, pathname).Path? ==>
      r == Sent(ReportAccess(ctx, fname, FullPathAt(ctx, dirfd, pathname).path, access, opcode))
  {
    match FullPathAt(ctx, dirfd, pathname)
    case NoBase => Sent(Fatal)
    case NoRoom => Unterminated
    case Path(p) => Sent(ReportAccess(ctx, fname, p, access, opcode))
  }

  /** report_access_fd: the descriptor's link is reported; a failing readlink leaves the path empty. */
  function ReportAccessFd(ctx: Ctx, fname: string, fd: int, access: nat, opcode: nat): (r: Reported)
    ensures fd !in ctx.fdLinks ==> r == Sent(ReportAccess(ctx, fname, "", access, opcode))
    ensures fd in ctx.fdLinks && |ctx.fdLinks[fd]| < PATH_MAX ==>
      r == Sent(ReportAccess(ctx, fname, ctx.fdLinks[fd], access, opcode))
    ensures r == Unterminated <==> fd in ctx.fdLinks && |ctx.fdLinks[fd]| >= PATH_MAX
  {
    match ReadLink(ctx, fd)
    case None => Sent(ReportAccess(ctx, fname, "", access, opcode))
    case Some(p) => if |p| == PATH_MAX then Unterminated else Sent(ReportAccess(ctx, fname, p, access, opcode))
  }

  /**
   report_read, report_probe and report_write (with kRead and kOpRead,
   kProbe and kOpProbe, kWrite and kOpWrite): a path not starting with '/'
   goes through AT_FDCWD, an absolute one straight to report_access.
   */
  function ReportPath(ctx: Ctx, fname: string, pathname: string, access: nat, opcode: nat): (r: Reported)
    ensures (|pathname| == 0 || pathname[0] != '/') ==> r == ReportAccessAt(ctx, fname, AT_FDCWD, pathname, access, opcode)
    ensures |pathname| > 0 && pathname[0] == '/' ==> r == Sent(ReportAccess(ctx, fname, pathname, access, opcode))
  {
    if |pathname| == 0 || pathname[0] != '/' then ReportAccessAt(ctx, fname, AT_FDCWD, pathname, access, opcode)
    else Sent(ReportAccess(ctx, fname, pathname, access, opcode))
  }

  /**
   A report line reads back: dropping the newline and splitting at '|'
   gives the nine fields, provided the program name, the function name and
   the path hold no '|'.
   */
  lemma LineParses(ctx: Ctx, access: nat, err: nat, fname: string, opcode: nat, path: string)
    requires '|' !in ctx.progname && '|' !in fname && '|' !in path
    ensures var line := Line(Fields(ctx, access, err, fname, opcode, path));
      Split(line[..|line| - 1], '|') == Fields(ctx, access, err, fname, opcode, path)
  {
    var f := Fields(ctx, access, err, fname, opcode, path);
    DecimalHasNoBar(ctx.pid);
    DecimalHasNoBar(access);
    DecimalHasNoBar(kAllowed);
    DecimalHasNoBar(1);
    DecimalHasNoBar(err);
    DecimalHasNoBar(opcode);
    assert (Join(f, '|') + "\n")[..|Join(f, '|')|] == Join(f, '|');
    SplitJoin(f, '|');
  }

  /** A relative name is reported as the working directory, '/', and the name, when they fit. */
  lemma RelativePathsAnchorAtCwd(ctx: Ctx, fname: string, pathname: string, access: nat, opcode: nat)
    requires |pathname| == 0 || pathname[0] != '/'
    requires ctx.cwd.Some? && 0 < |ctx.cwd.value| && |ctx.cwd.value| + 1 + |pathname| < PATH_MAX
    ensures ReportPath(ctx, fname, pathname, access, opcode) ==
      Sent(ReportAccess(ctx, fname, ctx.cwd.value + "/" + pathname, access, opcode))
  {
  }

  /** Without a working directory, a relative report is fatal; an absolute one does not need it. */
  lemma RelativePathsNeedCwd(ctx: Ctx, fname: string, pathname: string, access: nat, opcode: nat)
    requires ctx.cwd.None?
    ensures (|pathname| == 0 || pathname[0] != '/') ==> ReportPath(ctx, fname, pathname, access, opcode) == Sent(Fatal)
    ensures |pathname| > 0 && pathname[0] == '/' ==>
      (ReportPath(ctx, fname, pathname, access, opcode).Sent? &&
       ReportPath(ctx, fname, pathname, access, opcode) == ReportPath(ctx.(cwd := Some("/")), fname, pathname, access, opcode))
  {
  }

  /** When realpath fails the line carries error 2 and the path as given; otherwise error 0 and the resolved path. */
  lemma RealpathDecidesErrorAndPath(ctx: Ctx, fname: string, pathname: string, access: nat, opcode: nat)
    requires '|' !in ctx.progname && '|' !in fname && '|' !in pathname
    requires pathname in ctx.realpath ==> '|' !in ctx.realpath[pathname]
    requires ReportAccess(ctx, fname, pathname, access, opcode) != Fatal
    ensures var r := ReportAccess(ctx, fname, pathname, access, opcode);
      var text := Unframe(r.packet).value;
      var f := Split(text[..|text| - 1], '|');
      |f| == 9 &&
      (pathname !in ctx.realpath ==> f[5] == ToDecimal(RealpathFailed) && f[8] == pathname) &&
      (pathname in ctx.realpath ==> f[5] == ToDecimal(0) && f[8] == ctx.realpath[pathname]) &&
      f[2] == ToDecimal(access)
  {
    var (err, path) := Resolved(ctx, pathname);
    LineParses(ctx, access, err, fname, opcode, path);
  }
}

=== FILE: reporting.dfy ===
/**
 Report framing on the Linux report channel. A report is one line of text
 written into a PIPE_BUF buffer after a 4-byte length prefix, and the
 buffer is sent with a single write so that it stays atomic.

 BuildReport (which renders an access report as text) is not part of this
 model: a report is rendered as a fixed head, the path, and a fixed tail
 (`Layout`), which is all the framing logic depends on. The rendering is
 done as by snprintf: at most `size - 1` characters land in the buffer,
 followed by a NUL, and the full length is returned.
 */
module Reporting {
  import opened Wrappers
  import opened Posix

  /** sizeof(uint): the length prefix in front of every message. */
  const PrefixLength: nat := 4
  /** The room left for the text in a PIPE_BUF buffer. */
  const MaxMessageLength: nat := PIPE_BUF - PrefixLength

  /** The parts of a rendered report that do not depend on the path. */
  datatype Layout = Layout(head: string, tail: string)

  function Render(l: Layout, path: string): (text: string)
    ensures |text| == |l.head| + |path| + |l.tail|
    ensures text[|l.head|..|l.head| + |path|] == path
  {
    l.head + path + l.tail
  }

  /**
   What one write puts on the channel: the value of the length prefix, and
   the characters that follow it.
   */
  datatype Packet = Packet(prefix: nat, body: string)

  /** The reader's side: a packet carries the first `prefix` characters of its body, if there are that many. */
  function Unframe(p: Packet): (r: Option<string>)
    ensures r.Some? <==> p.prefix <= |p.body|
    ensures r.Some? ==> IsPrefixOf(r.value, p.body) && |r.value| == p.prefix
  {
    if p.prefix <= |p.body| then Some(p.body[..p.prefix]) else None
  }

  predicate IsPrefixOf(a: string, b: string) {
    |a| <= |b| && b[..|a|] == a
  }

  /**
   The packet SendReport writes for a rendered text: the prefix is the
   rendered length, the buffer holds what snprintf kept of the text (at most
   MaxMessageLength - 1 characters and a NUL), and min(length + 4, PIPE_BUF)
   bytes are sent.
   */
  function Frame(text: string): (p: Packet)
    ensures p.prefix == |text|
    ensures PrefixLength + |p.body| <= PIPE_BUF
    ensures |text| < MaxMessageLength ==> p.body == text
    ensures |text| >= MaxMessageLength ==> |p.body| == MaxMessageLength && p.body == text[..MaxMessageLength - 1] + ['\0']
  {
    if |text| < MaxMessageLength then Packet(|text|, text)
    else Packet(|text|, text[..MaxMessageLength - 1] + ['\0'])
  }

  /** A text that fits is delivered whole: the reader gets back exactly the rendered report. */
  lemma FrameRoundTrip(text: string)
    requires |text| < MaxMessageLength
    ensures Unframe(Frame(text)) == Some(text)
  {
    assert text[..|text|] == text;
  }

  datatype Outcome =
    | Skipped                    // nothing sent, success
    | Delivered(packet: Packet)  // one atomic write
    | Fatal                      // the process is terminated

  /** Send: a buffer longer than PIPE_BUF cannot be written atomically and is fatal. */
  function Send(p: Packet): (r: Outcome)
    ensures r == Fatal <==> PrefixLength + |p.body| > PIPE_BUF
    ensures r != Fatal ==> r == Delivered(p)
  {
    if PrefixLength + |p.body| > PIPE_BUF then Fatal else Delivered(p)
  }

  function Min(a: int, b: int): int { if a < b then a else b }

  /**
   SendReport (bxl_observer.cpp) as written: a process-tree-completed report
   is not sent; a report whose rendering does not fit is fatal unless it is
   a debug message, whose path is then cut to
   PATH_MAX - (length - MaxMessageLength) - 1 characters and rendered again.
   */
  function SendReportAsWritten(treeCompleted: bool, l: Layout, path: string, isDebug: bool): (r: Outcome)
    ensures treeCompleted <==> r == Skipped
    ensures !treeCompleted && |Render(l, path)| < MaxMessageLength ==> r == Delivered(Frame(Render(l, path)))
    ensures !treeCompleted && |Render(l, path)| >= MaxMessageLength ==> (r == Fatal <==> !isDebug)
    ensures r.Delivered? ==> PrefixLength + |r.packet.body| <= PIPE_BUF
  {
    if treeCompleted then Skipped
    else
      var n := |Render(l, path)|;
      if n < MaxMessageLength then Send(Frame(Render(l, path)))
      else if !isDebug then Fatal
      else
        var truncatedSize := PATH_MAX - (n - MaxMessageLength);
        var keep := if truncatedSize < 1 then 0 else Min(|path|, truncatedSize - 1);
        Send(Frame(Render(l, path[..keep])))
  }

  /**
   The debug truncation is computed against PATH_MAX rather than against the
   path's own length. For a path shorter than PATH_MAX (every debug message
   is) the re-rendered text is still at least MaxMessageLength long, so the
   prefix announces more characters than the packet carries whole.
   */
  lemma DebugTruncationStillOverflows(l: Layout, path: string)
    requires |path| < PATH_MAX
    requires |Render(l, path)| >= MaxMessageLength
    ensures var r := SendReportAsWritten(false, l, path, true);
      r.Delivered? && r.packet.prefix >= MaxMessageLength &&
      |r.packet.body| == MaxMessageLength && r.packet.body[MaxMessageLength - 1] == '\0'
  {
  }

  /**
   The intended truncation: cut just enough of the path that the report
   fits, keeping as much of the path as possible.
   */
  function DebugKeep(l: Layout, path: string): (keep: nat)
    requires |Render(l, path)| >= MaxMessageLength
    ensures keep <= |path|
    ensures |l.head| + |l.tail| < MaxMessageLength ==>
      |Render(l, path[..keep])| == MaxMessageLength - 1
  {
    var excess := |Render(l, path)| - MaxMessageLength;
    if |path| > excess then |path| - excess - 1 else 0
  }

  /** SendReport with the intended truncation. */
  function SendReport(treeCompleted: bool, l: Layout, path: string, isDebug: bool): (r: Outcome)
    ensures treeCompleted <==> r == Skipped
    ensures !treeCompleted && |Render(l, path)| < MaxMessageLength ==> r == Delivered(Frame(Render(l, path)))
    ensures !treeCompleted && |Render(l, path)| >= MaxMessageLength ==> (r == Fatal <==> !isDebug)
    ensures r.Delivered? ==> PrefixLength + |r.packet.body| <= PIPE_BUF
  {
    if treeCompleted then Skipped
    else
      var n := |Render(l, path)|;
      if n < MaxMessageLength then Send(Frame(Render(l, path)))
      else if !isDebug then Fatal
      else Send(Frame(Render(l, path[..DebugKeep(l, path)])))
  }

  /**
   With the intended truncation, every delivered report reads back whole:
   an overlong debug message arrives as the report of a prefix of its path,
   and no longer prefix would have fitted.
   */
  lemma SendReportDelivers(l: Layout, path: string, isDebug: bool)
    requires |l.head| + |l.tail| < MaxMessageLength
    requires isDebug || |Render(l, path)| < MaxMessageLength
    ensures var r := SendReport(false, l, path, isDebug);
      r.Delivered? &&
      exists keep: nat :: keep <= |path| && Unframe(r.packet) == Some(Render(l, path[..keep])) &&
        (keep == |path| || |Render(l, path[..keep + 1])| >= MaxMessageLength)
  {
    if |Render(l, path)| < MaxMessageLength {
      FrameRoundTrip(Render(l, path));
      assert path[..|path|] == path;
    } else {
      var keep := DebugKeep(l, path);
      FrameRoundTrip(Render(l, path[..keep]));
      assert |Render(l, path[..keep + 1])| == MaxMessageLength;
    }
  }

  /**
   report_access in detours.c: the text is rendered with snprintf into
   MaxMessageLength characters. Only a length of exactly MaxMessageLength is
   caught as truncation; a longer text makes the buffer size exceed PIPE_BUF,
   which Send rejects. Either way an overlong report is fatal.
   */
  function ReportAccessFraming(text: string): (r: Outcome)
    ensures r == Fatal <==> |text| >= MaxMessageLength
    ensures r != Fatal ==> r == Delivered(Packet(|text|, text)) && Unframe(r.packet) == Some(text)
  {
    var n := |text|;
    if n == MaxMessageLength then Fatal
    else if n > MaxMessageLength then Send(Packet(n, text))
    else
      assert text[..n] == text;
      Send(Packet(n, text))
  }
}

=== FILE: reports.dfy ===
/**
 What the Linux sandbox hands to the observer for one access, and the pieces
 of classification that the interposed library (detours.cpp) and the ptrace
 tracer (PTraceSandbox.cpp) share: how an open() call is classified, how
 the *at() flags choose between following and not following a final
 symbolic link, and how a path inside a renamed directory is rewritten.
 */
module Reports {
  import opened Wrappers
  import opened Strs
  import opened Posix
  import opened Events

  /**
   A report of an already normalised path: the event, the path, the second
   path (empty when there is none) and the mode passed along, where 0 means
   "look it up" (create_access_internal then calls get_mode).
   */
  datatype Report = Report(event: EventType, path: string, second: string, mode: Mode)

  /**
   A request to report a path that is still to be normalised: relative to
   `dirfd` (AT_FDCWD for the working directory), with a final symbolic link
   followed unless `noFollow`. A NULL path is `None`.
   */
  datatype Request = Request(event: EventType, dirfd: int, path: Option<string>, noFollow: bool)

  /** get_mode on the lstat oracle: the mode of the path, or 0 when lstat fails. */
  function ModeOf(lstat: map<string, Mode>, path: string): (m: Mode)
    ensures path !in lstat ==> m == 0
    ensures path in lstat ==> m == lstat[path]
  {
    if path in lstat then lstat[path] else 0
  }

  /** The mode create_access_internal ends up with: a report's own mode, or the looked-up one when it passed 0. */
  function Resolve(r: Report, lstat: map<string, Mode>): (r': Report)
    ensures r'.event == r.event && r'.path == r.path && r'.second == r.second
    ensures r.mode != 0 ==> r' == r
    ensures r.mode == 0 ==> r'.mode == ModeOf(lstat, r.path)
  {
    if r.mode == 0 then r.(mode := ModeOf(lstat, r.path)) else r
  }

  // ----- open() classification -----

  /** O_CREAT or O_TRUNC is set: the call may create or truncate the file. */
  predicate CreatesOrTruncates(oflag: Flags) {
    oflag & (O_CREAT | O_TRUNC) != 0
  }

  /** The access mode asks for writing (O_WRONLY or O_RDWR). */
  predicate OpensForWriting(oflag: Flags) {
    oflag & O_ACCMODE == O_WRONLY || oflag & O_ACCMODE == O_RDWR
  }

  /**
   The classification both sandboxes intend: CREATE when the path does not
   exist and the call may create it; WRITE when it exists and is opened for
   writing with O_CREAT or O_TRUNC (the file may be truncated); OPEN otherwise.
   */
  function OpenEvent(exists_: bool, oflag: Flags): (k: Kind)
    ensures k == Create <==> !exists_ && CreatesOrTruncates(oflag)
    ensures k == Write <==> exists_ && CreatesOrTruncates(oflag) && OpensForWriting(oflag)
    ensures k == Open <==> !(k == Create || k == Write)
  {
    if !exists_ && CreatesOrTruncates(oflag) then Create
    else if exists_ && CreatesOrTruncates(oflag) && OpensForWriting(oflag) then Write
    else Open
  }

  /**
   ReportFileOpen in detours.cpp as written: the write test is `oflag & O_WRONLY`,
   a test of the low bit, which O_RDWR does not set.
   */
  function OpenEventDetoursAsWritten(exists_: bool, oflag: Flags): (k: Kind)
    ensures k == Write <==> exists_ && CreatesOrTruncates(oflag) && oflag & O_WRONLY != 0
  {
    if !exists_ && CreatesOrTruncates(oflag) then Create
    else if exists_ && CreatesOrTruncates(oflag) && oflag & O_WRONLY != 0 then Write
    else Open
  }

  /** The bit test agrees with the intended classification for every access mode except O_RDWR and the unused mode 3. */
  lemma DetoursAgreesExceptReadWrite(exists_: bool, oflag: Flags)
    requires oflag & O_ACCMODE != O_RDWR && oflag & O_ACCMODE != O_ACCMODE
    ensures OpenEventDetoursAsWritten(exists_, oflag) == OpenEvent(exists_, oflag)
  {
  }

  /** An existing file opened with O_RDWR | O_TRUNC is truncated, yet detours.cpp reports a plain OPEN. */
  lemma TruncatingReadWriteIsOpenAsWritten()
    ensures OpenEventDetoursAsWritten(true, O_RDWR | O_TRUNC) == Open
    ensures OpenEvent(true, O_RDWR | O_TRUNC) == Write
  {
  }

  /**
   Truncating an existing file opened read-only is an OPEN in all three
   readings, although the comment above ReportFileOpen calls any truncating
   open of an existing file a write.
   */
  lemma ReadOnlyTruncateIsOpen()
    ensures OpenEvent(true, O_RDONLY | O_TRUNC) == Open
    ensures OpenEventDetoursAsWritten(true, O_RDONLY | O_TRUNC) == Open
    ensures OpenEventPTraceAsWritten(true, O_RDONLY | O_TRUNC) == Open
  {
  }

  /**
   ReportOpen in PTraceSandbox.cpp as written: `oflag & O_ACCMODE == O_WRONLY`
   parses as `oflag & (O_ACCMODE == O_WRONLY)`, and the comparison is 0, so
   the write test is `oflag & 0`.
   */
  function OpenEventPTraceAsWritten(exists_: bool, oflag: Flags): (k: Kind)
    ensures k == Create <==> !exists_ && CreatesOrTruncates(oflag)
  {
    var isWronly: Flags := if O_ACCMODE == O_WRONLY then 1 else 0;
    var isRdwr: Flags := if O_ACCMODE == O_RDWR then 1 else 0;
    var isCreate := !exists_ && CreatesOrTruncates(oflag);
    var isWrite := exists_ && CreatesOrTruncates(oflag) && (oflag & isWronly != 0 || oflag & isRdwr != 0);
    if isCreate then Create else if isWrite then Write else Open
  }

  /** The tracer never classifies an open as a write. */
  lemma PTraceNeverWrites(exists_: bool, oflag: Flags)
    ensures OpenEventPTraceAsWritten(exists_, oflag) != Write
    ensures OpenEventPTraceAsWritten(exists_, oflag) == Open <==> !(!exists_ && CreatesOrTruncates(oflag))
  {
  }

  /** Apart from the lost WRITE, the tracer agrees with the intended classification. */
  lemma PTraceAgreesExceptWrite(exists_: bool, oflag: Flags)
    requires OpenEvent(exists_, oflag) != Write
    ensures OpenEventPTraceAsWritten(exists_, oflag) == OpenEvent(exists_, oflag)
  {
  }

  /** creat(): open with O_CREAT | O_WRONLY | O_TRUNC. */
  const CreatFlags: Flags := O_CREAT | O_WRONLY | O_TRUNC

  /** creat() always reports a modification: CREATE for a new path, WRITE for an existing one. */
  lemma CreatNeverOpens(exists_: bool)
    ensures OpenEvent(exists_, CreatFlags) == (if exists_ then Write else Create)
    ensures OpenEventDetoursAsWritten(exists_, CreatFlags) == OpenEvent(exists_, CreatFlags)
  {
  }

  /** O_CREAT alone (as rename reports its destination) is never a write, so both as-written tests agree with the intent there. */
  lemma CreateOnlyAgrees(exists_: bool)
    ensures OpenEventPTraceAsWritten(exists_, O_CREAT) == OpenEvent(exists_, O_CREAT)
    ensures OpenEventDetoursAsWritten(exists_, O_CREAT) == OpenEvent(exists_, O_CREAT)
    ensures OpenEvent(exists_, O_CREAT) == (if exists_ then Open else Create)
  {
  }

  /**
   The report of an open() with the intended classification: the path's
   mode decides between CREATE, WRITE and OPEN and goes with the report.
   */
  function OpenReport(lstat: map<string, Mode>, path: string, oflag: Flags): (r: Report)
    ensures r.path == path && r.second == "" && r.mode == ModeOf(lstat, path)
    ensures r.event == Notify(OpenEvent(ModeOf(lstat, path) != 0, oflag))
  {
    var mode := ModeOf(lstat, path);
    Report(Notify(OpenEvent(mode != 0, oflag)), path, "", mode)
  }

  /** oflag_to_access in detours.c: a write access iff the O_WRONLY or O_RDWR bit is set. */
  predicate OflagIsWrite(oflag: Flags) {
    oflag & (O_WRONLY | O_RDWR) != 0
  }

  /** For every valid access mode oflag_to_access and the intended classification agree on what counts as writing. */
  lemma OflagIsWriteMatchesAccessMode(oflag: Flags)
    requires oflag & O_ACCMODE != O_ACCMODE
    ensures OflagIsWrite(oflag) <==> OpensForWriting(oflag)
  {
  }

  // ----- *at() flags -----

  /** The open flags a final path component is resolved with follow a symbolic link iff O_NOFOLLOW is clear. */
  predicate Follows(oflags: Flags) {
    oflags & O_NOFOLLOW == 0
  }

  /** fchmodat, fchownat and execveat: AT_SYMLINK_NOFOLLOW becomes O_NOFOLLOW. */
  function NoFollowFromAtFlags(flags: Flags): (oflags: Flags)
    ensures oflags == 0 || oflags == O_NOFOLLOW
  {
    if flags & AT_SYMLINK_NOFOLLOW != 0 then O_NOFOLLOW else 0
  }

  /** name_to_handle_at: the link is followed only when AT_SYMLINK_FOLLOW is given. */
  function NoFollowUnlessAtFollow(flags: Flags): (oflags: Flags)
    ensures oflags == 0 || oflags == O_NOFOLLOW
  {
    if flags & AT_SYMLINK_FOLLOW != 0 then 0 else O_NOFOLLOW
  }

  /** unlinkat: removing a directory follows a link, removing a file does not. */
  function UnlinkatOFlags(flags: Flags): (oflags: Flags)
    ensures oflags == 0 || oflags == O_NOFOLLOW
  {
    if flags & AT_REMOVEDIR != 0 then 0 else O_NOFOLLOW
  }

  /** The three mappings, stated as what they follow. */
  lemma AtFlagsFollow(flags: Flags)
    ensures Follows(NoFollowFromAtFlags(flags)) <==> flags & AT_SYMLINK_NOFOLLOW == 0
    ensures Follows(NoFollowUnlessAtFollow(flags)) <==> flags & AT_SYMLINK_FOLLOW != 0
    ensures Follows(UnlinkatOFlags(flags)) <==> flags & AT_REMOVEDIR != 0
  {
  }

  // ----- rename -----

  /**
   `entry.replace(0, from.length(), to)`: the first |from| characters of the
   entry (all of it when it is shorter) are replaced by `to`.
   */
  function Rebase(entry: string, from: string, to: string): (r: string)
    ensures IsPrefix(from, entry) ==> r == to + entry[|from|..]
    ensures |entry| <= |from| ==> r == to
    ensures IsPrefix(to, r)
  {
    to + (if |entry| >= |from| then entry[|from|..] else [])
  }

  /** Moving an entry of a renamed directory back gives the entry again. */
  lemma RebaseRoundTrip(entry: string, from: string, to: string)
    requires IsPrefix(from, entry)
    ensures Rebase(Rebase(entry, from, to), to, from) == entry
  {
    var moved := Rebase(entry, from, to);
    assert moved[|to|..] == entry[|from|..];
    assert from + entry[|from|..] == entry;
  }
}

=== FILE: resolvedcache.dfy ===
/**
 The Windows interposer's cache of reparse-point resolution
 (ResolvedPathCache.h). It holds three maps: whether a base path needs
 resolving, the target and type of a reparse point, and, per (path,
 preserve-last-reparse-point) pair, the intermediate and final paths that
 resolving produced. Inserting never overwrites; invalidating a path drops
 every entry that mentions it. The reader/writer lock only serialises these
 operations and is not modelled.
 */
module ResolvedPathCache {
  import opened Wrappers

  datatype ResolvedPathType = Intermediate | FullyResolved

  /** The insertion order of the resolved paths and their classification. */
  datatype Entries = Entries(order: seq<string>, resolved: map<string, ResolvedPathType>)

  datatype Cache = Cache(
    resolver: map<string, bool>,
    target: map<string, (string, int)>,
    paths: map<(string, bool), Entries>)

  const Empty := Cache(map[], map[], map[])

  /** std::map::emplace: the pair is stored only when the key is absent, and the flag says whether it was. */
  function Emplace<K, V>(m: map<K, V>, k: K, v: V): (r: (map<K, V>, bool))
    ensures r.1 <==> k !in m
    ensures k in r.0 && r.0[k] == (if r.1 then v else m[k])
    ensures r.0.Keys == m.Keys + {k}
    ensures forall k' :: k' in m && k' != k ==> r.0[k'] == m[k']
  {
    if k in m then (m, false) else (m[k := v], true)
  }

  /** Find: the stored value, or null. */
  function Find<K, V>(m: map<K, V>, k: K): (r: Option<V>)
    ensures r.Some? <==> k in m
    ensures r.Some? ==> r.value == m[k]
  {
    if k in m then Some(m[k]) else None
  }

  function InsertResolvingCheckResult(c: Cache, path: string, result: bool): (r: (Cache, bool))
    ensures r.1 <==> path !in c.resolver
    ensures r.0.target == c.target && r.0.paths == c.paths
    ensures path in r.0.resolver && r.0.resolver[path] == (if r.1 then result else c.resolver[path])
  {
    var (m, inserted) := Emplace(c.resolver, path, result);
    (c.(resolver := m), inserted)
  }

  function GetResolvingCheckResult(c: Cache, path: string): (r: Option<bool>)
    ensures r.Some? <==> path in c.resolver
    ensures r.Some? ==> r.value == c.resolver[path]
  {
    Find(c.resolver, path)
  }

  function InsertResolvedPathWithType(c: Cache, path: string, resolved: string, kind: int): (r: (Cache, bool))
    ensures r.1 <==> path !in c.target
    ensures r.0.resolver == c.resolver && r.0.paths == c.paths
    ensures path in r.0.target && r.0.target[path] == (if r.1 then (resolved, kind) else c.target[path])
  {
    var (m, inserted) := Emplace(c.target, path, (resolved, kind));
    (c.(target := m), inserted)
  }

  function GetResolvedPathAndType(c: Cache, path: string): (r: Option<(string, int)>)
    ensures r.Some? <==> path in c.target
    ensures r.Some? ==> r.value == c.target[path]
  {
    Find(c.target, path)
  }

  function InsertResolvedPaths(c: Cache, path: string, preserveLast: bool, order: seq<string>,
                               resolved: map<string, ResolvedPathType>): (r: (Cache, bool))
    ensures r.1 <==> (path, preserveLast) !in c.paths
    ensures r.0.resolver == c.resolver && r.0.target == c.target
    ensures (path, preserveLast) in r.0.paths
    ensures r.0.paths[(path, preserveLast)] ==
      (if r.1 then Entries(order, resolved) else c.paths[(path, preserveLast)])
  {
    var (m, inserted) := Emplace(c.paths, (path, preserveLast), Entries(order, resolved));
    (c.(paths := m), inserted)
  }

  function GetResolvedPaths(c: Cache, path: string, preserveLast: bool): (r: Option<Entries>)
    ensures r.Some? <==> (path, preserveLast) in c.paths
    ensures r.Some? ==> r.value == c.paths[(path, preserveLast)]
  {
    Find(c.paths, (path, preserveLast))
  }

  /** An entry of m_paths that survives invalidating `path`: another base path, and `path` not among its resolved paths. */
  predicate Survives(c: Cache, path: string, k: (string, bool))
    requires k in c.paths
  {
    k.0 != path && path !in c.paths[k].resolved
  }

  /** The cache as Invalidate leaves it, stated all at once. */
  function Invalidated(c: Cache, path: string): (r: Cache)
    ensures r.resolver.Keys == c.resolver.Keys - {path}
    ensures r.target.Keys == c.target.Keys - {path}
    ensures r.paths.Keys <= c.paths.Keys
  {
    Cache(
      map k | k in c.resolver && k != path :: c.resolver[k],
      map k | k in c.target && k != path :: c.target[k],
      map k | k in c.paths && Survives(c, path, k) :: c.paths[k])
  }

  /** The entries of `paths` whose resolution did not go through `path`. */
  function ResolvedAround(paths: map<(string, bool), Entries>, path: string): (r: map<(string, bool), Entries>)
    ensures r.Keys <= paths.Keys
  {
    map k | k in paths && path !in paths[k].resolved :: paths[k]
  }

  /** The walk of Invalidate's loop: each entry whose resolved map has `path` as a key is erased. */
  method EraseResolvedThrough(paths: map<(string, bool), Entries>, path: string) returns (kept: map<(string, bool), Entries>)
    ensures kept == ResolvedAround(paths, path)
  {
    var remaining := paths.Keys;
    kept := paths;
    while remaining != {}
      invariant remaining <= paths.Keys
      invariant kept.Keys <= paths.Keys
      invariant forall k :: k in paths ==> (k in kept <==> k in remaining || path !in paths[k].resolved)
      invariant forall k :: k in kept ==> kept[k] == paths[k]
      decreases |remaining|
    {
      var k :| k in remaining;
      if path in paths[k].resolved {
        kept := kept - {k};
      }
      remaining := remaining - {k};
    }
  }

  /** Erasing the two own entries and then the entries resolved through `path` leaves exactly the surviving ones. */
  lemma InvalidatedPaths(c: Cache, path: string)
    ensures Invalidated(c, path).paths == ResolvedAround(c.paths - {(path, true), (path, false)}, path)
  {
    var own := c.paths - {(path, true), (path, false)};
    forall k | k in c.paths
      ensures k in ResolvedAround(own, path) <==> Survives(c, path, k)
    {
      if k.0 == path {
        if k.1 {
          assert k == (path, true);
        } else {
          assert k == (path, false);
        }
      } else {
        assert k in own;
      }
    }
  }

  /**
   Invalidate: `path` is erased from the resolver and target caches, both
   of its m_paths entries are erased, and then the remaining m_paths
   entries are walked, erasing each whose resolved map has `path` as a key.
   */
  method Invalidate(c: Cache, path: string) returns (r: Cache)
    ensures r == Invalidated(c, path)
  {
    var resolver := c.resolver - {path};
    var target := c.target - {path};
    var paths := c.paths - {(path, true), (path, false)};
    var kept := EraseResolvedThrough(paths, path);
    r := Cache(resolver, target, kept);
    InvalidatedPaths(c, path);
  }

  /** After invalidating a path, no lookup of it hits, whatever the flag. */
  lemma InvalidateForgets(c: Cache, path: string, preserveLast: bool)
    ensures GetResolvingCheckResult(Invalidated(c, path), path).None?
    ensures GetResolvedPathAndType(Invalidated(c, path), path).None?
    ensures GetResolvedPaths(Invalidated(c, path), path, preserveLast).None?
    ensures forall k :: k in Invalidated(c, path).paths ==> path !in Invalidated(c, path).paths[k].resolved
  {
  }

  /** Invalidating leaves every other base path's lookups as they were, unless their resolution went through the invalidated path. */
  lemma InvalidateKeepsOthers(c: Cache, path: string, other: string, preserveLast: bool)
    requires other != path
    ensures GetResolvingCheckResult(Invalidated(c, path), other) == GetResolvingCheckResult(c, other)
    ensures GetResolvedPathAndType(Invalidated(c, path), other) == GetResolvedPathAndType(c, other)
    ensures (other, preserveLast) in c.paths && path !in c.paths[(other, preserveLast)].resolved ==>
      GetResolvedPaths(Invalidated(c, path), other, preserveLast) == GetResolvedPaths(c, other, preserveLast)
  {
  }

  /** Invalidating twice is invalidating once. */
  lemma InvalidateIdempotent(c: Cache, path: string)
    ensures Invalidated(Invalidated(c, path), path) == Invalidated(c, path)
  {
    var once := Invalidated(c, path);
    var twice := Invalidated(once, path);
    assert twice.resolver == once.resolver;
    assert twice.target == once.target;
    assert twice.paths == once.paths;
  }

  /** An insert after an invalidation always succeeds, and a lookup then returns what was inserted. */
  lemma InsertAfterInvalidate(c: Cache, path: string, result: bool)
    ensures var (c', inserted) := InsertResolvingCheckResult(Invalidated(c, path), path, result);
      inserted && GetResolvingCheckResult(c', path) == Some(result)
  {
  }

  /** A second insert under the same key is refused and the first value stays. */
  lemma FirstInsertWins(c: Cache, path: string, first: string, second: string, kind1: int, kind2: int)
    ensures var (c1, ok1) := InsertResolvedPathWithType(c, path, first, kind1);
      var (c2, ok2) := InsertResolvedPathWithType(c1, path, second, kind2);
      !ok2 && c2 == c1 && GetResolvedPathAndType(c2, path) == GetResolvedPathAndType(c1, path)
  {
  }

  /** The two preserve-last-reparse-point flags are separate entries. */
  lemma FlagsAreIndependent(c: Cache, path: string, order: seq<string>, resolved: map<string, ResolvedPathType>)
    requires (path, true) !in c.paths
    ensures var (c', inserted) := InsertResolvedPaths(c, path, true, order, resolved);
      inserted && GetResolvedPaths(c', path, true) == Some(Entries(order, resolved)) &&
      GetResolvedPaths(c', path, false) == GetResolvedPaths(c, path, false)
  {
  }
}

=== FILE: runner.dfy ===
/**
 The ptrace runner's argument check (ptracerunner.cpp): the runner is
 started by the daemon with `-c pid -p ppid -x exe -m queue`, reads the two
 pids with atoi, and refuses to trace unless it has an observer, a
 non-negative tracee pid and a queue name that starts with '/'. A negative
 parent pid or an empty executable is only logged.
 */
module Runner {
  import opened Wrappers
  import opened Decimal
  import Daemon

  /** The runner's parsed arguments; a missing observer (a NULL BxlObserver) is `hasObserver == false`. */
  datatype Args = Args(hasObserver: bool, traceePid: int, parentPid: int, exe: string, mqName: string)

  /** verifyargs. */
  function VerifyArgs(a: Args): (valid: bool)
    ensures valid <==> a.hasObserver && a.traceePid >= 0 && |a.mqName| > 0 && a.mqName[0] == '/'
  {
    if !a.hasObserver then false
    else
      var pidOk := a.traceePid >= 0;
      var mqOk := |a.mqName| > 0 && a.mqName[0] == '/';
      pidOk && mqOk
  }

  /** The parent pid and the executable never decide validity. */
  lemma ParentAndExeOnlyLogged(a: Args, parentPid: int, exe: string)
    ensures VerifyArgs(a.(parentPid := parentPid, exe := exe)) == VerifyArgs(a)
  {
  }

  /** How the runner reads the vector the daemon built for it. */
  function ReadArgs(l: Daemon.Launch, hasObserver: bool): (a: Args)
    requires |l.argv| == 9
    ensures a.traceePid == Atoi(l.argv[2]) && a.parentPid == Atoi(l.argv[4])
    ensures a.exe == l.argv[6] && a.mqName == l.argv[8] && a.hasObserver == hasObserver
  {
    Args(hasObserver, Atoi(l.argv[2]), Atoi(l.argv[4]), l.argv[6], l.argv[8])
  }

  /**
   From the interposed library's run request to the runner's check: when
   the executable and manifest path are free of '|', the runner sees the
   sender's own pids and executable, and it accepts the request exactly when
   it has an observer, the pid is non-negative and the queue name starts
   with '/'.
   */
  lemma RunRequestReachesRunner(pid: int, ppid: int, file: string, fam: string, mqName: string, hasObserver: bool)
    requires '|' !in file && '|' !in fam
    ensures Daemon.ParseMessage(Daemon.EncodeRun(pid, ppid, file, fam)) == Some(Daemon.Run(ToDecimal(pid), ToDecimal(ppid), file, fam))
    ensures var a := ReadArgs(Daemon.LaunchRunner(Daemon.Run(ToDecimal(pid), ToDecimal(ppid), file, fam), mqName), hasObserver);
      a == Args(hasObserver, pid, ppid, file, mqName) &&
      (VerifyArgs(a) <==> hasObserver && pid >= 0 && |mqName| > 0 && mqName[0] == '/')
  {
    Daemon.RunRoundTrip(pid, ppid, file, fam);
    RunnerReadsPids(pid, ppid, file, fam, mqName, hasObserver);
  }

  lemma RunnerReadsPids(pid: int, ppid: int, file: string, fam: string, mqName: string, hasObserver: bool)
    ensures ReadArgs(Daemon.LaunchRunner(Daemon.Run(ToDecimal(pid), ToDecimal(ppid), file, fam), mqName), hasObserver)
      == Args(hasObserver, pid, ppid, file, mqName)
  {
    AtoiToDecimal(pid);
    AtoiToDecimal(ppid);
  }
}

=== FILE: strs.dfy ===
/**
 C strings as Dafny strings: a `string` holds the characters of a C string
 up to (not including) its terminating NUL. This module collects the few
 sequence facts every other module leans on: prefixes, searching for a
 character, splitting on a separator and joining back.
 */
module Strs {

  /** `p` is a prefix of `s`. */
  predicate IsPrefix(p: string, s: string) {
    |p| <= |s| && s[..|p|] == p
  }

  /** `m` occurs in `s` starting at index `i`. */
  predicate OccursAt(s: string, m: string, i: nat) {
    i + |m| <= |s| && s[i..i + |m|] == m
  }

  /** `m` is a substring of `s`. */
  predicate Contains(s: string, m: string) {
    exists i: nat {:trigger OccursAt(s, m, i)} :: i <= |s| && OccursAt(s, m, i)
  }

  /** Index of the first `c` in `s`, or `|s|` when there is none (the position of the NUL). */
  function IndexOf(s: string, c: char): (k: nat)
    ensures k <= |s|
    ensures k < |s| ==> s[k] == c
    ensures c !in s[..k]
  {
    if |s| == 0 then 0
    else if s[0] == c then 0
    else 1 + IndexOf(s[1..], c)
  }

  /** Splits `s` at every `sep`; there is always at least one (possibly empty) part. */
  function Split(s: string, sep: char): (parts: seq<string>)
    ensures |parts| >= 1
    decreases |s|
  {
    var k := IndexOf(s, sep);
    if k == |s| then [s] else [s[..k]] + Split(s[k + 1..], sep)
  }

  /** Joins `parts` with `sep` between consecutive parts. */
  function Join(parts: seq<string>, sep: char): string
  {
    if |parts| == 0 then []
    else if |parts| == 1 then parts[0]
    else parts[0] + [sep] + Join(parts[1..], sep)
  }

  lemma IndexOfAbsent(s: string, c: char)
    requires c !in s
    ensures IndexOf(s, c) == |s|
  {
  }

  lemma IndexOfAfterFree(a: string, b: string, c: char)
    requires c !in a
    ensures IndexOf(a + b, c) == |a| + IndexOf(b, c)
  {
    if |a| > 0 {
      assert (a + b)[1..] == a[1..] + b;
      IndexOfAfterFree(a[1..], b, c);
    } else {
      assert a + b == b;
    }
  }

  /** A string free of `sep` splits into itself. */
  lemma SplitFree(s: string, sep: char)
    requires sep !in s
    ensures Split(s, sep) == [s]
  {
    IndexOfAbsent(s, sep);
  }

  /** The first part of a string holding `sep` ends at its first `sep`, and the rest is split after it. */
  lemma SplitAt(s: string, sep: char)
    requires IndexOf(s, sep) < |s|
    ensures var k := IndexOf(s, sep);
      Split(s, sep) == [s[..k]] + Split(s[k + 1..], sep)
  {
  }

  /** A string without the separator splits into itself alone. */
  lemma SplitWhole(s: string, sep: char)
    requires IndexOf(s, sep) == |s|
    ensures Split(s, sep) == [s]
  {
  }

  /** No part of a split holds the separator. */
  lemma {:induction false} SplitPartsFree(s: string, sep: char)
    ensures forall j :: 0 <= j < |Split(s, sep)| ==> sep !in Split(s, sep)[j]
    decreases |s|
  {
    var k := IndexOf(s, sep);
    if k < |s| {
      SplitAt(s, sep);
      SplitPartsFree(s[k + 1..], sep);
      assert sep !in s[..k];
    } else {
      assert Split(s, sep) == [s];
    }
  }

  /** The first `sep` of a string is the first `sep` of any extension of it. */
  lemma IndexOfPrefix(a: string, t: string, c: char)
    requires IndexOf(a, c) < |a|
    ensures IndexOf(a + t, c) == IndexOf(a, c)
  {
    var k := IndexOf(a, c);
    assert (a + t)[..k + 1] == a[..k + 1];
  }

  /** Splitting `a + sep + b` with `b` free of `sep` adds `b` as a last part. */
  lemma {:induction false} SplitAppend(a: string, b: string, sep: char)
    requires sep !in b
    ensures Split(a + [sep] + b, sep) == Split(a, sep) + [b]
    decreases |a|
  {
    var k := IndexOf(a, sep);
    if k == |a| {
      assert sep !in a;
      SplitCons(a, b, sep);
      SplitFree(a, sep);
      SplitFree(b, sep);
    } else {
      SplitAppend(a[k + 1..], b, sep);
      SplitAppendStep(a, b, sep);
    }
  }

  /** The step of SplitAppend: the first part of `a` stays first, and the rest is split as before. */
  lemma SplitAppendStep(a: string, b: string, sep: char)
    requires IndexOf(a, sep) < |a|
    requires var k := IndexOf(a, sep);
      Split(a[k + 1..] + [sep] + b, sep) == Split(a[k + 1..], sep) + [b]
    ensures Split(a + [sep] + b, sep) == Split(a, sep) + [b]
  {
    var t := [sep] + b;
    var s := a + t;
    var k := IndexOf(a, sep);
    AppendAssoc(a, [sep], b);
    AppendAssoc(a[k + 1..], [sep], b);
    AroundIndex(a, t, s, k);
    IndexOfPrefix(a, t, sep);
    SplitAt(s, sep);
    SplitAt(a, sep);
    ConsSnoc(a[..k], Split(a[k + 1..], sep), b);
  }

  /** Adding a first and a last element commute. */
  lemma ConsSnoc(x: string, ps: seq<string>, b: string)
    ensures [x] + (ps + [b]) == ([x] + ps) + [b]
  {
  }

  lemma AppendAssoc(x: string, y: string, z: string)
    ensures x + y + z == x + (y + z)
  {
  }

  /** Cutting `a + t` around an index of `a`. */
  lemma AroundIndex(a: string, t: string, s: string, k: nat)
    requires k < |a| && s == a + t
    ensures s[..k] == a[..k] && s[k + 1..] == a[k + 1..] + t
  {
  }

  /** A string is its part before index k, the character at k, and its part after. */
  lemma AroundChar(s: string, k: nat)
    requires k < |s|
    ensures s == s[..k] + [s[k]] + s[k + 1..]
  {
  }

  /** Join of a list with at least two parts: the first part, the separator, then the join of the others. */
  lemma JoinCons(p: string, ps: seq<string>, sep: char)
    requires |ps| >= 1
    ensures Join([p] + ps, sep) == p + [sep] + Join(ps, sep)
  {
    assert ([p] + ps)[1..] == ps;
  }

  /** Join undoes Split. */
  lemma {:induction false} JoinSplit(s: string, sep: char)
    ensures Join(Split(s, sep), sep) == s
    decreases |s|
  {
    var k := IndexOf(s, sep);
    if k < |s| {
      JoinSplit(s[k + 1..], sep);
      SplitAt(s, sep);
      JoinCons(s[..k], Split(s[k + 1..], sep), sep);
      AroundChar(s, k);
    }
  }

  /** A first part free of `sep` comes out of Split unchanged. */
  lemma SplitCons(a: string, rest: string, sep: char)
    requires sep !in a
    ensures Split(a + [sep] + rest, sep) == [a] + Split(rest, sep)
  {
    var s := a + [sep] + rest;
    IndexOfAfterFree(a, [sep] + rest, sep);
    assert s == a + ([sep] + rest);
    assert s[..|a|] == a;
    assert s[|a| + 1..] == rest;
  }

  /** Split undoes Join when no part contains the separator. */
  lemma {:induction false} SplitJoin(parts: seq<string>, sep: char)
    requires |parts| >= 1
    requires forall j :: 0 <= j < |parts| ==> sep !in parts[j]
    ensures Split(Join(parts, sep), sep) == parts
    decreases |parts|
  {
    if |parts| == 1 {
      SplitFree(parts[0], sep);
    } else {
      SplitJoin(parts[1..], sep);
      SplitCons(parts[0], Join(parts[1..], sep), sep);
      assert parts == [parts[0]] + parts[1..];
    }
  }
}

=== FILE: substitute.dfy ===
/**
 The substitute-process filter plugin used by BuildXL's tests (dllmain.cpp):
 a process gets the shim injected unless its command or its arguments
 contain the marker "DoNotShimMe". A NULL string is skipped; the
 environment block and the working directory are not looked at.
 */
module SubstitutePlugin {
  import opened Wrappers
  import opened Strs

  const Marker: string := "DoNotShimMe"

  /**
   std::wstring::find(m): the first index at which `m` occurs in `s`, or
   -1 (npos, as the source compares it) when it occurs nowhere.
   */
  method Find(s: string, m: string) returns (r: int)
    ensures -1 <= r <= |s|
    ensures r == -1 <==> !Contains(s, m)
    ensures r >= 0 ==> OccursAt(s, m, r)
    ensures forall i: nat :: i < r ==> !OccursAt(s, m, i)
  {
    if |m| > |s| {
      return -1;
    }
    var i: nat := 0;
    while i + |m| <= |s|
      invariant i <= |s| - |m| + 1
      invariant forall j: nat :: j < i ==> !OccursAt(s, m, j)
    {
      if s[i..i + |m|] == m {
        assert OccursAt(s, m, i);
        return i;
      }
      i := i + 1;
    }
    return -1;
  }

  /** A NULL string never holds the marker; any other holds it when it contains it. */
  predicate HoldsMarker(s: Option<string>) {
    s.Some? && Contains(s.value, Marker)
  }

  /** CommandMatches: TRUE (inject the shim) unless the command or the arguments hold the marker. */
  method CommandMatches(command: Option<string>, arguments: Option<string>) returns (inject: bool)
    ensures inject <==> !HoldsMarker(command) && !HoldsMarker(arguments)
  {
    if command.Some? {
      var at := Find(command.value, Marker);
      if at != -1 {
        return false;
      }
    }
    if arguments.Some? {
      var at := Find(arguments.value, Marker);
      if at != -1 {
        return false;
      }
    }
    return true;
  }

  /** The reasons DllMain is called with. */
  datatype Reason = ProcessAttach | ThreadAttach | ThreadDetach | ProcessDetach | OtherReason(code: int)

  /** DllMain: every notification succeeds. */
  function DllMain(reason: Reason): (ok: bool)
    ensures ok
  {
    match reason
    case ProcessAttach | ThreadAttach | ThreadDetach | ProcessDetach => true
    case OtherReason(_) => true
  }

  /** The marker is matched exactly, case included: a shouted marker does not stop the shim. */
  lemma MarkerIsCaseSensitive()
    ensures HoldsMarker(Some("run DoNotShimMe now"))
    ensures !HoldsMarker(Some("DONOTSHIMME"))
    ensures !HoldsMarker(None)
  {
    assert OccursAt("run DoNotShimMe now", Marker, 4);
    forall i: nat | i <= 11
      ensures !OccursAt("DONOTSHIMME", Marker, i)
    {
      if i == 0 {
        assert "DONOTSHIMME"[..11][1] != Marker[1];
      }
    }
  }
}

=== FILE: wrappers.dfy ===
/** Failure-compatible wrappers shared by every module of the model. */
module Wrappers {

  /** A value that may be absent: a C pointer that may be NULL, a map lookup that may miss. */
  datatype Option<+T> = None | Some(value: T) {

    predicate IsFailure() {
      None?
    }

    function PropagateFailure<U>(): Option<U>
      requires None?
    {
      None
    }

    function Extract(): T
      requires Some?
    {
      value
    }

    function GetOr(default: T): T {
      match this
      case Some(v) => v
      case None => default
    }
  }
}
